=== FILE: README.md ===
# SynthLang in Dafny

SynthLang is a compact notation for LLM prompts. It is built from glyph
operators such as `↹` (input), `⊕` (process), `Σ` (output) and `→`
(flow). The repository has two parts, and this project models the core
of each.

The first part is a Python command-line tool. Its core covers:

- translating, generating and optimising prompts through a language
  model, each of which then cleans the model's answer line by line;
- a genetic evolver that scores prompt variants and breeds new ones;
- a classifier fine-tuner;
- a name-keyed prompt store with comparison;
- the configuration manager and its `.env` reader.

The second part is a React front end. Its core covers:

- parsing, executing and validating SynthLang in the documentation
  playground;
- the token calculator's integer arithmetic;
- the model-catalogue search;
- the three localStorage-backed lists (presets, frameworks, saved
  prompts);
- keyboard shortcuts and section navigation;
- the docs search;
- template front-matter parsing and the settings merge;
- the framework wizard's step machine;
- the calculator's preset panel and preset form.

The model uses pure functions over immutable datatypes.

- **Oracles.** The language model, the classifier, the random number
  source, the clock and fresh identifiers are parameters.
- **Stored state.** The filesystem, the process environment and
  localStorage are maps or `Slot` values. A slot is `Missing`,
  `Stored(value)` or `Unparsable`; it holds decoded values, not JSON
  text.
- **Errors.** Where the program raises or answers with an error,
  the model returns `Result.Err` with the program's message.

Modules follow the program's files:

| module | models |
|---|---|
| `Wrappers`, `Text`, `Symbols`, `Storage`, `Presets` | shared option/result types, Python and JavaScript string primitives, glyph tables, the localStorage slot, the preset record |
| `Fitness`, `Evolver` | `cli/synthlang/core/evolver.py` |
| `Sanitizer`, `Translator`, `Generator`, `Optimizer` | the line cleaners in `translator.py`, `generator.py` and `optimizer.py`, and the modules' `forward` methods |
| `Finetune` | `cli/synthlang/core/finetune.py` |
| `PromptManager` | `cli/synthlang/core/prompt_manager.py` |
| `Env`, `Configuration`, `DotEnv`, `ConfigManager` | `cli/synthlang/utils/env.py`; the `Config` class, the `.env` handling and `ConfigManager.update` of `cli/synthlang/config.py` |
| `SynthLang`, `SynthLangUtils`, `Playground` | `useSynthLang.ts`, `useSynthLangUtils.ts`, `usePlayground.ts` |
| `TokenCalculator`, `ModelSearch` | `TokenCalculator/constants.ts`, `config/modelSearch.ts` |
| `PresetStorage`, `FrameworkStorage`, `SavedPrompts` | the three localStorage services |
| `KeyboardShortcuts`, `Documentation`, `DocSearch` | `useKeyboardShortcuts.ts`, `useDocumentation.ts`, `DocSearch.tsx` |
| `TemplateService`, `SettingsService` | `templateService.ts`, `settingsService.tsx` |
| `FrameworkWizard`, `QuickActions`, `CustomPresetForm` | the three components of the same names |

## Model

Members of the shared `Text` module stand for Python's and JavaScript's own string built-ins (`split`, `strip`, `trim`, `join`, `filter`) and so have no rows; neither do proof helpers about arithmetic or sequences.

| member | source | states |
|---|---|---|
| Fitness.ModeOf | cli/synthlang/core/evolver.py:127-137 | The fitness type selects clarity, specificity or task scoring exactly when it is that word; any other word means hybrid. |
| Fitness.Clarity | cli/synthlang/core/evolver.py:89-91 | Clarity times 3 is the number of the glyphs `↹`, `⊕`, `Σ` that occur, counted one by one, so one marker gives 1/3 and two give 2/3. It is 1 exactly when all three occur and 0 exactly when none does. |
| Fitness.CountPresent | cli/synthlang/core/evolver.py:97 | The number of listed operators present is at most the length of the list, and is 0 exactly when none occurs. |
| Fitness.Specificity | cli/synthlang/core/evolver.py:93-98 | Specificity is exactly 0.2 per `•` and per `=>` plus 0.1 per distinct operator of `+ - * / > < ^` present. |
| Fitness.CountPresentIsSetSize | cli/synthlang/core/evolver.py:97 | For a list without repeats, the count of listed operators present is the size of the set of those present. |
| Fitness.MarkerShare | cli/synthlang/core/evolver.py:89-91 | Clarity is the size of the set of markers that occur in the prompt, divided by 3. |
| Fitness.OperatorShare | cli/synthlang/core/evolver.py:93-98 | Specificity is 0.2 per `•` and per `=>` plus 0.1 times the size of the set of operators that occur in the prompt. |
| Fitness.PassCount | cli/synthlang/core/evolver.py:102-123 | The passed tests number at most the tests. The count equals the number of tests exactly when every test passes, and is 0 exactly when none passes. |
| Fitness.TaskScore | cli/synthlang/core/evolver.py:100-124 | The task score lies in [0, 1] and is 0 without tests. With tests it is the number of passing tests divided by the number of tests, so 1 exactly when all pass and 0 exactly when none passes. |
| Fitness.Score | cli/synthlang/core/evolver.py:87-144 | The reported clarity, specificity and task score are the three measures. Overall is clarity in clarity mode and specificity in specificity mode. In task mode it is the task score with tests and clarity without. In hybrid mode it is 0.3·clarity + 0.3·specificity + 0.4·task score with tests, and the mean of clarity and specificity without. |
| Fitness.OverallBounds | cli/synthlang/core/evolver.py:126-137 | Each way of combining bounded measures gives a non-negative overall score, at most 1 outside specificity mode when specificity is at most 1. |
| Fitness.CountAppend | cli/synthlang/core/evolver.py:95-96 | Appending text never lowers the number of occurrences of a non-empty pattern. |
| Fitness.CountPresentAppend | cli/synthlang/core/evolver.py:97 | Appending text never lowers the number of operators present. |
| Fitness.SpecificityMonotone | cli/synthlang/core/evolver.py:89-98 | Appending text to a prompt never lowers its specificity or its clarity. |
| Fitness.FullClarity | cli/synthlang/core/evolver.py:127-132 | A prompt holding all three glyphs scores 1 in clarity mode, and also in task mode when there are no tests. |
| Fitness.HybridWithoutTests | cli/synthlang/core/evolver.py:133-137 | Without tests, a hybrid score is the mean of clarity and specificity and does not depend on the judge. |
| Evolver.EvolverOracles | cli/synthlang/core/evolver.py:32-85 | A variant is the model's proposal with surrounding whitespace stripped. A prompt's fitness is its score under the configured fitness type and tests. |
| Evolver.Indices | cli/synthlang/core/evolver.py:148 | The list of positions of a population of size n is 0, 1, …, n-1. |
| Evolver.Sample | cli/synthlang/core/evolver.py:148 | A tournament draws k population positions, each in range. |
| Evolver.IsDrawIff | cli/synthlang/core/evolver.py:148 | A draw is valid exactly when its positions are in range and distinct. |
| Evolver.SampleValid | cli/synthlang/core/evolver.py:148 | The draw used is always valid, and a valid draw from the random source is used as it is. |
| Evolver.Elems | cli/synthlang/core/evolver.py:148 | The set of drawn positions holds exactly the positions in the draw. |
| Evolver.DistinctSeqCard | cli/synthlang/core/evolver.py:148 | A draw without repeats has as many distinct positions as entries. |
| Evolver.Below | cli/synthlang/core/evolver.py:148 | The positions below n form a set of size n. |
| Evolver.SampleCoversAll | cli/synthlang/core/evolver.py:148 | A valid draw as large as the population holds every position. |
| Evolver.BestPick | cli/synthlang/core/evolver.py:149 | The pick scores at least as well as every drawn candidate, and every candidate drawn before it scores strictly lower, as `max` keeps the first maximum. |
| Evolver.TournamentSelect | cli/synthlang/core/evolver.py:146-149 | A tournament succeeds exactly when the tournament size is positive and the population is non-empty. The winner is a drawn member that scores at least as well as every drawn member. |
| Evolver.SampleMaxIsGlobal | cli/synthlang/core/evolver.py:148-149 | When the tournament is at least the population's size, the best drawn member is best in the whole population. |
| Evolver.TournamentGlobalMax | cli/synthlang/core/evolver.py:146-149 | A tournament at least the population's size succeeds and returns a best member of the whole population. |
| Evolver.Parent | cli/synthlang/core/evolver.py:187 | Each parent is a member of the population. |
| Evolver.ParentGlobalMax | cli/synthlang/core/evolver.py:187 | With tournaments at least the population's size, every parent is a best member of the population. |
| Evolver.Breed | cli/synthlang/core/evolver.py:190-203 | A mutation is attempted exactly when the roll falls below the rate. The variant is admitted exactly when one was attempted and it scores strictly higher than the parent, and it is then stored with its own score. The slot holds something other than the parent exactly when the variant was admitted. |
| Evolver.Offspring | cli/synthlang/core/evolver.py:186-203 | A slot attempts a mutation exactly when its roll falls below the rate. Its outcome is the outcome of breeding some member of the population. |
| Evolver.OutcomeInPopulation | cli/synthlang/core/evolver.py:186-203 | An outcome bred from a member of the population descends from the population. |
| Evolver.OffspringElitist | cli/synthlang/core/evolver.py:186-203 | With tournaments at least the population's size, each slot's outcome scores at least as well as every member of the population. |
| Evolver.Hits | cli/synthlang/core/evolver.py:191-193 | The number of rolls below the rate is at most the number of slots. |
| Evolver.HitsAppend | cli/synthlang/core/evolver.py:191-193 | The hits over two consecutive runs of rolls add up. |
| Evolver.HitsGenerations | cli/synthlang/core/evolver.py:183-193 | The hits over n generations are the first generation's hits plus those of the remaining n-1. |
| Evolver.HitsAllOrNone | cli/synthlang/core/evolver.py:191-193 | If every roll is below the rate, every slot is a hit. If none is, no slot is. |
| Evolver.FillGeneration | cli/synthlang/core/evolver.py:185-206 | A generation has exactly the needed number of children. The winners counter rises by that number and the variants counter by the number of hits. Successful mutations never fall and never rise more than the variants do. |
| Evolver.FillImproves | cli/synthlang/core/evolver.py:185-206 | Every child of a generation descends from the previous population. |
| Evolver.FixedPointBreedsItself | cli/synthlang/core/evolver.py:190-203 | A member whose variant is itself can only breed itself. |
| Evolver.FillFixedPoint | cli/synthlang/core/evolver.py:185-206 | For a population of copies of a member whose variant is itself, a generation records no successful mutation. |
| Evolver.FillElitist | cli/synthlang/core/evolver.py:185-206 | With tournaments at least the population's size, every child scores at least as well as every member of the previous population. |
| Evolver.NumberedCons | cli/synthlang/core/evolver.py:208-212 | A lineage entry numbered g, of the right size, before a lineage numbered from g+1 gives a lineage numbered from g. |
| Evolver.EndingCons | cli/synthlang/core/evolver.py:205-212 | The population after a lineage is the population after its tail, starting from its first entry. |
| Evolver.CountersCompose | cli/synthlang/core/evolver.py:183-199 | The counter equations for one generation and for the next n-1 compose into those for n generations. |
| Evolver.RunGenerations | cli/synthlang/core/evolver.py:183-212 | The run fails exactly when generations remain, the population size is positive and the tournament cannot run. Otherwise it records one entry per generation, numbered on from the start and of the population's size, ending at the returned population. The counters obey the per-generation equations summed over the run. |
| Evolver.RunAscending | cli/synthlang/core/evolver.py:183-212 | Each generation of a run descends from the one before it. |
| Evolver.AscendingPrefix | cli/synthlang/core/evolver.py:183-212 | A prefix of such a lineage still descends generation by generation. |
| Evolver.ImprovesKeepsFloor | cli/synthlang/core/evolver.py:195-203 | If every member of the old population scores at least some floor, so does every descendant. |
| Evolver.ImprovesKeepsScored | cli/synthlang/core/evolver.py:195-203 | If every old member carries its own fitness, so does every descendant. |
| Evolver.ImprovesKeepsUniform | cli/synthlang/core/evolver.py:195-203 | The descendants of copies of a member whose variant is itself are copies of it again. |
| Evolver.AscendingFloor | cli/synthlang/core/evolver.py:183-212 | In a lineage descending from a start, no generation has a member below a floor the start meets. |
| Evolver.AscendingScored | cli/synthlang/core/evolver.py:183-212 | In a lineage descending from a scored start, every member of every generation carries its own fitness. |
| Evolver.AscendingUniform | cli/synthlang/core/evolver.py:183-212 | In a lineage descending from copies of a member whose variant is itself, every generation holds only copies of it. |
| Evolver.Best | cli/synthlang/core/evolver.py:214-215 | The best individual is a member with the top overall score, and every member before it scores strictly lower, as `max` keeps the first maximum. |
| Evolver.Evolve | cli/synthlang/core/evolver.py:151-222 | Evolution succeeds exactly when no generation runs or both sizes are positive. On success it reports the requested generation count, a lineage of max(n, 0) + 1 entries starting with the scored seed, and generations numbered from 1. The winners counter equals generations times population size and the variants counter equals the hits over those rolls. Successful mutations are at most the variants. The best prompt is a member of the final population with its top score. |
| Evolver.EvolveRun | cli/synthlang/core/evolver.py:168-212 | The lineage is the seed's entry followed by the generations of the run, whose final population is the last entry, and each generation descends from the one before. |
| Evolver.EvolveNeverWorse | cli/synthlang/core/evolver.py:195-215 | The best prompt scores at least as well as the seed, and so does every member of every generation. |
| Evolver.LineageCons | cli/synthlang/core/evolver.py:208-212 | A floor met by a lineage entry and by every entry of the rest is met by every entry of the whole. |
| Evolver.EvolveScored | cli/synthlang/core/evolver.py:169-219 | The reported fitness is the best prompt's own fitness, and every member of every generation carries its own fitness. |
| Evolver.ScoredCons | cli/synthlang/core/evolver.py:208-212 | Entries that all carry their own fitness stay so after adding one more such entry at the front. |
| Evolver.EvolveFixedPoint | cli/synthlang/core/evolver.py:190-215 | A seed whose variant is itself comes back as the best prompt with its own fitness. |
| Evolver.EvolveMutationCounts | cli/synthlang/core/evolver.py:186-199 | When every roll falls below the rate, every tournament winner produces a variant. When none does, there are no variants and no successful mutations. |
| Sanitizer.Rewrite | cli/synthlang/core/generator.py:62-63 | After `->` becomes `=>` and quotes are dropped, the line holds no quote of either kind, gains no newline and is no longer than before. |
| Sanitizer.Broken | cli/synthlang/core/generator.py:71-77 | Breaking n pieces gives n lines. The first is the first piece followed by ` =>`, and every later one is two spaces followed by its piece. |
| Sanitizer.BrokenShape | cli/synthlang/core/generator.py:73-77 | The first broken line ends with ` =>` and every later one starts with two spaces. |
| Sanitizer.UnbreakBroken | cli/synthlang/core/generator.py:73-77 | Taking the ` =>` off the first broken line and the indent off the others gives back the pieces. |
| Sanitizer.BrokenLacks | cli/synthlang/core/generator.py:73-77 | A character other than space, `=` and `>` that no piece holds appears in no broken line. |
| Sanitizer.BreakLong | cli/synthlang/core/generator.py:70-78 | Every line a long line breaks into is free of quotes and newlines. Each either ends with ` =>` or starts with two spaces. |
| Sanitizer.BreakLongJoin | cli/synthlang/core/generator.py:70-78 | A long line yields nothing exactly when it holds no ` => `. Otherwise it yields at least two lines: a head ending in ` =>` and indented continuations. Stripping the arrow and the indents and joining at ` => ` gives the line back. |
| Sanitizer.LineOutput | cli/synthlang/core/generator.py:57-80 | A blank line, or one holding none of `↹`, `⊕`, `Σ` after the rewrite, yields nothing. A kept line of at most 30 characters yields its rewrite, and a longer one yields its broken form. Every line yielded is clean. |
| Sanitizer.SanitizeLines | cli/synthlang/core/generator.py:57-80 | Every cleaned line is free of quotes and newlines. It is a short line holding a glyph, a head ending in ` =>`, or an indented continuation. |
| Sanitizer.SanitizeAppend | cli/synthlang/core/generator.py:57-80 | Cleaning two blocks of lines gives the two cleaned blocks in order. |
| Sanitizer.KeepShortLines | cli/synthlang/core/generator.py:57-80 | Lines that are all short, non-blank and marked clean to exactly their rewrites, one for one. |
| Sanitizer.DropUnmarked | cli/synthlang/core/generator.py:66-67 | Lines none of which holds a glyph clean to nothing. |
| Sanitizer.Sanitize | cli/synthlang/core/generator.py:56-80 | Every line cleaned from a model answer is clean. |
| Sanitizer.JoinedLines | cli/synthlang/core/generator.py:91 | Splitting the joined cleaned lines at newlines gives back the cleaned lines. |
| Sanitizer.UnmarkedAnswer | cli/synthlang/core/generator.py:57-67 | An answer none of whose lines holds a glyph cleans to nothing. |
| Translator.Translate | cli/synthlang/core/translator.py:22-103 | Translation fails exactly on empty or blank source, with the program's message. Otherwise it keeps the source and gives the fixed explanation, and the target holds no quotes. Source mentioning "customer feedback" in any case gets the four fixed lines; any other source gets the cleaned answer joined by newlines. |
| Translator.QuoteFreeLines | cli/synthlang/core/translator.py:101 | Joining quote-free lines gives quote-free text. |
| Translator.FeedbackOverride | cli/synthlang/core/translator.py:90-97 | For source mentioning "customer feedback", the model's answer makes no difference and the target splits into the four fixed lines. |
| Translator.TargetLines | cli/synthlang/core/translator.py:62-101 | For other source, the target splits back into exactly the cleaned lines of the answer. |
| Generator.Metadata | cli/synthlang/core/generator.py:83-88 | The metadata has exactly the keys model, timestamp, task_type and format. They hold `gpt-4o-mini`, the given time, `system_prompt_generation` and `synthlang`. |
| Generator.Generate | cli/synthlang/core/generator.py:22-94 | Generation fails exactly on an empty or blank task, with the program's message. Otherwise the prompt is the cleaned answer joined by newlines, with the model's rationale and the fixed metadata. |
| Generator.GeneratedPrompt | cli/synthlang/core/generator.py:56-91 | A generated prompt holds no quotes and splits back into exactly the cleaned lines of the answer. |
| Optimizer.OrZero | cli/synthlang/core/optimizer.py:97-101 | A metric the model gave is kept and a missing one reads as 0. |
| Optimizer.Improvements | cli/synthlang/core/optimizer.py:92-95 | The improvements are empty exactly when the field is missing or empty. Otherwise they join back at newlines into the field, and no improvement contains a newline. |
| Optimizer.ImprovementsAreLines | cli/synthlang/core/optimizer.py:94-95 | Any newline-free pieces that join back at newlines into a non-empty field are exactly the improvements, so the improvements are the field split at `\n`. |
| Optimizer.Optimize | cli/synthlang/core/optimizer.py:21-108 | Optimisation fails exactly on an empty or blank prompt, with the program's message, and otherwise keeps the original. A prompt mentioning "programming" in any case gets the three fixed lines; any other gets the cleaned answer. The improvements come from the field, and each metric is the model's value or 0. |
| Optimizer.ProgrammingOverride | cli/synthlang/core/optimizer.py:84-90 | For a prompt mentioning "programming", the model's answer makes no difference and the result splits into the three fixed lines. |
| Optimizer.OptimizedLines | cli/synthlang/core/optimizer.py:58-104 | For other prompts, the result splits back into exactly the cleaned lines of the answer. |
| Finetune.Forward | cli/synthlang/core/finetune.py:30-52 | Classification fails exactly when there are no labels, since the fallback label cannot be read. Otherwise it keeps the input and returns an allowed label: the model's prediction if that matches a label ignoring case, else the first label. The reasoning and explanation pass through. |
| Finetune.NewFinetuner | cli/synthlang/core/finetune.py:57-68 | A new fine-tuner keeps its labels, has the given examples or none, and has no classifier. |
| Finetune.Prepare | cli/synthlang/core/finetune.py:70-73 | Preparing leaves labels and examples alone and always leaves a classifier. An existing classifier is kept, and a missing one is built from the current labels. |
| Finetune.Train | cli/synthlang/core/finetune.py:75-99 | Training prepares the classifier. It fails exactly when there is some example to run and the classifier has no labels. Otherwise it reports the number of stored plus given examples and an accuracy of 1.0. |
| Finetune.Classify | cli/synthlang/core/finetune.py:101-115 | Classifying prepares the classifier and answers as that classifier's labels would. |
| Finetune.ClassifyAll | cli/synthlang/core/finetune.py:126-129 | With labels, a batch yields one classification per text, in order, each the single-text answer. |
| Finetune.BatchClassify | cli/synthlang/core/finetune.py:117-129 | An empty batch changes nothing and yields nothing. A non-empty batch prepares the classifier and fails exactly when it has no labels. Otherwise the i-th result is the classification of the i-th text. |
| Finetune.BatchInputs | cli/synthlang/core/finetune.py:126-129 | The i-th result of a batch carries the i-th text. |
| Finetune.Correct | cli/synthlang/core/finetune.py:146-152 | The correct predictions number at most the test examples. The count is all of them exactly when every prediction matches its label ignoring case, and 0 exactly when none does. |
| Finetune.Evaluate | cli/synthlang/core/finetune.py:131-157 | Empty test data gives accuracy 0 over 0 examples and changes nothing. Otherwise the classifier is prepared, and evaluation fails exactly when it has no labels. The accuracy is the correct count over the test count, in [0, 1], and is 1 exactly when every prediction matches. |
| Finetune.Save | cli/synthlang/core/finetune.py:159-171 | The file at the path holds the labels and examples. Every other file is unchanged and no other file appears. |
| Finetune.LoadAsWritten | cli/synthlang/core/finetune.py:173-184 | Loading fails exactly when the file is missing and otherwise takes its labels and examples. A classifier already built is kept, still holding the old labels. |
| Finetune.StaleClassifierAfterLoad | cli/synthlang/core/finetune.py:173-184 | A fine-tuner built for "spam" that loads a file for "ham" still answers "spam" for an out-of-list prediction. |
| Finetune.Load | cli/synthlang/core/finetune.py:173-184 | Corrected loading fails exactly when the file is missing, and otherwise takes its labels and examples and builds a classifier over the loaded labels. |
| Finetune.SaveLoad | cli/synthlang/core/finetune.py:159-184 | Loading what was saved always succeeds, under either load, and restores the labels and examples. After the corrected load, texts are classified as by a fresh fine-tuner built from the saved state. |
| PromptManager.Stamped | cli/synthlang/core/prompt_manager.py:39-47 | The stored metadata has the given keys plus `created` and `version`. `created` is the save time and `version` is "1.0", and every other given key keeps its value. |
| PromptManager.Save | cli/synthlang/core/prompt_manager.py:28-51 | Saving adds the name to the stored names and stores the name, the prompt and the stamped metadata under it. Every other record is unchanged. A store whose records carry their own names stays so. |
| PromptManager.Load | cli/synthlang/core/prompt_manager.py:53-71 | Loading fails exactly when no record has the name, with "No prompt found with name: " and the name. |
| PromptManager.SaveLoad | cli/synthlang/core/prompt_manager.py:28-71 | Loading a saved name succeeds and gives back its name, its prompt and version "1.0". Loading any other name answers as before the save. |
| PromptManager.Delete | cli/synthlang/core/prompt_manager.py:85-99 | Deleting fails exactly when the name is missing, with the same message. Otherwise it removes just that name and leaves every other record as it was. |
| PromptManager.DeleteLoad | cli/synthlang/core/prompt_manager.py:53-99 | After a delete the name no longer loads, and every other name loads as before. |
| PromptManager.List | cli/synthlang/core/prompt_manager.py:73-83 | Listing in the directory's order gives one record per listed file, the i-th being the record stored under the i-th name. |
| PromptManager.ListOnePerName | cli/synthlang/core/prompt_manager.py:73-83 | In a store whose records carry their own names, a name is stored exactly when a listed record has it, and no two listed records share a name. |
| PromptManager.OverallOf | cli/synthlang/core/prompt_manager.py:151-154 | A missing fitness, or a fitness without `overall`, reads as 0. A fitness that is not an object fails. Otherwise the reading is Python `float()` of the stored `overall`. |
| PromptManager.GenerationsOf | cli/synthlang/core/prompt_manager.py:155-158 | Missing generations read as 0. Stored generations are read as an operand of `-`: a number or a bool succeeds, anything else fails. |
| PromptManager.MetricsOf | cli/synthlang/core/prompt_manager.py:127-137 | A missing fitness becomes the all-zero fitness, missing generations become 0 and missing evolution metrics become an empty object. `created` is reported exactly when stored. |
| PromptManager.Float | cli/synthlang/core/prompt_manager.py:152-153 | Python `float()`: a number is itself, `True` and `False` are 1 and 0, a string converts exactly when it parses as a float, and anything else fails. |
| PromptManager.Operand | cli/synthlang/core/prompt_manager.py:156-157 | An operand of `-` is a number, or a bool read as 1 or 0. Any other value fails with an unsupported-operand error. |
| PromptManager.Compare | cli/synthlang/core/prompt_manager.py:101-160 | Comparing fails on the first missing name, the first argument being checked first. When both exist it succeeds exactly when both overall readings and both generation readings succeed. The fitness difference is then the absolute difference of the two overall readings, and the generation difference is that of the two generation readings. The prompts and metrics are keyed by exactly the two names, and the prompts are the stored ones. |
| PromptManager.CompareSymmetric | cli/synthlang/core/prompt_manager.py:150-159 | Swapping the names neither changes whether comparison succeeds nor changes either difference. |
| PromptManager.CompareFresh | cli/synthlang/core/prompt_manager.py:28-160 | Two prompts freshly saved without metadata compare with zero differences, zero default metrics and their own prompt texts. |
| Env.Unquote | cli/synthlang/utils/env.py:30-34 | A value that is not wrapped in matching quotes is kept. A wrapped one loses exactly its first and last character, so a lone quote character becomes empty. |
| Env.UnquoteQuoted | cli/synthlang/utils/env.py:30-34 | A text wrapped in double or single quotes unquotes to the text. |
| Env.ParseStripped | cli/synthlang/utils/env.py:21-34 | A stripped line assigns nothing exactly when it is empty, a comment or has no `=`. A key it does assign holds no `=`. |
| Env.ParseLine | cli/synthlang/utils/env.py:19-34 | A raw line assigns nothing exactly when it is blank, starts with `#` after stripping, or has no `=`. A key it does assign holds no `=`. |
| Env.Assignments | cli/synthlang/utils/env.py:19-36 | The file's lines are parsed one for one. |
| Env.LoadEnvFile | cli/synthlang/utils/env.py:5-38 | A missing file gives no variables. Otherwise a key is loaded exactly when some line assigns it. |
| Env.ApplyKeys | cli/synthlang/utils/env.py:19-36 | A key is in the result exactly when some entry assigns it. |
| Env.LastWins | cli/synthlang/utils/env.py:36 | A key takes the value of its last assignment. |
| Env.LoadLastWins | cli/synthlang/utils/env.py:5-38 | In a file, a key takes the value of the last line assigning it. |
| Env.IgnoredEntries | cli/synthlang/utils/env.py:21-25 | Entries that assign nothing change nothing. |
| Env.IgnoredLines | cli/synthlang/utils/env.py:21-25 | Appending blank, comment or `=`-less lines leaves the loaded variables unchanged. |
| Env.ParseQuoted | cli/synthlang/utils/env.py:24-36 | A line `KEY="value"` or `KEY='value'` with a clean key assigns the key the unquoted value. |
| Env.ParsePlain | cli/synthlang/utils/env.py:24-36 | A line `KEY=value` with a clean key and a stripped, unquoted value assigns exactly that. |
| Configuration.Field | cli/synthlang/config.py:9-14 | Reading a field gives a value exactly for the four field names. Attributes that are not fields are described separately. |
| Configuration.With | cli/synthlang/config.py:68 | Setting a field changes that field to the value and no other. |
| Configuration.LoadReadsNames | cli/synthlang/config.py:11-14 | Each field loads from its variable: `OPENAI_API_KEY` for the key, and `SYNTHLANG_` plus the upper-cased name for the rest. An unset variable gives the field's default. |
| Configuration.LoadDefaults | cli/synthlang/config.py:11-14 | With no variables set, the configuration is an empty key, `gpt-4o-mini`, `production` and `INFO`. |
| DotEnv.PutGet | cli/synthlang/config.py:59-67 | After writing a key into the `.env` entries, that key reads the new value and every other key reads as before. |
| DotEnv.PutShape | cli/synthlang/config.py:59-67 | Writing an existing key keeps the key order, and a new key is appended at the end. Every entry is the new one or an old one in place. |
| DotEnv.PutClean | cli/synthlang/config.py:59-67 | Writing a clean entry into clean entries keeps them clean. |
| DotEnv.ReadLine | cli/synthlang/config.py:56-59 | A line of the existing `.env` contributes an entry exactly when it holds `=`. That entry is clean: its key has no `=`, and its line neither starts nor ends with whitespace. An entry read from a line without a break holds no break. |
| DotEnv.ReadClean | cli/synthlang/config.py:53-59 | Reading the existing `.env` gives clean entries with unique keys. |
| DotEnv.Render | cli/synthlang/config.py:70-73 | Writing the entries gives one line per entry, the i-th line being the i-th key, `=` and its value. |
| DotEnv.ReadRender | cli/synthlang/config.py:53-73 | Reading back what was written from clean entries gives the same entries. |
| DotEnv.Lines | cli/synthlang/config.py:55-56 | Reading a written line yields at least one piece, and no piece holds a line break. |
| DotEnv.LinesOneLine | cli/synthlang/config.py:55-56 | A written line without a break reads back as that one line. |
| DotEnv.ReadWritable | cli/synthlang/config.py:53-59 | Whatever the existing `.env` holds, its entries are clean, have unique keys and hold no line break. |
| DotEnv.RereadRender | cli/synthlang/config.py:53-73 | Writing clean entries without line breaks and reading the file back gives the same entries. |
| DotEnv.ReadLineRendered | cli/synthlang/config.py:56-73 | A written clean entry reads back as itself. |
| ConfigManager.LastSet | cli/synthlang/config.py:62-67 | The value last written to a variable comes from an update that writes it. There is none exactly when no update writes that variable. |
| ConfigManager.ApplyRejects | cli/synthlang/config.py:62-68 | An update that stops, stops at the first key that is not accepted, right after that key's step. |
| ConfigManager.Step | cli/synthlang/config.py:62-68 | A key that is no attribute stops the loop with "Invalid configuration key: " before anything is written. Any other key is written to the environment and the entries. A field is then set; an attribute that cannot be set stops the loop with the "has no field" error. |
| ConfigManager.ApplyAccepts | cli/synthlang/config.py:62-68 | The loop stops exactly when some key is not accepted, that is neither a field nor a settable attribute. |
| ConfigManager.StopEffects | cli/synthlang/config.py:62-68 | A stopped loop reports the rejection of the first key not accepted. The environment is what the earlier keys left, plus that key's own write when it names an attribute. |
| ConfigManager.ApplyConfig | cli/synthlang/config.py:62-68 | After valid updates, each field holds the last value set for it, or its loaded value if none was set. |
| ConfigManager.ApplyEnviron | cli/synthlang/config.py:62-66 | After valid updates, each written variable holds its last written value, and every other variable is as before. |
| ConfigManager.ApplyContent | cli/synthlang/config.py:62-67 | After valid updates, each `.env` key reads its last written value or its old value. |
| ConfigManager.UpdateWith | cli/synthlang/config.py:37-75 | An update fails exactly when some key is not accepted. It fails with that first key's rejection: "Invalid configuration key: " when the object has no such attribute, the "has no field" error when the attribute cannot be set. The `.env` is left unwritten, and the environment keeps the writes made before that key and, for an attribute, that key's own write. A successful update always writes the `.env`. |
| ConfigManager.FieldsOnly | cli/synthlang/config.py:63-64 | When the object's only attributes are the four fields, a key is accepted exactly when it names a field, and any other key is refused as invalid. |
| ConfigManager.MethodKey | cli/synthlang/config.py:63-68 | A key naming an inherited method such as `json` passes the attribute test. Its value is written to the environment, setting it fails with the "has no field" error, and the `.env` stays as it was. |
| ConfigManager.UpdateEffects | cli/synthlang/config.py:37-75 | An update whose keys are all accepted succeeds. Each field takes its last value or its loaded value, and each variable takes its last written value or keeps its old one. |
| ConfigManager.UpdatePersists | cli/synthlang/config.py:50-73 | After an accepted update with clean names and values on one line, the rewritten `.env` reads each written variable's last value and every other key's old value. |
| ConfigManager.ApplyWritable | cli/synthlang/config.py:62-73 | Accepted updates with clean names and values without line breaks keep the `.env` entries clean and free of line breaks. |
| ConfigManager.LineBreakInValue | cli/synthlang/config.py:56-73 | Setting `model` to a value holding a line break, as in `x\nA=b`, succeeds, and the re-read `.env` has `SYNTHLANG_MODEL=x` and a new key `A=b`. |
| ConfigManager.BreakInValue | cli/synthlang/config.py:56-73 | Setting a field to `v1`, a line break and `k2=v2`, with `k2` another clean key, leaves a `.env` that reads `v1` for the field's variable and `v2` for `k2`. |
| DotEnv.LinesSplit | cli/synthlang/config.py:55-56 | Two pieces without breaks joined by `\n` read back as those two lines. |
| ConfigManager.ApiKeyLostOnReload | cli/synthlang/config.py:11-66 | Setting `openai_api_key` to "sk-new" on an empty environment returns it in the configuration, but a reload reads an empty key. |
| ConfigManager.Update | cli/synthlang/config.py:37-75 | The corrected update fails exactly on a key that is not accepted, leaving the `.env` unwritten, and otherwise writes it. When no non-field key writes a variable a field is read from, reloading the environment after success gives the returned configuration. |
| ConfigManager.ReloadSeesUpdate | cli/synthlang/config.py:37-75 | When updates write each field to the variable it is read from and no other key writes such a variable, an accepted update succeeds and a reload sees it. |
| ConfigManager.LastSetRenamed | cli/synthlang/config.py:62-67 | When no non-field key writes a variable a field is read from, the last value written to a field's variable is the last value set for the field. |
| Configuration.ReadNamesDistinct | cli/synthlang/config.py:11-14 | Distinct fields are read from distinct variables. |
| Configuration.ReadNameListed | cli/synthlang/config.py:11-14 | Each field is read from one of `OPENAI_API_KEY`, `SYNTHLANG_MODEL`, `SYNTHLANG_ENVIRONMENT` and `SYNTHLANG_LOG_LEVEL`. |
| SynthLang.Modifiers | src/components/Documentation/useSynthLang.ts:29 | Every modifier found is well formed: one of `^`, `@`, `$`, `#` followed by one or more word characters. |
| SynthLang.NoSigilNoModifiers | src/components/Documentation/useSynthLang.ts:29 | A text without any of the four sigils has no modifiers. |
| SynthLang.ModifiersOccur | src/components/Documentation/useSynthLang.ts:29 | Every modifier found occurs in the text. |
| SynthLang.ContainsShift | src/components/Documentation/useSynthLang.ts:29 | Text found in a suffix is found in the whole. |
| SynthLang.ParseOp | src/components/Documentation/useSynthLang.ts:17-57 | A trimmed line starting with `#` is a control operation holding the rest, trimmed, and no modifiers. A line starting with `↹`, `⊕` or `Σ` is an input, operation or output holding the trimmed rest and the line's modifiers. Any other line is a control operation holding the trimmed line. |
| SynthLang.CodeLines | src/components/Documentation/useSynthLang.ts:16 | The parsed lines are non-blank and hold no newline. |
| SynthLang.Parse | src/components/Documentation/useSynthLang.ts:15-59 | Parsing gives one operation per non-blank line, in order, each the parse of its line. |
| SynthLang.Format | src/components/Documentation/useSynthLang.ts:66-80 | An input, operation or output is printed behind `Input: `, `Operation: ` or `Output: `. A control operation is printed as `// ` and its content. |
| SynthLang.ModifierHasNoNewline | src/components/Documentation/useSynthLang.ts:29 | A well-formed modifier holds no newline. |
| SynthLang.OpHasNoNewline | src/components/Documentation/useSynthLang.ts:17-57 | Parsing a line without a newline gives an operation whose content and modifiers hold no newline. |
| SynthLang.FormatHasNoNewline | src/components/Documentation/useSynthLang.ts:66-80 | Printing such an operation gives a line without a newline. |
| SynthLang.ExecuteLines | src/components/Documentation/useSynthLang.ts:61-90 | Splitting the execution output at newlines gives exactly one printed line per parsed operation. |
| SynthLang.WsSplit | src/components/Documentation/useSynthLang.ts:141 | Splitting at whitespace gives at least one piece, so the "requires a command" error can never fire. |
| SynthLang.OnlyGlyphErrors | src/components/Documentation/useSynthLang.ts:125-145 | A code line's only possible error is the invalid-operation error, and it is reported exactly when the line does not start with `↹`, `⊕` or `Σ`. |
| SynthLang.ScanLines | src/components/Documentation/useSynthLang.ts:114-146 | Seeing an input or an output implies having seen a code line. |
| SynthLang.ScanLast | src/components/Documentation/useSynthLang.ts:114-146 | After one more line, each flag is set exactly when it was already set or the new line sets it. |
| SynthLang.ScanCode | src/components/Documentation/useSynthLang.ts:118-120 | The code flag is set exactly when some line is neither blank nor a comment. |
| SynthLang.ScanGlyph | src/components/Documentation/useSynthLang.ts:122-123 | The input or output flag is set exactly when some code line starts with `↹` or `Σ` respectively. |
| SynthLang.ScanQuiet | src/components/Documentation/useSynthLang.ts:118 | Lines with no code set no flag and report no error. |
| SynthLang.CommentOnlyValid | src/components/Documentation/useSynthLang.ts:107-155 | Code with only blank and comment lines validates without errors. |
| SynthLang.ScanLastErrors | src/components/Documentation/useSynthLang.ts:125-128 | One more line adds the invalid-operation error for that line exactly when it is a bad line. |
| SynthLang.ScanErrors | src/components/Documentation/useSynthLang.ts:114-146 | An error is reported exactly when it is the invalid-operation error of a bad line. |
| SynthLang.MissingErrors | src/components/Documentation/useSynthLang.ts:107-155 | For code with some code line, the errors are the line errors followed by "Missing input operation (↹)" when no code line starts with `↹`. "Missing output operation (Σ)" follows likewise when none starts with `Σ`. |
| Playground.SynthLangExecute | src/components/Documentation/useSynthLang.ts:61-90 | Execution never reports an error. |
| Playground.NoCodeKept | src/components/Documentation/usePlayground.ts:42-46 | Filtering the lines for code leaves none exactly when every line is blank or a comment. |
| Playground.CommentOnlyIff | src/components/Documentation/usePlayground.ts:42-46 | The playground treats code as comment-only exactly when every line is blank or a comment. |
| Playground.SetCode | src/components/Documentation/usePlayground.ts:23-27 | Setting the code clears the output and the errors. |
| Playground.Run | src/components/Documentation/usePlayground.ts:39-76 | Running keeps the code and hands it off exactly when it is not comment-only, validates cleanly and there is a run handler; a hand-off only clears the errors. Comment-only code shows its output without errors. Failed validation shows the errors and no output. Otherwise the execution's error, or else its output, is shown. |
| Playground.RunTwice | src/components/Documentation/usePlayground.ts:39-76 | Without a run handler, running again changes nothing. |
| Playground.Reset | src/components/Documentation/usePlayground.ts:78-82 | Resetting restores the initial code and clears the output and errors. |
| Playground.Tab | src/components/Documentation/usePlayground.ts:85-97 | Tab replaces the selection with two spaces, keeping the text on either side, and puts the cursor after them. |
| Playground.KeyDown | src/components/Documentation/usePlayground.ts:84-105 | Tab inserts the spaces and leaves output and errors alone. Cmd or Ctrl with Enter runs, and Cmd or Ctrl with Shift and R resets. Every other key changes nothing. |
| Playground.LoadExample | src/components/Documentation/usePlayground.ts:107-134 | Loading an example sets the code and clears the errors. It shows output exactly when the example is comment-only, or validates cleanly and executes without error, and the output shown is the execution's. |
| Playground.RunWithSynthLang | src/components/Documentation/usePlayground.ts:39-76 | With the real validator and executor and no handler, running hands nothing off. The errors are empty exactly when the code validates, and then the output is the execution's. |
| SynthLangUtils.SkipSpace | src/components/Documentation/useSynthLangUtils.ts:113 | Skipping whitespace drops exactly the leading run of whitespace. |
| SynthLangUtils.SkipType | src/components/Documentation/useSynthLangUtils.ts:61 | Skipping an optional type word never lengthens the text. |
| SynthLangUtils.Head | src/components/Documentation/useSynthLangUtils.ts:101-113 | A matched head is a glyph that starts the line, then a non-empty label of word characters, then a rest that does not start with a word character. The label and the rest are exactly the line's tail. |
| SynthLangUtils.Enclosed | src/components/Documentation/useSynthLangUtils.ts:78-113 | A bracketed or braced group found is at least three characters long, starts with the opener, ends with the closer and holds no closer in between. |
| SynthLangUtils.OperationMatch | src/components/Documentation/useSynthLangUtils.ts:78-113 | A matched operation starts with its glyph. Captured content holds no quote, and content is always captured when the pattern requires it. |
| SynthLangUtils.JsonLineError | src/components/Documentation/useSynthLangUtils.ts:39-65 | A line inside an output block adds at most one error. |
| SynthLangUtils.JsonLine | src/components/Documentation/useSynthLangUtils.ts:32-66 | Inside an output block, a line only appends to the errors and keeps the block's start and the code flag. |
| SynthLangUtils.MultiLineError | src/components/Documentation/useSynthLangUtils.ts:74-82 | A finished multi-line text adds at most one error. |
| SynthLangUtils.MultiLine | src/components/Documentation/useSynthLangUtils.ts:72-84 | A continuation line only appends to the errors and keeps the block state and the code flag. |
| SynthLangUtils.PlainLineError | src/components/Documentation/useSynthLangUtils.ts:94-129 | An ordinary line adds at most one error. |
| SynthLangUtils.PlainLine | src/components/Documentation/useSynthLangUtils.ts:68-129 | An ordinary line only appends to the errors and keeps the block state and the code flag. |
| SynthLangUtils.Step | src/components/Documentation/useSynthLangUtils.ts:15-130 | Blank and comment lines change nothing. The code flag records whether any code line has been seen. Only an opener line can open a block or move the block's start. The errors only grow, by at most one per line. |
| SynthLangUtils.OpenerOpens | src/components/Documentation/useSynthLangUtils.ts:24-30 | An output-block opener opens a block with one open brace, records the next line number as its start, counts as an output and reports nothing. |
| SynthLangUtils.BlockCloses | src/components/Documentation/useSynthLangUtils.ts:32-45 | Inside a block, a line closes it exactly when it is a bare `}` and only one brace was open. |
| SynthLangUtils.EntryChecked | src/components/Documentation/useSynthLangUtils.ts:47-65 | Inside a block, a line that is not skipped reports the invalid-JSON error exactly when it is not a block entry. |
| SynthLangUtils.InvalidOperationReported | src/components/Documentation/useSynthLangUtils.ts:94-98 | Outside blocks, a code line not starting with a glyph reports the invalid-operation error. |
| SynthLangUtils.LabelErrorAlone | src/components/Documentation/useSynthLangUtils.ts:100-105 | Outside blocks, a line whose label has a hyphen reports the label error and nothing else. |
| SynthLangUtils.QuotedHead | src/components/Documentation/useSynthLangUtils.ts:101-113 | A line of a glyph, a space, a label and quoted content has that glyph and label as its head. |
| SynthLangUtils.QuotedRestSkips | src/components/Documentation/useSynthLangUtils.ts:113 | After the label, the quoted part reads back as the content. |
| SynthLangUtils.QuotedIsCode | src/components/Documentation/useSynthLangUtils.ts:16-21 | Such a line is already trimmed and is a code line. |
| SynthLangUtils.QuotedNotOpener | src/components/Documentation/useSynthLangUtils.ts:24 | Such a line never opens an output block. |
| SynthLangUtils.HeadThenQuoteMatches | src/components/Documentation/useSynthLangUtils.ts:87-114 | A line whose head is followed by quoted content does not start a multi-line text and matches the operation pattern with that content. |
| SynthLangUtils.QuotedNoHyphen | src/components/Documentation/useSynthLangUtils.ts:101-102 | Such a line has no hyphenated label. |
| SynthLangUtils.QuotedLineFacts | src/components/Documentation/useSynthLangUtils.ts:15-129 | Such a line is trimmed code, neither opens a block nor a multi-line text, has no hyphenated label, and matches the operation pattern with its glyph, label and content. |
| SynthLangUtils.PlainStep | src/components/Documentation/useSynthLangUtils.ts:68-129 | Outside blocks, an ordinary code line adds exactly its own line error. |
| SynthLangUtils.EmptyContentReported | src/components/Documentation/useSynthLangUtils.ts:121-129 | Outside blocks, an input line with empty quoted content reports "Content cannot be empty". |
| SynthLangUtils.QuotedEmptyNotSpecial | src/components/Documentation/useSynthLangUtils.ts:107-110 | A line with empty quoted content is not skipped as special syntax. |
| SynthLangUtils.MatchedLineQuiet | src/components/Documentation/useSynthLangUtils.ts:113-129 | A glyph line with a plain label that matches the pattern reports nothing, unless it is an input with empty content. |
| SynthLangUtils.QuotedLineAccepted | src/components/Documentation/useSynthLangUtils.ts:86-129 | Outside blocks, a quoted line reports nothing, provided its content is non-empty when it is an input line. |
| TokenCalculator.CeilDiv | src/components/TokenCalculator/constants.ts:45-51 | The quotient rounded up is the least q with b·q at least a. |
| TokenCalculator.CeilDivMonotone | src/components/TokenCalculator/constants.ts:45-51 | Rounding up a larger numerator never gives less. |
| TokenCalculator.Tokens | src/components/TokenCalculator/constants.ts:45-47 | The tokens of a text are its length over 4, rounded up, so 0 exactly for the empty text. |
| TokenCalculator.TokensFromWords | src/components/TokenCalculator/constants.ts:49-51 | The tokens of a word count are the words over 0.75, rounded up. |
| TokenCalculator.TokensFromPages | src/components/TokenCalculator/constants.ts:53-55 | The tokens of a page count are the tokens of 250 words per page, at least 1000/3 per page. |
| TokenCalculator.Latency | src/components/TokenCalculator/constants.ts:57-59 | Latency is at least the 500 ms base, and exactly the base only for zero tokens. |
| TokenCalculator.WordsExact | src/components/TokenCalculator/constants.ts:49-51 | Every three words make exactly four tokens. |
| TokenCalculator.Monotone | src/components/TokenCalculator/constants.ts:45-59 | More characters, words or pages never give fewer tokens, and more tokens always give more latency. |
| ModelSearch.ToNumber | src/config/modelSearch.ts:40-45 | An absent limit stays absent, a number passes through unchanged, and a string is handed to the number parser. |
| ModelSearch.Convert | src/config/modelSearch.ts:63-75 | Provider, mode, cost and capabilities are kept. Each of the three token limits stays absent when absent and keeps its value when already a number. |
| ModelSearch.Build | src/config/modelSearch.ts:59-80 | No entry of the catalogue is named `sample_spec`, and each one is the conversion of a raw entry of that name. Every other raw entry appears, converted. |
| ModelSearch.CapabilitiesHeld | src/config/modelSearch.ts:119-125 | The loop lets the model through exactly when every capability requested as true is offered and true. |
| ModelSearch.MatchesIff | src/config/modelSearch.ts:91-128 | The early-return chain accepts a model exactly when all six criteria are met. These are provider, mode, lower and upper context bound, cost bound and capabilities, and each is ignored when it is empty or zero. |
| ModelSearch.Search | src/config/modelSearch.ts:82-89 | A name is in the result exactly when some catalogue entry of that name matches. Every result is such a matching entry. With distinct names each result is that entry's own spec. |
| ModelSearch.EmptyCriteria | src/config/modelSearch.ts:59-89 | Searching with no criteria returns every raw entry's name except `sample_spec`, and never `sample_spec`. |
| ModelSearch.MatchesNarrower | src/config/modelSearch.ts:91-128 | A model passing criteria at least as strict as another set passes that set too. |
| ModelSearch.SearchNarrower | src/config/modelSearch.ts:82-128 | Stricter criteria return a subset of the names. |
| ModelSearch.ByProvider | src/config/modelSearch.ts:130-133 | A non-empty provider returns only models of that provider, and every model of that provider is returned. An empty provider returns every model. |
| ModelSearch.ByMode | src/config/modelSearch.ts:135-138 | The same as for the provider, for the mode. |
| ModelSearch.ByCapabilities | src/config/modelSearch.ts:140-143 | The result is exactly the models that offer every capability requested as true. |
| ModelSearch.ByContextSize | src/config/modelSearch.ts:145-148 | The result is exactly the models whose limit lies within each bound that is set. A zero bound imposes nothing; any other bound, an infinite one included, needs a non-zero limit. |
| ModelSearch.LargeContext | src/config/modelSearch.ts:102-109 | The query `getModelsByContextSize(32000, Infinity)` keeps exactly the models with a limit of at least 32000. A model without a limit passes an upper bound of 0 but not an upper bound of Infinity. |
| ModelSearch.ByMaxCost | src/config/modelSearch.ts:150-153 | Every returned model with a non-zero cost is within a non-zero bound. Every model without a cost, or within the bound, is returned. |
| PresetStorage.GetPresets | src/services/presetStorageService.ts:28-31 | An empty key reads as the empty list and a stored list is returned as stored. It fails exactly when the stored text does not parse. |
| PresetStorage.FindIndex | src/services/presetStorageService.ts:17 | Returns the first position holding the id, with no earlier preset holding it, or nothing when no preset has the id. |
| PresetStorage.FindIndexAt | src/services/presetStorageService.ts:17 | A position holding the id with no earlier one holding it is what the search returns. |
| PresetStorage.LoadPreset | src/services/presetStorageService.ts:10-13 | Fails exactly on unparsable text. Otherwise a found preset is the first stored preset with the id: no earlier preset has it. Nothing is found exactly when no stored preset has the id. |
| PresetStorage.SavePreset | src/services/presetStorageService.ts:15-26 | With a new id the preset is appended. Otherwise the first preset with the id is replaced in place and the length is unchanged. Unparsable text fails. |
| PresetStorage.DeletePreset | src/services/presetStorageService.ts:33-37 | The new list holds exactly the stored presets whose id differs, and is no longer. Unparsable text fails. |
| PresetStorage.DeleteOrder | src/services/presetStorageService.ts:33-37 | Deleting keeps list order and repeats: the survivors of `a + b` are those of `a` followed by those of `b`, and one preset survives exactly when its id differs. A missing key leaves the empty list. |
| PresetStorage.SaveLoad | src/services/presetStorageService.ts:10-26 | Loading the id just saved returns the saved preset. |
| PresetStorage.SaveDeleteOthers | src/services/presetStorageService.ts:10-37 | Saving does not change what another id loads. After a delete the id loads nothing. Deleting one id does not change what another id loads. |
| PresetStorage.FilterFind | src/services/presetStorageService.ts:12-35 | Filtering one id out does not change whether another id is found, nor which preset is found first. |
| PresetStorage.ImportPreset | src/services/presetStorageService.ts:43-56 | Succeeds exactly when the text parses and has a non-empty id, a non-empty name and settings, and then returns the parsed preset. Every failure, including the inner "Invalid preset format", surfaces as "Failed to parse preset JSON". |
| FrameworkStorage.GetFrameworks | src/services/frameworkStorage.ts:17-25 | A stored list is returned as stored. An empty key or text that does not parse reads as the empty list. |
| FrameworkStorage.Save | src/services/frameworkStorage.ts:11-15 | The saved framework is last. Everything before it is an earlier framework with a different id, and every earlier framework with a different id is kept. |
| FrameworkStorage.Delete | src/services/frameworkStorage.ts:27-31 | The new list holds exactly the earlier frameworks whose id differs. |
| FrameworkStorage.SaveUnique | src/services/frameworkStorage.ts:11-15 | After a save, the saved framework is the only one with its id. |
| FrameworkStorage.OthersKeepOrder | src/services/frameworkStorage.ts:11-31 | Saving or deleting leaves the frameworks with other ids exactly as they were, in the same order. |
| FrameworkStorage.DeleteRemovesAll | src/services/frameworkStorage.ts:27-31 | After a delete, no framework has the id. |
| FrameworkStorage.GenerateId | src/services/frameworkStorage.ts:33-35 | An id starts with `custom_`, ends with `_` and the random suffix, and is longer than the two together. |
| SavedPrompts.GetSavedPrompts | app/src/services/storageService.ts:18-21 | An empty key reads as the empty list and a stored list as stored. It fails exactly when the text does not parse. |
| SavedPrompts.SavePrompt | app/src/services/storageService.ts:23-34 | The old list is kept as a prefix and the new record is appended as the one extra element. The record carries the supplied id and time and the draft's title, format and body. The event is `storageChanged`. |
| SavedPrompts.DeletePrompt | app/src/services/storageService.ts:36-41 | The new list holds exactly the records whose id differs. The event is `storage`. |
| SavedPrompts.DeleteOrder | app/src/services/storageService.ts:36-39 | Deleting keeps list order and repeats: the survivors of `a + b` are those of `a` followed by those of `b`, and one record survives exactly when its id differs. A missing key leaves the empty list. |
| SavedPrompts.DeleteAbsent | app/src/services/storageService.ts:36-41 | Deleting an id no record has leaves the list unchanged. |
| SavedPrompts.SaveThenDelete | app/src/services/storageService.ts:23-41 | Saving with a fresh id and then deleting that id restores the earlier list. |
| KeyboardShortcuts.FiredFrom | src/hooks/useKeyboardShortcuts.ts:47-60 | The listed indices, strictly ascending, are exactly the shortcuts from the start index on that fire. A shortcut fires when its key matches ignoring case and each of its four modifier flags equals the one held. |
| KeyboardShortcuts.AnyPrevents | src/hooks/useKeyboardShortcuts.ts:55-57 | True exactly when some fired shortcut has `preventDefault` other than `false`. |
| KeyboardShortcuts.HandleKeyDown | src/hooks/useKeyboardShortcuts.ts:33-61 | Focus in a text field while inputs are ignored, or in the modal while that is ignored, means nothing fires and nothing is prevented. Otherwise exactly the matching shortcuts fire, in list order. The default is prevented exactly when one of them does not opt out. |
| KeyboardShortcuts.PreventsIff | src/hooks/useKeyboardShortcuts.ts:47-60 | Suppressing the default over the fired list is the same as some matching shortcut not opting out. |
| KeyboardShortcuts.KeysOf | src/hooks/useKeyboardShortcuts.ts:81-87 | At most five keys. Ctrl comes first when held, and a non-empty key comes last. Nothing outside Ctrl, Cmd, Shift, Alt and the key appears. |
| KeyboardShortcuts.ListAll | src/hooks/useKeyboardShortcuts.ts:80-89 | One help row per shortcut, in order, holding its keys and its description, or an empty one. |
| KeyboardShortcuts.RowsSnoc | src/hooks/useKeyboardShortcuts.ts:75-91 | A shortcut added at the end adds its row at the end of its own group and changes no other group. |
| KeyboardShortcuts.RowsNone | src/hooks/useKeyboardShortcuts.ts:75-91 | A group that no shortcut belongs to has no rows. |
| KeyboardShortcuts.FileStep | src/hooks/useKeyboardShortcuts.ts:75-91 | One `reduce` step keeps the accumulated map exact. Its groups are exactly those of the shortcuts so far, and each holds its shortcuts' rows in order. |
| KeyboardShortcuts.AllShortcuts | src/hooks/useKeyboardShortcuts.ts:74-92 | The groups are exactly the shortcuts' groups, with a missing or empty group filed as "Other". Each group lists its shortcuts' rows in list order. |
| KeyboardShortcuts.ByGroup | src/hooks/useKeyboardShortcuts.ts:69-71 | Returns exactly the shortcuts whose group is the given name, so ungrouped shortcuts never appear under "Other". |
| KeyboardShortcuts.ByGroupOrder | src/hooks/useKeyboardShortcuts.ts:69-71 | The group's shortcuts keep list order and repeats: those of `a + b` are those of `a` followed by those of `b`, and one shortcut is returned exactly when its group is the name. |
| KeyboardShortcuts.KeyGlyph | src/hooks/useKeyboardShortcuts.ts:102-126 | Each of the ten known key names becomes its symbol, ignoring case. Any other single character is upper-cased, and any other name is kept. |
| KeyboardShortcuts.FormatKeyComboPieces | src/hooks/useKeyboardShortcuts.ts:101-128 | No keys render as the empty string and one key as its symbol. Rendering `a + b` is rendering `a`, then " + ", then rendering `b`. |
| Documentation.IndexOf | src/hooks/useDocumentation.ts:44-45 | Returns the first position of the key, or -1 exactly when the key is absent. |
| Documentation.SectionChange | src/hooks/useDocumentation.ts:18-24 | The section becomes active, the error is cleared, loading is set, and the search results are kept. |
| Documentation.Previous | src/hooks/useDocumentation.ts:41-52 | When the active section has a predecessor, that section is chosen. Otherwise nothing changes. |
| Documentation.Next | src/hooks/useDocumentation.ts:53-64 | Moves to the following section when there is one. A section missing from the keys moves to the first, and on the last nothing changes. |
| Documentation.Jump | src/hooks/useDocumentation.ts:65-76 | Digit n+1 activates section n when it exists, clearing the error. Otherwise nothing changes. |
| Documentation.Escape | src/hooks/useDocumentation.ts:85-94 | The search results end up empty and nothing else changes. |
| Documentation.NextThenPrevious | src/hooks/useDocumentation.ts:41-64 | With distinct keys and a section that is not last, `k` then `j` returns to the section left. |
| Documentation.IndexOfAt | src/hooks/useDocumentation.ts:44-45 | With distinct keys, the key at a position is found at that position. |
| Documentation.Shortcuts | src/hooks/useDocumentation.ts:39-95 | The page registers thirteen shortcuts. |
| Documentation.TableKeys | src/hooks/useDocumentation.ts:39-95 | The shortcuts, in order, are `j`, `k`, the digits 1 to 9 (each jumping to its section), Cmd+K and Escape. Only Cmd+K carries a modifier. |
| Documentation.OnKey | src/hooks/useDocumentation.ts:95-99 | A key press in an input, a textarea or the modal changes nothing. |
| Documentation.FiredExactly | src/hooks/useKeyboardShortcuts.ts:47-60 | When exactly one shortcut matches, the dispatch runs that one alone. |
| Documentation.NoneFires | src/hooks/useKeyboardShortcuts.ts:47-60 | When no shortcut from a position on matches, nothing from there is dispatched. |
| Documentation.OnlyJFires | src/hooks/useDocumentation.ts:41-94 | A bare `j`, in either case, matches the first shortcut and no other. In particular it does not match `k`, the digits or Escape. |
| Documentation.PressJ | src/hooks/useDocumentation.ts:39-99 | Outside text fields and the modal, a bare `j` has exactly the effect of moving to the previous section. |
| DocSearch.Hits | src/components/Documentation/DocSearch.tsx:31-48 | Every hit has at least one item and is some section's key with that section's matching items. Every section with a matching item yields its hit. |
| DocSearch.HitsMap | src/components/Documentation/DocSearch.tsx:31-48 | The hits are each section's own hit list (its key with its matching items, or nothing), concatenated in section order. |
| DocSearch.HitsAppend | src/components/Documentation/DocSearch.tsx:31-48 | Hits follow the sections' order: those of `a + b` are those of `a` followed by those of `b`. One section yields exactly one hit, holding its matching items in their order, when it has any, and nothing otherwise. |
| DocSearch.SearchDocs | src/components/Documentation/DocSearch.tsx:25-51 | A query that is blank after trimming reports no results. Any other query reports the sections' hits. |
| DocSearch.SearchFinds | src/components/Documentation/DocSearch.tsx:31-42 | For a non-blank query, a matching item of a section appears among that section's hits. Every item among the hits matches. |
| DocSearch.CountMatches | src/components/Documentation/DocSearch.tsx:110-112 | The "results found" total equals the number of matching items across all sections. |
| DocSearch.HitsCount | src/components/Documentation/DocSearch.tsx:31-48 | The items of the hits number exactly the matching items of all sections together. |
| DocSearch.CountAppend | src/components/Documentation/DocSearch.tsx:110-112 | The total over two lists of hits is the sum of their totals. |
| DocSearch.ExtendNarrows | src/components/Documentation/DocSearch.tsx:33-41 | An item matching a query also matches every prefix of it, ignoring case. |
| DocSearch.Clear | src/components/Documentation/DocSearch.tsx:58-64 | Clearing empties the box and reports no results. |
| DocSearch.ClearAgrees | src/components/Documentation/DocSearch.tsx:16-64 | The debounced search on the cleared box reports the same as the clear did. |
| FrameworkWizard.Reset | src/components/Translate/FrameworkWizard.tsx:70-90 | Resetting goes back to the first step with an empty draft in the `mathematical` group, an empty glyph, example and application draft, and leaves the dialog open or closed as it was. |
| FrameworkWizard.Close | src/components/Translate/FrameworkWizard.tsx:92-95 | Closing shuts the dialog and is otherwise exactly a reset. |
| FrameworkWizard.Next | src/components/Translate/FrameworkWizard.tsx:97-101 | Next moves one step forward below the last step and changes nothing else; on the last step it changes nothing. |
| FrameworkWizard.Back | src/components/Translate/FrameworkWizard.tsx:103-107 | Back moves one step back above the first step and changes nothing else; on the first step it changes nothing. |
| FrameworkWizard.CanProceed | src/components/Translate/FrameworkWizard.tsx:378-391 | The Next and Save buttons are enabled exactly when the current step is one of the four and its own fields are filled in. |
| FrameworkWizard.RemoveAt | src/components/Translate/FrameworkWizard.tsx:136-141 | Removing a position inside the list drops exactly that entry and keeps the others in order; a position outside it changes nothing. |
| FrameworkWizard.RemoveAtSubset | src/components/Translate/FrameworkWizard.tsx:153-158 | Removing never adds an entry: every entry left was in the list. |
| FrameworkWizard.AddGlyph | src/components/Translate/FrameworkWizard.tsx:121-134 | A glyph with all four fields filled is appended and the glyph draft cleared; an incomplete one changes nothing. |
| FrameworkWizard.AddExample | src/components/Translate/FrameworkWizard.tsx:143-151 | A non-blank example is appended trimmed and its draft cleared; a blank one changes nothing. |
| FrameworkWizard.AddApplication | src/components/Translate/FrameworkWizard.tsx:160-168 | A non-blank application is appended trimmed and its draft cleared; a blank one changes nothing. |
| FrameworkWizard.HandleSave | src/components/Translate/FrameworkWizard.tsx:109-119 | The saved framework gets an id with the `custom_` prefix and the random suffix, a creation and an update time each from its own clock read, and every field of the draft. It is written to the store and the wizard closes. |
| FrameworkWizard.Screen | src/components/Translate/FrameworkWizard.tsx:177-376 | Every input event belongs to one of the four step screens, or to none. |
| FrameworkWizard.ResetValid | src/components/Translate/FrameworkWizard.tsx:70-90 | A reset wizard satisfies the wizard invariant. |
| FrameworkWizard.EarlierKept | src/components/Translate/FrameworkWizard.tsx:177-376 | Editing the fields of the current step cannot undo a step already passed. |
| FrameworkWizard.HandleSteps | src/components/Translate/FrameworkWizard.tsx:97-107 | After any event the step stays among the four, and every step before it still has its fields filled in. |
| FrameworkWizard.HandleLists | src/components/Translate/FrameworkWizard.tsx:121-175 | After any event every glyph in the draft is complete and every application and example is non-blank. |
| FrameworkWizard.HandleValid | src/components/Translate/FrameworkWizard.tsx:97-175 | Every event keeps the wizard invariant: a valid step, earlier steps done, and complete list entries. |
| FrameworkWizard.SaveClicked | src/components/Translate/FrameworkWizard.tsx:428-436 | The last step's button saves exactly when the dialog is open, the step is the last, and its fields are filled in; otherwise nothing changes. |
| FrameworkWizard.SavedComplete | src/components/Translate/FrameworkWizard.tsx:109-119 | A framework saved from a valid wizard has every field filled in and is among the stored frameworks afterwards. |
| QuickActions.FilteredPresets | src/components/AdvancedCalculator/QuickActions.tsx:37-46 | An empty query shows every preset; any other shows exactly the presets whose name, description or a tag contains it, ignoring case. |
| QuickActions.FilterOrder | src/components/AdvancedCalculator/QuickActions.tsx:37-46 | The search keeps list order and repeats: the presets shown for `a + b` are those shown for `a` followed by those for `b`, and one preset is shown exactly when the query is empty or matches it. |
| QuickActions.FilterNarrows | src/components/AdvancedCalculator/QuickActions.tsx:37-46 | Typing more never shows more: every preset the longer query shows, the shorter one shows too. |
| QuickActions.ConfigOf | src/components/AdvancedCalculator/QuickActions.tsx:133-150 | The configuration takes the model, token limit and temperature from the preset, streaming and caching unless switched off, batching only when switched on, compression always on, JSON output and the default framework table. |
| QuickActions.LoadPreset | src/components/AdvancedCalculator/QuickActions.tsx:125-158 | Loading looks up only a preset that is not built in, and writes the preset's configuration under `synthLang.calculatorConfig`. |
| QuickActions.ConfigDependsOnlyOn | src/components/AdvancedCalculator/QuickActions.tsx:133-150 | Two presets that agree on the model, token limit, temperature and four switches load the same configuration. |
| QuickActions.EditedPreset | src/components/AdvancedCalculator/QuickActions.tsx:274-287 | A preset edited from a built-in one gets the tags `custom` and `optimized-based` after its own; any other is saved unchanged; nothing but the tags changes. |
| QuickActions.SaveEditedLoad | src/components/AdvancedCalculator/QuickActions.tsx:274-287 | After saving an edit of a built-in preset, loading its id gives the preset with the two extra tags. |
| CustomPresetForm.OrNumber | src/components/AdvancedCalculator/CustomPresetForm.tsx:23-27 | A zero number falls back to the default; any other is kept. |
| CustomPresetForm.OrText | src/components/AdvancedCalculator/CustomPresetForm.tsx:20-22 | An empty text falls back to the default; any other is kept. |
| Presets.OrSwitch | src/components/AdvancedCalculator/CustomPresetForm.tsx:28-31 | An absent switch takes its default, and a stored `false` is kept; the preset panel reads its switches the same way. |
| CustomPresetForm.InitialValues | src/components/AdvancedCalculator/CustomPresetForm.tsx:20-33 | A new preset starts from the defaults. An edit keeps the name, description and model. Each number falls back when zero: temperature 0.7, maxTokens 2048, topP 0.9, both penalties 0.3. Each switch keeps a stored value and otherwise defaults: streaming, cache and compression to true, batch to false. The custom prompt reads empty when absent, and an empty response format becomes `json`. |
| CustomPresetForm.TemplateLines | src/components/AdvancedCalculator/CustomPresetForm.tsx:42-67 | The generated prompt has more than one line and opens with the model line. |
| CustomPresetForm.TemplateHeader | src/components/AdvancedCalculator/CustomPresetForm.tsx:43 | The generated prompt's first line is `↹ model.<model> @openrouter` when the model name holds no line break. |
| CustomPresetForm.BuildPreset | src/components/AdvancedCalculator/CustomPresetForm.tsx:69-111 | An edit keeps its id, creation time and tags unless empty. A new preset gets the fresh id, the creation clock read and `custom`. The update time is its own clock read. An empty prompt becomes the generated one. |
| CustomPresetForm.SaveEnabled | src/components/AdvancedCalculator/CustomPresetForm.tsx:358 | Save is enabled exactly when name, description and model are filled in. |
| CustomPresetForm.SaveReopen | src/components/AdvancedCalculator/CustomPresetForm.tsx:20-111 | Reopening a saved preset shows the values it was saved from, with the generated prompt in place of an empty one. |
| CustomPresetForm.EditUntouched | src/components/AdvancedCalculator/CustomPresetForm.tsx:101-111 | Saving an edit untouched keeps the preset's id, creation time, tags and non-zero settings. |
| SettingsService.Over | src/services/settingsService.tsx:88-91 | A key the later object has wins over the earlier one; otherwise the earlier value stays. |
| SettingsService.Apply | src/services/settingsService.tsx:113 | Each key the patch has is replaced, and every other key is kept. |
| SettingsService.Init | src/services/settingsService.tsx:84-109 | Stored keys win over the given settings, which win over the defaults; the default model is the stored one unless missing or empty; the model table is the defaults with the stored entries laid over them; unparsable text keeps the default model choices. |
| SettingsService.Saved | src/services/settingsService.tsx:113-115 | The stored object, laid over the settings, gives back the settings. |
| SettingsService.Update | src/services/settingsService.tsx:111-121 | An update merges the patch and stores the merged settings; an empty patch changes nothing. |
| SettingsService.UpdateComplete | src/services/settingsService.tsx:84-121 | Every update keeps the theme and font size set, and the key set whenever the given settings set it. |
| SettingsService.ReloadSeesUpdate | src/services/settingsService.tsx:84-121 | A restart after an update sees the updated settings, provided the update kept a non-empty default model and every default model. |
| SettingsService.ReloadRestoresDefaults | src/services/settingsService.tsx:93-98 | Emptying the models or the default model does not survive a restart: the defaults come back. |
| TemplateService.ValueTruncated | src/services/templateService.ts:22 | As written, a value containing `: ` keeps only its part before that, where the corrected reading keeps the whole value. |
| TemplateService.FieldSplit | src/services/templateService.ts:22 | A key without `: ` ends at the line's first `: `. |
| TemplateService.Entry | src/services/templateService.ts:19-23 | A line without `: ` is a key with no value. |
| TemplateService.EntryRoundTrip | src/services/templateService.ts:19-23 | A `key: value` line gives back its key and its whole value. |
| TemplateService.EntryAgrees | src/services/templateService.ts:19-23 | Where the value holds no `: `, the source's reading and the corrected one agree. |
| TemplateService.AsWrittenOf | src/services/templateService.ts:22 | The source's reading takes the first two trimmed pieces of the line. |
| TemplateService.FromEntries | src/services/templateService.ts:19-24 | The object's keys are exactly the keys that occur. |
| TemplateService.FromEntriesLast | src/services/templateService.ts:19-24 | A repeated key takes the value of its last pair. |
| TemplateService.ParseWith | src/services/templateService.ts:17-29 | Fails exactly when the text holds only separators; otherwise it has `content`. |
| TemplateService.NoPiecesIff | src/services/templateService.ts:17 | Dropping the empty pieces leaves nothing exactly when every piece is empty. |
| TemplateService.LayoutRoundTrip | src/services/templateService.ts:17-29 | A file of front matter and body gives back the front-matter pairs and, as `content`, the body. |
| Configuration.UpperNames | cli/synthlang/config.py:65 | The variables the four fields are written to are `SYNTHLANG_MODEL`, `SYNTHLANG_ENVIRONMENT`, `SYNTHLANG_LOG_LEVEL` and `SYNTHLANG_OPENAI_API_KEY`. |
| DotEnv.GetFinds | cli/synthlang/config.py:59 | A key reads as absent from the `.env` entries exactly when no entry has it, and a key read present has an entry with that value. |
| DotEnv.PutNew | cli/synthlang/config.py:59-67 | Writing a key no entry has appends it after the existing entries. |
| DotEnv.StrippedEnds | cli/synthlang/config.py:58 | A stripped line is empty or starts and ends with a non-space character. |
| DotEnv.StripKeepsSolid | cli/synthlang/config.py:58 | Stripping a line never drops a non-space character. |
| DotEnv.ReadRenderLast | cli/synthlang/config.py:56-59 | If the `.env` entries read back as written, so do the entries with one clean new key appended. |
| ConfigManager.ReloadField | cli/synthlang/config.py:11-14 | After an accepted update where no non-field key writes a variable a field is read from, reloading from the environment gives each field the value the update returned. |
| Env.KeyStartsSolid | cli/synthlang/utils/env.py:27 | A non-empty stripped key starts and ends with a non-space character. |
| Evolver.FinalPopulationSize | cli/synthlang/core/evolver.py:168-212 | The final population is empty exactly when some generation runs with a population size of zero or less. |
| SynthLang.CodeSetsFlag | src/components/Documentation/useSynthLang.ts:118-120 | A single code line anywhere sets the code flag. |
| SynthLang.GlyphSetsFlag | src/components/Documentation/useSynthLang.ts:122-123 | A single code line starting with `↹` or `Σ` anywhere sets the input or output flag. |
| SynthLang.BadLineReported | src/components/Documentation/useSynthLang.ts:126-128 | Every bad line anywhere is reported with its own line number. |
| SynthLang.ErrorFromBadLine | src/components/Documentation/useSynthLang.ts:126-128 | Every reported error names a line that is bad. |
| Translator.FixedLinesQuoteFree | cli/synthlang/core/translator.py:92-97 | The four fixed lines for customer feedback hold no quote character. |

## Left out

- The language model, DSPy's predictors and the classifier are oracle functions. The model does not include the instruction text sent to them, and it leaves out the translator's `instructions` argument. It does not model a failing model call.
- Randomness is supplied as parameters: `random.sample`, `random.random`, `uuidv4`, `crypto.randomUUID` and `Math.random` become a draw source, a roll source and fresh-id values. Clocks (`datetime.now`, `Date.now`, `new Date().toISOString()`) become supplied time stamps.
- Numbers are exact reals. IEEE rounding and NaN are not modelled. A NaN from `parseFloat` is treated as an absent value. Infinity is modelled only for the model search's context-size bounds, the one place a caller passes it; the cost bound and the models' own limits are finite.
- PromptManager.Float: which strings Python's `float()` accepts, and the value it reads from them, is a supplied parse function; the string syntax, `inf` and `nan` are not modelled.
- Which attributes the data-model library gives a configuration object beyond its four fields, and which of them can be set, is a parameter, not a fixed list.
- ConfigManager.Update: the reload property holds when no key other than a field writes a variable a field is read from. The only settable non-field names start with an underscore, so their variables start `SYNTHLANG__` and cannot clash.
- DotEnv.Lines: a `\r\n` pair gives an extra empty line where Python's text-mode reader sees one break. An empty line holds no `=`, so the entries read are the same.
- How JavaScript prints a number in the preset form's generated prompt is a supplied function.
- String length counts characters, not UTF-16 code units. Case mapping covers ASCII letters only.
- JSON encoding and decoding are left out. Storage slots hold decoded values, and prompt and fine-tuner files are maps of decoded records.
- File paths, the filesystem, `os.environ`, localStorage and window events become explicit state. A failing `localStorage.setItem` is not modelled.
- The calculator's `calculateMetrics`, the `formatTime` and `formatPercentage` helpers and the display maths are not modelled.
- The HTML highlighter in `useSynthLang.ts`, the playground's highlight effect and clipboard copy are presentation and are not modelled.
- Network and crypto calls are out of scope: the settings service's key checks, the OpenRouter service, the template `fetch` and `cli.py`.
- Timers are not modelled: the 300 ms loading flag and the delayed close after an edit.
- `exportPreset` is serialisation only. The import handler's UI state is not modelled.
- The preset-manager hook is taken to be the preset store itself. The contents of the default framework table are a constant outside this model.
- Focus and modal state enter as parameters. The Cmd+K focus action changes no modelled state, and handlers' other side effects are left out.
- A patch cannot tell an `undefined` key from a missing one.
- Word and page counts are natural numbers; fractional or negative inputs are not modelled.
- The evolver follows the code, not its documentation. The documentation speaks of validation and configuration errors, but the code has none. The only failures are Python's: `max` over an empty tournament, and `random.sample` with a size of zero or less.
- The two long operation regular expressions in `useSynthLangUtils.ts` are modelled as explicit matchers (`Head`, `OperationMatch`), not as regular expressions.
- SettingsService.Init: the given settings' default model and model table are never used on the stored-object path, as in the source.
- SettingsService.ReloadSeesUpdate: holds only when the update keeps a non-empty default model and every default model, because the start-up repairs those two keys.
- CustomPresetForm.SaveReopen: holds only for non-zero numbers and a non-empty response format, because the form's fallbacks replace those on reopening.
- CustomPresetForm.TemplateLines: the contract fixes only the first line; the later lines are stated by the function itself.
- Documentation.Shortcuts: the contract fixes only the table's length; its keys and actions are stated by Documentation.TableKeys.
- Documentation.OnKey: the contract covers only a press with focus in an input, a textarea or the modal; the other presses are stated by Documentation.FiredExactly, Documentation.NoneFires and Documentation.PressJ.
- SynthLang.WsSplit: the contract states only that the split is never empty, which is all the validator relies on.
- SynthLangUtils.JsonLineError: the contract bounds the errors to one; which error is stated by SynthLangUtils.EntryChecked.
- SynthLangUtils.MultiLineError: the contract bounds the errors to one; the exact matcher is stated by the function itself.
- SynthLangUtils.PlainLineError: the contract bounds the errors to one; which error is stated by SynthLangUtils.PlainStep and the lemmas after it.
- SynthLangUtils.JsonLine: the contract states only what the line keeps; the errors it adds are stated by SynthLangUtils.EntryChecked.
- SynthLangUtils.MultiLine: the contract states only what the line keeps.
- SynthLangUtils.PlainLine: the contract states only what the line keeps; the errors it adds are stated by SynthLangUtils.PlainStep.
- SynthLangUtils.SkipType: the contract states only that skipping never lengthens the text.
- Evolver.Hits: the contract states only the bound; its arithmetic is stated by Evolver.HitsAppend, Evolver.HitsGenerations and Evolver.HitsAllOrNone.

## Findings

| source | as written | input that shows it | evidently intended | confidence | as-written member | corrected member |
|---|---|---|---|---|---|---|
| cli/synthlang/config.py:65 | `update` writes `openai_api_key` to the variable `SYNTHLANG_OPENAI_API_KEY`, but `load` reads `OPENAI_API_KEY` | `update({"openai_api_key": "k"})` followed by a reload | a reload sees the key just set | high, not executed | ConfigManager.ApiKeyLostOnReload | ConfigManager.ReloadSeesUpdate |
| cli/synthlang/core/finetune.py:184 | `load` restores labels and examples, but keeps the current classifier instead of the saved one | loading a saved fine-tuner into a fresh one | the loaded fine-tuner classifies like the saved one | medium, not executed | Finetune.StaleClassifierAfterLoad | Finetune.SaveLoad |
| src/services/templateService.ts:22 | every front-matter line is split at each `: `, and only the second piece is kept | `overview: Note: short` reads as `Note` | the value is everything after the first `: ` | medium, not executed | TemplateService.ValueTruncated | TemplateService.EntryRoundTrip |

=== FILE: config.dfy ===
/** The configuration of the command-line tool: four fields, each read
    from an environment variable with a default, and the variable names
    the configuration manager's update writes them under. */
module Configuration {
  import opened Wrappers
  import opened Text

  datatype Config = Config(openaiApiKey: string, model: string, environment: string, logLevel: string)

  /** The attribute names an update may set. */
  const FIELDS: seq<string> := ["openai_api_key", "model", "environment", "log_level"]

  /** Python `os.getenv(name, default)`. */
  function Getenv(environ: map<string, string>, name: string, default: string): string {
    if name in environ then environ[name] else default
  }

  /** Python `getattr(config, name)` for the four fields; nothing for any other name. */
  function Field(c: Config, name: string): (r: Option<string>)
    ensures r.Some? <==> name in FIELDS
  {
    if name == "openai_api_key" then Some(c.openaiApiKey)
    else if name == "model" then Some(c.model)
    else if name == "environment" then Some(c.environment)
    else if name == "log_level" then Some(c.logLevel)
    else None
  }

  /** Python `setattr(config, name, v)` for one of the four fields. */
  function With(c: Config, name: string, v: string): (r: Config)
    requires name in FIELDS
    ensures Field(r, name) == Some(v)
    ensures forall f | f != name :: Field(r, f) == Field(c, f)
  {
    if name == "openai_api_key" then c.(openaiApiKey := v)
    else if name == "model" then c.(model := v)
    else if name == "environment" then c.(environment := v)
    else c.(logLevel := v)
  }

  /** `ConfigManager.load`: every field from its variable, or its default. */
  function Load(environ: map<string, string>): Config {
    Config(
      Getenv(environ, "OPENAI_API_KEY", ""),
      Getenv(environ, "SYNTHLANG_MODEL", "gpt-4o-mini"),
      Getenv(environ, "SYNTHLANG_ENVIRONMENT", "production"),
      Getenv(environ, "SYNTHLANG_LOG_LEVEL", "INFO"))
  }

  function Default(name: string): string {
    if name == "model" then "gpt-4o-mini"
    else if name == "environment" then "production"
    else if name == "log_level" then "INFO"
    else ""
  }

  /** The variable a field is read from: `SYNTHLANG_` and the upper-cased
      name, except the API key, which is read from `OPENAI_API_KEY`. */
  function ReadName(name: string): string {
    if name == "openai_api_key" then "OPENAI_API_KEY" else "SYNTHLANG_" + Upper(name)
  }

  /** The variable an update writes a field to: always `SYNTHLANG_` and the
      upper-cased name. */
  function WriteName(name: string): string {
    "SYNTHLANG_" + Upper(name)
  }

  lemma UpperNames()
    ensures Upper("model") == "MODEL"
    ensures Upper("environment") == "ENVIRONMENT"
    ensures Upper("log_level") == "LOG_LEVEL"
    ensures Upper("openai_api_key") == "OPENAI_API_KEY"
  {
    UpperModel();
    UpperEnvironment();
    UpperLogLevel();
    UpperApiKey();
  }

  lemma UpperModel()
    ensures Upper("model") == "MODEL"
  {
    var u := Upper("model");
    assert u[0] == 'M' && u[1] == 'O' && u[2] == 'D' && u[3] == 'E' && u[4] == 'L';
  }

  lemma UpperLogLevel()
    ensures Upper("log_level") == "LOG_LEVEL"
  {
    var u := Upper("log_level");
    assert u[0] == 'L' && u[1] == 'O' && u[2] == 'G' && u[3] == '_' && u[4] == 'L';
    assert u[5] == 'E' && u[6] == 'V' && u[7] == 'E' && u[8] == 'L';
  }

  lemma UpperEnvironment()
    ensures Upper("environment") == "ENVIRONMENT"
  {
    var u := Upper("environment");
    assert u[0] == 'E' && u[1] == 'N' && u[2] == 'V' && u[3] == 'I' && u[4] == 'R' && u[5] == 'O';
    assert u[6] == 'N' && u[7] == 'M' && u[8] == 'E' && u[9] == 'N' && u[10] == 'T';
  }

  lemma UpperApiKey()
    ensures Upper("openai_api_key") == "OPENAI_API_KEY"
  {
    var u := Upper("openai_api_key");
    assert u[0] == 'O' && u[1] == 'P' && u[2] == 'E' && u[3] == 'N' && u[4] == 'A' && u[5] == 'I' && u[6] == '_';
    assert u[7] == 'A' && u[8] == 'P' && u[9] == 'I' && u[10] == '_' && u[11] == 'K' && u[12] == 'E' && u[13] == 'Y';
  }

  /** Loading reads each field from the variable `ReadName` names, with its default. */
  lemma LoadReadsNames(environ: map<string, string>, f: string)
    requires f in FIELDS
    ensures Field(Load(environ), f) == Some(Getenv(environ, ReadName(f), Default(f)))
  {
    UpperNames();
    if f == "model" {
      assert ReadName(f) == "SYNTHLANG_MODEL";
    } else if f == "environment" {
      assert ReadName(f) == "SYNTHLANG_ENVIRONMENT";
    } else if f == "log_level" {
      assert ReadName(f) == "SYNTHLANG_LOG_LEVEL";
    }
  }

  /** With nothing set, every field has its default. */
  lemma LoadDefaults()
    ensures Load(map[]) == Config("", "gpt-4o-mini", "production", "INFO")
  {
  }

  /** The variables the four fields are read from. */
  const READ_NAMES: seq<string> := ["OPENAI_API_KEY", "SYNTHLANG_MODEL", "SYNTHLANG_ENVIRONMENT", "SYNTHLANG_LOG_LEVEL"]

  lemma ReadNamesDistinct(f: string, g: string)
    requires f in FIELDS && g in FIELDS
    ensures ReadName(f) == ReadName(g) <==> f == g
  {
    UpperNames();
    assert "OPENAI_API_KEY"[0] != "SYNTHLANG_MODEL"[0];
    assert "SYNTHLANG_MODEL"[10] != "SYNTHLANG_ENVIRONMENT"[10];
    assert "SYNTHLANG_MODEL"[10] != "SYNTHLANG_LOG_LEVEL"[10];
    assert "SYNTHLANG_ENVIRONMENT"[10] != "SYNTHLANG_LOG_LEVEL"[10];
  }

  /** Each field is read from one of the listed variables. */
  lemma ReadNameListed(f: string)
    requires f in FIELDS
    ensures ReadName(f) in READ_NAMES
  {
    UpperNames();
    if f == "model" {
      assert ReadName(f) == READ_NAMES[1];
    } else if f == "environment" {
      assert ReadName(f) == READ_NAMES[2];
    } else if f == "log_level" {
      assert ReadName(f) == READ_NAMES[3];
    }
  }
}

=== FILE: config_update.dfy ===
/** `ConfigManager.update`: every key is checked against the loaded
    configuration's attributes in order, each accepted value is written to
    the process environment and to the `.env` entries, and the file is
    rewritten once every key has been accepted. */
module ConfigManager {
  import opened Wrappers
  import opened Text
  import opened DotEnv
  import opened Configuration

  /** What Python's attribute protocol says of a configuration object beyond
      its four fields, which it always has: `has(k)` is `hasattr(config, k)`,
      true as well for the methods and class attributes the model class
      inherits (`json`, `dict`, `__doc__`, ...), and `settable(k)` says
      whether `setattr(config, k, value)` succeeds for such a non-field
      attribute; the model class refuses every name that does not start
      with an underscore. Which attributes the data-model library defines is
      not part of this model. */
  datatype Attributes = Attributes(has: string -> bool, settable: string -> bool)

  /** An object whose only attributes are its four fields. */
  const FIELDS_ONLY: Attributes := Attributes(k => k in FIELDS, k => false)

  /** Python `hasattr(config, k)`. */
  predicate HasAttr(attrs: Attributes, k: string) {
    k in FIELDS || attrs.has(k)
  }

  /** A key the update gets past: a field, or another attribute that can be set. */
  predicate Accepted(attrs: Attributes, k: string) {
    k in FIELDS || (attrs.has(k) && attrs.settable(k))
  }

  predicate AllAccepted(attrs: Attributes, updates: seq<(string, string)>) {
    forall i | 0 <= i < |updates| :: Accepted(attrs, updates[i].0)
  }

  /** Every key names a field. */
  predicate AllValid(updates: seq<(string, string)>) {
    forall i | 0 <= i < |updates| :: updates[i].0 in FIELDS
  }

  function InvalidKey(k: string): string {
    "Invalid configuration key: " + k
  }

  /** The model class's refusal to set an attribute that is not a field. */
  function NoField(k: string): string {
    "\"Config\" object has no field \"" + k + "\""
  }

  /** The error a key that is not accepted stops the update with. */
  function Rejection(attrs: Attributes, k: string): string {
    if HasAttr(attrs, k) then NoField(k) else InvalidKey(k)
  }

  /** The state an update has reached: the error that stopped it, if any, and
      the configuration, environment and `.env` entries so far. */
  datatype Applied = Applied(bad: Option<string>, config: Config, environ: map<string, string>, content: Entries)

  /** One update `(k, v)`: a key that is no attribute stops the loop before
      anything is written; otherwise `v` goes to the environment and to the
      entries under `name(k)`, and then setting the attribute changes the
      field `k` names, changes no field for another settable attribute, and
      stops the loop for any other attribute. */
  function Step(attrs: Attributes, name: string -> string, prev: Applied, kv: (string, string)): (r: Applied)
    ensures Accepted(attrs, kv.0) ==> r.bad == prev.bad
    ensures !Accepted(attrs, kv.0) ==> r.bad == Some(Rejection(attrs, kv.0))
    ensures HasAttr(attrs, kv.0) ==> r.environ == prev.environ[name(kv.0) := kv.1] && r.content == Put(prev.content, name(kv.0), kv.1)
    ensures !HasAttr(attrs, kv.0) ==> r.environ == prev.environ && r.content == prev.content
    ensures kv.0 in FIELDS ==> r.config == With(prev.config, kv.0, kv.1)
    ensures kv.0 !in FIELDS ==> r.config == prev.config
  {
    var (k, v) := kv;
    if !HasAttr(attrs, k) then prev.(bad := Some(InvalidKey(k)))
    else
      var written := prev.(environ := prev.environ[name(k) := v], content := Put(prev.content, name(k), v));
      if k in FIELDS then written.(config := With(prev.config, k, v))
      else if attrs.settable(k) then written
      else written.(bad := Some(NoField(k)))
  }

  /** The updates applied in order until one stops the loop, leaving the
      changes already made in place. */
  function ApplyUpdates(attrs: Attributes, name: string -> string, start: Applied, updates: seq<(string, string)>): (r: Applied)
    decreases |updates|
  {
    if |updates| == 0 then start
    else
      var prev := ApplyUpdates(attrs, name, start, updates[..|updates| - 1]);
      if prev.bad.Some? then prev else Step(attrs, name, prev, updates[|updates| - 1])
  }

  /** The value of the last update whose key `name` maps to `n`. */
  function LastSet(name: string -> string, updates: seq<(string, string)>, n: string): (r: Option<string>)
    ensures r.Some? ==> exists i | 0 <= i < |updates| :: name(updates[i].0) == n && updates[i].1 == r.value
    ensures r.None? <==> forall i | 0 <= i < |updates| :: name(updates[i].0) != n
    decreases |updates|
  {
    if |updates| == 0 then None
    else if name(updates[|updates| - 1].0) == n then Some(updates[|updates| - 1].1)
    else
      var r := LastSet(name, updates[..|updates| - 1], n);
      assert forall i | 0 <= i < |updates| - 1 :: updates[..|updates| - 1][i] == updates[i];
      r
  }

  /** The update stops exactly when some key is not accepted. */
  lemma {:induction false} ApplyAccepts(attrs: Attributes, name: string -> string, start: Applied, updates: seq<(string, string)>)
    requires start.bad.None?
    ensures ApplyUpdates(attrs, name, start, updates).bad.None? <==> AllAccepted(attrs, updates)
    decreases |updates|
  {
    if |updates| > 0 {
      var last := |updates| - 1;
      var init := updates[..last];
      ApplyAccepts(attrs, name, start, init);
      ApplyLast(attrs, name, start, updates);
      assert AllAccepted(attrs, updates) <==> AllAccepted(attrs, init) && Accepted(attrs, updates[last].0) by {
        assert forall i | 0 <= i < last :: init[i] == updates[i];
      }
    }
  }

  /** An update that stops, stops at the first key not accepted, right
      after that key's step. */
  lemma {:induction false} ApplyRejects(attrs: Attributes, name: string -> string, start: Applied, updates: seq<(string, string)>)
    requires start.bad.None?
    ensures ApplyUpdates(attrs, name, start, updates).bad.Some? ==> StopsSomewhere(attrs, name, start, updates)
    decreases |updates|, 1
  {
    if |updates| > 0 {
      var init := updates[..|updates| - 1];
      ApplyAccepts(attrs, name, start, init);
      if !AllAccepted(attrs, init) {
        StopCarries(attrs, name, start, updates);
      } else if !Accepted(attrs, updates[|updates| - 1].0) {
        StopHere(attrs, name, start, updates);
      }
    }
  }

  /** The update stopped at the key `j`: all keys before it were accepted,
      it was not, and its step is the last one taken. */
  predicate StopsAt(attrs: Attributes, name: string -> string, start: Applied, updates: seq<(string, string)>, j: int) {
    && 0 <= j < |updates|
    && !Accepted(attrs, updates[j].0)
    && AllAccepted(attrs, updates[..j])
    && ApplyUpdates(attrs, name, start, updates) == Step(attrs, name, ApplyUpdates(attrs, name, start, updates[..j]), updates[j])
  }

  predicate StopsSomewhere(attrs: Attributes, name: string -> string, start: Applied, updates: seq<(string, string)>) {
    exists j | 0 <= j < |updates| :: StopsAt(attrs, name, start, updates, j)
  }

  /** What a stopped update leaves: the rejection of the first key not
      accepted, and the environment as the keys before it left it, plus
      that key's own write when it names an attribute. */
  lemma StopEffects(attrs: Attributes, name: string -> string, start: Applied, updates: seq<(string, string)>)
    requires start.bad.None? && !AllAccepted(attrs, updates)
    ensures exists j | 0 <= j < |updates| ::
      && !Accepted(attrs, updates[j].0) && AllAccepted(attrs, updates[..j])
      && ApplyUpdates(attrs, name, start, updates).bad == Some(Rejection(attrs, updates[j].0))
      && ApplyUpdates(attrs, name, start, updates).environ
         == (if HasAttr(attrs, updates[j].0)
             then ApplyUpdates(attrs, name, start, updates[..j]).environ[name(updates[j].0) := updates[j].1]
             else ApplyUpdates(attrs, name, start, updates[..j]).environ)
  {
    ApplyAccepts(attrs, name, start, updates);
    ApplyRejects(attrs, name, start, updates);
    var j :| 0 <= j < |updates| && StopsAt(attrs, name, start, updates, j);
    ApplyAccepts(attrs, name, start, updates[..j]);
  }

  /** A stop before the last update is where the whole update stops. */
  lemma StopCarries(attrs: Attributes, name: string -> string, start: Applied, updates: seq<(string, string)>)
    requires start.bad.None? && |updates| > 0 && !AllAccepted(attrs, updates[..|updates| - 1])
    ensures StopsSomewhere(attrs, name, start, updates)
    decreases |updates|, 0
  {
    var init := updates[..|updates| - 1];
    ApplyAccepts(attrs, name, start, init);
    ApplyRejects(attrs, name, start, init);
    var j :| 0 <= j < |init| && StopsAt(attrs, name, start, init, j);
    assert init[j] == updates[j] && init[..j] == updates[..j];
    ApplyLast(attrs, name, start, updates);
    assert StopsAt(attrs, name, start, updates, j);
  }

  /** All keys but the last accepted and the last not: the update stops there. */
  lemma StopHere(attrs: Attributes, name: string -> string, start: Applied, updates: seq<(string, string)>)
    requires |updates| > 0
    requires start.bad.None? && AllAccepted(attrs, updates[..|updates| - 1]) && !Accepted(attrs, updates[|updates| - 1].0)
    ensures StopsSomewhere(attrs, name, start, updates)
  {
    ApplyAccepts(attrs, name, start, updates[..|updates| - 1]);
    ApplyLast(attrs, name, start, updates);
    assert StopsAt(attrs, name, start, updates, |updates| - 1);
  }

  /** The last update is skipped once the loop has stopped, and applied
      otherwise. */
  lemma ApplyLast(attrs: Attributes, name: string -> string, start: Applied, updates: seq<(string, string)>)
    requires |updates| > 0
    ensures var prev := ApplyUpdates(attrs, name, start, updates[..|updates| - 1]);
      ApplyUpdates(attrs, name, start, updates) == if prev.bad.Some? then prev else Step(attrs, name, prev, updates[|updates| - 1])
  {
  }

  /** With every key accepted, each field ends with its last update, or its
      starting value when no update names it. */
  lemma {:induction false} ApplyConfig(attrs: Attributes, name: string -> string, start: Applied, updates: seq<(string, string)>, f: string)
    requires start.bad.None? && AllAccepted(attrs, updates) && f in FIELDS
    ensures var r := ApplyUpdates(attrs, name, start, updates);
      && r.bad.None?
      && Field(r.config, f) == (if LastSet(n => n, updates, f).Some? then LastSet(n => n, updates, f) else Field(start.config, f))
    decreases |updates|
  {
    if |updates| > 0 {
      var init := updates[..|updates| - 1];
      assert forall i | 0 <= i < |init| :: init[i] == updates[i];
      ApplyConfig(attrs, name, start, init, f);
    }
  }

  /** With every key accepted, each variable ends with the last value written
      to it, and every variable nothing is written to keeps its presence
      and value. */
  lemma {:induction false} ApplyEnviron(attrs: Attributes, name: string -> string, start: Applied, updates: seq<(string, string)>, n: string)
    requires start.bad.None? && AllAccepted(attrs, updates)
    ensures var r := ApplyUpdates(attrs, name, start, updates);
      && (LastSet(name, updates, n).Some? ==> n in r.environ && r.environ[n] == LastSet(name, updates, n).value)
      && (LastSet(name, updates, n).None? ==> (n in r.environ <==> n in start.environ) && (n in start.environ ==> r.environ[n] == start.environ[n]))
    decreases |updates|
  {
    if |updates| > 0 {
      var init := updates[..|updates| - 1];
      assert forall i | 0 <= i < |init| :: init[i] == updates[i];
      ApplyEnviron(attrs, name, start, init, n);
      ApplyAccepts(attrs, name, start, init);
    }
  }

  /** With every key accepted, each `.env` key ends with the last value
      written to it, or its starting value. */
  lemma {:induction false} ApplyContent(attrs: Attributes, name: string -> string, start: Applied, updates: seq<(string, string)>, n: string)
    requires start.bad.None? && AllAccepted(attrs, updates)
    ensures Get(ApplyUpdates(attrs, name, start, updates).content, n)
         == (if LastSet(name, updates, n).Some? then LastSet(name, updates, n) else Get(start.content, n))
    decreases |updates|
  {
    if |updates| > 0 {
      var init := updates[..|updates| - 1];
      assert forall i | 0 <= i < |init| :: init[i] == updates[i];
      ApplyContent(attrs, name, start, init, n);
      ApplyAccepts(attrs, name, start, init);
      var prev := ApplyUpdates(attrs, name, start, init);
      var (k, v) := updates[|updates| - 1];
      PutGet(prev.content, name(k), v, n);
    }
  }

  /** What `ConfigManager.update` leaves behind: the returned configuration
      or the error, the process environment, and the `.env` file. */
  datatype Outcome = Outcome(result: Result<Config>, environ: map<string, string>, dotenv: Option<seq<string>>)

  /** The update, with `name` choosing the variable each key is written to. */
  function UpdateWith(attrs: Attributes, name: string -> string, environ: map<string, string>, dotenv: Option<seq<string>>,
                      updates: seq<(string, string)>): (r: Outcome)
    ensures r.result.Err? <==> !AllAccepted(attrs, updates)
    ensures r.result.Err? ==> r.dotenv == dotenv
    ensures r.result.Err? ==> exists j | 0 <= j < |updates| ::
      && !Accepted(attrs, updates[j].0) && AllAccepted(attrs, updates[..j])
      && r.result.msg == Rejection(attrs, updates[j].0)
      && r.environ == (if HasAttr(attrs, updates[j].0)
                       then UpdateWith(attrs, name, environ, dotenv, updates[..j]).environ[name(updates[j].0) := updates[j].1]
                       else UpdateWith(attrs, name, environ, dotenv, updates[..j]).environ)
    ensures r.result.Ok? ==> r.dotenv.Some?
  {
    var start := Applied(None, Load(environ), environ, ReadDotEnv(dotenv));
    var a := ApplyUpdates(attrs, name, start, updates);
    ApplyAccepts(attrs, name, start, updates);
    if a.bad.Some? then
      StopEffects(attrs, name, start, updates);
      Outcome(Err(a.bad.value), a.environ, dotenv)
    else
      Outcome(Ok(a.config), a.environ, Some(Render(a.content)))
  }

  /** With only the four fields as attributes, a key is accepted exactly
      when it names a field, and any other key is reported as invalid
      before anything is written. */
  lemma FieldsOnly(updates: seq<(string, string)>, k: string)
    ensures AllAccepted(FIELDS_ONLY, updates) <==> AllValid(updates)
    ensures k !in FIELDS ==> Rejection(FIELDS_ONLY, k) == InvalidKey(k) && !HasAttr(FIELDS_ONLY, k)
  {
  }

  /** A key naming an inherited method, such as `json`, passes the attribute
      test: its value reaches the environment before setting the attribute
      fails, and the `.env` file is left as it was. */
  lemma MethodKey(attrs: Attributes, environ: map<string, string>, dotenv: Option<seq<string>>)
    requires attrs.has("json") && !attrs.settable("json")
    ensures var r := UpdateAsWritten(attrs, environ, dotenv, [("json", "x")]);
      && r.result == Err(NoField("json"))
      && r.environ == environ[WriteName("json") := "x"]
      && r.dotenv == dotenv
  {
    var updates := [("json", "x")];
    assert "json" !in FIELDS;
    assert updates[..0] == [];
    assert ApplyUpdates(attrs, WriteName, Applied(None, Load(environ), environ, ReadDotEnv(dotenv)), updates[..0]).bad.None?;
  }

  /** A successful update returns the loaded configuration with each
      updated field set to its last value and every other field unchanged;
      each written variable holds its last value and no other variable
      changes. */
  lemma UpdateEffects(attrs: Attributes, name: string -> string, environ: map<string, string>, dotenv: Option<seq<string>>,
                      updates: seq<(string, string)>)
    requires AllAccepted(attrs, updates)
    ensures var r := UpdateWith(attrs, name, environ, dotenv, updates);
      && r.result.Ok?
      && (forall f | f in FIELDS ::
            Field(r.result.value, f) == (if LastSet(n => n, updates, f).Some? then LastSet(n => n, updates, f) else Field(Load(environ), f)))
      && (forall n | LastSet(name, updates, n).Some? :: n in r.environ && r.environ[n] == LastSet(name, updates, n).value)
      && (forall n | LastSet(name, updates, n).None? :: (n in r.environ <==> n in environ) && (n in environ ==> r.environ[n] == environ[n]))
  {
    var start := Applied(None, Load(environ), environ, ReadDotEnv(dotenv));
    ApplyAccepts(attrs, name, start, updates);
    forall f | f in FIELDS
      ensures var r := ApplyUpdates(attrs, name, start, updates);
        Field(r.config, f) == (if LastSet(n => n, updates, f).Some? then LastSet(n => n, updates, f) else Field(start.config, f))
    {
      ApplyConfig(attrs, name, start, updates, f);
    }
    forall n
      ensures var r := ApplyUpdates(attrs, name, start, updates);
        && (LastSet(name, updates, n).Some? ==> n in r.environ && r.environ[n] == LastSet(name, updates, n).value)
        && (LastSet(name, updates, n).None? ==> (n in r.environ <==> n in start.environ) && (n in start.environ ==> r.environ[n] == start.environ[n]))
    {
      ApplyEnviron(attrs, name, start, updates, n);
    }
  }

  /** A value that keeps its last character through a strip and stays on
      one line when written. */
  predicate SolidValue(v: string) {
    OneLine(v) && (v == [] || !IsPySpace(v[|v| - 1]))
  }

  predicate SolidValues(updates: seq<(string, string)>) {
    forall i | 0 <= i < |updates| :: SolidValue(updates[i].1)
  }

  /** Variable names that survive a write and a re-read as `.env` keys. */
  predicate CleanKeys(name: string -> string, updates: seq<(string, string)>) {
    forall i | 0 <= i < |updates| :: CleanEntry((name(updates[i].0), "")) && OneLine(name(updates[i].0))
  }

  /** The written `.env`, read back, holds the last value written to each
      key and the old value of every other key. */
  lemma UpdatePersists(attrs: Attributes, name: string -> string, environ: map<string, string>, dotenv: Option<seq<string>>,
                       updates: seq<(string, string)>)
    requires AllAccepted(attrs, updates) && SolidValues(updates) && CleanKeys(name, updates)
    ensures var r := UpdateWith(attrs, name, environ, dotenv, updates);
      && r.dotenv.Some?
      && forall n :: Get(ReadDotEnv(r.dotenv), n) == (if LastSet(name, updates, n).Some? then LastSet(name, updates, n) else Get(ReadDotEnv(dotenv), n))
  {
    var start := Applied(None, Load(environ), environ, ReadDotEnv(dotenv));
    ApplyAccepts(attrs, name, start, updates);
    forall n
      ensures Get(ApplyUpdates(attrs, name, start, updates).content, n)
           == (if LastSet(name, updates, n).Some? then LastSet(name, updates, n) else Get(start.content, n))
    {
      ApplyContent(attrs, name, start, updates, n);
    }
    ReadWritable(dotenv);
    ApplyWritable(attrs, name, start, updates);
    RereadRender(ApplyUpdates(attrs, name, start, updates).content);
  }

  /** Accepted updates with clean names and values keep the entries
      restorable. */
  lemma {:induction false} ApplyWritable(attrs: Attributes, name: string -> string, start: Applied, updates: seq<(string, string)>)
    requires start.bad.None? && Writable(start.content) && AllAccepted(attrs, updates) && SolidValues(updates) && CleanKeys(name, updates)
    ensures Writable(ApplyUpdates(attrs, name, start, updates).content)
    decreases |updates|
  {
    if |updates| > 0 {
      var init := updates[..|updates| - 1];
      assert forall i | 0 <= i < |init| :: init[i] == updates[i];
      ApplyWritable(attrs, name, start, init);
      ApplyAccepts(attrs, name, start, init);
      var prev := ApplyUpdates(attrs, name, start, init);
      var (k, v) := updates[|updates| - 1];
      assert CleanEntry((name(k), "")) && OneLine(name(k)) && SolidValue(v);
      PutClean(prev.content, name(k), v);
      PutShape(prev.content, name(k), v);
    }
  }

  /** A value holding a line break is written on two lines, and the second
      reads back as an entry of its own. */
  lemma LineBreakInValue(attrs: Attributes)
    ensures var r := UpdateAsWritten(attrs, map[], None, [("model", "x\nA=b")]);
      && r.result.Ok?
      && Get(ReadDotEnv(r.dotenv), "A") == Some("b")
      && Get(ReadDotEnv(r.dotenv), WriteName("model")) == Some("x")
  {
    var key := WriteName("model");
    assert CleanEntry((key, "x")) && FlatEntry((key, "x")) && key != "A" by {
      UpperModel();
      assert key == "SYNTHLANG_MODEL";
    }
    assert "x\nA=b" == "x" + "\n" + "A" + "=" + "b";
    BreakInValue(attrs, "model", "x", "A", "b");
  }

  /** Setting a field to `v1`, a line break and `k2=v2` leaves a `.env`
      that reads `v1` for the field's variable and `v2` for `k2`. */
  lemma BreakInValue(attrs: Attributes, f: string, v1: string, k2: string, v2: string)
    requires f in FIELDS && WriteName(f) != k2
    requires CleanEntry((WriteName(f), v1)) && FlatEntry((WriteName(f), v1)) && CleanEntry((k2, v2)) && FlatEntry((k2, v2))
    ensures var r := UpdateAsWritten(attrs, map[], None, [(f, v1 + "\n" + k2 + "=" + v2)]);
      && r.result.Ok?
      && Get(ReadDotEnv(r.dotenv), k2) == Some(v2)
      && Get(ReadDotEnv(r.dotenv), WriteName(f)) == Some(v1)
  {
    var key, v := WriteName(f), v1 + "\n" + k2 + "=" + v2;
    SingleUpdate(attrs, WriteName, f, v);
    var line := key + "=" + v;
    assert line == key + "=" + v1 + "\n" + k2 + "=" + v2;
    TwoEntriesOnOneLine(key, v1, k2, v2, line);
  }

  /** Setting one field with no environment and no `.env` writes a file of
      one line. */
  lemma SingleUpdate(attrs: Attributes, name: string -> string, f: string, v: string)
    requires f in FIELDS
    ensures var r := UpdateWith(attrs, name, map[], None, [(f, v)]);
      r.result.Ok? && r.dotenv == Some([name(f) + "=" + v])
  {
    var updates := [(f, v)];
    assert AllAccepted(attrs, updates);
    var start := Applied(None, Load(map[]), map[], []);
    assert updates[..0] == [];
    assert ApplyUpdates(attrs, name, start, updates[..0]) == start;
    var a := ApplyUpdates(attrs, name, start, updates);
    assert a == Step(attrs, name, start, updates[0]);
    assert a.content == [(name(f), v)];
    var line := name(f) + "=" + v;
    assert |Render(a.content)| == 1 && Render(a.content)[0] == line;
    assert Render(a.content) == [line];
  }

  /** `ConfigManager.update` as written: values go to `SYNTHLANG_` plus the
      upper-cased key, including the API key. */
  function UpdateAsWritten(attrs: Attributes, environ: map<string, string>, dotenv: Option<seq<string>>, updates: seq<(string, string)>): Outcome {
    UpdateWith(attrs, WriteName, environ, dotenv, updates)
  }

  /** An API key set through an update is lost on the next load: it is
      written to `SYNTHLANG_OPENAI_API_KEY`, but loading reads `OPENAI_API_KEY`. */
  lemma ApiKeyLostOnReload(attrs: Attributes)
    ensures var r := UpdateAsWritten(attrs, map[], None, [("openai_api_key", "sk-new")]);
      && r.result == Ok(Config("sk-new", "gpt-4o-mini", "production", "INFO"))
      && Load(r.environ).openaiApiKey == ""
  {
    var updates := [("openai_api_key", "sk-new")];
    var r := UpdateAsWritten(attrs, map[], None, updates);
    assert AllAccepted(attrs, updates);
    UpdateEffects(attrs, WriteName, map[], None, updates);
    assert LastSet(n => n, updates, "openai_api_key") == Some("sk-new");
    assert r.result.value == Config("sk-new", "gpt-4o-mini", "production", "INFO") by {
      assert Field(r.result.value, "openai_api_key") == Some("sk-new");
      assert Field(r.result.value, "model") == Some("gpt-4o-mini");
      assert Field(r.result.value, "environment") == Some("production");
      assert Field(r.result.value, "log_level") == Some("INFO");
    }
    assert WriteName("openai_api_key")[0] == 'S';
    assert LastSet(WriteName, updates, "OPENAI_API_KEY").None?;
  }

  /** No key other than a field writes a variable a field is read from. The
      only non-field attributes that can be set start with an underscore,
      so their variables start `SYNTHLANG__` and never clash. */
  predicate NoReadClash(updates: seq<(string, string)>) {
    forall i | 0 <= i < |updates| :: updates[i].0 in FIELDS || ReadName(updates[i].0) !in READ_NAMES
  }

  /** `ConfigManager.update` writing each field to the variable it is read from. */
  function Update(attrs: Attributes, environ: map<string, string>, dotenv: Option<seq<string>>, updates: seq<(string, string)>): (r: Outcome)
    ensures r.result.Err? <==> !AllAccepted(attrs, updates)
    ensures r.result.Err? ==> r.dotenv == dotenv
    ensures r.result.Ok? ==> r.dotenv.Some?
    ensures r.result.Ok? && NoReadClash(updates) ==> Load(r.environ) == r.result.value
  {
    var r := UpdateWith(attrs, ReadName, environ, dotenv, updates);
    assert r.result.Ok? && NoReadClash(updates) ==> Load(r.environ) == r.result.value by {
      if AllAccepted(attrs, updates) && NoReadClash(updates) {
        ReloadSeesUpdate(attrs, environ, dotenv, updates);
      }
    }
    r
  }

  /** With each field written where it is read, loading after an update
      yields the configuration the update returned. */
  lemma ReloadSeesUpdate(attrs: Attributes, environ: map<string, string>, dotenv: Option<seq<string>>, updates: seq<(string, string)>)
    requires AllAccepted(attrs, updates) && NoReadClash(updates)
    ensures var r := UpdateWith(attrs, ReadName, environ, dotenv, updates);
      r.result.Ok? && Load(r.environ) == r.result.value
  {
    var r := UpdateWith(attrs, ReadName, environ, dotenv, updates);
    ReloadField(attrs, environ, dotenv, updates, "openai_api_key");
    ReloadField(attrs, environ, dotenv, updates, "model");
    ReloadField(attrs, environ, dotenv, updates, "environment");
    ReloadField(attrs, environ, dotenv, updates, "log_level");
    var c, d := Load(r.environ), r.result.value;
    assert c.openaiApiKey == d.openaiApiKey && c.model == d.model;
    assert c.environment == d.environment && c.logLevel == d.logLevel;
  }

  /** One field of the reloaded configuration is the updated one. */
  lemma ReloadField(attrs: Attributes, environ: map<string, string>, dotenv: Option<seq<string>>, updates: seq<(string, string)>, f: string)
    requires AllAccepted(attrs, updates) && NoReadClash(updates) && f in FIELDS
    ensures var r := UpdateWith(attrs, ReadName, environ, dotenv, updates);
      r.result.Ok? && Field(Load(r.environ), f) == Field(r.result.value, f)
  {
    var r := UpdateWith(attrs, ReadName, environ, dotenv, updates);
    UpdateEffects(attrs, ReadName, environ, dotenv, updates);
    LoadReadsNames(r.environ, f);
    LoadReadsNames(environ, f);
    LastSetRenamed(updates, f);
  }

  /** Fields are read from distinct variables no other key writes, so the
      last value written to a field's variable is the last update of that
      field. */
  lemma {:induction false} LastSetRenamed(updates: seq<(string, string)>, f: string)
    requires NoReadClash(updates) && f in FIELDS
    ensures LastSet(ReadName, updates, ReadName(f)) == LastSet(n => n, updates, f)
    decreases |updates|
  {
    if |updates| > 0 {
      var init := updates[..|updates| - 1];
      assert forall i | 0 <= i < |init| :: init[i] == updates[i];
      LastSetRenamed(init, f);
      var k := updates[|updates| - 1].0;
      if k in FIELDS {
        ReadNamesDistinct(k, f);
      } else {
        ReadNameListed(f);
      }
    }
  }
}

=== FILE: custom_preset_form.dfy ===
/** The form that creates or edits a preset: its starting values, the
    SynthLang prompt it generates when the user writes none, the preset its
    save builds, and when the save button is enabled. How JavaScript prints
    a number is supplied as a function; the fresh id and the time stamp are
    supplied values. */
module CustomPresetForm {
  import opened Wrappers
  import opened Text
  import opened Presets

  /** The form's fields. */
  datatype Values = Values(
    name: string,
    description: string,
    model: string,
    temperature: real,
    maxTokens: real,
    topP: real,
    frequencyPenalty: real,
    presencePenalty: real,
    streamingEnabled: bool,
    cacheEnabled: bool,
    batchProcessing: bool,
    compression: bool,
    customPrompt: string,
    responseFormat: string)

  const DEFAULT_TEMPERATURE: real := 0.7
  const DEFAULT_MAX_TOKENS: real := 2048.0
  const DEFAULT_TOP_P: real := 0.9
  const DEFAULT_FREQUENCY_PENALTY: real := 0.3
  const DEFAULT_PRESENCE_PENALTY: real := 0.3
  const DEFAULT_RESPONSE_FORMAT: string := "json"
  const DEFAULT_TAGS: seq<string> := ["custom"]

  /** `x || fallback` for a number: zero is falsy. */
  function OrNumber(x: real, fallback: real): (r: real)
    ensures x != 0.0 ==> r == x
    ensures x == 0.0 ==> r == fallback
  {
    if x != 0.0 then x else fallback
  }

  /** `x || fallback` for a string: the empty string is falsy. */
  function OrText(x: string, fallback: string): (r: string)
    ensures x != "" ==> r == x
    ensures x == "" ==> r == fallback
  {
    if x != "" then x else fallback
  }

  function OptionalText(x: Option<string>): string {
    if x.Some? then x.value else ""
  }

  /** The form's starting values: empty for a new preset; for an edit, the
      preset's values, where a zero number or an empty text falls back to
      the default and an absent switch takes its default. */
  function InitialValues(initial: Option<Preset>): (v: Values)
    ensures initial.None? ==> v == Values("", "", "", DEFAULT_TEMPERATURE, DEFAULT_MAX_TOKENS, DEFAULT_TOP_P,
      DEFAULT_FREQUENCY_PENALTY, DEFAULT_PRESENCE_PENALTY, true, true, false, true, "", DEFAULT_RESPONSE_FORMAT)
    ensures initial.Some? ==> var p := initial.value;
      && v.name == p.name && v.description == p.description && v.model == p.settings.model
      && (p.settings.temperature != 0.0 ==> v.temperature == p.settings.temperature)
      && (p.settings.temperature == 0.0 ==> v.temperature == DEFAULT_TEMPERATURE)
      && (p.settings.maxTokens != 0.0 ==> v.maxTokens == p.settings.maxTokens)
      && (p.settings.maxTokens == 0.0 ==> v.maxTokens == DEFAULT_MAX_TOKENS)
      && v.topP == OrNumber(p.settings.topP, DEFAULT_TOP_P)
      && v.frequencyPenalty == OrNumber(p.settings.frequencyPenalty, DEFAULT_FREQUENCY_PENALTY)
      && v.presencePenalty == OrNumber(p.settings.presencePenalty, DEFAULT_PRESENCE_PENALTY)
      && v.streamingEnabled == OrSwitch(Switches(p).streamingEnabled, true)
      && v.cacheEnabled == OrSwitch(Switches(p).cacheEnabled, true)
      && v.batchProcessing == OrSwitch(Switches(p).batchProcessing, false)
      && v.compression == OrSwitch(Switches(p).compression, true)
      && v.customPrompt == OptionalText(Switches(p).customPrompt)
      && v.responseFormat == OrText(OptionalText(Switches(p).responseFormat), DEFAULT_RESPONSE_FORMAT)
  {
    match initial
    case None =>
      Values("", "", "", DEFAULT_TEMPERATURE, DEFAULT_MAX_TOKENS, DEFAULT_TOP_P,
        DEFAULT_FREQUENCY_PENALTY, DEFAULT_PRESENCE_PENALTY, true, true, false, true, "", DEFAULT_RESPONSE_FORMAT)
    case Some(p) =>
      var s := Switches(p);
      Values(
        p.name, p.description, p.settings.model,
        OrNumber(p.settings.temperature, DEFAULT_TEMPERATURE),
        OrNumber(p.settings.maxTokens, DEFAULT_MAX_TOKENS),
        OrNumber(p.settings.topP, DEFAULT_TOP_P),
        OrNumber(p.settings.frequencyPenalty, DEFAULT_FREQUENCY_PENALTY),
        OrNumber(p.settings.presencePenalty, DEFAULT_PRESENCE_PENALTY),
        OrSwitch(s.streamingEnabled, true),
        OrSwitch(s.cacheEnabled, true),
        OrSwitch(s.batchProcessing, false),
        OrSwitch(s.compression, true),
        OptionalText(s.customPrompt),
        OrText(OptionalText(s.responseFormat), DEFAULT_RESPONSE_FORMAT))
  }

  function BoolText(b: bool): string {
    if b then "true" else "false"
  }

  /** The first line of the generated prompt. */
  function Header(model: string): string {
    "↹ model." + model + " @openrouter"
  }

  /** `generateSynthLangPrompt` over the form's values, one line per entry. */
  function TemplateLines(v: Values, num: real -> string): (lines: seq<string>)
    ensures |lines| > 1 && lines[0] == Header(v.model)
  {
    [Header(v.model),
     "⊕ context(" + num(v.maxTokens) + ") ^format(" + OrText(v.responseFormat, DEFAULT_RESPONSE_FORMAT) + ")",
     "",
     "# Optimizations",
     "⊕ optimize [",
     "  temperature: " + num(v.temperature) + ",",
     "  streaming: " + BoolText(v.streamingEnabled) + ",",
     "  cache: " + BoolText(v.cacheEnabled) + ",",
     "  batch: " + BoolText(v.batchProcessing),
     "]",
     "",
     "# Features",
     "⊕ features [",
     "  contextWindow: " + num(v.maxTokens) + ",",
     "  topP: " + num(v.topP) + ",",
     "  frequencyPenalty: " + num(v.frequencyPenalty) + ",",
     "  presencePenalty: " + num(v.presencePenalty),
     "]",
     "",
     "# Configuration",
     "⊕ config [",
     "  compression: " + BoolText(v.compression) + ",",
     "  mode: \"optimized\"",
     "]"]
  }

  function Template(v: Values, num: real -> string): string {
    Join(TemplateLines(v, num), "\n")
  }

  /** The generated prompt opens with the model line, whatever the rest. */
  lemma TemplateHeader(v: Values, num: real -> string)
    requires '\n' !in v.model
    ensures Split(Template(v, num), "\n")[0] == Header(v.model)
  {
    var lines := TemplateLines(v, num);
    var rest := Join(lines[1..], "\n");
    assert lines == [lines[0]] + lines[1..];
    JoinCons(lines[0], lines[1..], "\n");
    assert Template(v, num) == Header(v.model) + ['\n'] + rest;
    assert '\n' !in Header(v.model);
    FirstSeparator(Header(v.model), '\n', rest);
  }

  /** `handleSave`: the preset built from the form. An edit keeps the id and
      creation time (unless empty) and the tags (when present); a new preset
      gets the fresh id, the clock reading `created` and the single tag
      `custom`. The update time is the later reading `updated`. An empty
      prompt is replaced by the generated one. */
  function BuildPreset(v: Values, initial: Option<Preset>, freshId: string, created: string, updated: string, num: real -> string): (p: Preset)
    ensures p.id == (if initial.Some? && initial.value.id != "" then initial.value.id else freshId)
    ensures p.metadata.createdAt == (if initial.Some? && initial.value.metadata.createdAt != "" then initial.value.metadata.createdAt else created)
    ensures p.metadata.updatedAt == updated
    ensures p.metadata.tags == Some(if initial.Some? && initial.value.metadata.tags.Some? then initial.value.metadata.tags.value else DEFAULT_TAGS)
    ensures p.name == v.name && p.description == v.description && p.settings.model == v.model
    ensures p.settings.customSettings.Some?
    ensures p.settings.customSettings.value.customPrompt == Some(if v.customPrompt != "" then v.customPrompt else Template(v, num))
  {
    var prompt := OrText(v.customPrompt, Template(v, num));
    var settings := Settings(v.model, v.temperature, v.maxTokens, v.topP, v.frequencyPenalty, v.presencePenalty,
      Some(CustomSettings(Some(v.streamingEnabled), Some(v.cacheEnabled), Some(v.batchProcessing), Some(v.compression),
        Some(prompt), Some(v.responseFormat))));
    var id := if initial.Some? then OrText(initial.value.id, freshId) else freshId;
    var createdAt := if initial.Some? then OrText(initial.value.metadata.createdAt, created) else created;
    var tags := if initial.Some? && initial.value.metadata.tags.Some? then initial.value.metadata.tags.value else DEFAULT_TAGS;
    Preset(id, v.name, v.description, settings, Metadata(createdAt, updated, Some(tags)))
  }

  /** The save button is enabled exactly when name, description and model
      are all filled in. */
  function SaveEnabled(v: Values): (b: bool)
    ensures b <==> v.name != "" && v.description != "" && v.model != ""
  {
    v.name != "" && v.description != "" && v.model != ""
  }

  /** Opening the form on a preset it saved shows the values it saved from,
      except that an empty prompt now shows the generated one, as long as
      no number is zero and the response format is not empty. */
  lemma {:induction false} SaveReopen(v: Values, initial: Option<Preset>, freshId: string, created: string, updated: string, num: real -> string)
    requires v.temperature != 0.0 && v.maxTokens != 0.0 && v.topP != 0.0
    requires v.frequencyPenalty != 0.0 && v.presencePenalty != 0.0 && v.responseFormat != ""
    ensures InitialValues(Some(BuildPreset(v, initial, freshId, created, updated, num)))
      == v.(customPrompt := if v.customPrompt != "" then v.customPrompt else Template(v, num))
  {
    var p := BuildPreset(v, initial, freshId, created, updated, num);
    assert Switches(p) == p.settings.customSettings.value;
  }

  /** Editing a preset and saving it untouched keeps its id, creation time,
      tags and every non-zero setting. */
  lemma EditUntouched(p: Preset, freshId: string, created: string, updated: string, num: real -> string)
    requires p.id != "" && p.metadata.createdAt != "" && p.metadata.tags.Some?
    requires p.settings.temperature != 0.0 && p.settings.maxTokens != 0.0
    ensures var q := BuildPreset(InitialValues(Some(p)), Some(p), freshId, created, updated, num);
      && q.id == p.id && q.metadata.createdAt == p.metadata.createdAt && q.metadata.tags == p.metadata.tags
      && q.name == p.name && q.description == p.description && q.settings.model == p.settings.model
      && q.settings.temperature == p.settings.temperature && q.settings.maxTokens == p.settings.maxTokens
  {
  }
}

=== FILE: doc_search.dfy ===
/** The documentation search box. A query that is blank after trimming finds
    nothing; otherwise every item whose text fields, joined with spaces and
    lower-cased, contain the lower-cased query is a hit, grouped by section
    in the sections' order, and sections without hits are dropped. The 300
    millisecond debounce is not modelled: the search runs on the query. */
module DocSearch {
  import opened Wrappers
  import opened Text

  /** One entry of a documentation section. */
  datatype DocItem = DocItem(title: string, text: Option<string>, items: Option<seq<string>>, example: Option<string>, code: Option<string>)

  datatype Section = Section(title: string, content: seq<DocItem>)

  /** One section's hits, under the section's key. */
  datatype Hit = Hit(section: string, items: seq<DocItem>)

  function Present(field: Option<string>): seq<string> {
    if field.Some? then [field.value] else []
  }

  /** The item's searchable fields in order: title, text, the list items,
      example and code. */
  function Fields(item: DocItem): seq<string> {
    [item.title] + Present(item.text) + (if item.items.Some? then item.items.value else []) + Present(item.example) + Present(item.code)
  }

  function NonEmpty(): string -> bool {
    (s: string) => s != ""
  }

  /** The text the query is looked for in: the non-empty fields joined
      with single spaces, lower-cased. */
  function SearchText(item: DocItem): string {
    Lower(Join(Filter(Fields(item), NonEmpty()), " "))
  }

  predicate ItemMatches(item: DocItem, query: string) {
    Contains(SearchText(item), Lower(query))
  }

  function Matches(query: string): DocItem -> bool {
    (item: DocItem) => ItemMatches(item, query)
  }

  /** The `map` and `filter` over the sections' entries, fused: each
      section's matching items, kept when there is at least one. */
  function Hits(sections: seq<(string, Section)>, query: string): (r: seq<Hit>)
    ensures forall h | h in r :: |h.items| > 0
    ensures forall h | h in r :: exists sec | sec in sections :: h == Hit(sec.0, Filter(sec.1.content, Matches(query)))
    ensures forall sec | sec in sections && |Filter(sec.1.content, Matches(query))| > 0 ::
      Hit(sec.0, Filter(sec.1.content, Matches(query))) in r
    decreases |sections|
  {
    if |sections| == 0 then []
    else
      var items := Filter(sections[0].1.content, Matches(query));
      (if |items| > 0 then [Hit(sections[0].0, items)] else []) + Hits(sections[1..], query)
  }

  /** One section's hit: its key with its matching items, when it has any. */
  function SectionHit(query: string): ((string, Section)) -> seq<Hit> {
    (sec: (string, Section)) =>
      var items := Filter(sec.1.content, Matches(query));
      if |items| > 0 then [Hit(sec.0, items)] else []
  }

  /** The hits are the sections' own hits, concatenated in section order. */
  lemma {:induction false} HitsMap(sections: seq<(string, Section)>, query: string)
    ensures Hits(sections, query) == ConcatMap(sections, SectionHit(query))
    decreases |sections|
  {
    if |sections| > 0 {
      HitsMap(sections[1..], query);
    }
  }

  /** The hits follow the sections' order: those of a concatenation are
      those of each part, one after the other, and one section gives one
      hit, holding its matching items in their order, when it has any. */
  lemma HitsAppend(a: seq<(string, Section)>, b: seq<(string, Section)>, sec: (string, Section), query: string)
    ensures Hits(a + b, query) == Hits(a, query) + Hits(b, query)
    ensures var items := Filter(sec.1.content, Matches(query));
      Hits([sec], query) == (if |items| > 0 then [Hit(sec.0, items)] else [])
  {
    HitsMap(a + b, query);
    HitsMap(a, query);
    HitsMap(b, query);
    ConcatMapAppend(a, b, SectionHit(query));
    assert [sec][1..] == [];
  }

  /** `searchDocs`: what it hands to `onSearchResults`. */
  function SearchDocs(sections: seq<(string, Section)>, query: string): (r: seq<Hit>)
    ensures JsTrim(query) == "" ==> r == []
    ensures JsTrim(query) != "" ==> r == Hits(sections, query)
  {
    if JsTrim(query) == "" then [] else Hits(sections, query)
  }

  /** A matching item of a section is among that section's hits, and every
      item among the hits matches. */
  lemma SearchFinds(sections: seq<(string, Section)>, query: string, key: string, item: DocItem)
    requires JsTrim(query) != ""
    ensures (exists sec | sec in sections :: sec.0 == key && item in sec.1.content && ItemMatches(item, query)) ==>
      exists h | h in SearchDocs(sections, query) :: h.section == key && item in h.items
    ensures forall h | h in SearchDocs(sections, query) && item in h.items :: ItemMatches(item, query)
  {
    if sec :| sec in sections && sec.0 == key && item in sec.1.content && ItemMatches(item, query) {
      var items := Filter(sec.1.content, Matches(query));
      assert item in items;
      assert Hit(key, items) in SearchDocs(sections, query);
    }
  }

  /** The total shown above the results: the items of all hits. */
  function ResultCount(hits: seq<Hit>): nat
    decreases |hits|
  {
    if |hits| == 0 then 0 else |hits[0].items| + ResultCount(hits[1..])
  }

  /** Every item of every section, in order. */
  function AllItems(sections: seq<(string, Section)>): seq<DocItem>
    decreases |sections|
  {
    if |sections| == 0 then [] else sections[0].1.content + AllItems(sections[1..])
  }

  /** The count shown is the number of matching items across all sections. */
  lemma {:induction false} CountMatches(sections: seq<(string, Section)>, query: string)
    requires JsTrim(query) != ""
    ensures ResultCount(SearchDocs(sections, query)) == |Filter(AllItems(sections), Matches(query))|
  {
    HitsCount(sections, query);
  }

  lemma {:induction false} HitsCount(sections: seq<(string, Section)>, query: string)
    ensures ResultCount(Hits(sections, query)) == |Filter(AllItems(sections), Matches(query))|
    decreases |sections|
  {
    if |sections| > 0 {
      var items := Filter(sections[0].1.content, Matches(query));
      var head := if |items| > 0 then [Hit(sections[0].0, items)] else [];
      var rest := Hits(sections[1..], query);
      HitsCount(sections[1..], query);
      FilterAppend(sections[0].1.content, AllItems(sections[1..]), Matches(query));
      CountAppend(head, rest);
    }
  }

  lemma {:induction false} CountAppend(a: seq<Hit>, b: seq<Hit>)
    ensures ResultCount(a + b) == ResultCount(a) + ResultCount(b)
    decreases |a|
  {
    if |a| > 0 {
      assert (a + b)[1..] == a[1..] + b;
      CountAppend(a[1..], b);
    } else {
      assert a + b == b;
    }
  }

  /** Typing more narrows the search: an item that matches a query matches
      every prefix of it. */
  lemma ExtendNarrows(item: DocItem, query: string, more: string)
    requires ItemMatches(item, query + more)
    ensures ItemMatches(item, query)
  {
    ContainsLowerPrefix(SearchText(item), query, more);
  }

  /** The search box's contents and the results it last reported. */
  datatype SearchState = SearchState(query: string, results: seq<Hit>)

  /** `handleClear`: the box is emptied and no results are reported. */
  function Clear(s: SearchState): (r: SearchState)
    ensures r.query == "" && r.results == []
  {
    SearchState("", [])
  }

  /** Once the debounced search catches up with a cleared box it reports
      what the clear reported. */
  lemma ClearAgrees(sections: seq<(string, Section)>, s: SearchState)
    ensures SearchDocs(sections, Clear(s).query) == Clear(s).results
  {
    assert JsTrim("") == "";
  }
}

=== FILE: documentation.dfy ===
/** The documentation page's state and its keyboard navigation: `j` and `k`
    step to the previous and next section, the digits 1 to 9 jump to a
    section, and Escape clears the search results. Sections are known by
    their keys, in the order the page defines them. The loading flag's
    timer is not modelled: a section change sets it and it stays set. */
module Documentation {
  import opened Wrappers
  import opened Text
  import KeyboardShortcuts
  import DocSearch

  datatype DocState = DocState(active: string, loading: bool, error: Option<string>, results: seq<DocSearch.Hit>)

  /** `indexOf`: the first position of the key, or -1. */
  function IndexOf(keys: seq<string>, key: string): (i: int)
    ensures -1 <= i < |keys|
    ensures i >= 0 ==> keys[i] == key && forall j | 0 <= j < i :: keys[j] != key
    ensures i == -1 <==> key !in keys
  {
    if |keys| == 0 then -1
    else if keys[0] == key then 0
    else
      var i := IndexOf(keys[1..], key);
      if i == -1 then -1 else i + 1
  }

  /** No key appears twice, as in an object's keys. */
  predicate Distinct(keys: seq<string>) {
    forall i, j | 0 <= i < j < |keys| :: keys[i] != keys[j]
  }

  /** `handleSectionChange`: the section becomes active and the error is cleared. */
  function SectionChange(s: DocState, section: string): (r: DocState)
    ensures r.active == section && r.error.None? && r.loading
    ensures r.results == s.results
  {
    s.(active := section, loading := true, error := None)
  }

  /** `j`: the previous section, if the active one has a predecessor. */
  function Previous(s: DocState, keys: seq<string>): (r: DocState)
    ensures IndexOf(keys, s.active) > 0 ==> r == SectionChange(s, keys[IndexOf(keys, s.active) - 1])
    ensures IndexOf(keys, s.active) <= 0 ==> r == s
  {
    var i := IndexOf(keys, s.active);
    if i > 0 then SectionChange(s, keys[i - 1]) else s
  }

  /** `k`: the next section, if there is one; an active section that is not
      among the keys counts as position -1, so `k` moves to the first. */
  function Next(s: DocState, keys: seq<string>): (r: DocState)
    ensures IndexOf(keys, s.active) < |keys| - 1 ==> r == SectionChange(s, keys[IndexOf(keys, s.active) + 1])
    ensures s.active !in keys && |keys| > 0 ==> r.active == keys[0]
    ensures IndexOf(keys, s.active) == |keys| - 1 ==> r == s
  {
    var i := IndexOf(keys, s.active);
    if i < |keys| - 1 then SectionChange(s, keys[i + 1]) else s
  }

  /** The digit `n + 1`: section `n`, if it exists. */
  function Jump(s: DocState, keys: seq<string>, n: nat): (r: DocState)
    ensures n < |keys| ==> r.active == keys[n] && r.error.None?
    ensures n >= |keys| ==> r == s
  {
    if n < |keys| then SectionChange(s, keys[n]) else s
  }

  /** Escape: clears the search results when there are any. */
  function Escape(s: DocState): (r: DocState)
    ensures r.results == [] && r.active == s.active && r.error == s.error && r.loading == s.loading
  {
    if |s.results| > 0 then s.(results := []) else s
  }

  /** In a list without repeats, `k` then `j` returns to the section left. */
  lemma NextThenPrevious(s: DocState, keys: seq<string>)
    requires Distinct(keys)
    requires 0 <= IndexOf(keys, s.active) < |keys| - 1
    ensures Previous(Next(s, keys), keys).active == s.active
  {
    var i := IndexOf(keys, s.active);
    var t := Next(s, keys);
    assert t.active == keys[i + 1];
    IndexOfAt(keys, i + 1);
  }

  /** In a list without repeats, the key at a position is found there. */
  lemma {:induction false} IndexOfAt(keys: seq<string>, i: nat)
    requires Distinct(keys) && i < |keys|
    ensures IndexOf(keys, keys[i]) == i
  {
    if i > 0 {
      assert Distinct(keys[1..]);
      assert keys[1..][i - 1] == keys[i];
      IndexOfAt(keys[1..], i - 1);
    }
  }

  // The shortcuts the page registers, in its order.

  datatype Action = PreviousSection | NextSection | JumpTo(n: nat) | FocusSearch | ClearSearch

  function Plain(key: string, description: string, group: string): KeyboardShortcuts.Shortcut {
    KeyboardShortcuts.Shortcut(key, None, None, None, None, None, Some(description), Some(group))
  }

  /** `j`, `k`, the nine digits, Cmd+K and Escape. */
  function Shortcuts(): (r: seq<(KeyboardShortcuts.Shortcut, Action)>)
    ensures |r| == 13
  {
    [(Plain("j", "Previous section", "Navigation"), PreviousSection),
     (Plain("k", "Next section", "Navigation"), NextSection)]
    + seq(9, i requires 0 <= i < 9 => (Plain(NatToString(i + 1), "Jump to section " + NatToString(i + 1), "Navigation"), JumpTo(i)))
    + [(Plain("k", "Focus search", "Search").(meta := Some(true)), FocusSearch),
       (Plain("Escape", "Clear search", "Search"), ClearSearch)]
  }

  /** One action's effect on the page; focusing the search box changes no state here. */
  function Perform(s: DocState, keys: seq<string>, a: Action): DocState {
    match a
    case PreviousSection => Previous(s, keys)
    case NextSection => Next(s, keys)
    case JumpTo(n) => Jump(s, keys, n)
    case FocusSearch => s
    case ClearSearch => Escape(s)
  }

  /** The fired actions applied in order. */
  function PerformAll(s: DocState, keys: seq<string>, actions: seq<Action>): DocState
    decreases |actions|
  {
    if |actions| == 0 then s else PerformAll(Perform(s, keys, actions[0]), keys, actions[1..])
  }

  /** A key press on the page: every shortcut that fires acts, in order. */
  function OnKey(s: DocState, keys: seq<string>, e: KeyboardShortcuts.KeyEvent, focusTag: Option<string>, modalHasFocus: bool): (r: DocState)
    ensures (focusTag == Some("INPUT") || focusTag == Some("TEXTAREA") || modalHasFocus) ==> r == s
  {
    var table := Shortcuts();
    var d := KeyboardShortcuts.HandleKeyDown(seq(13, i requires 0 <= i < 13 => table[i].0), KeyboardShortcuts.DEFAULT_OPTIONS, e, focusTag, modalHasFocus);
    PerformAll(s, keys, seq(|d.fired|, k requires 0 <= k < |d.fired| => table[d.fired[k]].1))
  }

  /** When exactly one shortcut fires, the dispatch from any earlier
      position runs that one alone. */
  lemma {:induction false} FiredExactly(shortcuts: seq<KeyboardShortcuts.Shortcut>, e: KeyboardShortcuts.KeyEvent, i: nat, from: nat)
    requires i < |shortcuts| && KeyboardShortcuts.Fires(shortcuts[i], e)
    requires forall j | 0 <= j < |shortcuts| && j != i :: !KeyboardShortcuts.Fires(shortcuts[j], e)
    requires from <= i
    ensures KeyboardShortcuts.FiredFrom(shortcuts, e, from) == [i]
    decreases i - from
  {
    if from < i {
      FiredExactly(shortcuts, e, i, from + 1);
    } else {
      NoneFires(shortcuts, e, i + 1);
    }
  }

  /** No shortcut from a position on fires: nothing is dispatched. */
  lemma {:induction false} NoneFires(shortcuts: seq<KeyboardShortcuts.Shortcut>, e: KeyboardShortcuts.KeyEvent, from: nat)
    requires forall j | from <= j < |shortcuts| :: !KeyboardShortcuts.Fires(shortcuts[j], e)
    ensures KeyboardShortcuts.FiredFrom(shortcuts, e, from) == []
    decreases |shortcuts| - from
  {
    if from < |shortcuts| {
      NoneFires(shortcuts, e, from + 1);
    }
  }

  /** The registered keys: `j`, `k`, the digits 1 to 9, Cmd+K and Escape. */
  lemma TableKeys()
    ensures var t := Shortcuts();
      && t[0].0.key == "j" && t[1].0.key == "k" && t[11].0.key == "k" && t[12].0.key == "Escape"
      && (forall i | 2 <= i < 11 :: t[i].0.key == [DigitChar(i - 1)] && t[i].1 == JumpTo(i - 2))
      && t[0].1 == PreviousSection && t[1].1 == NextSection && t[11].1 == FocusSearch && t[12].1 == ClearSearch
      && t[11].0.meta == Some(true)
      && forall i | 0 <= i < 13 && i != 11 :: t[i].0.ctrl.None? && t[i].0.meta.None? && t[i].0.shift.None? && t[i].0.alt.None?
  {
  }

  /** A bare `j` answers the first registered shortcut and no other. */
  lemma OnlyJFires(e: KeyboardShortcuts.KeyEvent)
    requires Lower(e.key) == "j" && !e.ctrl && !e.meta && !e.shift && !e.alt
    ensures var table := Shortcuts();
      && KeyboardShortcuts.Fires(table[0].0, e)
      && forall j | 0 < j < 13 :: !KeyboardShortcuts.Fires(table[j].0, e)
  {
    var table := Shortcuts();
    TableKeys();
    forall j | 0 < j < 13
      ensures !KeyboardShortcuts.Fires(table[j].0, e)
    {
      var key := table[j].0.key;
      if 2 <= j < 11 {
        assert Lower(key)[0] == DigitChar(j - 1);
      } else if j == 12 {
        assert |Lower(key)| == 6;
      } else {
        assert Lower(key)[0] == 'k';
      }
      assert Lower(key) != Lower(e.key);
    }
  }

  /** Outside a text field and a modal, a bare `j` goes to the previous section. */
  lemma PressJ(s: DocState, keys: seq<string>, e: KeyboardShortcuts.KeyEvent, focusTag: Option<string>)
    requires Lower(e.key) == "j" && !e.ctrl && !e.meta && !e.shift && !e.alt
    requires !KeyboardShortcuts.InTextField(focusTag)
    ensures OnKey(s, keys, e, focusTag, false) == Previous(s, keys)
  {
    var table := Shortcuts();
    var shortcuts := seq(13, i requires 0 <= i < 13 => table[i].0);
    OnlyJFires(e);
    FiredExactly(shortcuts, e, 0, 0);
    var d := KeyboardShortcuts.HandleKeyDown(shortcuts, KeyboardShortcuts.DEFAULT_OPTIONS, e, focusTag, false);
    assert d.fired == [0];
    var actions := seq(|d.fired|, k requires 0 <= k < |d.fired| => table[d.fired[k]].1);
    assert actions == [PreviousSection];
    assert PerformAll(s, keys, actions) == PerformAll(Previous(s, keys), keys, []);
  }
}

=== FILE: dot_env.dfy ===
/** The `.env` file as the configuration manager's update reads and
    rewrites it: an insertion-ordered dictionary of entries, read from the
    stripped lines that hold `=`, split at the first `=`, and written back
    as one `key=value` line per entry. */
module DotEnv {
  import opened Wrappers
  import opened Text

  /** The entries, in insertion order. */
  type Entries = seq<(string, string)>

  /** The value of a key, from its first entry. */
  function Get(d: Entries, k: string): Option<string>
    decreases |d|
  {
    if |d| == 0 then None
    else if d[0].0 == k then Some(d[0].1)
    else Get(d[1..], k)
  }

  /** A key has a value exactly when some entry carries it, and the value
      comes from such an entry. */
  lemma {:induction false} GetFinds(d: Entries, k: string)
    ensures Get(d, k).None? <==> forall i | 0 <= i < |d| :: d[i].0 != k
    ensures Get(d, k).Some? ==> (k, Get(d, k).value) in d
    decreases |d|
  {
    if |d| > 0 && d[0].0 != k {
      GetFinds(d[1..], k);
      assert forall i | 1 <= i < |d| :: d[1..][i - 1] == d[i];
    }
  }

  function Keys(d: Entries): (r: seq<string>)
    ensures |r| == |d| && forall i | 0 <= i < |d| :: r[i] == d[i].0
  {
    seq(|d|, i requires 0 <= i < |d| => d[i].0)
  }

  predicate UniqueKeys(d: Entries) {
    forall i, j | 0 <= i < j < |d| :: d[i].0 != d[j].0
  }

  /** Python `d[k] = v` on an insertion-ordered dictionary. */
  function Put(d: Entries, k: string, v: string): Entries
    decreases |d|
  {
    if |d| == 0 then [(k, v)]
    else if d[0].0 == k then [(k, v)] + d[1..]
    else [d[0]] + Put(d[1..], k, v)
  }

  /** After `d[k] = v`, `k` has the value `v` and every other key keeps its value. */
  lemma {:induction false} PutGet(d: Entries, k: string, v: string, n: string)
    ensures Get(Put(d, k, v), n) == if n == k then Some(v) else Get(d, n)
    decreases |d|
  {
    if |d| > 0 && d[0].0 != k {
      PutGet(d[1..], k, v, n);
    }
  }

  /** An existing key keeps its place, a new key goes last, and every
      entry is either the new one or the old one at that place. */
  lemma {:induction false} PutShape(d: Entries, k: string, v: string)
    ensures var r := Put(d, k, v);
      && (Get(d, k).Some? ==> Keys(r) == Keys(d))
      && (Get(d, k).None? ==> r == d + [(k, v)])
      && forall j | 0 <= j < |r| :: r[j] == (k, v) || (j < |d| && r[j] == d[j])
    decreases |d|
  {
    if |d| > 0 && d[0].0 != k {
      PutShape(d[1..], k, v);
      var r := Put(d, k, v);
      assert r == [d[0]] + Put(d[1..], k, v);
      assert forall j | 1 <= j < |r| :: r[j] == Put(d[1..], k, v)[j - 1];
      assert forall j | 1 <= j < |d| :: d[j] == d[1..][j - 1];
      if Get(d, k).None? {
        assert [d[0]] + (d[1..] + [(k, v)]) == d + [(k, v)];
      }
    }
  }

  /** An entry that survives a write and a re-read: the key has no `=`, and
      the written line neither starts nor ends with whitespace. */
  predicate CleanEntry(e: (string, string)) {
    && '=' !in e.0
    && (e.0 == [] || !IsPySpace(e.0[0]))
    && (e.1 == [] || !IsPySpace(e.1[|e.1| - 1]))
  }

  predicate Clean(d: Entries) {
    UniqueKeys(d) && forall i | 0 <= i < |d| :: CleanEntry(d[i])
  }

  /** Writing a clean entry keeps the entries clean. */
  lemma PutClean(d: Entries, k: string, v: string)
    requires Clean(d) && CleanEntry((k, v))
    ensures Clean(Put(d, k, v))
  {
    PutShape(d, k, v);
    GetFinds(d, k);
    var r := Put(d, k, v);
    assert forall j | 0 <= j < |r| :: r[j].0 == if j < |d| then d[j].0 else k;
  }

  /** The key and value a line of the existing `.env` contributes. */
  function ReadLine(line: string): (e: Option<(string, string)>)
    ensures e.Some? <==> '=' in line
    ensures e.Some? ==> CleanEntry(e.value)
    ensures e.Some? && OneLine(line) ==> FlatEntry(e.value)
  {
    if '=' in line then
      StripKeepsSolid(line, '=');
      var s := PyStrip(line);
      var kv := SplitFirst(s, '=').value;
      StrippedEnds(line);
      TrimKeepsAbsentChar(line, IsPySpace, '\n');
      TrimKeepsAbsentChar(line, IsPySpace, '\r');
      assert CleanEntry(kv) by {
        if kv.0 != [] { assert kv.0[0] == s[0]; }
        if kv.1 != [] { assert kv.1[|kv.1| - 1] == s[|s| - 1]; }
      }
      Some(kv)
    else None
  }

  /** The existing `.env` read back: every line with an `=`, stripped and
      split at its first `=`, in file order. */
  function ReadLines(lines: seq<string>): Entries
    decreases |lines|
  {
    if |lines| == 0 then []
    else
      var d := ReadLines(lines[..|lines| - 1]);
      match ReadLine(lines[|lines| - 1])
      case None => d
      case Some((k, v)) => Put(d, k, v)
  }

  lemma {:induction false} ReadClean(lines: seq<string>)
    ensures Clean(ReadLines(lines))
    decreases |lines|
  {
    if |lines| > 0 {
      ReadClean(lines[..|lines| - 1]);
      match ReadLine(lines[|lines| - 1])
      case None =>
      case Some((k, v)) => PutClean(ReadLines(lines[..|lines| - 1]), k, v);
    }
  }

  /** A stripped string starts and ends with non-whitespace. */
  lemma StrippedEnds(s: string)
    ensures PyStrip(s) == [] || (!IsPySpace(PyStrip(s)[0]) && !IsPySpace(PyStrip(s)[|PyStrip(s)| - 1]))
  {
    var a := TrimStart(s, IsPySpace);
    var r := PyStrip(s);
    if r != [] {
      assert r == a[..|r|];
    }
  }

  /** Stripping keeps every non-whitespace character. */
  lemma StripKeepsSolid(s: string, c: char)
    requires !IsPySpace(c) && c in s
    ensures c in PyStrip(s)
  {
    var a := TrimStart(s, IsPySpace);
    var j :| 0 <= j < |s| && s[j] == c;
    var i := j - (|s| - |a|);
    assert i >= 0;
    assert a[i] == c;
    var r := TrimEnd(a, IsPySpace);
    assert i < |r|;
    assert r[i] == c;
  }

  /** The existing `.env` read back: the lines written to it, each followed
      by `\n`, re-split where Python's reader ends a line. */
  function ReadDotEnv(file: Option<seq<string>>): Entries {
    if file.Some? then ReadLines(Reread(file.value)) else []
  }

  /** The rewritten file: one `key=value` line per entry, in order. */
  function Render(d: Entries): (r: seq<string>)
    ensures |r| == |d|
    ensures forall i | 0 <= i < |d| :: r[i] == RenderLine(d[i])
    decreases |d|
  {
    if |d| == 0 then [] else Render(d[..|d| - 1]) + [RenderLine(d[|d| - 1])]
  }

  function RenderLine(e: (string, string)): string {
    e.0 + "=" + e.1
  }

  /** No line break: Python's text-mode reader ends a line at `\n` and at `\r`. */
  predicate OneLine(s: string) {
    '\n' !in s && '\r' !in s
  }

  /** An entry whose written line stays one line. */
  predicate FlatEntry(e: (string, string)) {
    OneLine(e.0) && OneLine(e.1)
  }

  /** Entries that a rewrite followed by a re-read restores. */
  predicate Writable(d: Entries) {
    Clean(d) && forall i | 0 <= i < |d| :: FlatEntry(d[i])
  }

  /** The lines `for line in f` yields for one written line, without their
      terminators: a break at every `\n` and `\r`. A `\r\n` pair, a single
      break to Python, gives an extra empty piece here, which holds no `=`
      and so adds no entry. */
  function Lines(s: string): (r: seq<string>)
    ensures |r| > 0
    ensures forall i | 0 <= i < |r| :: OneLine(r[i])
    decreases |s|
  {
    if |s| == 0 then [""]
    else
      var r := Lines(s[..|s| - 1]);
      var c := s[|s| - 1];
      if c == '\n' || c == '\r' then r + [""]
      else r[..|r| - 1] + [r[|r| - 1] + [c]]
  }

  /** A line without a break reads back as itself. */
  lemma {:induction false} LinesOneLine(s: string)
    requires OneLine(s)
    ensures Lines(s) == [s]
    decreases |s|
  {
    if |s| > 0 {
      var init := s[..|s| - 1];
      assert OneLine(init) by {
        assert forall c | c in init :: c in s;
      }
      LinesOneLine(init);
      assert init + [s[|s| - 1]] == s;
    }
  }

  /** The lines read back from a file whose written lines are `lines`. */
  function Reread(lines: seq<string>): (r: seq<string>)
    ensures forall i | 0 <= i < |r| :: OneLine(r[i])
    decreases |lines|
  {
    if |lines| == 0 then []
    else
      var a, b := Reread(lines[..|lines| - 1]), Lines(lines[|lines| - 1]);
      assert forall i | |a| <= i < |a| + |b| :: (a + b)[i] == b[i - |a|];
      a + b
  }

  /** Lines without breaks read back unchanged. */
  lemma {:induction false} RereadFlat(lines: seq<string>)
    requires forall i | 0 <= i < |lines| :: OneLine(lines[i])
    ensures Reread(lines) == lines
    decreases |lines|
  {
    if |lines| > 0 {
      var last := |lines| - 1;
      RereadFlat(lines[..last]);
      LinesOneLine(lines[last]);
      SplitLast(lines);
    }
  }

  /** Lines without breaks give entries without breaks. */
  lemma {:induction false} ReadFlat(lines: seq<string>)
    requires forall i | 0 <= i < |lines| :: OneLine(lines[i])
    ensures forall i | 0 <= i < |ReadLines(lines)| :: FlatEntry(ReadLines(lines)[i])
    decreases |lines|
  {
    if |lines| > 0 {
      var init := lines[..|lines| - 1];
      ReadFlat(init);
      match ReadLine(lines[|lines| - 1])
      case None =>
      case Some((k, v)) => PutShape(ReadLines(init), k, v);
    }
  }

  /** The existing `.env` reads as entries a rewrite restores. */
  lemma ReadWritable(file: Option<seq<string>>)
    ensures Writable(ReadDotEnv(file))
  {
    if file.Some? {
      ReadClean(Reread(file.value));
      ReadFlat(Reread(file.value));
    }
  }

  /** Rewriting entries without line breaks and reading the file back
      restores them. */
  lemma RereadRender(d: Entries)
    requires Writable(d)
    ensures ReadDotEnv(Some(Render(d))) == d
  {
    var r := Render(d);
    forall i | 0 <= i < |r|
      ensures OneLine(r[i])
    {
      assert r[i] == d[i].0 + "=" + d[i].1;
    }
    RereadFlat(r);
    ReadRender(d);
  }

  /** Reading back a rendered file restores its entries. */
  lemma {:induction false} ReadRender(d: Entries)
    requires Clean(d)
    ensures ReadLines(Render(d)) == d
    decreases |d|
  {
    if |d| > 0 {
      var last := |d| - 1;
      CleanInit(d);
      ReadRender(d[..last]);
      ReadRenderLast(d[..last], d[last].0, d[last].1);
      SplitLast(d);
    }
  }

  /** One more clean entry with a new key, rendered and read back. */
  lemma ReadRenderLast(init: Entries, k: string, v: string)
    requires CleanEntry((k, v))
    requires forall i | 0 <= i < |init| :: init[i].0 != k
    requires ReadLines(Render(init)) == init
    ensures ReadLines(Render(init + [(k, v)])) == init + [(k, v)]
  {
    var d := init + [(k, v)];
    var line := k + "=" + v;
    assert d[..|init|] == init;
    assert Render(d) == Render(init) + [line];
    ReadLineRendered(k, v);
    ReadSnoc(Render(init), line);
    PutNew(init, k, v);
  }

  /** The entries before the last are clean, and none has the last key. */
  lemma CleanInit(d: Entries)
    requires Clean(d) && |d| > 0
    ensures Clean(d[..|d| - 1]) && CleanEntry(d[|d| - 1])
    ensures forall i | 0 <= i < |d| - 1 :: d[i].0 != d[|d| - 1].0
  {
    assert forall i | 0 <= i < |d| - 1 :: d[..|d| - 1][i] == d[i];
  }

  /** Reading one more line adds its entry, if it has one. */
  lemma ReadSnoc(lines: seq<string>, line: string)
    ensures ReadLines(lines + [line])
      == if ReadLine(line).Some? then Put(ReadLines(lines), ReadLine(line).value.0, ReadLine(line).value.1) else ReadLines(lines)
  {
    assert (lines + [line])[..|lines|] == lines;
  }

  /** Writing a key the entries do not have appends it. */
  lemma {:induction false} PutNew(d: Entries, k: string, v: string)
    requires forall i | 0 <= i < |d| :: d[i].0 != k
    ensures Put(d, k, v) == d + [(k, v)]
    decreases |d|
  {
    if |d| > 0 {
      assert d[0].0 != k;
      assert forall i | 0 <= i < |d[1..]| :: d[1..][i] == d[i + 1];
      PutNew(d[1..], k, v);
      assert [d[0]] + (d[1..] + [(k, v)]) == d + [(k, v)];
    }
  }

  /** The line written for a clean entry reads back as that entry. */
  lemma ReadLineRendered(k: string, v: string)
    requires CleanEntry((k, v))
    ensures ReadLine(k + "=" + v) == Some((k, v))
  {
    var line := k + "=" + v;
    assert line == k + ['='] + v;
    assert line[|k|] == '=';
    assert line[0] == if k == [] then '=' else k[0];
    assert line[|line| - 1] == if v == [] then '=' else v[|v| - 1];
    TrimFixed(line, IsPySpace);
    SplitFirstUnique(k, '=', v);
  }

  /** Two entries written on one line separated by `\n` read back as two
      entries. */
  lemma TwoEntriesOnOneLine(k1: string, v1: string, k2: string, v2: string, line: string)
    requires CleanEntry((k1, v1)) && FlatEntry((k1, v1)) && CleanEntry((k2, v2)) && FlatEntry((k2, v2)) && k1 != k2
    requires line == k1 + "=" + v1 + "\n" + k2 + "=" + v2
    ensures Get(ReadDotEnv(Some([line])), k1) == Some(v1)
    ensures Get(ReadDotEnv(Some([line])), k2) == Some(v2)
  {
    var l1, l2 := k1 + "=" + v1, k2 + "=" + v2;
    RereadTwo(l1, l2, line);
    ReadTwo(k1, v1, k2, v2);
    PutGet([(k1, v1)], k2, v2, k2);
    PutGet([(k1, v1)], k2, v2, k1);
  }

  /** One written line holding a `\n` is re-read as the two lines around it. */
  lemma RereadTwo(l1: string, l2: string, line: string)
    requires OneLine(l1) && OneLine(l2) && line == l1 + "\n" + l2
    ensures Reread([line]) == [l1, l2]
  {
    LinesSplit(l1, l2);
    assert [line][..0] == [];
  }

  /** Two clean lines read as their two entries, in order. */
  lemma ReadTwo(k1: string, v1: string, k2: string, v2: string)
    requires CleanEntry((k1, v1)) && CleanEntry((k2, v2))
    ensures ReadLines([k1 + "=" + v1, k2 + "=" + v2]) == Put([(k1, v1)], k2, v2)
  {
    var l1, l2 := k1 + "=" + v1, k2 + "=" + v2;
    ReadLineRendered(k1, v1);
    ReadLineRendered(k2, v2);
    ReadSnoc([], l1);
    assert [] + [l1] == [l1];
    ReadSnoc([l1], l2);
    assert [l1] + [l2] == [l1, l2];
  }

  /** Reading one more character either ends a line or extends the last one. */
  lemma LinesSnoc(s: string, c: char)
    ensures Lines(s + [c]) == if c == '\n' || c == '\r' then Lines(s) + [""]
      else Lines(s)[..|Lines(s)| - 1] + [Lines(s)[|Lines(s)| - 1] + [c]]
  {
    assert (s + [c])[..|s|] == s;
  }

  /** Two one-line pieces joined by `\n` read back as two lines. */
  lemma {:induction false} LinesSplit(a: string, b: string)
    requires OneLine(a) && OneLine(b)
    ensures Lines(a + "\n" + b) == [a, b]
    decreases |b|
  {
    if |b| == 0 {
      assert Lines(a + "\n" + b) == [a, b] by {
        assert a + "\n" + b == a + ['\n'];
        LinesSnoc(a, '\n');
        LinesOneLine(a);
      }
    } else {
      var c := b[|b| - 1];
      var init := b[..|b| - 1];
      assert OneLine(init) && c != '\n' && c != '\r' by {
        assert forall x | x in init :: x in b;
      }
      LinesSplit(a, init);
      assert Lines(a + "\n" + b) == [a, b] by {
        assert b == init + [c];
        assert a + "\n" + b == (a + "\n" + init) + [c];
        LinesSnoc(a + "\n" + init, c);
      }
    }
  }
}

=== FILE: env.dfy ===
/** The `.env` reader of the command-line tool. Each line is stripped;
    blank lines and `#` comments are skipped, and so are lines without `=`.
    The rest are split at their first `=`, both sides are stripped, and one
    layer of matching quotes is removed from the value. A later assignment
    to a key overrides an earlier one. The file is given as its lines. */
module Env {
  import opened Wrappers
  import opened Text

  /** A `.env` file: absent, or present with its lines. */
  datatype EnvFile = Missing | Present(lines: seq<string>)

  /** The value starts and ends with the quote character `q` (a lone `q` counts). */
  predicate QuotedWith(v: string, q: char) {
    StartsWith(v, [q]) && EndsWith(v, [q])
  }

  /** One layer of surrounding double quotes, or else of single quotes,
      removed; a lone quote becomes the empty string, as Python's `v[1:-1]`. */
  function Unquote(v: string): (r: string)
    ensures !QuotedWith(v, '"') && !QuotedWith(v, '\'') ==> r == v
    ensures (QuotedWith(v, '"') || QuotedWith(v, '\'')) && |v| >= 2 ==> [v[0]] + r + [v[0]] == v
    ensures (QuotedWith(v, '"') || QuotedWith(v, '\'')) && |v| < 2 ==> r == []
  {
    if QuotedWith(v, '"') || QuotedWith(v, '\'') then
      if |v| >= 2 then v[1..|v| - 1] else []
    else v
  }

  /** Quoting any text and unquoting it gives the text back. */
  lemma UnquoteQuoted(x: string, q: char)
    requires q == '"' || q == '\''
    ensures Unquote([q] + x + [q]) == x
  {
    var v := [q] + x + [q];
    assert v[..1] == [q] && v[|v| - 1..] == [q];
    assert v[1..|v| - 1] == x;
  }

  /** The assignment a stripped line makes, if any. */
  function ParseStripped(line: string): (r: Option<(string, string)>)
    ensures r.None? <==> line == [] || line[0] == '#' || '=' !in line
    ensures r.Some? ==> '=' !in r.value.0
  {
    if line == [] || line[0] == '#' then None
    else match SplitFirst(line, '=')
      case None => None
      case Some((k, v)) =>
        TrimKeepsAbsentChar(k, IsPySpace, '=');
        Some((PyStrip(k), Unquote(PyStrip(v))))
  }

  /** The assignment one line of the file makes, if any: none for a blank
      line, a comment or a line without `=`. */
  function ParseLine(raw: string): (r: Option<(string, string)>)
    ensures r.None? <==> IsPyBlank(raw) || (PyStrip(raw) != [] && PyStrip(raw)[0] == '#') || '=' !in PyStrip(raw)
    ensures r.Some? ==> '=' !in r.value.0
  {
    var line := PyStrip(raw);
    TrimEmptyIff(raw, IsPySpace);
    assert line == [] <==> IsPyBlank(raw);
    ParseStripped(line)
  }

  /** The assignments of a file's lines, in order. */
  function Assignments(lines: seq<string>): (r: seq<Option<(string, string)>>)
    ensures |r| == |lines| && forall i | 0 <= i < |lines| :: r[i] == ParseLine(lines[i])
  {
    seq(|lines|, i requires 0 <= i < |lines| => ParseLine(lines[i]))
  }

  /** The entry assigns the key `k`. */
  predicate Assigns(e: Option<(string, string)>, k: string) {
    e.Some? && e.value.0 == k
  }

  /** Assignments applied in order, later ones overriding earlier ones. */
  function Apply(entries: seq<Option<(string, string)>>): map<string, string>
    decreases |entries|
  {
    if |entries| == 0 then map[]
    else
      var m := Apply(entries[..|entries| - 1]);
      match entries[|entries| - 1]
      case None => m
      case Some((k, v)) => m[k := v]
  }

  /** Python `load_env_file`: a missing file reads as no variables; a
      present one defines exactly the keys its lines assign, each with the
      value of its last assignment. */
  function LoadEnvFile(f: EnvFile): (r: map<string, string>)
    ensures f.Missing? ==> r == map[]
    ensures f.Present? ==> forall k :: k in r <==> exists i | 0 <= i < |f.lines| :: Assigns(ParseLine(f.lines[i]), k)
  {
    match f
    case Missing => map[]
    case Present(lines) =>
      var entries := Assignments(lines);
      forall k
        ensures k in Apply(entries) <==> exists i | 0 <= i < |lines| :: Assigns(ParseLine(lines[i]), k)
      {
        ApplyKeys(entries, k);
        if exists i | 0 <= i < |entries| :: Assigns(entries[i], k) {
          var i :| 0 <= i < |entries| && Assigns(entries[i], k);
          assert Assigns(ParseLine(lines[i]), k);
        }
        if exists i | 0 <= i < |lines| :: Assigns(ParseLine(lines[i]), k) {
          var i :| 0 <= i < |lines| && Assigns(ParseLine(lines[i]), k);
          assert Assigns(entries[i], k);
        }
      }
      Apply(entries)
  }

  /** A key is defined exactly when some entry assigns it. */
  lemma {:induction false} ApplyKeys(entries: seq<Option<(string, string)>>, k: string)
    ensures k in Apply(entries) <==> exists i | 0 <= i < |entries| :: Assigns(entries[i], k)
    decreases |entries|
  {
    if |entries| > 0 {
      var init := entries[..|entries| - 1];
      ApplyKeys(init, k);
      if k in Apply(init) {
        var i :| 0 <= i < |init| && Assigns(init[i], k);
        assert entries[i] == init[i];
      }
      if exists i | 0 <= i < |entries| :: Assigns(entries[i], k) {
        var i :| 0 <= i < |entries| && Assigns(entries[i], k);
        if i < |init| {
          assert init[i] == entries[i];
        }
      }
    }
  }

  /** The last entry that assigns a key decides its value. */
  lemma {:induction false} LastWins(entries: seq<Option<(string, string)>>, i: nat, k: string, v: string)
    requires i < |entries| && entries[i] == Some((k, v))
    requires forall j | i < j < |entries| :: !Assigns(entries[j], k)
    ensures k in Apply(entries) && Apply(entries)[k] == v
    decreases |entries|
  {
    var init := entries[..|entries| - 1];
    if i < |entries| - 1 {
      assert init[i] == entries[i];
      forall j | i < j < |init|
        ensures !Assigns(init[j], k)
      {
        assert init[j] == entries[j];
      }
      LastWins(init, i, k, v);
      assert !Assigns(entries[|entries| - 1], k);
    }
  }

  /** In a file, the last line that assigns a key decides its value. */
  lemma LoadLastWins(lines: seq<string>, i: nat, k: string, v: string)
    requires i < |lines| && ParseLine(lines[i]) == Some((k, v))
    requires forall j | i < j < |lines| :: !Assigns(ParseLine(lines[j]), k)
    ensures var m := LoadEnvFile(Present(lines)); k in m && m[k] == v
  {
    LastWins(Assignments(lines), i, k, v);
  }

  /** Entries that assign nothing change nothing, wherever they are appended. */
  lemma {:induction false} IgnoredEntries(entries: seq<Option<(string, string)>>, extra: seq<Option<(string, string)>>)
    requires forall j | 0 <= j < |extra| :: extra[j].None?
    ensures Apply(entries + extra) == Apply(entries)
    decreases |extra|
  {
    if |extra| > 0 {
      var init := extra[..|extra| - 1];
      assert (entries + extra)[..|entries + extra| - 1] == entries + init;
      assert (entries + extra)[|entries + extra| - 1] == extra[|extra| - 1];
      IgnoredEntries(entries, init);
    } else {
      assert entries + extra == entries;
    }
  }

  /** Appending blank lines, comments and lines without `=` to a file
      leaves what it defines unchanged. */
  lemma IgnoredLines(lines: seq<string>, extra: seq<string>)
    requires forall j | 0 <= j < |extra| :: ParseLine(extra[j]).None?
    ensures LoadEnvFile(Present(lines + extra)) == LoadEnvFile(Present(lines))
  {
    assert Assignments(lines + extra) == Assignments(lines) + Assignments(extra);
    IgnoredEntries(Assignments(lines), Assignments(extra));
  }

  /** A key free of `=`, spaces at its ends and a leading `#`, and a value
      in matching quotes, read back as the key and the unquoted value,
      whatever the value contains. */
  lemma ParseQuoted(k: string, v: string, q: char)
    requires |k| > 0 && k[0] != '#' && '=' !in k && PyStrip(k) == k
    requires q == '"' || q == '\''
    ensures ParseLine(k + "=" + [q] + v + [q]) == Some((k, v))
  {
    var value := [q] + v + [q];
    var line := k + "=" + [q] + v + [q];
    assert line == k + ['='] + value;
    KeyStartsSolid(k);
    assert line[0] == k[0] && line[|line| - 1] == q;
    TrimFixed(line, IsPySpace);
    TrimFixed(value, IsPySpace);
    SplitFirstUnique(k, '=', value);
    UnquoteQuoted(v, q);
    assert ParseStripped(line) == Some((k, v));
  }

  /** A non-empty key that is its own strip starts with a non-space. */
  lemma KeyStartsSolid(k: string)
    requires |k| > 0 && PyStrip(k) == k
    ensures !IsPySpace(k[0]) && !IsPySpace(k[|k| - 1])
  {
    TrimEmptyIff(k, IsPySpace);
    assert TrimStart(k, IsPySpace) == k;
  }

  /** An unquoted value free of spaces at its ends reads back unchanged. */
  lemma ParsePlain(k: string, v: string)
    requires |k| > 0 && k[0] != '#' && '=' !in k && PyStrip(k) == k
    requires PyStrip(v) == v && Unquote(v) == v
    ensures ParseLine(k + "=" + v) == Some((k, v))
  {
    var line := k + "=" + v;
    assert line == k + ['='] + v;
    KeyStartsSolid(k);
    if v != [] {
      KeyStartsSolid(v);
    }
    assert line[0] == k[0];
    TrimFixed(line, IsPySpace);
    SplitFirstUnique(k, '=', v);
    assert ParseStripped(line) == Some((k, v));
  }
}

=== FILE: evolver.dfy ===
/** The prompt evolver: a genetic loop over generations in which each slot of
    the next population is filled by a tournament winner, mutated with a
    given probability, and replaced by its mutation only when that scores
    strictly higher. The language model (mutation and fitness judging) is a
    pair of function parameters, and so is the random source. */
module Evolver {
  import opened Wrappers
  import opened Text
  import opened Fitness

  datatype Individual = Individual(prompt: string, fitness: FitnessScore)

  datatype LineageEntry = LineageEntry(generation: nat, population: seq<Individual>)

  datatype Settings = Settings(populationSize: int, mutationRate: real, tournamentSize: int)

  /** What the loop asks of the language model: `mutate` is the variant step
      (the model's proposal for a prompt, stripped of surrounding
      whitespace), and `fit` is the fitness function, whose judging of test
      cases also goes through the model. The loop works for any pair;
      `EvolverOracles` builds the pair the evolver uses. */
  datatype Oracles = Oracles(mutate: string -> string, fit: string -> FitnessScore)

  /** The evolver's oracles for a model whose raw answer to a mutation
      request is `propose`, a fitness mode name and a list of test cases. */
  function EvolverOracles(propose: string -> string, fitnessType: string, tests: seq<TestCase>, judge: Judge)
    : (o: Oracles)
    ensures forall p :: o.mutate(p) == PyStrip(propose(p))
    ensures forall p :: o.fit(p) == Score(p, ModeOf(fitnessType), tests, judge)
  {
    Oracles(p => PyStrip(propose(p)), p => Score(p, ModeOf(fitnessType), tests, judge))
  }

  /** The random source, indexed by slot number (slots are numbered across
      generations in the order the tournaments are held). `sample(t, n, k)`
      is the draw of `k` of `n` individuals for slot `t`, and `roll(t)` is
      the uniform draw that decides whether slot `t` mutates. */
  datatype Randomness = Randomness(sample: (nat, nat, nat) -> seq<nat>, roll: nat -> real)

  datatype Counters = Counters(totalVariants: nat, successfulMutations: nat, tournamentWinners: nat)

  datatype EvolutionResult = EvolutionResult(
    bestPrompt: string,
    fitness: FitnessScore,
    generations: int,
    totalVariants: nat,
    successfulMutations: nat,
    tournamentWinners: nat,
    lineage: seq<LineageEntry>)

  function Max0(x: int): nat {
    if x < 0 then 0 else x
  }

  // ---------------------------------------------------------------------
  // Sampling without replacement

  predicate Distinct(xs: seq<nat>) {
    forall i, j | 0 <= i < j < |xs| :: xs[i] != xs[j]
  }

  /** `k` distinct indices below `n`. */
  predicate ValidSample(picks: seq<nat>, n: nat, k: nat) {
    |picks| == k && (forall i | 0 <= i < k :: picks[i] < n) && Distinct(picks)
  }

  /** The indices `0 .. n - 1` in order. */
  function Indices(n: nat): (r: seq<nat>)
    ensures |r| == n && forall i | 0 <= i < n :: r[i] == i
    decreases n
  {
    if n == 0 then [] else Indices(n - 1) + [n - 1]
  }

  /** The indices `random.sample` draws for slot `t`: `k` distinct indices
      below `n`, in draw order. Any such sequence is a possible outcome; the
      random source supplies it, and a sequence that is not one (which
      `random.sample` never returns) is replaced by the first `k` indices so
      that the model stays total. */
  function Sample(n: nat, k: nat, sample: (nat, nat, nat) -> seq<nat>, t: nat): (r: seq<nat>)
    requires k <= n
    ensures |r| == k && forall i | 0 <= i < k :: r[i] < n
  {
    var raw := sample(t, n, k);
    IsDrawIff(raw, n);
    if |raw| == k && IsDraw(raw, n) then raw else Indices(k)
  }

  /** Element-by-element check that `xs` is a draw without replacement from
      `0 .. n - 1`. */
  predicate IsDraw(xs: seq<nat>, n: nat)
    decreases |xs|
  {
    |xs| == 0 || (xs[0] < n && xs[0] !in xs[1..] && IsDraw(xs[1..], n))
  }

  lemma {:induction false} IsDrawIff(xs: seq<nat>, n: nat)
    ensures IsDraw(xs, n) <==> (forall i | 0 <= i < |xs| :: xs[i] < n) && Distinct(xs)
    decreases |xs|
  {
    if |xs| > 0 {
      var rest := xs[1..];
      IsDrawIff(rest, n);
      assert forall j | 0 <= j < |rest| :: rest[j] == xs[j + 1];
      if IsDraw(xs, n) {
        forall i, j | 0 <= i < j < |xs| ensures xs[i] != xs[j] {
          if i > 0 { assert xs[i] == rest[i - 1] && xs[j] == rest[j - 1]; }
          else { assert xs[j] == rest[j - 1]; }
        }
      }
      if (forall i | 0 <= i < |xs| :: xs[i] < n) && Distinct(xs) {
        assert xs[0] < n;
        assert xs[0] !in rest;
      }
    }
  }

  /** The draw is always `k` distinct indices below `n`, and it is exactly
      what the random source supplied whenever that is a valid draw. */
  lemma SampleValid(n: nat, k: nat, sample: (nat, nat, nat) -> seq<nat>, t: nat)
    requires k <= n
    ensures ValidSample(Sample(n, k, sample, t), n, k)
    ensures ValidSample(sample(t, n, k), n, k) ==> Sample(n, k, sample, t) == sample(t, n, k)
  {
    IsDrawIff(sample(t, n, k), n);
  }

  /** The values a sequence holds. */
  function Elems(xs: seq<nat>): (r: set<nat>)
    ensures forall x :: x in r <==> x in xs
    decreases |xs|
  {
    if |xs| == 0 then {} else {xs[0]} + Elems(xs[1..])
  }

  lemma {:induction false} DistinctSeqCard(xs: seq<nat>)
    requires Distinct(xs)
    ensures |Elems(xs)| == |xs|
    decreases |xs|
  {
    if |xs| > 0 {
      var rest := xs[1..];
      assert Distinct(rest) by {
        assert forall j | 0 <= j < |rest| :: rest[j] == xs[j + 1];
      }
      DistinctSeqCard(rest);
      assert xs[0] !in rest by {
        assert forall j | 0 <= j < |rest| :: rest[j] == xs[j + 1];
      }
    }
  }

  /** The indices below `n`. */
  function Below(n: nat): (r: set<nat>)
    ensures forall x: nat :: x in r <==> x < n
    ensures |r| == n
    decreases n
  {
    if n == 0 then {} else Below(n - 1) + {n - 1}
  }

  lemma {:induction false} SubsetCard(a: set<nat>, b: set<nat>)
    requires a <= b
    ensures |a| <= |b|
    decreases |b|
  {
    if a != {} {
      var x :| x in a;
      SubsetCard(a - {x}, b - {x});
    }
  }

  /** Drawing as many distinct indices as there are individuals draws all of them. */
  lemma SampleCoversAll(picks: seq<nat>, n: nat)
    requires ValidSample(picks, n, n)
    ensures forall x: nat | x < n :: x in picks
  {
    DistinctSeqCard(picks);
    forall x: nat | x < n
      ensures x in picks
    {
      if x !in picks {
        assert Elems(picks) <= Below(n) - {x};
        SubsetCard(Elems(picks), Below(n) - {x});
        assert false;
      }
    }
  }

  // ---------------------------------------------------------------------
  // Tournament selection

  /** Position in `picks` of the first drawn individual with the highest
      overall score, as Python's `max` with a key function picks it. */
  function BestPick(pop: seq<Individual>, picks: seq<nat>): (m: nat)
    requires |picks| > 0 && forall i | 0 <= i < |picks| :: picks[i] < |pop|
    ensures m < |picks|
    ensures forall j | 0 <= j < |picks| :: pop[picks[j]].fitness.overall <= pop[picks[m]].fitness.overall
    ensures forall j | 0 <= j < m :: pop[picks[j]].fitness.overall < pop[picks[m]].fitness.overall
    decreases |picks|
  {
    if |picks| == 1 then 0
    else
      var front := picks[..|picks| - 1];
      var j := BestPick(pop, front);
      assert forall i | 0 <= i < |front| :: front[i] == picks[i];
      if pop[picks[|picks| - 1]].fitness.overall > pop[picks[j]].fitness.overall then |picks| - 1 else j
  }

  /** The tournament size the source samples: never more than the population. */
  function SampleSize(tournamentSize: int, n: nat): int {
    if tournamentSize < n then tournamentSize else n
  }

  /** One tournament over the drawn indices `picks`: the best-scoring drawn
      individual, the first of them on a tie. A negative sample size and an
      empty tournament are the errors the source raises. */
  function TournamentSelect(pop: seq<Individual>, tournamentSize: int, picks: seq<nat>): (r: Result<Individual>)
    requires SampleSize(tournamentSize, |pop|) > 0 ==>
      |picks| == SampleSize(tournamentSize, |pop|) && forall i | 0 <= i < |picks| :: picks[i] < |pop|
    ensures r.Ok? <==> tournamentSize > 0 && |pop| > 0
    ensures r.Ok? ==> exists i | 0 <= i < |picks| :: r.value == pop[picks[i]]
    ensures r.Ok? ==> forall i | 0 <= i < |picks| :: pop[picks[i]].fitness.overall <= r.value.fitness.overall
  {
    var k := SampleSize(tournamentSize, |pop|);
    if k < 0 then Err("Sample larger than population or is negative")
    else if k == 0 then Err("max() arg is an empty sequence")
    else
      var w := BestPick(pop, picks);
      Ok(pop[picks[w]])
  }

  /** When the tournament is at least as large as the population, the sample
      is the whole population, so its best member is the best overall. */
  lemma SampleMaxIsGlobal(pop: seq<Individual>, picks: seq<nat>, tournamentSize: int, win: Individual)
    requires ValidSample(picks, |pop|, |picks|)
    requires tournamentSize >= |pop| ==> |picks| == |pop|
    requires forall m | 0 <= m < |picks| :: pop[picks[m]].fitness.overall <= win.fitness.overall
    ensures tournamentSize >= |pop| ==> forall i | 0 <= i < |pop| :: pop[i].fitness.overall <= win.fitness.overall
  {
    if tournamentSize >= |pop| {
      SampleCoversAll(picks, |pop|);
      forall i | 0 <= i < |pop|
        ensures pop[i].fitness.overall <= win.fitness.overall
      {
        assert i in picks;
        var m :| 0 <= m < |picks| && picks[m] == i;
      }
    }
  }

  /** A tournament over a valid draw at least as large as the population
      returns an individual no other member outscores. */
  lemma TournamentGlobalMax(pop: seq<Individual>, tournamentSize: int, picks: seq<nat>)
    requires tournamentSize >= |pop| > 0
    requires ValidSample(picks, |pop|, |pop|)
    ensures TournamentSelect(pop, tournamentSize, picks).Ok?
    ensures forall i | 0 <= i < |pop| ::
      pop[i].fitness.overall <= TournamentSelect(pop, tournamentSize, picks).value.fitness.overall
  {
    var w := TournamentSelect(pop, tournamentSize, picks).value;
    SampleMaxIsGlobal(pop, picks, tournamentSize, w);
  }

  /** The tournament winner that fills slot `slot`. */
  function Parent(pop: seq<Individual>, slot: nat, s: Settings, rnd: Randomness): (p: Individual)
    requires s.tournamentSize > 0 && |pop| > 0
    ensures p in pop
  {
    var k := SampleSize(s.tournamentSize, |pop|);
    TournamentSelect(pop, s.tournamentSize, Sample(|pop|, k, rnd.sample, slot)).value
  }

  /** With a tournament at least as large as the population every parent is
      a best-scoring member of it. */
  lemma ParentGlobalMax(pop: seq<Individual>, slot: nat, s: Settings, rnd: Randomness)
    requires s.tournamentSize >= |pop| > 0
    ensures forall i | 0 <= i < |pop| :: pop[i].fitness.overall <= Parent(pop, slot, s, rnd).fitness.overall
  {
    var k := SampleSize(s.tournamentSize, |pop|);
    SampleValid(|pop|, k, rnd.sample, slot);
    TournamentGlobalMax(pop, s.tournamentSize, Sample(|pop|, k, rnd.sample, slot));
  }

  // ---------------------------------------------------------------------
  // Breeding

  /** An individual whose recorded fitness is the fitness of its prompt. */
  predicate Scored(x: Individual, o: Oracles) {
    x.fitness == o.fit(x.prompt)
  }

  /** The variant the mutation step proposes for a prompt. */
  function Mutate(prompt: string, o: Oracles): string {
    o.mutate(prompt)
  }

  /** What filling one slot produced: the child, whether a mutation was
      attempted and whether it was admitted. */
  datatype Slot = Slot(child: Individual, attempted: bool, admitted: bool)

  /** `b` is a possible outcome of breeding `parent`: the parent itself
      unless a mutation was attempted and admitted, and an admitted mutation
      is a scored variant of the parent's prompt that outscores it. */
  predicate Outcome(b: Slot, parent: Individual, o: Oracles) {
    && (b.admitted ==> b.attempted)
    && (!b.admitted ==> b.child == parent)
    && (b.admitted ==> b.child.prompt == Mutate(parent.prompt, o)
                       && Scored(b.child, o)
                       && b.child.fitness.overall > parent.fitness.overall)
  }

  /** `x` can fill a slot whose tournament `p` won. */
  predicate BredFrom(x: Individual, p: Individual, o: Oracles) {
    || x == p
    || (x.prompt == Mutate(p.prompt, o) && Scored(x, o) && x.fitness.overall > p.fitness.overall)
  }

  /** `x` was bred from some member of `prev`. */
  predicate Descends(x: Individual, prev: seq<Individual>, o: Oracles) {
    exists i | 0 <= i < |prev| :: BredFrom(x, prev[i], o)
  }

  /** One slot: when the roll falls below `mutationRate` the parent is
      mutated, and the variant takes the slot only if its overall score is
      strictly higher; otherwise the parent itself does. */
  function Breed(parent: Individual, slot: nat, s: Settings, o: Oracles, rnd: Randomness): (r: Slot)
    ensures r.attempted <==> rnd.roll(slot) < s.mutationRate
    ensures r.admitted <==> r.attempted && o.fit(Mutate(parent.prompt, o)).overall > parent.fitness.overall
    ensures r.admitted ==> r.child == Individual(Mutate(parent.prompt, o), o.fit(Mutate(parent.prompt, o)))
    ensures r.admitted <==> r.child != parent
    ensures Outcome(r, parent, o)
  {
    if rnd.roll(slot) < s.mutationRate then
      var variant := Mutate(parent.prompt, o);
      var f := o.fit(variant);
      if f.overall > parent.fitness.overall then Slot(Individual(variant, f), true, true)
      else Slot(parent, true, false)
    else Slot(parent, false, false)
  }

  /** Slot `slot` of the generation bred from `pop`. */
  function Offspring(pop: seq<Individual>, slot: nat, s: Settings, o: Oracles, rnd: Randomness): (b: Slot)
    requires s.tournamentSize > 0 && |pop| > 0
    ensures b.attempted <==> rnd.roll(slot) < s.mutationRate
    ensures exists i | 0 <= i < |pop| :: Outcome(b, pop[i], o)
    ensures Descends(b.child, pop, o)
  {
    var p := Parent(pop, slot, s, rnd);
    var b := Breed(p, slot, s, o, rnd);
    OutcomeInPopulation(b, p, pop, o);
    b
  }

  lemma OutcomeInPopulation(b: Slot, p: Individual, pop: seq<Individual>, o: Oracles)
    requires p in pop && Outcome(b, p, o)
    ensures exists i | 0 <= i < |pop| :: Outcome(b, pop[i], o)
    ensures Descends(b.child, pop, o)
  {
    var i :| 0 <= i < |pop| && pop[i] == p;
    assert BredFrom(b.child, pop[i], o);
  }

  /** With a tournament at least as large as the population, every child
      scores at least as high as every member of the population it was bred
      from. */
  lemma OffspringElitist(pop: seq<Individual>, slot: nat, s: Settings, o: Oracles, rnd: Randomness)
    requires s.tournamentSize >= |pop| > 0
    ensures forall i | 0 <= i < |pop| ::
      pop[i].fitness.overall <= Offspring(pop, slot, s, o, rnd).child.fitness.overall
  {
    ParentGlobalMax(pop, slot, s, rnd);
  }

  /** How many of the `n` rolls from slot `from` on fall below `rate`, that
      is, how many of those slots attempt a mutation. */
  function Hits(roll: nat -> real, rate: real, from: nat, n: nat): (h: nat)
    ensures h <= n
    decreases n
  {
    if n == 0 then 0 else Indicator(roll(from) < rate) + Hits(roll, rate, from + 1, n - 1)
  }

  /** Counting `a + b` rolls is counting the first `a` and then the next `b`. */
  lemma {:induction false} HitsAppend(roll: nat -> real, rate: real, from: nat, a: nat, b: nat)
    ensures Hits(roll, rate, from, a + b) == Hits(roll, rate, from, a) + Hits(roll, rate, from + a, b)
    decreases a
  {
    if a > 0 {
      HitsAppend(roll, rate, from + 1, a - 1, b);
    }
  }

  /** The rolls of `n` generations of `size` slots each are those of the
      first generation followed by those of the other `n - 1`. */
  lemma HitsGenerations(roll: nat -> real, rate: real, from: nat, size: nat, n: nat)
    requires n > 0
    ensures n * size == size + (n - 1) * size
    ensures Hits(roll, rate, from, n * size)
            == Hits(roll, rate, from, size) + Hits(roll, rate, from + size, (n - 1) * size)
  {
    MulSucc(n - 1, size);
    HitsAppend(roll, rate, from, size, (n - 1) * size);
  }

  /** Every roll below the rate: every slot attempts a mutation; every roll
      at or above it: none does. */
  lemma {:induction false} HitsAllOrNone(roll: nat -> real, rate: real, from: nat, n: nat)
    ensures (forall k: nat | from <= k < from + n :: roll(k) < rate) ==> Hits(roll, rate, from, n) == n
    ensures (forall k: nat | from <= k < from + n :: roll(k) >= rate) ==> Hits(roll, rate, from, n) == 0
    decreases n
  {
    if n > 0 {
      HitsAllOrNone(roll, rate, from + 1, n - 1);
    }
  }

  // ---------------------------------------------------------------------
  // Generations

  /** Every member of `next` was bred from a member of `prev`. */
  predicate Improves(prev: seq<Individual>, next: seq<Individual>, o: Oracles) {
    forall j | 0 <= j < |next| :: Descends(next[j], prev, o)
  }

  /** The children of one generation and the counters after breeding it. */
  datatype Brood = Brood(children: seq<Individual>, counters: Counters)

  /** The counters after one more slot. */
  function Tally(c: Counters, b: Slot): Counters {
    Counters(c.totalVariants + Indicator(b.attempted),
             c.successfulMutations + Indicator(b.admitted),
             c.tournamentWinners + 1)
  }

  /** The inner loop of one generation: `need` more tournaments over `pop`,
      each winner possibly replaced by a better mutation, appended in order.
      Slot numbers run on from `c.tournamentWinners`, which counts every
      tournament held. Every tournament draws from `pop` only, so a slot does
      not depend on the slots before it. */
  function FillGeneration(pop: seq<Individual>, need: nat, s: Settings, o: Oracles, rnd: Randomness, c: Counters)
    : (r: Brood)
    requires need == 0 || (s.tournamentSize > 0 && |pop| > 0)
    ensures |r.children| == need
    ensures r.counters.tournamentWinners == c.tournamentWinners + need
    ensures r.counters.totalVariants == c.totalVariants + Hits(rnd.roll, s.mutationRate, c.tournamentWinners, need)
    ensures c.successfulMutations <= r.counters.successfulMutations
    ensures r.counters.successfulMutations - c.successfulMutations
            <= r.counters.totalVariants - c.totalVariants
    decreases need
  {
    if need == 0 then Brood([], c)
    else
      var b := Offspring(pop, c.tournamentWinners, s, o, rnd);
      var rest := FillGeneration(pop, need - 1, s, o, rnd, Tally(c, b));
      Brood([b.child] + rest.children, rest.counters)
  }

  /** Every member of the new generation was bred from the old one. */
  lemma {:induction false} FillImproves(pop: seq<Individual>, need: nat, s: Settings, o: Oracles, rnd: Randomness, c: Counters)
    requires need == 0 || (s.tournamentSize > 0 && |pop| > 0)
    ensures Improves(pop, FillGeneration(pop, need, s, o, rnd, c).children, o)
    decreases need
  {
    if need > 0 {
      var b := Offspring(pop, c.tournamentWinners, s, o, rnd);
      FillImproves(pop, need - 1, s, o, rnd, Tally(c, b));
      var rest := FillGeneration(pop, need - 1, s, o, rnd, Tally(c, b)).children;
      var next := FillGeneration(pop, need, s, o, rnd, c).children;
      assert next == [b.child] + rest;
      forall j | 0 <= j < |next|
        ensures Descends(next[j], pop, o)
      {
        if j > 0 { assert next[j] == rest[j - 1]; }
      }
    }
  }

  /** A scored individual whose prompt the mutation step maps to itself. */
  predicate FixedPoint(x: Individual, o: Oracles) {
    Scored(x, o) && Mutate(x.prompt, o) == x.prompt
  }

  /** Every member of `pop` is `x`. */
  predicate Uniform(pop: seq<Individual>, x: Individual) {
    forall i | 0 <= i < |pop| :: pop[i] == x
  }

  /** A mutation of a fixed point scores exactly what the fixed point does,
      so it never outscores it. */
  lemma FixedPointBreedsItself(x: Individual, y: Individual, o: Oracles)
    requires FixedPoint(x, o) && BredFrom(y, x, o)
    ensures y == x
  {
  }

  /** Copies of a fixed point never admit a mutation. */
  lemma {:induction false} FillFixedPoint(pop: seq<Individual>, x: Individual, need: nat, s: Settings, o: Oracles,
                                          rnd: Randomness, c: Counters)
    requires need == 0 || (s.tournamentSize > 0 && |pop| > 0)
    requires Uniform(pop, x) && FixedPoint(x, o)
    ensures FillGeneration(pop, need, s, o, rnd, c).counters.successfulMutations == c.successfulMutations
    decreases need
  {
    if need > 0 {
      var b := Offspring(pop, c.tournamentWinners, s, o, rnd);
      var i :| 0 <= i < |pop| && Outcome(b, pop[i], o);
      assert !b.admitted;
      FillFixedPoint(pop, x, need - 1, s, o, rnd, Tally(c, b));
    }
  }

  /** With a tournament at least as large as the population, no child
      scores below any member of the population it was bred from. */
  lemma {:induction false} FillElitist(pop: seq<Individual>, need: nat, s: Settings, o: Oracles, rnd: Randomness, c: Counters)
    requires need == 0 || (s.tournamentSize > 0 && |pop| > 0)
    requires s.tournamentSize >= |pop|
    ensures Dominates(pop, FillGeneration(pop, need, s, o, rnd, c).children)
    decreases need
  {
    if need > 0 {
      var b := Offspring(pop, c.tournamentWinners, s, o, rnd);
      OffspringElitist(pop, c.tournamentWinners, s, o, rnd);
      FillElitist(pop, need - 1, s, o, rnd, Tally(c, b));
      var rest := FillGeneration(pop, need - 1, s, o, rnd, Tally(c, b)).children;
      var next := FillGeneration(pop, need, s, o, rnd, c).children;
      assert next == [b.child] + rest;
      forall i, j | 0 <= i < |pop| && 0 <= j < |next|
        ensures pop[i].fitness.overall <= next[j].fitness.overall
      {
        if j > 0 { assert next[j] == rest[j - 1]; }
      }
    }
  }

  /** No member of `next` scores below any member of `prev`. */
  predicate Dominates(prev: seq<Individual>, next: seq<Individual>) {
    forall i, j | 0 <= i < |prev| && 0 <= j < |next| :: prev[i].fitness.overall <= next[j].fitness.overall
  }

  // ---------------------------------------------------------------------
  // The run

  /** Where a run of generations ends: the last population, the counters
      and one lineage entry per generation bred. */
  datatype Run = Run(population: seq<Individual>, counters: Counters, lineage: seq<LineageEntry>)

  /** Lineage entries numbered consecutively from `first`, each holding a
      population of `size` individuals. */
  predicate Numbered(lineage: seq<LineageEntry>, first: nat, size: nat) {
    forall i | 0 <= i < |lineage| :: lineage[i].generation == first + i && |lineage[i].population| == size
  }

  lemma NumberedCons(x: LineageEntry, tail: seq<LineageEntry>, first: nat, size: nat)
    requires x.generation == first && |x.population| == size
    requires Numbered(tail, first + 1, size)
    ensures Numbered([x] + tail, first, size)
  {
    forall i | 0 < i < |[x] + tail|
      ensures ([x] + tail)[i] == tail[i - 1]
    {
    }
  }

  /** The population a run that started from `start` ends with: the last one
      recorded, or `start` when no generation was bred. */
  function Ending(start: seq<Individual>, lineage: seq<LineageEntry>): seq<Individual> {
    if |lineage| == 0 then start else lineage[|lineage| - 1].population
  }

  lemma EndingCons(start: seq<Individual>, x: LineageEntry, tail: seq<LineageEntry>)
    ensures Ending(start, [x] + tail) == Ending(x.population, tail)
  {
  }

  /** The counters after one generation of `size` slots followed by `n - 1`
      more are those of `n` generations from the start. */
  lemma CountersCompose(roll: nat -> real, rate: real, size: nat, n: nat, c: Counters, mid: Counters, end: Counters)
    requires n > 0
    requires mid.tournamentWinners == c.tournamentWinners + size
    requires mid.totalVariants == c.totalVariants + Hits(roll, rate, c.tournamentWinners, size)
    requires c.successfulMutations <= mid.successfulMutations
    requires mid.successfulMutations - c.successfulMutations <= mid.totalVariants - c.totalVariants
    requires end.tournamentWinners == mid.tournamentWinners + (n - 1) * size
    requires end.totalVariants == mid.totalVariants + Hits(roll, rate, mid.tournamentWinners, (n - 1) * size)
    requires mid.successfulMutations <= end.successfulMutations
    requires end.successfulMutations - mid.successfulMutations <= end.totalVariants - mid.totalVariants
    ensures end.tournamentWinners == c.tournamentWinners + n * size
    ensures end.totalVariants == c.totalVariants + Hits(roll, rate, c.tournamentWinners, n * size)
    ensures c.successfulMutations <= end.successfulMutations
    ensures end.successfulMutations - c.successfulMutations <= end.totalVariants - c.totalVariants
  {
    HitsGenerations(roll, rate, c.tournamentWinners, size, n);
  }

  lemma MulSucc(a: nat, b: nat)
    ensures (a + 1) * b == a * b + b
  {
  }

  /** Breeds `remaining` generations from `pop`, the first of them numbered
      `gen + 1`; every generation has `populationSize` slots. A tournament
      over an empty population or with a non-positive size fails. */
  function RunGenerations(pop: seq<Individual>, gen: nat, remaining: nat, s: Settings, o: Oracles,
                          rnd: Randomness, c: Counters): (r: Result<Run>)
    ensures r.Ok? <==> remaining == 0 || s.populationSize <= 0 || (s.tournamentSize > 0 && |pop| > 0)
    ensures r.Ok? ==> |r.value.lineage| == remaining
    ensures r.Ok? ==> Numbered(r.value.lineage, gen + 1, Max0(s.populationSize))
    ensures r.Ok? ==> r.value.population == Ending(pop, r.value.lineage)
    ensures r.Ok? ==> r.value.counters.tournamentWinners == c.tournamentWinners + remaining * Max0(s.populationSize)
    ensures r.Ok? ==> r.value.counters.totalVariants
                      == c.totalVariants + Hits(rnd.roll, s.mutationRate, c.tournamentWinners,
                                                remaining * Max0(s.populationSize))
    ensures r.Ok? ==> c.successfulMutations <= r.value.counters.successfulMutations
    ensures r.Ok? ==> r.value.counters.successfulMutations - c.successfulMutations
                      <= r.value.counters.totalVariants - c.totalVariants
    decreases remaining
  {
    if remaining == 0 then Ok(Run(pop, c, []))
    else if s.populationSize > 0 && !(s.tournamentSize > 0 && |pop| > 0) then
      Err(TournamentSelect(pop, s.tournamentSize, []).msg)
    else
      var step := FillGeneration(pop, Max0(s.populationSize), s, o, rnd, c);
      var next := step.children;
      var rest := RunGenerations(next, gen + 1, remaining - 1, s, o, rnd, step.counters);
      if rest.Err? then rest
      else
        CountersCompose(rnd.roll, s.mutationRate, Max0(s.populationSize), remaining, c, step.counters, rest.value.counters);
        NumberedCons(LineageEntry(gen + 1, next), rest.value.lineage, gen + 1, Max0(s.populationSize));
        EndingCons(pop, LineageEntry(gen + 1, next), rest.value.lineage);
        Ok(Run(rest.value.population, rest.value.counters,
               [LineageEntry(gen + 1, next)] + rest.value.lineage))
  }

  /** Each population of the lineage was bred from the one before it, the
      first from the starting population. */
  predicate Ascending(start: seq<Individual>, lineage: seq<LineageEntry>, o: Oracles) {
    && (|lineage| > 0 ==> Improves(start, lineage[0].population, o))
    && forall i | 0 < i < |lineage| :: Improves(lineage[i - 1].population, lineage[i].population, o)
  }

  lemma {:induction false} RunAscending(pop: seq<Individual>, gen: nat, remaining: nat, s: Settings, o: Oracles,
                                        rnd: Randomness, c: Counters)
    requires RunGenerations(pop, gen, remaining, s, o, rnd, c).Ok?
    ensures Ascending(pop, RunGenerations(pop, gen, remaining, s, o, rnd, c).value.lineage, o)
    decreases remaining
  {
    if remaining > 0 {
      var step := FillGeneration(pop, Max0(s.populationSize), s, o, rnd, c);
      FillImproves(pop, Max0(s.populationSize), s, o, rnd, c);
      var next := step.children;
      RunAscending(next, gen + 1, remaining - 1, s, o, rnd, step.counters);
      var tail := RunGenerations(next, gen + 1, remaining - 1, s, o, rnd, step.counters).value.lineage;
      var l := RunGenerations(pop, gen, remaining, s, o, rnd, c).value.lineage;
      assert l == [LineageEntry(gen + 1, next)] + tail;
      forall i | 0 < i < |l|
        ensures Improves(l[i - 1].population, l[i].population, o)
      {
        if i == 1 {
          assert l[1] == tail[0];
        } else {
          assert l[i - 1] == tail[i - 2] && l[i] == tail[i - 1];
        }
      }
    }
  }

  // ---------------------------------------------------------------------
  // What an ascending lineage keeps

  /** The lineage up to generation `k` is ascending when the whole is. */
  lemma AscendingPrefix(start: seq<Individual>, lineage: seq<LineageEntry>, k: nat, o: Oracles)
    requires Ascending(start, lineage, o) && k <= |lineage|
    ensures Ascending(start, lineage[..k], o)
  {
    assert forall i | 0 <= i < k :: lineage[..k][i] == lineage[i];
  }

  /** No member of `pop` scores below `floor`. */
  predicate AtLeast(pop: seq<Individual>, floor: real) {
    forall j | 0 <= j < |pop| :: pop[j].fitness.overall >= floor
  }

  lemma ImprovesKeepsFloor(prev: seq<Individual>, next: seq<Individual>, o: Oracles, floor: real)
    requires Improves(prev, next, o) && AtLeast(prev, floor)
    ensures AtLeast(next, floor)
  {
    forall j | 0 <= j < |next|
      ensures next[j].fitness.overall >= floor
    {
      assert Descends(next[j], prev, o);
    }
  }

  /** Every recorded fitness in `pop` is the fitness function's. */
  predicate AllScored(pop: seq<Individual>, o: Oracles) {
    forall i | 0 <= i < |pop| :: Scored(pop[i], o)
  }

  lemma ImprovesKeepsScored(prev: seq<Individual>, next: seq<Individual>, o: Oracles)
    requires Improves(prev, next, o) && AllScored(prev, o)
    ensures AllScored(next, o)
  {
    forall j | 0 <= j < |next|
      ensures Scored(next[j], o)
    {
      assert Descends(next[j], prev, o);
    }
  }

  lemma ImprovesKeepsUniform(prev: seq<Individual>, next: seq<Individual>, x: Individual, o: Oracles)
    requires Improves(prev, next, o) && Uniform(prev, x) && FixedPoint(x, o)
    ensures Uniform(next, x)
  {
    forall j | 0 <= j < |next|
      ensures next[j] == x
    {
      var i :| 0 <= i < |prev| && BredFrom(next[j], prev[i], o);
      FixedPointBreedsItself(x, next[j], o);
    }
  }

  /** No population of the lineage has a member scoring below `floor` when
      the starting population has none. */
  lemma {:induction false} AscendingFloor(start: seq<Individual>, lineage: seq<LineageEntry>, o: Oracles, floor: real)
    requires Ascending(start, lineage, o) && AtLeast(start, floor)
    ensures forall i | 0 <= i < |lineage| :: AtLeast(lineage[i].population, floor)
    decreases |lineage|
  {
    if |lineage| > 0 {
      var k := |lineage| - 1;
      AscendingPrefix(start, lineage, k, o);
      AscendingFloor(start, lineage[..k], o, floor);
      if k == 0 {
        ImprovesKeepsFloor(start, lineage[0].population, o, floor);
      } else {
        assert AtLeast(lineage[..k][k - 1].population, floor);
        ImprovesKeepsFloor(lineage[k - 1].population, lineage[k].population, o, floor);
      }
      forall i | 0 <= i < k
        ensures AtLeast(lineage[i].population, floor)
      {
        assert lineage[i] == lineage[..k][i];
      }
    }
  }

  /** Every population of the lineage is scored when the starting one is. */
  lemma {:induction false} AscendingScored(start: seq<Individual>, lineage: seq<LineageEntry>, o: Oracles)
    requires Ascending(start, lineage, o) && AllScored(start, o)
    ensures forall i | 0 <= i < |lineage| :: AllScored(lineage[i].population, o)
    decreases |lineage|
  {
    if |lineage| > 0 {
      var k := |lineage| - 1;
      AscendingPrefix(start, lineage, k, o);
      AscendingScored(start, lineage[..k], o);
      if k == 0 {
        ImprovesKeepsScored(start, lineage[0].population, o);
      } else {
        assert AllScored(lineage[..k][k - 1].population, o);
        ImprovesKeepsScored(lineage[k - 1].population, lineage[k].population, o);
      }
      forall i | 0 <= i < k
        ensures AllScored(lineage[i].population, o)
      {
        assert lineage[i] == lineage[..k][i];
      }
    }
  }

  /** Copies of a fixed point breed nothing but copies of it. */
  lemma {:induction false} AscendingUniform(start: seq<Individual>, lineage: seq<LineageEntry>, x: Individual, o: Oracles)
    requires Ascending(start, lineage, o) && Uniform(start, x) && FixedPoint(x, o)
    ensures forall i | 0 <= i < |lineage| :: Uniform(lineage[i].population, x)
    decreases |lineage|
  {
    if |lineage| > 0 {
      var k := |lineage| - 1;
      AscendingPrefix(start, lineage, k, o);
      AscendingUniform(start, lineage[..k], x, o);
      if k == 0 {
        ImprovesKeepsUniform(start, lineage[0].population, x, o);
      } else {
        assert Uniform(lineage[..k][k - 1].population, x);
        ImprovesKeepsUniform(lineage[k - 1].population, lineage[k].population, x, o);
      }
      forall i | 0 <= i < k
        ensures Uniform(lineage[i].population, x)
      {
        assert lineage[i] == lineage[..k][i];
      }
    }
  }

  // ---------------------------------------------------------------------
  // The evolution

  /** The first member of `pop` with the highest overall score, as Python's
      `max` with a key function picks it. */
  function Best(pop: seq<Individual>): (b: Individual)
    requires |pop| > 0
    ensures b in pop
    ensures forall i | 0 <= i < |pop| :: pop[i].fitness.overall <= b.fitness.overall
    ensures exists k | 0 <= k < |pop| :: pop[k] == b && forall j | 0 <= j < k :: pop[j].fitness.overall < b.fitness.overall
  {
    var picks := Indices(|pop|);
    var m := BestPick(pop, picks);
    assert picks[m] == m;
    assert forall j | 0 <= j < |pop| :: pop[j].fitness.overall <= pop[m].fitness.overall by {
      forall j | 0 <= j < |pop|
        ensures pop[j].fitness.overall <= pop[m].fitness.overall
      {
        assert picks[j] == j;
      }
    }
    assert forall j | 0 <= j < m :: pop[j].fitness.overall < pop[m].fitness.overall by {
      forall j | 0 <= j < m
        ensures pop[j].fitness.overall < pop[m].fitness.overall
      {
        assert picks[j] == j;
      }
    }
    pop[m]
  }

  /** The population the lineage ends with. */
  function Final(lineage: seq<LineageEntry>): seq<Individual>
    requires |lineage| > 0
  {
    lineage[|lineage| - 1].population
  }

  /** Evolves `seed` for `n` generations. The lineage records the seed
      population as generation 0 and every generation bred after it; the
      result is the best member of the last population. A run whose
      tournaments cannot be held fails, and so does one that ends with an
      empty population (a non-positive population size). */
  function Evolve(seed: string, n: int, s: Settings, o: Oracles, rnd: Randomness): (r: Result<EvolutionResult>)
    ensures r.Ok? <==> n <= 0 || (s.populationSize > 0 && s.tournamentSize > 0)
    ensures r.Ok? ==> r.value.generations == n && |r.value.lineage| == Max0(n) + 1
    ensures r.Ok? ==> r.value.lineage[0] == LineageEntry(0, [Individual(seed, o.fit(seed))])
    ensures r.Ok? ==> Numbered(r.value.lineage[1..], 1, Max0(s.populationSize))
    ensures r.Ok? ==> r.value.tournamentWinners == Max0(n) * Max0(s.populationSize)
    ensures r.Ok? ==> r.value.totalVariants == Hits(rnd.roll, s.mutationRate, 0, Max0(n) * Max0(s.populationSize))
    ensures r.Ok? ==> r.value.successfulMutations <= r.value.totalVariants
    ensures r.Ok? ==> var last := Final(r.value.lineage);
                      && Individual(r.value.bestPrompt, r.value.fitness) in last
                      && forall i | 0 <= i < |last| :: last[i].fitness.overall <= r.value.fitness.overall
  {
    var first := Individual(seed, o.fit(seed));
    var run := RunGenerations([first], 0, Max0(n), s, o, rnd, Counters(0, 0, 0));
    if run.Err? then Err(run.msg)
    else if |run.value.population| == 0 then
      FinalPopulationSize(first, n, s, run.value);
      Err("max() arg is an empty sequence")
    else
      FinalPopulationSize(first, n, s, run.value);
      var lineage := [LineageEntry(0, [first])] + run.value.lineage;
      assert lineage[1..] == run.value.lineage;
      assert Final(lineage) == run.value.population;
      var best := Best(run.value.population);
      Ok(EvolutionResult(best.prompt, best.fitness, n, run.value.counters.totalVariants,
                         run.value.counters.successfulMutations, run.value.counters.tournamentWinners, lineage))
  }

  /** The last population of a run from the seed is empty exactly when some
      generation ran with no room for children. */
  lemma FinalPopulationSize(first: Individual, n: int, s: Settings, run: Run)
    requires |run.lineage| == Max0(n)
    requires Numbered(run.lineage, 1, Max0(s.populationSize))
    requires run.population == Ending([first], run.lineage)
    ensures |run.population| == 0 <==> n > 0 && s.populationSize <= 0
  {
    if n > 0 {
      assert |run.lineage[|run.lineage| - 1].population| == Max0(s.populationSize);
    }
  }

  /** The run behind a successful evolution. */
  lemma EvolveRun(seed: string, n: int, s: Settings, o: Oracles, rnd: Randomness)
    requires Evolve(seed, n, s, o, rnd).Ok?
    ensures var first := Individual(seed, o.fit(seed));
            var run := RunGenerations([first], 0, Max0(n), s, o, rnd, Counters(0, 0, 0));
            var e := Evolve(seed, n, s, o, rnd).value;
            && run.Ok?
            && e.lineage == [LineageEntry(0, [first])] + run.value.lineage
            && Final(e.lineage) == run.value.population
            && Ascending([first], run.value.lineage, o)
  {
    var first := Individual(seed, o.fit(seed));
    RunAscending([first], 0, Max0(n), s, o, rnd, Counters(0, 0, 0));
  }

  /** The evolved prompt never scores below the seed, and no generation of
      the lineage holds an individual scoring below it. */
  lemma EvolveNeverWorse(seed: string, n: int, s: Settings, o: Oracles, rnd: Randomness)
    requires Evolve(seed, n, s, o, rnd).Ok?
    ensures Evolve(seed, n, s, o, rnd).value.fitness.overall >= o.fit(seed).overall
    ensures var l := Evolve(seed, n, s, o, rnd).value.lineage;
            forall i | 0 <= i < |l| :: AtLeast(l[i].population, o.fit(seed).overall)
  {
    var first := Individual(seed, o.fit(seed));
    var floor := o.fit(seed).overall;
    EvolveRun(seed, n, s, o, rnd);
    var run := RunGenerations([first], 0, Max0(n), s, o, rnd, Counters(0, 0, 0)).value;
    var e := Evolve(seed, n, s, o, rnd).value;
    AscendingFloor([first], run.lineage, o, floor);
    LineageCons(LineageEntry(0, [first]), run.lineage, floor);
    assert AtLeast(Final(e.lineage), floor);
  }

  lemma LineageCons(x: LineageEntry, tail: seq<LineageEntry>, floor: real)
    requires AtLeast(x.population, floor)
    requires forall i | 0 <= i < |tail| :: AtLeast(tail[i].population, floor)
    ensures forall i | 0 <= i < |[x] + tail| :: AtLeast(([x] + tail)[i].population, floor)
  {
    forall i | 0 < i < |[x] + tail|
      ensures ([x] + tail)[i] == tail[i - 1]
    {
    }
  }

  /** The recorded fitness of every individual in the lineage, the result's
      included, is the fitness function's value on its prompt. */
  lemma EvolveScored(seed: string, n: int, s: Settings, o: Oracles, rnd: Randomness)
    requires Evolve(seed, n, s, o, rnd).Ok?
    ensures var e := Evolve(seed, n, s, o, rnd).value;
            e.fitness == o.fit(e.bestPrompt)
    ensures var l := Evolve(seed, n, s, o, rnd).value.lineage;
            forall i | 0 <= i < |l| :: AllScored(l[i].population, o)
  {
    var first := Individual(seed, o.fit(seed));
    EvolveRun(seed, n, s, o, rnd);
    var run := RunGenerations([first], 0, Max0(n), s, o, rnd, Counters(0, 0, 0)).value;
    var e := Evolve(seed, n, s, o, rnd).value;
    AscendingScored([first], run.lineage, o);
    ScoredCons(LineageEntry(0, [first]), run.lineage, o);
    assert AllScored(Final(e.lineage), o);
  }

  lemma ScoredCons(x: LineageEntry, tail: seq<LineageEntry>, o: Oracles)
    requires AllScored(x.population, o)
    requires forall i | 0 <= i < |tail| :: AllScored(tail[i].population, o)
    ensures forall i | 0 <= i < |[x] + tail| :: AllScored(([x] + tail)[i].population, o)
  {
    forall i | 0 < i < |[x] + tail|
      ensures ([x] + tail)[i] == tail[i - 1]
    {
    }
  }

  /** A seed the mutation step maps to itself is never replaced: the result
      is the seed with the seed's own fitness. */
  lemma EvolveFixedPoint(seed: string, n: int, s: Settings, o: Oracles, rnd: Randomness)
    requires Evolve(seed, n, s, o, rnd).Ok?
    requires Mutate(seed, o) == seed
    ensures Evolve(seed, n, s, o, rnd).value.bestPrompt == seed
    ensures Evolve(seed, n, s, o, rnd).value.fitness == o.fit(seed)
  {
    var first := Individual(seed, o.fit(seed));
    EvolveRun(seed, n, s, o, rnd);
    var run := RunGenerations([first], 0, Max0(n), s, o, rnd, Counters(0, 0, 0)).value;
    AscendingUniform([first], run.lineage, first, o);
    if |run.lineage| > 0 {
      assert Uniform(run.lineage[|run.lineage| - 1].population, first);
    }
    assert Uniform(run.population, first);
  }

  /** When every roll falls below the mutation rate every tournament winner
      is mutated; when none does, no variant is made and none admitted. */
  lemma EvolveMutationCounts(seed: string, n: int, s: Settings, o: Oracles, rnd: Randomness)
    requires Evolve(seed, n, s, o, rnd).Ok?
    ensures var e := Evolve(seed, n, s, o, rnd).value;
            (forall k: nat :: rnd.roll(k) < s.mutationRate) ==> e.totalVariants == e.tournamentWinners
    ensures var e := Evolve(seed, n, s, o, rnd).value;
            (forall k: nat :: rnd.roll(k) >= s.mutationRate) ==> e.totalVariants == 0 && e.successfulMutations == 0
  {
    HitsAllOrNone(rnd.roll, s.mutationRate, 0, Max0(n) * Max0(s.populationSize));
  }
}

=== FILE: finetune.dfy ===
/** The label classifier and the finetuner around it. The chain-of-thought
    predictor is a function parameter; the finetuner's state (its labels,
    its stored examples and the classifier it built, if any) is a value
    threaded through its operations, and saved states live in an in-memory
    file map. */
module Finetune {
  import opened Wrappers
  import opened Text

  /** What the predictor answers for an input. */
  datatype Prediction = Prediction(classLabel: string, reasoning: string, explanation: string)

  datatype Classification = Classification(input: string, classLabel: string, reasoning: string, explanation: string)

  datatype Example = Example(input: string, classLabel: string, explanation: Option<string>)

  /** Labels compare case-insensitively. */
  predicate SameLabel(a: string, b: string) {
    Lower(a) == Lower(b)
  }

  predicate Allowed(name: string, labels: seq<string>) {
    exists i | 0 <= i < |labels| :: SameLabel(name, labels[i])
  }

  /** The input the predictor sees: the text followed by the label list. */
  function LabelContext(input: string, labels: seq<string>): string {
    input + "\n\nPossible labels: " + Join(labels, ", ")
  }

  /** One classification with the classifier's `labels`. A predicted label
      outside the list (compared case-insensitively) becomes the first
      label; with no labels at all that first label does not exist. */
  function Forward(labels: seq<string>, input: string, predict: string -> Prediction): (r: Result<Classification>)
    ensures r.Err? <==> labels == []
    ensures r.Ok? ==> r.value.input == input && Allowed(r.value.classLabel, labels)
    ensures r.Ok? ==> var p := predict(LabelContext(input, labels));
                      && (Allowed(p.classLabel, labels) ==> r.value.classLabel == p.classLabel)
                      && (!Allowed(p.classLabel, labels) ==> r.value.classLabel == labels[0])
                      && r.value.reasoning == p.reasoning && r.value.explanation == p.explanation
  {
    var p := predict(LabelContext(input, labels));
    if Allowed(p.classLabel, labels) then Ok(Classification(input, p.classLabel, p.reasoning, p.explanation))
    else if |labels| == 0 then Err("list index out of range")
    else
      assert SameLabel(labels[0], labels[0]);
      Ok(Classification(input, labels[0], p.reasoning, p.explanation))
  }

  /** The finetuner: `classifier` holds the labels of the classifier once
      one has been built. */
  datatype Finetuner = Finetuner(labels: seq<string>, examples: seq<Example>, classifier: Option<seq<string>>)

  /** A fresh finetuner; missing examples mean none. */
  function NewFinetuner(labels: seq<string>, examples: Option<seq<Example>>): (f: Finetuner)
    ensures f.labels == labels && f.classifier.None?
    ensures f.examples == if examples.Some? then examples.value else []
  {
    Finetuner(labels, if examples.Some? then examples.value else [], None)
  }

  /** Builds the classifier from the current labels unless one exists. */
  function Prepare(f: Finetuner): (g: Finetuner)
    ensures g.classifier.Some? && g.labels == f.labels && g.examples == f.examples
    ensures f.classifier.Some? ==> g == f
    ensures f.classifier.None? ==> g.classifier == Some(f.labels)
  {
    if f.classifier.Some? then f else f.(classifier := Some(f.labels))
  }

  datatype TrainReport = TrainReport(examplesUsed: nat, finalAccuracy: real)

  /** Runs the classifier over the stored examples followed by `data`; the
      answers are discarded. */
  function Train(f: Finetuner, data: seq<Example>): (r: (Finetuner, Result<TrainReport>))
    ensures r.0 == Prepare(f)
    ensures r.1.Err? <==> |f.examples| + |data| > 0 && Prepare(f).classifier.value == []
    ensures r.1.Ok? ==> r.1.value == TrainReport(|f.examples| + |data|, 1.0)
  {
    var g := Prepare(f);
    var all := g.examples + data;
    if |all| > 0 && g.classifier.value == [] then (g, Err("list index out of range"))
    else (g, Ok(TrainReport(|all|, 1.0)))
  }

  function Classify(f: Finetuner, text: string, predict: string -> Prediction): (r: (Finetuner, Result<Classification>))
    ensures r.0 == Prepare(f)
    ensures r.1 == Forward(Prepare(f).classifier.value, text, predict)
  {
    var g := Prepare(f);
    (g, Forward(g.classifier.value, text, predict))
  }

  /** Every text classified with the same classifier, in order. */
  function ClassifyAll(labels: seq<string>, texts: seq<string>, predict: string -> Prediction): (r: seq<Classification>)
    requires labels != []
    ensures |r| == |texts|
    ensures forall i | 0 <= i < |texts| :: Forward(labels, texts[i], predict) == Ok(r[i])
    decreases |texts|
  {
    if |texts| == 0 then []
    else
      var rest := ClassifyAll(labels, texts[1..], predict);
      assert forall i | 1 <= i < |texts| :: texts[1..][i - 1] == texts[i];
      [Forward(labels, texts[0], predict).value] + rest
  }

  /** Classifies the texts in order. The first classification builds the
      classifier if needed and every later one reuses it, so either the
      first one fails (no labels) or none does. */
  function BatchClassify(f: Finetuner, texts: seq<string>, predict: string -> Prediction)
    : (r: (Finetuner, Result<seq<Classification>>))
    ensures texts == [] ==> r == (f, Ok([]))
    ensures texts != [] ==> r.0 == Prepare(f)
    ensures r.1.Err? <==> texts != [] && Prepare(f).classifier.value == []
    ensures r.1.Ok? ==> |r.1.value| == |texts|
    ensures r.1.Ok? ==> forall i | 0 <= i < |texts| ::
      Classify(Prepare(f), texts[i], predict).1 == Ok(r.1.value[i])
  {
    if |texts| == 0 then (f, Ok([]))
    else
      var g := Prepare(f);
      var labels := g.classifier.value;
      if labels == [] then (g, Err("list index out of range"))
      else (g, Ok(ClassifyAll(labels, texts, predict)))
  }

  /** Every result of a batch carries its own text, in input order. */
  lemma BatchInputs(f: Finetuner, texts: seq<string>, predict: string -> Prediction)
    requires BatchClassify(f, texts, predict).1.Ok?
    ensures var results := BatchClassify(f, texts, predict).1.value;
            forall i | 0 <= i < |texts| :: results[i].input == texts[i]
  {
    var results := BatchClassify(f, texts, predict).1.value;
    forall i | 0 <= i < |texts|
      ensures results[i].input == texts[i]
    {
      assert Classify(Prepare(f), texts[i], predict).1 == Ok(results[i]);
    }
  }

  /** The test examples whose classification matches their label. */
  function Correct(labels: seq<string>, data: seq<Example>, predict: string -> Prediction): (n: nat)
    requires labels != []
    ensures n <= |data|
    ensures n == |data| <==> forall i | 0 <= i < |data| ::
      SameLabel(Forward(labels, data[i].input, predict).value.classLabel, data[i].classLabel)
    ensures n == 0 <==> forall i | 0 <= i < |data| ::
      !SameLabel(Forward(labels, data[i].input, predict).value.classLabel, data[i].classLabel)
    decreases |data|
  {
    if |data| == 0 then 0
    else
      var hit := if SameLabel(Forward(labels, data[0].input, predict).value.classLabel, data[0].classLabel) then 1 else 0;
      var rest := Correct(labels, data[1..], predict);
      assert forall i | 1 <= i < |data| :: data[1..][i - 1] == data[i];
      hit + rest
  }

  datatype Evaluation = Evaluation(accuracy: real, examples: nat)

  /** Accuracy over `data`; no data gives 0 without classifying anything. */
  function Evaluate(f: Finetuner, data: seq<Example>, predict: string -> Prediction): (r: (Finetuner, Result<Evaluation>))
    ensures data == [] ==> r == (f, Ok(Evaluation(0.0, 0)))
    ensures data != [] ==> r.0 == Prepare(f)
    ensures r.1.Err? <==> data != [] && Prepare(f).classifier.value == []
    ensures r.1.Ok? ==> r.1.value.examples == |data| && 0.0 <= r.1.value.accuracy <= 1.0
    ensures r.1.Ok? && data != [] ==>
      r.1.value.accuracy == Correct(Prepare(f).classifier.value, data, predict) as real / |data| as real
    ensures r.1.Ok? && data != [] ==>
      (r.1.value.accuracy == 1.0 <==> forall i | 0 <= i < |data| ::
        SameLabel(Forward(Prepare(f).classifier.value, data[i].input, predict).value.classLabel, data[i].classLabel))
  {
    if |data| == 0 then (f, Ok(Evaluation(0.0, 0)))
    else
      var g := Prepare(f);
      var labels := g.classifier.value;
      if labels == [] then (g, Err("list index out of range"))
      else
        var correct := Correct(labels, data, predict);
        ShareBounds(correct, |data|);
        (g, Ok(Evaluation(correct as real / |data| as real, |data|)))
  }

  /** What a save file holds. */
  datatype Saved = Saved(labels: seq<string>, examples: seq<Example>)

  /** Writes the labels and examples to `path`, replacing any earlier file. */
  function Save(f: Finetuner, files: map<string, Saved>, path: string): (r: map<string, Saved>)
    ensures path in r && r[path] == Saved(f.labels, f.examples)
    ensures forall p | p in files && p != path :: p in r && r[p] == files[p]
    ensures r.Keys == files.Keys + {path}
  {
    files[path := Saved(f.labels, f.examples)]
  }

  /** Reads labels and examples back, as the source does: a classifier built
      before keeps the labels it was built with. */
  function LoadAsWritten(f: Finetuner, files: map<string, Saved>, path: string): (r: Result<Finetuner>)
    ensures r.Err? <==> path !in files
    ensures r.Ok? ==> r.value.labels == files[path].labels && r.value.examples == files[path].examples
    ensures r.Ok? && f.classifier.Some? ==> r.value.classifier == f.classifier
  {
    if path !in files then Err("No such file or directory")
    else Ok(Prepare(Finetuner(files[path].labels, files[path].examples, f.classifier)))
  }

  /** With a classifier already built, loading other labels does not reach
      classification: the stale classifier still answers with its own
      first label. */
  lemma StaleClassifierAfterLoad()
    ensures var f := Finetuner(["spam"], [], Some(["spam"]));
            var files := map["state.json" := Saved(["ham"], [])];
            var g := LoadAsWritten(f, files, "state.json").value;
            && g.labels == ["ham"]
            && Classify(g, "hello", _ => Prediction("other", "", "")).1 == Ok(Classification("hello", "spam", "", ""))
  {
    var g := LoadAsWritten(Finetuner(["spam"], [], Some(["spam"])), map["state.json" := Saved(["ham"], [])], "state.json").value;
    var p := Prediction("other", "", "");
    assert !SameLabel("other", "spam") by {
      assert Lower("other")[0] == 'o';
    }
    assert !Allowed(p.classLabel, ["spam"]);
  }

  /** Loading as evidently intended: the classifier is rebuilt from the
      loaded labels. */
  function Load(f: Finetuner, files: map<string, Saved>, path: string): (r: Result<Finetuner>)
    ensures r.Err? <==> path !in files
    ensures r.Ok? ==> r.value.labels == files[path].labels && r.value.examples == files[path].examples
    ensures r.Ok? ==> r.value.classifier == Some(files[path].labels)
  {
    if path !in files then Err("No such file or directory")
    else Ok(Prepare(Finetuner(files[path].labels, files[path].examples, None)))
  }

  /** Saving then loading restores the labels and examples, and the loaded
      state classifies exactly as a fresh finetuner with them would. */
  lemma SaveLoad(f: Finetuner, g: Finetuner, files: map<string, Saved>, path: string, text: string,
                 predict: string -> Prediction)
    ensures Load(g, Save(f, files, path), path).Ok?
    ensures var h := Load(g, Save(f, files, path), path).value;
            && h.labels == f.labels && h.examples == f.examples
            && Classify(h, text, predict).1 == Classify(NewFinetuner(f.labels, Some(f.examples)), text, predict).1
    ensures LoadAsWritten(g, Save(f, files, path), path).Ok?
    ensures var h := LoadAsWritten(g, Save(f, files, path), path).value;
            h.labels == f.labels && h.examples == f.examples
  {
  }
}

=== FILE: fitness.dfy ===
/** The fitness function of the prompt evolver: clarity (which structural
    markers appear), specificity (joins, transforms and operators), task
    score (the share of test cases a judge accepts) and the overall score
    the chosen fitness mode combines them into. Scores are exact rationals
    here; the source computes them in binary floating point. */
module Fitness {
  import opened Text
  import opened Symbols

  datatype FitnessScore = FitnessScore(clarity: real, specificity: real, taskScore: real, overall: real)

  /** The fitness modes; any unrecognised mode name behaves as hybrid. */
  datatype FitnessMode = ClarityMode | SpecificityMode | TaskMode | HybridMode

  function ModeOf(name: string): (m: FitnessMode)
    ensures m == ClarityMode <==> name == "clarity"
    ensures m == SpecificityMode <==> name == "specificity"
    ensures m == TaskMode <==> name == "task"
  {
    if name == "clarity" then ClarityMode
    else if name == "specificity" then SpecificityMode
    else if name == "task" then TaskMode
    else HybridMode
  }

  datatype TestCase = TestCase(input: string, expected: string)

  /** The evaluating language model: given the prompt, a test input and the
      expected output it answers in free text whether they match. */
  type Judge = (string, string, string) -> string

  function Indicator(b: bool): nat {
    if b then 1 else 0
  }

  /** Share of the three structural markers that occur in the prompt. */
  function Clarity(prompt: string): (r: real)
    ensures r == 0.0 || r == 1.0 / 3.0 || r == 2.0 / 3.0 || r == 1.0
    ensures r == 1.0 <==> Contains(prompt, INPUT) && Contains(prompt, PROCESS) && Contains(prompt, OUTPUT)
    ensures r == 0.0 <==> !Contains(prompt, INPUT) && !Contains(prompt, PROCESS) && !Contains(prompt, OUTPUT)
    ensures r * 3.0 == CountPresent(prompt, MARKERS) as real
  {
    MarkersPresent(prompt);
    (Indicator(Contains(prompt, INPUT)) + Indicator(Contains(prompt, PROCESS))
      + Indicator(Contains(prompt, OUTPUT))) as real / 3.0
  }

  /** The markers present, counted one by one. */
  lemma MarkersPresent(prompt: string)
    ensures CountPresent(prompt, MARKERS) ==
      Indicator(Contains(prompt, INPUT)) + Indicator(Contains(prompt, PROCESS)) + Indicator(Contains(prompt, OUTPUT))
  {
    assert [OUTPUT][1..] == [];
    assert CountPresent(prompt, [OUTPUT]) == Indicator(Contains(prompt, OUTPUT));
    assert [PROCESS, OUTPUT][1..] == [OUTPUT];
    assert CountPresent(prompt, [PROCESS, OUTPUT]) ==
      Indicator(Contains(prompt, PROCESS)) + Indicator(Contains(prompt, OUTPUT));
    assert MARKERS[1..] == [PROCESS, OUTPUT];
  }

  /** How many of the listed symbols occur in the prompt. */
  function CountPresent(prompt: string, syms: seq<string>): (r: nat)
    ensures r <= |syms|
    ensures r == 0 <==> forall i | 0 <= i < |syms| :: !Contains(prompt, syms[i])
    decreases |syms|
  {
    if |syms| == 0 then 0 else Indicator(Contains(prompt, syms[0])) + CountPresent(prompt, syms[1..])
  }

  /** Specificity: 0.2 per `•` and per `=>` occurrence, plus 0.1 for each
      distinct arithmetic operator that occurs anywhere in the prompt. */
  function Specificity(prompt: string): (r: real)
    ensures r >= 0.0
    ensures r == 0.2 * (Count(prompt, JOIN) + Count(prompt, TRANSFORM)) as real + 0.1 * CountPresent(prompt, OPERATORS) as real
    ensures r >= 0.2 * Count(prompt, JOIN) as real + 0.2 * Count(prompt, TRANSFORM) as real
    ensures r <= 0.2 * Count(prompt, JOIN) as real + 0.2 * Count(prompt, TRANSFORM) as real + 0.7
  {
    0.2 * Count(prompt, JOIN) as real + 0.2 * Count(prompt, TRANSFORM) as real
      + 0.1 * CountPresent(prompt, OPERATORS) as real
  }

  /** The judge accepts a test when its lower-cased answer mentions "yes". */
  predicate Passes(prompt: string, t: TestCase, judge: Judge) {
    Contains(Lower(judge(prompt, t.input, t.expected)), "yes")
  }

  function PassCount(prompt: string, tests: seq<TestCase>, judge: Judge): (r: nat)
    ensures r <= |tests|
    ensures r == |tests| <==> forall i | 0 <= i < |tests| :: Passes(prompt, tests[i], judge)
    ensures r == 0 <==> forall i | 0 <= i < |tests| :: !Passes(prompt, tests[i], judge)
    decreases |tests|
  {
    if |tests| == 0 then 0
    else Indicator(Passes(prompt, tests[0], judge)) + PassCount(prompt, tests[1..], judge)
  }

  /** Fraction of test cases passed; zero when there are none. */
  function TaskScore(prompt: string, tests: seq<TestCase>, judge: Judge): (r: real)
    ensures 0.0 <= r <= 1.0
    ensures |tests| == 0 ==> r == 0.0
    ensures |tests| > 0 ==> (r == 1.0 <==> forall i | 0 <= i < |tests| :: Passes(prompt, tests[i], judge))
    ensures |tests| > 0 ==> (r == 0.0 <==> forall i | 0 <= i < |tests| :: !Passes(prompt, tests[i], judge))
    ensures |tests| > 0 ==> r == PassCount(prompt, tests, judge) as real / |tests| as real
  {
    if |tests| == 0 then 0.0
    else
      var passed := PassCount(prompt, tests, judge);
      ShareBounds(passed, |tests|);
      passed as real / |tests| as real
  }

  /** The overall score the mode selects. Task mode falls back to clarity
      without test cases; hybrid weighs 0.3/0.3/0.4 with test cases and
      0.5/0.5/0 without. */
  function Overall(mode: FitnessMode, clarity: real, specificity: real, task: real, hasTests: bool): real {
    match mode
    case ClarityMode => clarity
    case SpecificityMode => specificity
    case TaskMode => if hasTests then task else clarity
    case HybridMode =>
      if hasTests then 0.3 * clarity + 0.3 * specificity + 0.4 * task
      else 0.5 * clarity + 0.5 * specificity
  }

  function Score(prompt: string, mode: FitnessMode, tests: seq<TestCase>, judge: Judge): (f: FitnessScore)
    ensures 0.0 <= f.clarity <= 1.0 && f.specificity >= 0.0 && 0.0 <= f.taskScore <= 1.0
    ensures f.overall >= 0.0
    ensures mode != SpecificityMode && (mode != HybridMode || Specificity(prompt) <= 1.0) ==> f.overall <= 1.0
    ensures f.clarity == Clarity(prompt) && f.specificity == Specificity(prompt)
    ensures f.taskScore == TaskScore(prompt, tests, judge)
    ensures mode == ClarityMode ==> f.overall == f.clarity
    ensures mode == SpecificityMode ==> f.overall == f.specificity
    ensures mode == TaskMode && |tests| > 0 ==> f.overall == f.taskScore
    ensures mode == TaskMode && |tests| == 0 ==> f.overall == f.clarity
    ensures mode == HybridMode && |tests| > 0 ==> f.overall == 0.3 * f.clarity + 0.3 * f.specificity + 0.4 * f.taskScore
    ensures mode == HybridMode && |tests| == 0 ==> f.overall == 0.5 * f.clarity + 0.5 * f.specificity
  {
    var c := Clarity(prompt);
    var s := Specificity(prompt);
    var t := TaskScore(prompt, tests, judge);
    OverallBounds(mode, c, s, t, |tests| > 0);
    FitnessScore(c, s, t, Overall(mode, c, s, t, |tests| > 0))
  }

  /** Every mode combines scores in [0, 1] (specificity only non-negative)
      into a non-negative overall score, at most 1 unless specificity,
      which has no upper bound, takes part and exceeds 1. */
  lemma OverallBounds(mode: FitnessMode, c: real, s: real, t: real, hasTests: bool)
    requires 0.0 <= c <= 1.0 && s >= 0.0 && 0.0 <= t <= 1.0
    ensures Overall(mode, c, s, t, hasTests) >= 0.0
    ensures mode != SpecificityMode && (mode != HybridMode || s <= 1.0) ==> Overall(mode, c, s, t, hasTests) <= 1.0
  {
  }

  /** An occurrence in a prefix is an occurrence in the whole. */
  lemma ContainsAppend(a: string, b: string, sub: string)
    requires Contains(a, sub)
    ensures Contains(a + b, sub)
  {
    var i :| 0 <= i <= |a| - |sub| && OccursAt(a, sub, i);
    assert (a + b)[i..i + |sub|] == a[i..i + |sub|];
    assert OccursAt(a + b, sub, i);
  }

  /** Appending text never loses a non-overlapping occurrence: the left-to-right
      scan of `a + b` visits the same positions as the scan of `a` while its
      window lies inside `a`. */
  lemma {:induction false} CountAppend(a: string, b: string, sub: string)
    requires |sub| > 0
    ensures Count(a + b, sub) >= Count(a, sub)
    decreases |a|
  {
    if |a| >= |sub| {
      assert (a + b)[..|sub|] == a[..|sub|];
      if a[..|sub|] == sub {
        assert (a + b)[|sub|..] == a[|sub|..] + b;
        CountAppend(a[|sub|..], b, sub);
      } else {
        assert (a + b)[1..] == a[1..] + b;
        CountAppend(a[1..], b, sub);
      }
    }
  }

  lemma {:induction false} CountPresentAppend(a: string, b: string, syms: seq<string>)
    ensures CountPresent(a + b, syms) >= CountPresent(a, syms)
    decreases |syms|
  {
    if |syms| > 0 {
      if Contains(a, syms[0]) {
        ContainsAppend(a, b, syms[0]);
      }
      CountPresentAppend(a, b, syms[1..]);
    }
  }

  /** The symbols of `syms` that occur in the prompt. */
  function PresentSet(prompt: string, syms: seq<string>): set<string> {
    set o | o in syms && Contains(prompt, o)
  }

  /** For a list without repeats, counting the present symbols one by one
      gives the number of distinct listed symbols that occur. */
  lemma {:induction false} CountPresentIsSetSize(prompt: string, syms: seq<string>)
    requires forall i, j | 0 <= i < j < |syms| :: syms[i] != syms[j]
    ensures CountPresent(prompt, syms) == |PresentSet(prompt, syms)|
    decreases |syms|
  {
    if |syms| > 0 {
      var rest := PresentSet(prompt, syms[1..]);
      assert forall i, j | 0 <= i < j < |syms[1..]| :: syms[1..][i] != syms[1..][j] by {
        forall i, j | 0 <= i < j < |syms[1..]|
          ensures syms[1..][i] != syms[1..][j]
        {
          assert syms[1..][i] == syms[i + 1] && syms[1..][j] == syms[j + 1];
        }
      }
      CountPresentIsSetSize(prompt, syms[1..]);
      HeadNotInRest(prompt, syms);
      PresentSetCons(prompt, syms);
    } else {
      assert PresentSet(prompt, syms) == {};
    }
  }

  /** The present set of a list is its head's, when present, and the rest's. */
  lemma PresentSetCons(prompt: string, syms: seq<string>)
    requires |syms| > 0
    ensures PresentSet(prompt, syms) == (if Contains(prompt, syms[0]) then {syms[0]} else {}) + PresentSet(prompt, syms[1..])
  {
    assert forall o :: o in syms <==> o == syms[0] || o in syms[1..];
  }

  /** In a list without repeats the head is not among the rest's symbols. */
  lemma HeadNotInRest(prompt: string, syms: seq<string>)
    requires |syms| > 0 && forall i, j | 0 <= i < j < |syms| :: syms[i] != syms[j]
    ensures syms[0] !in PresentSet(prompt, syms[1..])
  {
    assert forall k | 0 <= k < |syms[1..]| :: syms[1..][k] == syms[k + 1];
  }

  /** Each of the seven operators adds 0.1 to specificity when it occurs at
      least once, however often. */
  lemma OperatorShare(prompt: string)
    ensures Specificity(prompt) == 0.2 * (Count(prompt, JOIN) + Count(prompt, TRANSFORM)) as real
      + 0.1 * |PresentSet(prompt, OPERATORS)| as real
  {
    CountPresentIsSetSize(prompt, OPERATORS);
  }

  /** Clarity is the number of distinct markers that occur, over three. */
  lemma MarkerShare(prompt: string)
    ensures Clarity(prompt) == |PresentSet(prompt, MARKERS)| as real / 3.0
  {
    CountPresentIsSetSize(prompt, MARKERS);
  }

  /** Appending text to a prompt never lowers its clarity or its specificity. */
  lemma SpecificityMonotone(a: string, b: string)
    ensures Specificity(a) <= Specificity(a + b)
    ensures Clarity(a) <= Clarity(a + b)
  {
    CountAppend(a, b, JOIN);
    CountAppend(a, b, TRANSFORM);
    CountPresentAppend(a, b, OPERATORS);
    if Contains(a, INPUT) { ContainsAppend(a, b, INPUT); }
    if Contains(a, PROCESS) { ContainsAppend(a, b, PROCESS); }
    if Contains(a, OUTPUT) { ContainsAppend(a, b, OUTPUT); }
  }

  /** A prompt with all three markers has full clarity, so in clarity mode
      its overall score is 1. */
  lemma FullClarity(prompt: string, tests: seq<TestCase>, judge: Judge)
    requires Contains(prompt, INPUT) && Contains(prompt, PROCESS) && Contains(prompt, OUTPUT)
    ensures Score(prompt, ClarityMode, tests, judge).overall == 1.0
    ensures |tests| == 0 ==> Score(prompt, TaskMode, tests, judge).overall == 1.0
  {
  }

  /** Without test cases the hybrid score is the mean of clarity and
      specificity, and the task score plays no part. */
  lemma HybridWithoutTests(prompt: string, judge: Judge, other: Judge)
    ensures Score(prompt, HybridMode, [], judge).overall
         == (Clarity(prompt) + Specificity(prompt)) / 2.0
    ensures Score(prompt, HybridMode, [], judge) == Score(prompt, HybridMode, [], other)
  {
  }
}

=== FILE: framework_storage.dfy ===
/** The store of user-made glyph frameworks, a list under one storage key.
    A missing key and text that does not parse both read as the empty list.
    Saving drops every framework with the same id and appends the new one;
    deleting drops every framework with the id. */
module FrameworkStorage {
  import opened Text
  import opened Storage

  /** One glyph of a framework and what it means. */
  datatype Glyph = Glyph(symbol: string, name: string, description: string, usage: string)

  /** A framework the user created, with its id and its times in
      milliseconds since the epoch. */
  datatype Framework = Framework(
    id: string,
    name: string,
    description: string,
    details: string,
    applications: seq<string>,
    glyphs: seq<Glyph>,
    examples: seq<string>,
    group: string,
    createdAt: int,
    updatedAt: int)

  type FrameworkSlot = Slot<seq<Framework>>

  /** `getCustomFrameworks`: the stored list, or the empty list when nothing
      is stored or the text does not parse. */
  function GetFrameworks(slot: FrameworkSlot): (r: seq<Framework>)
    ensures slot.Stored? ==> r == slot.value
    ensures !slot.Stored? ==> r == []
  {
    match slot
    case Stored(frameworks) => frameworks
    case _ => []
  }

  /** The framework does not carry the id. */
  function Other(id: string): Framework -> bool {
    (f: Framework) => f.id != id
  }

  /** The framework carries the id. */
  function Same(id: string): Framework -> bool {
    (f: Framework) => f.id == id
  }

  /** `saveCustomFramework`: the new contents of the key. */
  function Save(slot: FrameworkSlot, framework: Framework): (r: FrameworkSlot)
    ensures r.Stored? && |r.value| > 0 && r.value[|r.value| - 1] == framework
    ensures forall f | f in r.value[..|r.value| - 1] :: f.id != framework.id && f in GetFrameworks(slot)
    ensures forall f | f in GetFrameworks(slot) && f.id != framework.id :: f in r.value
  {
    Stored(Filter(GetFrameworks(slot), Other(framework.id)) + [framework])
  }

  /** `deleteCustomFramework`: the new contents of the key. */
  function Delete(slot: FrameworkSlot, id: string): (r: FrameworkSlot)
    ensures r.Stored?
    ensures forall f | f in r.value :: f.id != id && f in GetFrameworks(slot)
    ensures forall f | f in GetFrameworks(slot) && f.id != id :: f in r.value
  {
    Stored(Filter(GetFrameworks(slot), Other(id)))
  }

  /** After a save exactly one stored framework has the saved id. */
  lemma SaveUnique(slot: FrameworkSlot, framework: Framework)
    ensures Filter(Save(slot, framework).value, Same(framework.id)) == [framework]
  {
    var kept := Filter(GetFrameworks(slot), Other(framework.id));
    FilterAppend(kept, [framework], Same(framework.id));
    FilterNone(kept, Same(framework.id));
    assert Filter([framework], Same(framework.id)) == [framework];
  }

  /** Saving and deleting keep the frameworks with other ids in their order:
      filtering the id out of the result gives what filtering it out of the
      old list gives. */
  lemma OthersKeepOrder(slot: FrameworkSlot, framework: Framework, id: string)
    ensures Filter(Save(slot, framework).value, Other(framework.id)) == Filter(GetFrameworks(slot), Other(framework.id))
    ensures Filter(Delete(slot, id).value, Other(id)) == Filter(GetFrameworks(slot), Other(id))
  {
    var kept := Filter(GetFrameworks(slot), Other(framework.id));
    FilterAppend(kept, [framework], Other(framework.id));
    FilterAll(kept, Other(framework.id));
    assert Filter([framework], Other(framework.id)) == [];
    FilterAll(Filter(GetFrameworks(slot), Other(id)), Other(id));
  }

  /** After a delete no stored framework has the id. */
  lemma DeleteRemovesAll(slot: FrameworkSlot, id: string)
    ensures Filter(Delete(slot, id).value, Same(id)) == []
  {
    FilterNone(Delete(slot, id).value, Same(id));
  }

  const ID_PREFIX: string := "custom_"

  /** `generateFrameworkId`: the prefix, the clock in milliseconds, and a
      random base-36 suffix. The clock and the suffix are supplied. */
  function GenerateId(now: nat, suffix: string): (id: string)
    ensures StartsWith(id, ID_PREFIX)
    ensures |id| > |ID_PREFIX| + |suffix|
    ensures EndsWith(id, "_" + suffix)
  {
    assert ID_PREFIX + NatToString(now) + "_" + suffix == (ID_PREFIX + NatToString(now)) + ("_" + suffix);
    ID_PREFIX + NatToString(now) + "_" + suffix
  }
}

=== FILE: framework_wizard.dfy ===
/** The four-step dialog that builds a custom glyph framework: basic
    information, details with applications, glyphs, and examples. Each step
    shows only its own fields, and the forward button is enabled only when
    the current step is filled in, so a framework that reaches the save
    button has every step filled in. The clock and the id's random suffix
    are supplied. */
module FrameworkWizard {
  import opened Text
  import FrameworkStorage

  type Glyph = FrameworkStorage.Glyph

  const STEP_COUNT: nat := 4
  const LAST_STEP: nat := STEP_COUNT - 1

  const GROUPS: seq<string> := ["mathematical", "logographic", "semitic", "classical", "constructed", "optimization"]
  const DEFAULT_GROUP: string := "mathematical"

  /** The framework being built. */
  datatype Draft = Draft(
    name: string,
    description: string,
    details: string,
    group: string,
    applications: seq<string>,
    glyphs: seq<Glyph>,
    examples: seq<string>)

  const EMPTY_DRAFT: Draft := Draft("", "", "", DEFAULT_GROUP, [], [], [])
  const EMPTY_GLYPH: Glyph := FrameworkStorage.Glyph("", "", "", "")

  /** The dialog: whether it is open, the current step, the draft, and the
      three inputs whose contents are added to the lists. */
  datatype Wizard = Wizard(open: bool, step: nat, draft: Draft, newGlyph: Glyph, newExample: string, newApplication: string)

  /** `resetForm`: back to the first step with everything emptied. */
  function Reset(w: Wizard): (r: Wizard)
    ensures r.step == 0 && r.open == w.open
    ensures r.draft.name == "" && r.draft.description == "" && r.draft.details == ""
    ensures r.draft.group == DEFAULT_GROUP
    ensures r.draft.applications == [] && r.draft.glyphs == [] && r.draft.examples == []
    ensures r.newGlyph == EMPTY_GLYPH && r.newExample == "" && r.newApplication == ""
  {
    Wizard(w.open, 0, EMPTY_DRAFT, EMPTY_GLYPH, "", "")
  }

  /** `handleClose`. */
  function Close(w: Wizard): (r: Wizard)
    ensures !r.open && r == Reset(w).(open := false)
  {
    Reset(w).(open := false)
  }

  /** `handleNext`: one step forward unless on the last. */
  function Next(w: Wizard): (r: Wizard)
    ensures w.step < LAST_STEP ==> r == w.(step := w.step + 1)
    ensures w.step >= LAST_STEP ==> r == w
  {
    if w.step < LAST_STEP then w.(step := w.step + 1) else w
  }

  /** `handleBack`: one step back unless on the first. */
  function Back(w: Wizard): (r: Wizard)
    ensures w.step > 0 ==> r == w.(step := w.step - 1)
    ensures w.step == 0 ==> r == w
  {
    if w.step > 0 then w.(step := w.step - 1) else w
  }

  /** The step is filled in, as `canProceed` judges it. */
  predicate StepDone(d: Draft, step: nat) {
    if step == 0 then d.name != "" && d.description != "" && d.group != ""
    else if step == 1 then d.details != "" && |d.applications| > 0
    else if step == 2 then |d.glyphs| > 0
    else if step == 3 then |d.examples| > 0
    else false
  }

  /** `canProceed`. */
  function CanProceed(w: Wizard): (b: bool)
    ensures b <==> w.step < STEP_COUNT && StepDone(w.draft, w.step)
  {
    StepDone(w.draft, w.step)
  }

  /** `filter((_, i) => i !== index)`: the element at the index is dropped,
      the others keep their order; an index outside the list drops nothing. */
  function RemoveAt<T>(xs: seq<T>, index: int): (r: seq<T>)
    ensures 0 <= index < |xs| ==>
      (&& |r| == |xs| - 1
       && (forall j | 0 <= j < index :: r[j] == xs[j])
       && (forall j | index <= j < |r| :: r[j] == xs[j + 1]))
    ensures !(0 <= index < |xs|) ==> r == xs
    decreases |xs|
  {
    if |xs| == 0 then []
    else (if index == 0 then [] else [xs[0]]) + RemoveAt(xs[1..], index - 1)
  }

  /** Every field of the glyph is filled in. */
  predicate GlyphComplete(g: Glyph) {
    g.symbol != "" && g.name != "" && g.description != "" && g.usage != ""
  }

  /** `addGlyph`: the glyph input joins the list only when complete, and is
      then emptied; otherwise nothing changes. */
  function AddGlyph(w: Wizard): (r: Wizard)
    ensures GlyphComplete(w.newGlyph) ==>
      r == w.(draft := w.draft.(glyphs := w.draft.glyphs + [w.newGlyph]), newGlyph := EMPTY_GLYPH)
    ensures !GlyphComplete(w.newGlyph) ==> r == w
  {
    var g := w.newGlyph;
    if g.symbol != "" && g.name != "" && g.description != "" && g.usage != "" then
      w.(draft := w.draft.(glyphs := w.draft.glyphs + [g]), newGlyph := EMPTY_GLYPH)
    else w
  }

  /** `addExample`: the trimmed input joins the list unless it is blank,
      and the input is then emptied. */
  function AddExample(w: Wizard): (r: Wizard)
    ensures JsTrim(w.newExample) != "" ==>
      r == w.(draft := w.draft.(examples := w.draft.examples + [JsTrim(w.newExample)]), newExample := "")
    ensures JsTrim(w.newExample) == "" ==> r == w
  {
    var text := JsTrim(w.newExample);
    if text != "" then w.(draft := w.draft.(examples := w.draft.examples + [text]), newExample := "") else w
  }

  /** `addApplication`, alike for the applications. */
  function AddApplication(w: Wizard): (r: Wizard)
    ensures JsTrim(w.newApplication) != "" ==>
      r == w.(draft := w.draft.(applications := w.draft.applications + [JsTrim(w.newApplication)]), newApplication := "")
    ensures JsTrim(w.newApplication) == "" ==> r == w
  {
    var text := JsTrim(w.newApplication);
    if text != "" then w.(draft := w.draft.(applications := w.draft.applications + [text]), newApplication := "") else w
  }

  function RemoveGlyph(w: Wizard, index: int): Wizard {
    w.(draft := w.draft.(glyphs := RemoveAt(w.draft.glyphs, index)))
  }

  function RemoveExample(w: Wizard, index: int): Wizard {
    w.(draft := w.draft.(examples := RemoveAt(w.draft.examples, index)))
  }

  function RemoveApplication(w: Wizard, index: int): Wizard {
    w.(draft := w.draft.(applications := RemoveAt(w.draft.applications, index)))
  }

  /** The three clock readings `handleSave` takes, in order: one inside the
      id, then the creation time, then the update time. */
  datatype SaveClock = SaveClock(idTime: nat, created: nat, updated: nat)

  /** `handleSave`: the draft with a fresh id and its two time stamps is
      stored, and the dialog closes. */
  function HandleSave(w: Wizard, slot: FrameworkStorage.FrameworkSlot, clock: SaveClock, suffix: string)
    : (r: (Wizard, FrameworkStorage.FrameworkSlot, FrameworkStorage.Framework))
    ensures StartsWith(r.2.id, FrameworkStorage.ID_PREFIX) && EndsWith(r.2.id, "_" + suffix)
    ensures r.2.createdAt == clock.created && r.2.updatedAt == clock.updated
    ensures r.2.name == w.draft.name && r.2.description == w.draft.description && r.2.details == w.draft.details
    ensures r.2.group == w.draft.group && r.2.applications == w.draft.applications
    ensures r.2.glyphs == w.draft.glyphs && r.2.examples == w.draft.examples
    ensures r.1 == FrameworkStorage.Save(slot, r.2)
    ensures r.0 == Close(w)
  {
    var d := w.draft;
    var f := FrameworkStorage.Framework(FrameworkStorage.GenerateId(clock.idTime, suffix), d.name, d.description, d.details,
                                        d.applications, d.glyphs, d.examples, d.group, clock.created, clock.updated);
    (Close(w), FrameworkStorage.Save(slot, f), f)
  }

  // What the user can do in the open dialog. Field edits only reach the
  // step that shows them; the buttons are the enabled ones.

  datatype Event =
    | EditName(name: string)
    | EditDescription(description: string)
    | ChooseGroup(group: string)
    | EditDetails(details: string)
    | EditNewApplication(application: string)
    | AddApplicationClicked
    | RemoveApplicationClicked(applicationIndex: int)
    | EditNewGlyph(glyph: Glyph)
    | AddGlyphClicked
    | RemoveGlyphClicked(glyphIndex: int)
    | EditNewExample(example: string)
    | AddExampleClicked
    | RemoveExampleClicked(exampleIndex: int)
    | NextClicked
    | BackClicked

  /** The step whose screen offers the event; the buttons are on every step. */
  function Screen(e: Event): (s: nat)
    ensures s <= STEP_COUNT
  {
    match e
    case EditName(_) => 0
    case EditDescription(_) => 0
    case ChooseGroup(_) => 0
    case EditDetails(_) => 1
    case EditNewApplication(_) => 1
    case AddApplicationClicked => 1
    case RemoveApplicationClicked(_) => 1
    case EditNewGlyph(_) => 2
    case AddGlyphClicked => 2
    case RemoveGlyphClicked(_) => 2
    case EditNewExample(_) => 3
    case AddExampleClicked => 3
    case RemoveExampleClicked(_) => 3
    case NextClicked => STEP_COUNT
    case BackClicked => STEP_COUNT
  }

  /** An event on the open dialog. An edit whose field the current step
      does not show, a group outside the list, and a press of a disabled
      button (Next when the step is not filled in or on the last step, Back
      on the first) change nothing. */
  function Handle(w: Wizard, e: Event): Wizard {
    if !w.open || (Screen(e) < STEP_COUNT && Screen(e) != w.step) then w
    else
      match e
      case EditName(s) => w.(draft := w.draft.(name := s))
      case EditDescription(s) => w.(draft := w.draft.(description := s))
      case ChooseGroup(g) => if g in GROUPS then w.(draft := w.draft.(group := g)) else w
      case EditDetails(s) => w.(draft := w.draft.(details := s))
      case EditNewApplication(s) => w.(newApplication := s)
      case AddApplicationClicked => AddApplication(w)
      case RemoveApplicationClicked(i) => RemoveApplication(w, i)
      case EditNewGlyph(g) => w.(newGlyph := g)
      case AddGlyphClicked => AddGlyph(w)
      case RemoveGlyphClicked(i) => RemoveGlyph(w, i)
      case EditNewExample(s) => w.(newExample := s)
      case AddExampleClicked => AddExample(w)
      case RemoveExampleClicked(i) => RemoveExample(w, i)
      case NextClicked => if w.step < LAST_STEP && CanProceed(w) then Next(w) else w
      case BackClicked => Back(w)
  }

  /** What the dialog keeps true: the step is one of the four, every earlier
      step is filled in, every listed glyph is complete and every listed
      example and application is non-blank. */
  predicate Valid(w: Wizard) {
    && w.step < STEP_COUNT
    && (forall k: nat | k < w.step :: StepDone(w.draft, k))
    && (forall g | g in w.draft.glyphs :: GlyphComplete(g))
    && (forall a | a in w.draft.applications :: a != "")
    && (forall x | x in w.draft.examples :: x != "")
  }

  /** A freshly reset dialog is valid. */
  lemma ResetValid(w: Wizard)
    ensures Valid(Reset(w))
  {
  }

  /** Removing keeps only elements that were there. */
  lemma {:induction false} RemoveAtSubset<T>(xs: seq<T>, index: int)
    ensures forall x | x in RemoveAt(xs, index) :: x in xs
    decreases |xs|
  {
    if |xs| > 0 {
      RemoveAtSubset(xs[1..], index - 1);
    }
  }

  /** A draft that keeps the fields of the steps before the current one
      keeps those steps filled in. */
  lemma EarlierKept(w: Wizard, d: Draft)
    requires w.step < STEP_COUNT
    requires forall k: nat | k < w.step :: StepDone(w.draft, k)
    requires w.step > 0 ==> d.name == w.draft.name && d.description == w.draft.description && d.group == w.draft.group
    requires w.step > 1 ==> d.details == w.draft.details && d.applications == w.draft.applications
    requires w.step > 2 ==> d.glyphs == w.draft.glyphs
    ensures forall k: nat | k < w.step :: StepDone(d, k)
  {
    forall k: nat | k < w.step
      ensures StepDone(d, k)
    {
      assert StepDone(w.draft, k);
    }
  }

  /** Every event keeps the step in range and the earlier steps filled in. */
  lemma HandleSteps(w: Wizard, e: Event)
    requires w.step < STEP_COUNT && forall k: nat | k < w.step :: StepDone(w.draft, k)
    ensures Handle(w, e).step < STEP_COUNT
    ensures forall k: nat | k < Handle(w, e).step :: StepDone(Handle(w, e).draft, k)
  {
    var r := Handle(w, e);
    if !w.open || (Screen(e) < STEP_COUNT && Screen(e) != w.step) {
      assert r == w;
    } else if e.NextClicked? {
      if w.step < LAST_STEP && CanProceed(w) {
        assert r == w.(step := w.step + 1);
        forall k: nat | k < r.step
          ensures StepDone(r.draft, k)
        {
          if k < w.step {
            assert StepDone(w.draft, k);
          }
        }
      } else {
        assert r == w;
      }
    } else if e.BackClicked? {
      assert r.draft == w.draft && r.step <= w.step;
    } else {
      assert r.step == w.step;
      EarlierKept(w, r.draft);
    }
  }

  /** Every event keeps the listed glyphs complete and the listed examples
      and applications non-blank. */
  lemma HandleLists(w: Wizard, e: Event)
    requires forall g | g in w.draft.glyphs :: GlyphComplete(g)
    requires forall a | a in w.draft.applications :: a != ""
    requires forall x | x in w.draft.examples :: x != ""
    ensures forall g | g in Handle(w, e).draft.glyphs :: GlyphComplete(g)
    ensures forall a | a in Handle(w, e).draft.applications :: a != ""
    ensures forall x | x in Handle(w, e).draft.examples :: x != ""
  {
    if w.open && !(Screen(e) < STEP_COUNT && Screen(e) != w.step) {
      match e
      case RemoveApplicationClicked(i) =>
        RemoveAtSubset(w.draft.applications, i);
      case RemoveGlyphClicked(i) =>
        RemoveAtSubset(w.draft.glyphs, i);
      case RemoveExampleClicked(i) =>
        RemoveAtSubset(w.draft.examples, i);
      case _ =>
    }
  }

  /** Every event keeps the dialog valid. */
  lemma HandleValid(w: Wizard, e: Event)
    requires Valid(w)
    ensures Valid(Handle(w, e))
  {
    HandleSteps(w, e);
    HandleLists(w, e);
  }

  /** The save button sits on the last step and is enabled when that step
      is filled in; pressing it saves the draft. Otherwise nothing happens. */
  function SaveClicked(w: Wizard, slot: FrameworkStorage.FrameworkSlot, clock: SaveClock, suffix: string)
    : (r: (Wizard, FrameworkStorage.FrameworkSlot, bool))
    ensures r.2 <==> w.open && w.step == LAST_STEP && CanProceed(w)
    ensures !r.2 ==> r.0 == w && r.1 == slot
  {
    if w.open && w.step == LAST_STEP && CanProceed(w) then
      var (w', slot', _) := HandleSave(w, slot, clock, suffix);
      (w', slot', true)
    else (w, slot, false)
  }

  /** A saved framework is complete: a name, description and group, details
      and at least one application, at least one glyph with every field
      filled in, and at least one example. */
  predicate FrameworkComplete(f: FrameworkStorage.Framework) {
    && f.name != "" && f.description != "" && f.group != "" && f.details != ""
    && |f.applications| > 0 && |f.glyphs| > 0 && |f.examples| > 0
    && (forall g | g in f.glyphs :: GlyphComplete(g))
  }

  /** Whatever the user did since the last reset, a framework the save
      button stores is complete. */
  lemma SavedComplete(w: Wizard, slot: FrameworkStorage.FrameworkSlot, clock: SaveClock, suffix: string)
    requires Valid(w)
    requires SaveClicked(w, slot, clock, suffix).2
    ensures var f := HandleSave(w, slot, clock, suffix).2;
      FrameworkComplete(f) && f in FrameworkStorage.GetFrameworks(SaveClicked(w, slot, clock, suffix).1)
  {
    assert StepDone(w.draft, 0) && StepDone(w.draft, 1) && StepDone(w.draft, 2);
  }
}

=== FILE: generator.dfy ===
/** The system prompt generator: a task description in, a SynthLang system
    prompt out. The model's answer (prompt and rationale) and the clock
    reading are parameters. */
module Generator {
  import opened Wrappers
  import opened Text
  import opened Sanitizer

  datatype Generation = Generation(prompt: string, rationale: string, metadata: map<string, string>)

  /** The metadata every generation carries. */
  function Metadata(timestamp: string): (m: map<string, string>)
    ensures m.Keys == {"model", "timestamp", "task_type", "format"}
    ensures m["model"] == "gpt-4o-mini" && m["task_type"] == "system_prompt_generation"
    ensures m["format"] == "synthlang" && m["timestamp"] == timestamp
  {
    map["model" := "gpt-4o-mini", "timestamp" := timestamp,
        "task_type" := "system_prompt_generation", "format" := "synthlang"]
  }

  /** `answer` and `rationale` are the model's fields, `timestamp` the
      ISO rendering of the current time. */
  function Generate(task: string, answer: string, rationale: string, timestamp: string): (r: Result<Generation>)
    ensures r.Err? <==> IsPyBlank(task)
    ensures r.Err? ==> r.msg == "Task description cannot be empty or whitespace"
    ensures r.Ok? ==> r.value.prompt == Join(Sanitize(answer), "\n")
    ensures r.Ok? ==> r.value.rationale == rationale && r.value.metadata == Metadata(timestamp)
  {
    if IsPyBlank(task) then Err("Task description cannot be empty or whitespace")
    else Ok(Generation(Join(Sanitize(answer), "\n"), rationale, Metadata(timestamp)))
  }

  /** The generated prompt holds no quote, and its lines are the filtered
      lines of the answer. */
  lemma GeneratedPrompt(task: string, answer: string, rationale: string, timestamp: string)
    requires !IsPyBlank(task)
    ensures var p := Generate(task, answer, rationale, timestamp).value.prompt;
            '"' !in p && '\'' !in p
    ensures |Sanitize(answer)| > 0 ==>
            Split(Generate(task, answer, rationale, timestamp).value.prompt, "\n") == Sanitize(answer)
  {
    var lines := Sanitize(answer);
    JoinKeepsAbsentChar(lines, "\n", '"');
    JoinKeepsAbsentChar(lines, "\n", '\'');
    if |lines| > 0 {
      JoinedLines(answer);
    }
  }
}

=== FILE: keyboard_shortcuts.dfy ===
/** The keyboard-shortcut hook: which shortcuts a key press fires, the
    grouped list shown in the help panel, and the compact rendering of a key
    combination. The focused element and whether a modal holds the focus
    are inputs; the handlers themselves are the caller's, so a key press
    reports which shortcuts fire, in order, and whether the browser's
    default action is suppressed. */
module KeyboardShortcuts {
  import opened Wrappers
  import opened Text

  /** A registered shortcut. Absent modifier flags mean "not pressed". */
  datatype Shortcut = Shortcut(
    key: string,
    ctrl: Option<bool>,
    meta: Option<bool>,
    shift: Option<bool>,
    alt: Option<bool>,
    preventDefault: Option<bool>,
    description: Option<string>,
    group: Option<string>)

  /** A key press: the key's name and the modifier keys held. */
  datatype KeyEvent = KeyEvent(key: string, ctrl: bool, meta: bool, shift: bool, alt: bool)

  datatype Options = Options(ignoreInputs: bool, ignoreWhenModalOpen: bool)

  const DEFAULT_OPTIONS: Options := Options(true, true)

  /** `!!flag`. */
  function Flag(flag: Option<bool>): bool {
    flag.Some? && flag.value
  }

  /** The shortcut answers the key press: the key agrees ignoring case and
      every modifier is held exactly when the shortcut asks for it. */
  predicate Fires(s: Shortcut, e: KeyEvent) {
    && Lower(e.key) == Lower(s.key)
    && Flag(s.ctrl) == e.ctrl
    && Flag(s.meta) == e.meta
    && Flag(s.shift) == e.shift
    && Flag(s.alt) == e.alt
  }

  /** The focused element takes text input. */
  predicate InTextField(focusTag: Option<string>) {
    focusTag == Some("INPUT") || focusTag == Some("TEXTAREA")
  }

  /** The `forEach` over the shortcuts from index `from`: the indices of
      those that fire, in list order. */
  function FiredFrom(shortcuts: seq<Shortcut>, e: KeyEvent, from: nat): (fired: seq<nat>)
    ensures forall k | 0 <= k < |fired| :: from <= fired[k] < |shortcuts| && Fires(shortcuts[fired[k]], e)
    ensures forall i | from <= i < |shortcuts| && Fires(shortcuts[i], e) :: i in fired
    ensures forall k, l | 0 <= k < l < |fired| :: fired[k] < fired[l]
    decreases |shortcuts| - from
  {
    if from >= |shortcuts| then []
    else if Fires(shortcuts[from], e) then [from] + FiredFrom(shortcuts, e, from + 1)
    else FiredFrom(shortcuts, e, from + 1)
  }

  /** Some fired shortcut leaves `preventDefault` other than `false`. */
  function AnyPrevents(shortcuts: seq<Shortcut>, fired: seq<nat>): (b: bool)
    requires forall k | 0 <= k < |fired| :: fired[k] < |shortcuts|
    ensures b <==> exists k | 0 <= k < |fired| :: shortcuts[fired[k]].preventDefault != Some(false)
  {
    if |fired| == 0 then false
    else shortcuts[fired[0]].preventDefault != Some(false) || AnyPrevents(shortcuts, fired[1..])
  }

  /** What a key press does: the shortcuts whose handlers run, in order, and
      whether the default action is prevented. */
  datatype Dispatch = Dispatch(fired: seq<nat>, preventDefault: bool)

  /** `handleKeyDown`. */
  function HandleKeyDown(shortcuts: seq<Shortcut>, options: Options, e: KeyEvent, focusTag: Option<string>, modalHasFocus: bool): (d: Dispatch)
    ensures (options.ignoreInputs && InTextField(focusTag)) || (options.ignoreWhenModalOpen && modalHasFocus) ==>
      d == Dispatch([], false)
    ensures !(options.ignoreInputs && InTextField(focusTag)) && !(options.ignoreWhenModalOpen && modalHasFocus) ==>
      && (forall i :: i in d.fired <==> 0 <= i < |shortcuts| && Fires(shortcuts[i], e))
      && (forall k, l | 0 <= k < l < |d.fired| :: d.fired[k] < d.fired[l])
      && (d.preventDefault <==> exists i | 0 <= i < |shortcuts| :: Fires(shortcuts[i], e) && shortcuts[i].preventDefault != Some(false))
  {
    if options.ignoreInputs && InTextField(focusTag) then Dispatch([], false)
    else if options.ignoreWhenModalOpen && modalHasFocus then Dispatch([], false)
    else
      var fired := FiredFrom(shortcuts, e, 0);
      PreventsIff(shortcuts, e);
      Dispatch(fired, AnyPrevents(shortcuts, fired))
  }

  /** The default is prevented exactly when some shortcut that fires does
      not opt out. */
  lemma PreventsIff(shortcuts: seq<Shortcut>, e: KeyEvent)
    ensures AnyPrevents(shortcuts, FiredFrom(shortcuts, e, 0)) <==>
      exists i | 0 <= i < |shortcuts| :: Fires(shortcuts[i], e) && shortcuts[i].preventDefault != Some(false)
  {
    var fired := FiredFrom(shortcuts, e, 0);
    if exists i | 0 <= i < |shortcuts| :: Fires(shortcuts[i], e) && shortcuts[i].preventDefault != Some(false) {
      var i :| 0 <= i < |shortcuts| && Fires(shortcuts[i], e) && shortcuts[i].preventDefault != Some(false);
      var k :| 0 <= k < |fired| && fired[k] == i;
    }
  }

  // The help listing.

  /** One row of the help listing. */
  datatype Listed = Listed(keys: seq<string>, description: string)

  /** The group a shortcut is listed under; an absent or empty group is "Other". */
  function GroupOf(s: Shortcut): string {
    if s.group.Some? && s.group.value != "" then s.group.value else "Other"
  }

  /** The keys shown for a shortcut: the held modifiers in the order Ctrl,
      Cmd, Shift, Alt, then the key itself; an empty key is dropped. */
  function KeysOf(s: Shortcut): (keys: seq<string>)
    ensures |keys| <= 5
    ensures Flag(s.ctrl) ==> |keys| > 0 && keys[0] == "Ctrl"
    ensures s.key != "" ==> |keys| > 0 && keys[|keys| - 1] == s.key
    ensures forall k | k in keys :: k in ["Ctrl", "Cmd", "Shift", "Alt", s.key]
  {
    (if Flag(s.ctrl) then ["Ctrl"] else [])
    + (if Flag(s.meta) then ["Cmd"] else [])
    + (if Flag(s.shift) then ["Shift"] else [])
    + (if Flag(s.alt) then ["Alt"] else [])
    + (if s.key != "" then [s.key] else [])
  }

  function ListedOf(s: Shortcut): Listed {
    Listed(KeysOf(s), if s.description.Some? then s.description.value else "")
  }

  /** The rows of a list of shortcuts, in order. */
  function ListAll(shortcuts: seq<Shortcut>): (rows: seq<Listed>)
    ensures |rows| == |shortcuts|
    ensures forall i | 0 <= i < |shortcuts| :: rows[i] == ListedOf(shortcuts[i])
  {
    seq(|shortcuts|, i requires 0 <= i < |shortcuts| => ListedOf(shortcuts[i]))
  }

  function InGroup(group: string): Shortcut -> bool {
    (s: Shortcut) => GroupOf(s) == group
  }

  /** The rows a group should list: its shortcuts' rows, in list order. */
  function Rows(shortcuts: seq<Shortcut>, group: string): seq<Listed> {
    ListAll(Filter(shortcuts, InGroup(group)))
  }

  /** Adding a shortcut at the end adds its row at the end of its own group only. */
  lemma RowsSnoc(init: seq<Shortcut>, last: Shortcut, group: string)
    ensures Rows(init + [last], group) == Rows(init, group) + (if GroupOf(last) == group then [ListedOf(last)] else [])
  {
    FilterAppend(init, [last], InGroup(group));
    ListAllAppend(Filter(init, InGroup(group)), Filter([last], InGroup(group)));
    FilterOne(last, group);
  }

  lemma ListAllAppend(a: seq<Shortcut>, b: seq<Shortcut>)
    ensures ListAll(a + b) == ListAll(a) + ListAll(b)
  {
  }

  lemma FilterOne(last: Shortcut, group: string)
    ensures ListAll(Filter([last], InGroup(group))) == (if GroupOf(last) == group then [ListedOf(last)] else [])
  {
    assert [last][1..] == [];
  }

  /** A group none of the shortcuts belongs to has no rows. */
  lemma RowsNone(shortcuts: seq<Shortcut>, group: string)
    requires forall i | 0 <= i < |shortcuts| :: GroupOf(shortcuts[i]) != group
    ensures Rows(shortcuts, group) == []
  {
    FilterNone(shortcuts, InGroup(group));
  }

  /** The groups list exactly the groups of the shortcuts, each with its rows. */
  ghost predicate Files(groups: map<string, seq<Listed>>, shortcuts: seq<Shortcut>) {
    && (forall g :: g in groups <==> exists i | 0 <= i < |shortcuts| :: GroupOf(shortcuts[i]) == g)
    && (forall g | g in groups :: groups[g] == Rows(shortcuts, g))
  }

  /** Filing one more shortcut keeps the listing right. */
  lemma FileStep(init: seq<Shortcut>, last: Shortcut, acc: map<string, seq<Listed>>)
    requires Files(acc, init)
    ensures var g := GroupOf(last);
      Files(acc[g := (if g in acc then acc[g] else []) + [ListedOf(last)]], init + [last])
  {
    var g := GroupOf(last);
    var r := acc[g := (if g in acc then acc[g] else []) + [ListedOf(last)]];
    var all := init + [last];
    forall h | h in r
      ensures r[h] == Rows(all, h)
    {
      RowsSnoc(init, last, h);
      if h == g && g !in acc {
        RowsNone(init, g);
      }
    }
    forall h | h in r
      ensures exists i | 0 <= i < |all| :: GroupOf(all[i]) == h
    {
      if h == g {
        assert GroupOf(all[|init|]) == h;
      } else {
        var i :| 0 <= i < |init| && GroupOf(init[i]) == h;
        assert all[i] == init[i];
      }
    }
    forall h | exists i | 0 <= i < |all| :: GroupOf(all[i]) == h
      ensures h in r
    {
      var i :| 0 <= i < |all| && GroupOf(all[i]) == h;
      if i < |init| {
        assert all[i] == init[i];
      }
    }
  }

  /** `getAllShortcuts`: the `reduce` that files each shortcut's row under
      its group, in list order. */
  function AllShortcuts(shortcuts: seq<Shortcut>): (groups: map<string, seq<Listed>>)
    ensures forall g :: g in groups <==> exists i | 0 <= i < |shortcuts| :: GroupOf(shortcuts[i]) == g
    ensures forall g | g in groups :: groups[g] == Rows(shortcuts, g)
  {
    if |shortcuts| == 0 then map[]
    else
      var init := shortcuts[..|shortcuts| - 1];
      var last := shortcuts[|shortcuts| - 1];
      var acc := AllShortcuts(init);
      var g := GroupOf(last);
      FileStep(init, last, acc);
      assert shortcuts == init + [last];
      acc[g := (if g in acc then acc[g] else []) + [ListedOf(last)]]
  }

  /** `getShortcutsByGroup`: the shortcuts whose group is exactly the name
      given, so those without a group never appear under "Other". */
  function ByGroup(shortcuts: seq<Shortcut>, group: string): (r: seq<Shortcut>)
    ensures forall s | s in r :: s in shortcuts && s.group == Some(group)
    ensures forall s | s in shortcuts && s.group == Some(group) :: s in r
  {
    Filter(shortcuts, Named(group))
  }

  function Named(group: string): Shortcut -> bool {
    (s: Shortcut) => s.group == Some(group)
  }

  /** The group's shortcuts come in list order: those of a concatenation are
      those of each part, one after the other, and a single shortcut is
      returned exactly when its group is the name. */
  lemma ByGroupOrder(a: seq<Shortcut>, b: seq<Shortcut>, s: Shortcut, group: string)
    ensures ByGroup(a + b, group) == ByGroup(a, group) + ByGroup(b, group)
    ensures ByGroup([s], group) == (if s.group == Some(group) then [s] else [])
  {
    FilterAppend(a, b, Named(group));
    FilterSingle(s, Named(group));
  }

  // Rendering a key combination.

  /** The symbol shown for one key: known names become glyphs, ignoring
      case; any other single character is upper-cased; longer names stay. */
  function KeyGlyph(key: string): (r: string)
    ensures Lower(key) == "ctrl" ==> r == "⌃"
    ensures Lower(key) == "cmd" ==> r == "⌘"
    ensures Lower(key) == "shift" ==> r == "⇧"
    ensures Lower(key) == "alt" ==> r == "⌥"
    ensures Lower(key) == "enter" ==> r == "↵"
    ensures Lower(key) == "arrowleft" ==> r == "←"
    ensures Lower(key) == "arrowright" ==> r == "→"
    ensures Lower(key) == "arrowup" ==> r == "↑"
    ensures Lower(key) == "arrowdown" ==> r == "↓"
    ensures Lower(key) == "escape" ==> r == "Esc"
    ensures |key| == 1 && Lower(key) !in KNOWN_KEYS ==> r == Upper(key)
    ensures |key| != 1 && Lower(key) !in KNOWN_KEYS ==> r == key
  {
    var k := Lower(key);
    if k == "ctrl" then "⌃"
    else if k == "cmd" then "⌘"
    else if k == "shift" then "⇧"
    else if k == "alt" then "⌥"
    else if k == "enter" then "↵"
    else if k == "arrowleft" then "←"
    else if k == "arrowright" then "→"
    else if k == "arrowup" then "↑"
    else if k == "arrowdown" then "↓"
    else if k == "escape" then "Esc"
    else if |key| == 1 then Upper(key)
    else key
  }

  const KNOWN_KEYS: set<string> := {"ctrl", "cmd", "shift", "alt", "enter", "arrowleft", "arrowright", "arrowup", "arrowdown", "escape"}

  /** `formatKeyCombo`: the symbols of the keys joined with " + ". */
  function FormatKeyCombo(keys: seq<string>): string {
    Join(seq(|keys|, i requires 0 <= i < |keys| => KeyGlyph(keys[i])), " + ")
  }

  /** One key renders as its symbol, and a combination renders piece by
      piece: the rendering of `a + b` is that of `a`, " + ", that of `b`. */
  lemma FormatKeyComboPieces(key: string, a: seq<string>, b: seq<string>)
    ensures FormatKeyCombo([]) == ""
    ensures FormatKeyCombo([key]) == KeyGlyph(key)
    ensures |a| >= 1 && |b| >= 1 ==> FormatKeyCombo(a + b) == FormatKeyCombo(a) + " + " + FormatKeyCombo(b)
  {
    if |a| >= 1 && |b| >= 1 {
      var ga := seq(|a|, i requires 0 <= i < |a| => KeyGlyph(a[i]));
      var gb := seq(|b|, i requires 0 <= i < |b| => KeyGlyph(b[i]));
      assert seq(|a + b|, i requires 0 <= i < |a + b| => KeyGlyph((a + b)[i])) == ga + gb;
      JoinAppend(ga, gb, " + ");
    }
  }
}

=== FILE: model_search.dfy ===
/** The model catalogue and its search. The catalogue is built once from the
    bundled price list, dropping the `sample_spec` entry and converting the
    token limits that are stored as strings to numbers; a search keeps the
    entries that satisfy every criterion given. JavaScript truthiness is
    explicit: an empty string or a zero imposes no criterion, and a model
    limit or cost that is absent or zero counts as missing. */
module ModelSearch {
  import opened Wrappers

  /** A token limit as the price list stores it: a number or a numeric string. */
  datatype RawNumber = Number(x: real) | Numeral(s: string)

  /** A catalogue entry as the price list holds it. */
  datatype RawSpec = RawSpec(
    maxTokens: Option<RawNumber>,
    maxInputTokens: Option<RawNumber>,
    maxOutputTokens: Option<RawNumber>,
    provider: Option<string>,
    mode: Option<string>,
    inputCost: Option<real>,
    capabilities: map<string, bool>)

  /** A catalogue entry after conversion. A limit is `None` when it is absent
      or its string does not parse (JavaScript's `NaN`, which is falsy and
      fails every comparison, exactly as an absent limit does). */
  datatype Spec = Spec(
    maxTokens: Option<real>,
    maxInputTokens: Option<real>,
    maxOutputTokens: Option<real>,
    provider: Option<string>,
    mode: Option<string>,
    inputCost: Option<real>,
    capabilities: map<string, bool>)

  type Entry = (string, Spec)

  /** `parseFloat`, supplied by the caller: `None` for `NaN`. */
  type NumberParser = string -> Option<real>

  const SAMPLE_SPEC: string := "sample_spec"

  /** `toNumber`: strings are parsed, numbers pass through. */
  function ToNumber(v: Option<RawNumber>, parse: NumberParser): (r: Option<real>)
    ensures v.None? ==> r.None?
    ensures v.Some? && v.value.Number? ==> r == Some(v.value.x)
    ensures v.Some? && v.value.Numeral? ==> r == parse(v.value.s)
  {
    match v
    case None => None
    case Some(Number(x)) => Some(x)
    case Some(Numeral(s)) => parse(s)
  }

  /** The constructor's conversion of one entry: the three token limits
      become numbers and every other field is kept. */
  function Convert(raw: RawSpec, parse: NumberParser): (s: Spec)
    ensures s.provider == raw.provider && s.mode == raw.mode && s.inputCost == raw.inputCost
    ensures s.capabilities == raw.capabilities
    ensures raw.maxTokens.None? ==> s.maxTokens.None?
    ensures raw.maxTokens.Some? && raw.maxTokens.value.Number? ==> s.maxTokens == Some(raw.maxTokens.value.x)
    ensures raw.maxInputTokens.None? ==> s.maxInputTokens.None?
    ensures raw.maxInputTokens.Some? && raw.maxInputTokens.value.Number? ==> s.maxInputTokens == Some(raw.maxInputTokens.value.x)
    ensures raw.maxOutputTokens.None? ==> s.maxOutputTokens.None?
    ensures raw.maxOutputTokens.Some? && raw.maxOutputTokens.value.Number? ==> s.maxOutputTokens == Some(raw.maxOutputTokens.value.x)
  {
    Spec(ToNumber(raw.maxTokens, parse), ToNumber(raw.maxInputTokens, parse), ToNumber(raw.maxOutputTokens, parse),
         raw.provider, raw.mode, raw.inputCost, raw.capabilities)
  }

  /** No two entries share a name, as in a JSON object. */
  predicate DistinctNames<T>(entries: seq<(string, T)>) {
    forall i, j | 0 <= i < j < |entries| :: entries[i].0 != entries[j].0
  }

  /** The constructor: every entry but `sample_spec`, converted, in order. */
  function Build(raw: seq<(string, RawSpec)>, parse: NumberParser): (cat: seq<Entry>)
    ensures forall e | e in cat :: e.0 != SAMPLE_SPEC && exists x | x in raw :: x.0 == e.0 && e.1 == Convert(x.1, parse)
    ensures forall x | x in raw && x.0 != SAMPLE_SPEC :: (x.0, Convert(x.1, parse)) in cat
  {
    if |raw| == 0 then []
    else
      var rest := Build(raw[1..], parse);
      assert forall x | x in raw[1..] :: x in raw;
      if raw[0].0 == SAMPLE_SPEC then rest
      else [(raw[0].0, Convert(raw[0].1, parse))] + rest
  }

  /** A number a caller passes as a context-size bound: finite, or one of
      the two infinities. */
  datatype Bound = Finite(x: real) | PosInfinity | NegInfinity

  /** JavaScript truthiness of an optional bound: present and not zero. */
  predicate Set(b: Option<Bound>) {
    b.Some? && (b.value.Finite? ==> b.value.x != 0.0)
  }

  /** `x < b` for a finite `x`. */
  predicate Below(x: real, b: Bound) {
    match b
    case Finite(y) => x < y
    case PosInfinity => true
    case NegInfinity => false
  }

  /** `x > b` for a finite `x`. */
  predicate Above(x: real, b: Bound) {
    match b
    case Finite(y) => x > y
    case PosInfinity => false
    case NegInfinity => true
  }

  /** The order of the extended reals. */
  predicate AtMost(a: Bound, b: Bound) {
    a.NegInfinity? || b.PosInfinity? || (a.Finite? && b.Finite? && a.x <= b.x)
  }

  /** What a search asks for. Capabilities are the entries of the requested
      capability object, in order. */
  datatype Criteria = Criteria(
    provider: Option<string>,
    mode: Option<string>,
    minContextSize: Option<Bound>,
    maxContextSize: Option<Bound>,
    maxInputCostPerToken: Option<real>,
    capabilities: seq<(string, bool)>)

  const NO_CRITERIA: Criteria := Criteria(None, None, None, None, None, [])

  /** JavaScript truthiness of an optional string and an optional number. */
  predicate Given(s: Option<string>) {
    s.Some? && s.value != ""
  }

  predicate Positive(x: Option<real>) {
    x.Some? && x.value != 0.0
  }

  /** The loop over the requested capabilities: it stops at the first one
      required but not offered. */
  function CapabilitiesHeld(requested: seq<(string, bool)>, offered: map<string, bool>): (b: bool)
    ensures b <==> forall i | 0 <= i < |requested| && requested[i].1 :: requested[i].0 in offered && offered[requested[i].0]
  {
    if |requested| == 0 then true
    else if requested[0].1 && !(requested[0].0 in offered && offered[requested[0].0]) then false
    else
      assert forall i | 1 <= i < |requested| :: requested[i] == requested[1..][i - 1];
      CapabilitiesHeld(requested[1..], offered)
  }

  /** `matchesCriteria`: the checks in the source's order, each one able to
      reject the model. */
  function Matches(m: Spec, c: Criteria): bool {
    if Given(c.provider) && m.provider != c.provider then false
    else if Given(c.mode) && m.mode != c.mode then false
    else if Set(c.minContextSize) && (!Positive(m.maxTokens) || Below(m.maxTokens.value, c.minContextSize.value)) then false
    else if Set(c.maxContextSize) && (!Positive(m.maxTokens) || Above(m.maxTokens.value, c.maxContextSize.value)) then false
    else if Positive(c.maxInputCostPerToken) && Positive(m.inputCost) && m.inputCost.value > c.maxInputCostPerToken.value then false
    else CapabilitiesHeld(c.capabilities, m.capabilities)
  }

  // The criteria one by one, each stated as what it lets through.

  predicate ProviderOk(m: Spec, c: Criteria) {
    Given(c.provider) ==> m.provider == c.provider
  }

  predicate ModeOk(m: Spec, c: Criteria) {
    Given(c.mode) ==> m.mode == c.mode
  }

  predicate MinContextOk(m: Spec, c: Criteria) {
    Set(c.minContextSize) ==> Positive(m.maxTokens) && !Below(m.maxTokens.value, c.minContextSize.value)
  }

  predicate MaxContextOk(m: Spec, c: Criteria) {
    Set(c.maxContextSize) ==> Positive(m.maxTokens) && !Above(m.maxTokens.value, c.maxContextSize.value)
  }

  predicate CostOk(m: Spec, c: Criteria) {
    Positive(c.maxInputCostPerToken) && Positive(m.inputCost) ==> m.inputCost.value <= c.maxInputCostPerToken.value
  }

  predicate CapabilitiesOk(m: Spec, c: Criteria) {
    forall i | 0 <= i < |c.capabilities| && c.capabilities[i].1 ::
      c.capabilities[i].0 in m.capabilities && m.capabilities[c.capabilities[i].0]
  }

  /** A model matches exactly when it passes every criterion. */
  lemma MatchesIff(m: Spec, c: Criteria)
    ensures Matches(m, c) <==>
      ProviderOk(m, c) && ModeOk(m, c) && MinContextOk(m, c) && MaxContextOk(m, c) && CostOk(m, c) && CapabilitiesOk(m, c)
  {
  }

  /** `search`: the matching entries under their names, built in catalogue order. */
  function Search(cat: seq<Entry>, c: Criteria): (r: map<string, Spec>)
    ensures forall n :: n in r <==> exists i | 0 <= i < |cat| :: cat[i].0 == n && Matches(cat[i].1, c)
    ensures forall n | n in r :: exists i | 0 <= i < |cat| :: cat[i] == (n, r[n]) && Matches(r[n], c)
    ensures DistinctNames(cat) ==> forall i | 0 <= i < |cat| && cat[i].0 in r :: r[cat[i].0] == cat[i].1
  {
    if |cat| == 0 then map[]
    else
      var init := cat[..|cat| - 1];
      var last := cat[|cat| - 1];
      var r := Search(init, c);
      SearchStep(cat, c, r);
      if Matches(last.1, c) then r[last.0 := last.1] else r
  }

  /** One more catalogue entry: what `Search` promises for the prefix
      carries over to the whole catalogue. */
  lemma SearchStep(cat: seq<Entry>, c: Criteria, r: map<string, Spec>)
    requires |cat| > 0
    requires var init := cat[..|cat| - 1];
      && (forall n :: n in r <==> exists i | 0 <= i < |init| :: init[i].0 == n && Matches(init[i].1, c))
      && (forall n | n in r :: exists i | 0 <= i < |init| :: init[i] == (n, r[n]) && Matches(r[n], c))
      && (DistinctNames(init) ==> forall i | 0 <= i < |init| && init[i].0 in r :: r[init[i].0] == init[i].1)
    ensures var last := cat[|cat| - 1];
      var s := if Matches(last.1, c) then r[last.0 := last.1] else r;
      && (forall n :: n in s <==> exists i | 0 <= i < |cat| :: cat[i].0 == n && Matches(cat[i].1, c))
      && (forall n | n in s :: exists i | 0 <= i < |cat| :: cat[i] == (n, s[n]) && Matches(s[n], c))
      && (DistinctNames(cat) ==> forall i | 0 <= i < |cat| && cat[i].0 in s :: s[cat[i].0] == cat[i].1)
  {
    var init := cat[..|cat| - 1];
    var k := |cat| - 1;
    var last := cat[k];
    var s := if Matches(last.1, c) then r[last.0 := last.1] else r;
    assert forall i | 0 <= i < |init| :: init[i] == cat[i];
    forall n | n in s
      ensures exists i | 0 <= i < |cat| :: cat[i] == (n, s[n]) && Matches(s[n], c)
    {
      if Matches(last.1, c) && n == last.0 {
        assert cat[k] == (n, s[n]);
      } else {
        var i :| 0 <= i < |init| && init[i] == (n, r[n]) && Matches(r[n], c);
        assert cat[i] == (n, s[n]);
      }
    }
    if DistinctNames(cat) {
      assert DistinctNames(init);
      forall i | 0 <= i < |cat| && cat[i].0 in s
        ensures s[cat[i].0] == cat[i].1
      {
        if i < k {
          assert cat[i].0 != last.0;
          assert init[i] == cat[i];
        }
      }
    }
  }

  /** The search with no criteria returns the whole catalogue, which never
      holds `sample_spec`. */
  lemma EmptyCriteria(raw: seq<(string, RawSpec)>, parse: NumberParser)
    ensures var cat := Build(raw, parse);
      var r := Search(cat, NO_CRITERIA);
      && SAMPLE_SPEC !in r
      && forall x | x in raw && x.0 != SAMPLE_SPEC :: x.0 in r
  {
    var cat := Build(raw, parse);
    var r := Search(cat, NO_CRITERIA);
    forall x | x in raw && x.0 != SAMPLE_SPEC
      ensures x.0 in r
    {
      var e := (x.0, Convert(x.1, parse));
      var i :| 0 <= i < |cat| && cat[i] == e;
      MatchesIff(e.1, NO_CRITERIA);
    }
  }

  /** `c2` asks for everything `c1` asks for, and at least as strictly. */
  predicate Narrower(c2: Criteria, c1: Criteria) {
    && (Given(c1.provider) ==> c2.provider == c1.provider)
    && (Given(c1.mode) ==> c2.mode == c1.mode)
    && (Set(c1.minContextSize) ==> Set(c2.minContextSize) && AtMost(c1.minContextSize.value, c2.minContextSize.value))
    && (Set(c1.maxContextSize) ==> Set(c2.maxContextSize) && AtMost(c2.maxContextSize.value, c1.maxContextSize.value))
    && (Positive(c1.maxInputCostPerToken) ==>
          Positive(c2.maxInputCostPerToken) && c2.maxInputCostPerToken.value <= c1.maxInputCostPerToken.value)
    && (forall i | 0 <= i < |c1.capabilities| && c1.capabilities[i].1 ::
          exists j | 0 <= j < |c2.capabilities| :: c2.capabilities[j] == c1.capabilities[i])
  }

  /** A model that passes narrower criteria passes the wider ones. */
  lemma MatchesNarrower(m: Spec, c2: Criteria, c1: Criteria)
    requires Narrower(c2, c1) && Matches(m, c2)
    ensures Matches(m, c1)
  {
    MatchesIff(m, c2);
    MatchesIff(m, c1);
    forall i | 0 <= i < |c1.capabilities| && c1.capabilities[i].1
      ensures c1.capabilities[i].0 in m.capabilities && m.capabilities[c1.capabilities[i].0]
    {
      var j :| 0 <= j < |c2.capabilities| && c2.capabilities[j] == c1.capabilities[i];
    }
  }

  /** Adding or tightening a criterion never enlarges the result. */
  lemma SearchNarrower(cat: seq<Entry>, c2: Criteria, c1: Criteria)
    requires Narrower(c2, c1)
    ensures Search(cat, c2).Keys <= Search(cat, c1).Keys
  {
    forall n | n in Search(cat, c2)
      ensures n in Search(cat, c1)
    {
      var i :| 0 <= i < |cat| && cat[i].0 == n && Matches(cat[i].1, c2);
      MatchesNarrower(cat[i].1, c2, c1);
    }
  }

  // The helper queries.

  /** `getModelsByProvider`: the models of that provider, every model when
      the provider is empty. */
  function ByProvider(cat: seq<Entry>, provider: string): (r: map<string, Spec>)
    ensures provider != "" ==> forall n | n in r :: r[n].provider == Some(provider)
    ensures forall i | 0 <= i < |cat| && (provider == "" || cat[i].1.provider == Some(provider)) :: cat[i].0 in r
  {
    var c := NO_CRITERIA.(provider := Some(provider));
    var r := Search(cat, c);
    forall i | 0 <= i < |cat| && (provider == "" || cat[i].1.provider == Some(provider))
      ensures cat[i].0 in r
    {
      MatchesIff(cat[i].1, c);
    }
    r
  }

  /** `getModelsByMode`: the models in that mode, every model when the mode
      is empty. */
  function ByMode(cat: seq<Entry>, mode: string): (r: map<string, Spec>)
    ensures mode != "" ==> forall n | n in r :: r[n].mode == Some(mode)
    ensures forall i | 0 <= i < |cat| && (mode == "" || cat[i].1.mode == Some(mode)) :: cat[i].0 in r
  {
    var c := NO_CRITERIA.(mode := Some(mode));
    var r := Search(cat, c);
    forall i | 0 <= i < |cat| && (mode == "" || cat[i].1.mode == Some(mode))
      ensures cat[i].0 in r
    {
      MatchesIff(cat[i].1, c);
    }
    r
  }

  /** `getModelsByCapabilities`: the models offering every capability
      requested as true. */
  function ByCapabilities(cat: seq<Entry>, capabilities: seq<(string, bool)>): (r: map<string, Spec>)
    ensures forall n, i | n in r && 0 <= i < |capabilities| && capabilities[i].1 ::
      capabilities[i].0 in r[n].capabilities && r[n].capabilities[capabilities[i].0]
    ensures forall i | 0 <= i < |cat| && CapabilitiesHeld(capabilities, cat[i].1.capabilities) :: cat[i].0 in r
  {
    var c := NO_CRITERIA.(capabilities := capabilities);
    var r := Search(cat, c);
    forall n | n in r
      ensures CapabilitiesOk(r[n], c)
    {
      MatchesIff(r[n], c);
    }
    forall i | 0 <= i < |cat| && CapabilitiesHeld(capabilities, cat[i].1.capabilities)
      ensures cat[i].0 in r
    {
      MatchesIff(cat[i].1, c);
    }
    r
  }

  /** The limit lies within the bounds that are set: a zero bound imposes
      nothing, and any other bound, an infinite one included, needs a
      non-zero limit. */
  predicate WithinSize(m: Spec, minSize: Bound, maxSize: Bound) {
    && (Set(Some(minSize)) ==> Positive(m.maxTokens) && !Below(m.maxTokens.value, minSize))
    && (Set(Some(maxSize)) ==> Positive(m.maxTokens) && !Above(m.maxTokens.value, maxSize))
  }

  /** `getModelsByContextSize`: exactly the models whose limit lies within
      the bounds that are set. */
  function ByContextSize(cat: seq<Entry>, minSize: Bound, maxSize: Bound): (r: map<string, Spec>)
    ensures forall n | n in r :: WithinSize(r[n], minSize, maxSize)
    ensures forall i | 0 <= i < |cat| && WithinSize(cat[i].1, minSize, maxSize) :: cat[i].0 in r
  {
    var c := NO_CRITERIA.(minContextSize := Some(minSize), maxContextSize := Some(maxSize));
    var r := Search(cat, c);
    forall n | n in r
      ensures MinContextOk(r[n], c) && MaxContextOk(r[n], c)
    {
      MatchesIff(r[n], c);
    }
    forall i | 0 <= i < |cat| && WithinSize(cat[i].1, minSize, maxSize)
      ensures cat[i].0 in r
    {
      MatchesIff(cat[i].1, c);
    }
    r
  }

  /** The large-context query `getModelsByContextSize(32000, Infinity)`
      keeps exactly the models with a limit of at least 32000: an infinite
      upper bound is still a bound, so a model without a limit is dropped,
      unlike with an upper bound of 0. */
  lemma LargeContext(cat: seq<Entry>, m: Spec)
    ensures var r := ByContextSize(cat, Finite(32000.0), PosInfinity);
      forall n | n in r :: r[n].maxTokens.Some? && r[n].maxTokens.value >= 32000.0
    ensures WithinSize(m, Finite(32000.0), PosInfinity) <==> m.maxTokens.Some? && m.maxTokens.value >= 32000.0
    ensures m.maxTokens.None? ==> WithinSize(m, Finite(0.0), Finite(0.0)) && !WithinSize(m, Finite(0.0), PosInfinity)
  {
  }

  /** `getModelsByMaxCost`: the models with no input cost or one within the
      bound; every model when the bound is zero. */
  function ByMaxCost(cat: seq<Entry>, maxInputCostPerToken: real): (r: map<string, Spec>)
    ensures forall n | n in r && Positive(r[n].inputCost) && maxInputCostPerToken != 0.0 ::
      r[n].inputCost.value <= maxInputCostPerToken
    ensures forall i | 0 <= i < |cat| && (maxInputCostPerToken == 0.0 || !Positive(cat[i].1.inputCost)
                                          || cat[i].1.inputCost.value <= maxInputCostPerToken) :: cat[i].0 in r
  {
    var c := NO_CRITERIA.(maxInputCostPerToken := Some(maxInputCostPerToken));
    var r := Search(cat, c);
    forall n | n in r
      ensures CostOk(r[n], c)
    {
      MatchesIff(r[n], c);
    }
    forall i | 0 <= i < |cat| && (maxInputCostPerToken == 0.0 || !Positive(cat[i].1.inputCost)
                                  || cat[i].1.inputCost.value <= maxInputCostPerToken)
      ensures cat[i].0 in r
    {
      MatchesIff(cat[i].1, c);
    }
    r
  }
}

=== FILE: optimizer.dfy ===
/** The prompt optimizer: a prompt in, an optimised SynthLang prompt out,
    with the model's list of improvements and its three quality scores. The
    model's answer is a parameter whose optional fields may be missing. */
module Optimizer {
  import opened Wrappers
  import opened Text
  import opened Symbols
  import opened Sanitizer

  /** What the model returned: the optimised text and the fields it may omit. */
  datatype Answer = Answer(
    optimized: string,
    improvements: Option<string>,
    clarity: Option<real>,
    specificity: Option<real>,
    consistency: Option<real>)

  datatype Metrics = Metrics(clarity: real, specificity: real, consistency: real)

  datatype Optimization = Optimization(optimized: string, improvements: seq<string>, metrics: Metrics, original: string)

  /** The fixed optimisation for programming prompts. */
  const PROGRAMMING_LINES: seq<string> := [
    INPUT + " query" + JOIN + "code",
    PROCESS + " analyze => solution",
    OUTPUT + " answer + examples"
  ]

  /** A missing score counts as 0. */
  function OrZero(x: Option<real>): (r: real)
    ensures x.Some? ==> r == x.value
    ensures x.None? ==> r == 0.0
  {
    match x
    case Some(v) => v
    case None => 0.0
  }

  /** The model's improvements, one per line; none when the field is missing or empty. */
  function Improvements(field: Option<string>): (r: seq<string>)
    ensures r == [] <==> field.None? || field.value == ""
    ensures r != [] ==> Join(r, "\n") == field.value
    ensures forall i | 0 <= i < |r| :: '\n' !in r[i]
  {
    match field
    case None => []
    case Some(text) =>
      if text == "" then []
      else
        SplitJoin(text, "\n");
        SplitLacksSeparator(text, '\n');
        Split(text, "\n")
  }

  /** The improvements are the only newline-free pieces that join back to
      the field, so they are its lines and nothing coarser or finer. */
  lemma ImprovementsAreLines(field: Option<string>, pieces: seq<string>)
    requires field.Some? && field.value != ""
    requires |pieces| >= 1 && forall i | 0 <= i < |pieces| :: '\n' !in pieces[i]
    requires Join(pieces, "\n") == field.value
    ensures pieces == Improvements(field)
  {
    SplitJoinChar(pieces, '\n');
  }

  function Optimize(prompt: string, answer: Answer): (r: Result<Optimization>)
    ensures r.Err? <==> IsPyBlank(prompt)
    ensures r.Err? ==> r.msg == "Prompt cannot be empty or whitespace"
    ensures r.Ok? ==> r.value.original == prompt
    ensures r.Ok? && Contains(Lower(prompt), "programming") ==> r.value.optimized == Join(PROGRAMMING_LINES, "\n")
    ensures r.Ok? && !Contains(Lower(prompt), "programming") ==> r.value.optimized == Join(Sanitize(answer.optimized), "\n")
    ensures r.Ok? ==> r.value.improvements == Improvements(answer.improvements)
    ensures r.Ok? ==> r.value.metrics == Metrics(OrZero(answer.clarity), OrZero(answer.specificity), OrZero(answer.consistency))
  {
    if IsPyBlank(prompt) then Err("Prompt cannot be empty or whitespace")
    else
      var lines := if Contains(Lower(prompt), "programming") then PROGRAMMING_LINES else Sanitize(answer.optimized);
      Ok(Optimization(Join(lines, "\n"), Improvements(answer.improvements),
                      Metrics(OrZero(answer.clarity), OrZero(answer.specificity), OrZero(answer.consistency)),
                      prompt))
  }

  /** A programming prompt gets the three fixed lines whatever the model's
      optimised text. */
  lemma ProgrammingOverride(prompt: string, a1: Answer, a2: Answer)
    requires !IsPyBlank(prompt) && Contains(Lower(prompt), "programming")
    ensures Optimize(prompt, a1).value.optimized == Optimize(prompt, a2).value.optimized
    ensures Split(Optimize(prompt, a1).value.optimized, "\n") == PROGRAMMING_LINES
  {
    SplitJoinChar(PROGRAMMING_LINES, '\n');
  }

  /** Otherwise the optimised prompt's lines are the filtered answer lines. */
  lemma OptimizedLines(prompt: string, answer: Answer)
    requires !IsPyBlank(prompt) && !Contains(Lower(prompt), "programming")
    requires |Sanitize(answer.optimized)| > 0
    ensures Split(Optimize(prompt, answer).value.optimized, "\n") == Sanitize(answer.optimized)
  {
    JoinedLines(answer.optimized);
  }
}

=== FILE: playground.dfy ===
/** The documentation playground's controller: the code being edited, the
    last output and the errors shown, and the handlers for editing,
    running, resetting, the keyboard and loading examples. The validator
    and the executor are parameters; `SynthLangExecute` and
    `SynthLang.Validate` are the ones the playground uses. */
module Playground {
  import opened Wrappers
  import opened Text
  import SynthLang

  /** What the executor returns: the output, and an error message if it failed. */
  datatype ExecResult = ExecResult(output: string, error: Option<string>)

  /** The playground's state; `output` is `None` when nothing is shown. */
  datatype Playground = Playground(code: string, output: Option<string>, errors: seq<string>)

  type Validator = string -> seq<string>
  type Executor = string -> ExecResult

  /** The playground's executor: the formatted operations; it never fails. */
  function SynthLangExecute(code: string): (r: ExecResult)
    ensures r.error.None?
  {
    ExecResult(SynthLang.Execute(code), None)
  }

  /** The code's lines that are neither blank nor comments once trimmed. */
  function NonCommentLines(code: string): seq<string> {
    Filter(Split(code, "\n"), SynthLang.IsCode)
  }

  predicate CommentOnly(code: string) {
    |NonCommentLines(code)| == 0
  }

  /** None of the lines is code. */
  predicate NoCode(lines: seq<string>) {
    forall i | 0 <= i < |lines| :: !SynthLang.IsCode(lines[i])
  }

  /** Filtering for code keeps nothing exactly when no line is code. */
  lemma NoCodeKept(lines: seq<string>)
    ensures |Filter(lines, SynthLang.IsCode)| == 0 <==> NoCode(lines)
  {
    FilterNonEmpty(lines, SynthLang.IsCode);
  }

  /** Code counts as comment-only exactly when none of its lines is code. */
  lemma CommentOnlyIff(code: string)
    ensures CommentOnly(code) <==> NoCode(Split(code, "\n"))
  {
    NoCodeKept(Split(code, "\n"));
  }

  /** `setCode`: the new code, with the output and the errors cleared. */
  function SetCode(p: Playground, code: string): (r: Playground)
    ensures r.code == code && r.output.None? && r.errors == []
  {
    Playground(code, None, [])
  }

  /** `handleRun`: the new state and, when the code is handed to the
      caller's `onRun`, that code. Comment-only code is executed without
      validation; otherwise the validator's errors are shown, and valid
      code goes to `onRun` if there is one and is executed if not. */
  function Run(p: Playground, hasOnRun: bool, validate: Validator, execute: Executor): (r: (Playground, Option<string>))
    ensures r.0.code == p.code
    ensures r.1.Some? <==> !CommentOnly(p.code) && validate(p.code) == [] && hasOnRun
    ensures r.1.Some? ==> r.1.value == p.code && r.0 == p.(errors := [])
    ensures CommentOnly(p.code) ==> r.0.output == Some(execute(p.code).output) && r.0.errors == []
    ensures !CommentOnly(p.code) && validate(p.code) != [] ==> r.0.output.None? && r.0.errors == validate(p.code)
    ensures !CommentOnly(p.code) && validate(p.code) == [] && !hasOnRun ==>
      var e := execute(p.code);
      if e.error.Some? then r.0.output.None? && r.0.errors == [e.error.value]
      else r.0.output == Some(e.output) && r.0.errors == []
  {
    var code := p.code;
    if !CommentOnly(code) then
      var errors := validate(code);
      if errors == [] then
        if hasOnRun then (p.(errors := errors), Some(code))
        else
          var result := execute(code);
          match result.error
          case Some(message) => (p.(errors := [message], output := None), None)
          case None => (p.(output := Some(result.output), errors := []), None)
      else (p.(errors := errors, output := None), None)
    else
      var result := execute(code);
      (p.(output := Some(result.output), errors := []), None)
  }

  /** `handleReset`: the initial code, with the output and the errors cleared. */
  function Reset(p: Playground, initialCode: string): (r: Playground)
    ensures r.code == initialCode && r.output.None? && r.errors == []
  {
    Playground(initialCode, None, [])
  }

  /** The Tab key: the selection `[start, end)` replaced by two spaces, and
      the cursor placed after them. The browser keeps the selection within
      the text. */
  function Tab(code: string, start: nat, end: nat): (r: (string, nat))
    requires start <= end <= |code|
    ensures |r.0| == |code| - (end - start) + 2
    ensures r.0[..start] == code[..start] && r.0[start..start + 2] == "  " && r.0[start + 2..] == code[end..]
    ensures r.1 == start + 2
  {
    (code[..start] + "  " + code[end..], start + 2)
  }

  /** A key press with its modifier keys. */
  datatype Key = Key(key: string, meta: bool, ctrl: bool, shift: bool)

  /** What a key press does: the new state, the cursor position when it
      moves, and the code handed to `onRun`, if any. */
  datatype KeyOutcome = KeyOutcome(state: Playground, cursor: Option<nat>, handedOff: Option<string>)

  /** `handleKeyDown`: Tab indents (editing the code without clearing the
      output or the errors); Ctrl or Cmd with Enter runs; Ctrl or Cmd with
      Shift and `R` resets; any other key does nothing here. */
  function KeyDown(p: Playground, k: Key, start: nat, end: nat, initialCode: string, hasOnRun: bool,
                   validate: Validator, execute: Executor): (r: KeyOutcome)
    requires start <= end <= |p.code|
    ensures k.key == "Tab" ==>
      (r.state.output == p.output && r.state.errors == p.errors && r.cursor == Some(start + 2)
       && r.state.code == Tab(p.code, start, end).0)
    ensures k.key != "Tab" && (k.meta || k.ctrl) && k.key == "Enter" ==>
      (r.state, r.handedOff) == Run(p, hasOnRun, validate, execute)
    ensures k.key != "Tab" && k.key != "Enter" && (k.meta || k.ctrl) && k.shift && k.key == "R" ==>
      r.state == Reset(p, initialCode)
    ensures k.key != "Tab" && !((k.meta || k.ctrl) && (k.key == "Enter" || (k.shift && k.key == "R"))) ==>
      r == KeyOutcome(p, None, None)
  {
    if k.key == "Tab" then
      var (code, cursor) := Tab(p.code, start, end);
      KeyOutcome(p.(code := code), Some(cursor), None)
    else if (k.meta || k.ctrl) && k.key == "Enter" then
      var (state, handedOff) := Run(p, hasOnRun, validate, execute);
      KeyOutcome(state, None, handedOff)
    else if (k.meta || k.ctrl) && k.shift && k.key == "R" then
      KeyOutcome(Reset(p, initialCode), None, None)
    else KeyOutcome(p, None, None)
  }

  /** `loadExample`: the example becomes the code with the errors cleared,
      and its output is shown only for comment-only code or for code that
      validates and executes without error. */
  function LoadExample(p: Playground, example: string, validate: Validator, execute: Executor): (r: Playground)
    ensures r.code == example && r.errors == []
    ensures r.output.Some? <==> CommentOnly(example) || (validate(example) == [] && execute(example).error.None?)
    ensures r.output.Some? ==> r.output == Some(execute(example).output)
  {
    var p := Playground(example, None, []);
    if !CommentOnly(example) then
      if validate(example) == [] then
        var result := execute(example);
        if result.error.None? then p.(output := Some(result.output)) else p
      else p
    else p.(output := Some(execute(example).output))
  }

  /** With the playground's own validator and executor, skipping validation
      for comment-only code changes nothing: such code has no validation
      errors, and running valid code without `onRun` always shows its
      formatted operations. */
  lemma RunWithSynthLang(p: Playground)
    ensures var r := Run(p, false, SynthLang.Validate, SynthLangExecute);
      && r.1.None?
      && (SynthLang.Validate(p.code) == [] <==> r.0.errors == [])
      && (SynthLang.Validate(p.code) == [] ==> r.0.output == Some(SynthLang.Execute(p.code)))
  {
    var lines := Split(p.code, "\n");
    if CommentOnly(p.code) {
      SynthLang.CommentOnlyValid(p.code);
    }
  }

  /** Running twice in a row without editing gives the same state: a run
      depends only on the code. */
  lemma RunTwice(p: Playground, hasOnRun: bool, validate: Validator, execute: Executor)
    ensures var r := Run(p, hasOnRun, validate, execute);
      !hasOnRun ==> Run(r.0, hasOnRun, validate, execute).0 == r.0
  {
  }
}

=== FILE: preset_storage.dfy ===
/** The preset store: a list of presets kept under one storage key. Reading
    an empty key gives the empty list, and text that does not parse makes
    every operation fail. Saving replaces the first preset with the same id
    in place or appends; deleting removes every preset with the id. */
module PresetStorage {
  import opened Wrappers
  import opened Text
  import opened Storage
  import opened Presets

  type PresetSlot = Slot<seq<Preset>>

  /** `getPresets` (and `listPresets`, which returns the same). */
  function GetPresets(slot: PresetSlot): (r: Result<seq<Preset>>)
    ensures slot.Missing? ==> r == Ok([])
    ensures slot.Stored? ==> r == Ok(slot.value)
    ensures r.Err? <==> slot.Unparsable?
  {
    match slot
    case Missing => Ok([])
    case Stored(presets) => Ok(presets)
    case Unparsable => Err(PARSE_ERROR)
  }

  /** The index of the first preset with the id, as `findIndex` finds it. */
  function FindIndex(presets: seq<Preset>, id: string): (r: Option<nat>)
    ensures r.Some? ==> r.value < |presets| && presets[r.value].id == id
    ensures r.Some? ==> forall j | 0 <= j < r.value :: presets[j].id != id
    ensures r.None? ==> forall j | 0 <= j < |presets| :: presets[j].id != id
  {
    if |presets| == 0 then None
    else if presets[0].id == id then Some(0)
    else
      match FindIndex(presets[1..], id)
      case None => None
      case Some(i) => Some(i + 1)
  }

  /** `loadPreset`: the first preset with the id, or nothing. */
  function LoadPreset(slot: PresetSlot, id: string): (r: Result<Option<Preset>>)
    ensures r.Err? <==> slot.Unparsable?
    ensures r.Ok? && r.value.Some? ==>
      exists i | 0 <= i < |GetPresets(slot).value| :: GetPresets(slot).value[i] == r.value.value && r.value.value.id == id
        && forall j | 0 <= j < i :: GetPresets(slot).value[j].id != id
    ensures r.Ok? ==> (r.value.None? <==> forall p | p in GetPresets(slot).value :: p.id != id)
  {
    var presets :- GetPresets(slot);
    match FindIndex(presets, id)
    case Some(i) => Ok(Some(presets[i]))
    case None => Ok(None)
  }

  /** `savePreset`: the new contents of the key. */
  function SavePreset(slot: PresetSlot, preset: Preset): (r: Result<PresetSlot>)
    ensures r.Err? <==> slot.Unparsable?
    ensures r.Ok? ==> r.value.Stored?
    ensures r.Ok? && (forall p | p in GetPresets(slot).value :: p.id != preset.id) ==>
      r.value.value == GetPresets(slot).value + [preset]
    ensures r.Ok? && (exists p | p in GetPresets(slot).value :: p.id == preset.id) ==>
      var old_ := GetPresets(slot).value;
      && |r.value.value| == |old_|
      && exists i | 0 <= i < |old_| :: old_[i].id == preset.id && r.value.value == old_[i := preset]
          && forall j | 0 <= j < i :: old_[j].id != preset.id
  {
    var presets :- GetPresets(slot);
    match FindIndex(presets, preset.id)
    case Some(i) => Ok(Stored(presets[i := preset]))
    case None => Ok(Stored(presets + [preset]))
  }

  /** The predicate `deletePreset` filters with. */
  function Keeps(id: string): Preset -> bool {
    (p: Preset) => p.id != id
  }

  /** `deletePreset`: the new contents of the key. */
  function DeletePreset(slot: PresetSlot, id: string): (r: Result<PresetSlot>)
    ensures r.Err? <==> slot.Unparsable?
    ensures r.Ok? ==> r.value.Stored? && |r.value.value| <= |GetPresets(slot).value|
    ensures r.Ok? ==> forall p | p in r.value.value :: p.id != id && p in GetPresets(slot).value
    ensures r.Ok? ==> forall p | p in GetPresets(slot).value && p.id != id :: p in r.value.value
  {
    var presets :- GetPresets(slot);
    Ok(Stored(Filter(presets, Keeps(id))))
  }

  /** Deleting works element by element in list order: the survivors of a
      concatenation are the survivors of each part, one after the other, and
      a single preset survives exactly when its id differs. */
  lemma DeleteOrder(a: seq<Preset>, b: seq<Preset>, p: Preset, id: string)
    ensures DeletePreset(Stored(a + b), id).value.value ==
      DeletePreset(Stored(a), id).value.value + DeletePreset(Stored(b), id).value.value
    ensures DeletePreset(Stored([p]), id).value.value == (if p.id != id then [p] else [])
    ensures DeletePreset(Missing, id).value.value == []
  {
    FilterAppend(a, b, Keeps(id));
    FilterSingle(p, Keeps(id));
  }

  /** After a save, loading the id returns the saved preset. */
  lemma SaveLoad(slot: PresetSlot, preset: Preset)
    requires !slot.Unparsable?
    ensures LoadPreset(SavePreset(slot, preset).value, preset.id) == Ok(Some(preset))
  {
    var presets := GetPresets(slot).value;
    var saved := SavePreset(slot, preset).value.value;
    match FindIndex(presets, preset.id)
    case Some(i) =>
      assert saved == presets[i := preset];
      assert FindIndex(saved, preset.id) == Some(i) by {
        FindIndexAt(saved, preset.id, i);
      }
    case None =>
      assert saved == presets + [preset];
      FindIndexAt(saved, preset.id, |presets|);
  }

  /** The first index holding the id is what `FindIndex` returns. */
  lemma FindIndexAt(presets: seq<Preset>, id: string, i: nat)
    requires i < |presets| && presets[i].id == id
    requires forall j | 0 <= j < i :: presets[j].id != id
    ensures FindIndex(presets, id) == Some(i)
  {
    var r := FindIndex(presets, id);
    assert r.Some?;
  }

  /** A save leaves every other id's presets where they were; a delete
      removes the id entirely and keeps the other presets in order. */
  lemma SaveDeleteOthers(slot: PresetSlot, preset: Preset, id: string)
    requires !slot.Unparsable?
    ensures id != preset.id ==> LoadPreset(SavePreset(slot, preset).value, id) == LoadPreset(slot, id)
    ensures LoadPreset(DeletePreset(slot, id).value, id) == Ok(None)
    ensures id != preset.id ==>
      LoadPreset(DeletePreset(slot, id).value, preset.id) == LoadPreset(slot, preset.id)
  {
    var presets := GetPresets(slot).value;
    var saved := SavePreset(slot, preset).value.value;
    if id != preset.id {
      match FindIndex(presets, id)
      case Some(i) =>
        FindIndexAt(saved, id, i);
      case None =>
        assert forall p | p in saved :: p.id != id;
    }
    var kept := Filter(presets, Keeps(id));
    if id != preset.id {
      FilterFind(presets, id, preset.id);
    }
  }

  /** Filtering out one id does not change where another id is first found. */
  lemma {:induction false} FilterFind(presets: seq<Preset>, id: string, other: string)
    requires id != other
    ensures var r := FindIndex(Filter(presets, Keeps(id)), other);
      var s := FindIndex(presets, other);
      r.Some? == s.Some? && (r.Some? ==> Filter(presets, Keeps(id))[r.value] == presets[s.value])
    decreases |presets|
  {
    if |presets| > 0 {
      var p := presets[0];
      var rest := presets[1..];
      var kept := Filter(rest, Keeps(id));
      FilterFind(rest, id, other);
      var s := FindIndex(rest, other);
      var r := FindIndex(kept, other);
      if p.id == other {
        assert Keeps(id)(p);
        assert Filter(presets, Keeps(id)) == [p] + kept;
      } else {
        FindTail(p, rest, other);
        assert presets == [p] + rest;
        assert FindIndex(presets, other) == if s.Some? then Some(s.value + 1) else None;
        if Keeps(id)(p) {
          assert Filter(presets, Keeps(id)) == [p] + kept;
          FindTail(p, kept, other);
          assert r.Some? ==> ([p] + kept)[r.value + 1] == kept[r.value];
        } else {
          assert Filter(presets, Keeps(id)) == kept;
        }
        assert s.Some? ==> presets[s.value + 1] == rest[s.value];
      }
    }
  }

  /** Looking past a first preset with another id shifts the answer by one. */
  lemma FindTail(p: Preset, rest: seq<Preset>, id: string)
    requires p.id != id
    ensures FindIndex([p] + rest, id) == if FindIndex(rest, id).Some? then Some(FindIndex(rest, id).value + 1) else None
  {
    assert ([p] + rest)[1..] == rest;
  }

  /** `importPreset`'s input once parsed: an object whose preset fields may
      each be absent. Text that does not parse, or parses to something other
      than an object, is `None`. The object is returned as it is, without
      checking the fields the validation skips. */
  datatype Candidate = Candidate(
    id: Option<string>,
    name: Option<string>,
    description: Option<string>,
    settings: Option<Settings>,
    metadata: Option<Metadata>)

  const IMPORT_ERROR: string := "Failed to parse preset JSON"

  /** `importPreset`: text that does not parse, or lacks a non-empty id, a
      non-empty name or the settings, is refused with one message. */
  function ImportPreset(text: string, parse: string -> Option<Candidate>): (r: Result<Candidate>)
    ensures r.Err? ==> r.msg == IMPORT_ERROR
    ensures r.Ok? <==>
      && parse(text).Some?
      && parse(text).value.id.Some? && parse(text).value.id.value != ""
      && parse(text).value.name.Some? && parse(text).value.name.value != ""
      && parse(text).value.settings.Some?
    ensures r.Ok? ==> r.value == parse(text).value
  {
    match parse(text)
    case None => Err(IMPORT_ERROR)
    case Some(c) =>
      if c.id.None? || c.id.value == "" || c.name.None? || c.name.value == "" || c.settings.None? then
        Err(IMPORT_ERROR)
      else Ok(c)
  }
}

=== FILE: presets.dfy ===
/** The saved configuration of the advanced calculator: the model and its
    sampling settings, optional feature switches, and creation metadata. */
module Presets {
  import opened Wrappers

  /** The optional switches and texts of a preset; every field may be absent. */
  datatype CustomSettings = CustomSettings(
    streamingEnabled: Option<bool>,
    cacheEnabled: Option<bool>,
    batchProcessing: Option<bool>,
    compression: Option<bool>,
    customPrompt: Option<string>,
    responseFormat: Option<string>)

  const NO_CUSTOM_SETTINGS: CustomSettings := CustomSettings(None, None, None, None, None, None)

  datatype Settings = Settings(
    model: string,
    temperature: real,
    maxTokens: real,
    topP: real,
    frequencyPenalty: real,
    presencePenalty: real,
    customSettings: Option<CustomSettings>)

  datatype Metadata = Metadata(createdAt: string, updatedAt: string, tags: Option<seq<string>>)

  datatype Preset = Preset(id: string, name: string, description: string, settings: Settings, metadata: Metadata)

  /** The switches of a preset, or none when it has no custom settings. */
  function Switches(p: Preset): CustomSettings {
    if p.settings.customSettings.Some? then p.settings.customSettings.value else NO_CUSTOM_SETTINGS
  }

  /** JavaScript `x ?? fallback` for a switch that may be absent: `false` is kept. */
  function OrSwitch(x: Option<bool>, fallback: bool): (r: bool)
    ensures x.Some? ==> r == x.value
    ensures x.None? ==> r == fallback
  {
    if x.Some? then x.value else fallback
  }
}

=== FILE: prompt_manager.dfy ===
/** The prompt store of the command-line tool: named records, each holding
    the prompt text and a metadata object, saved, loaded, listed, deleted
    and compared. The storage directory is a map from names to the records
    their files hold, the clock is a parameter, and JSON values are a small
    datatype. */
module PromptManager {
  import opened Wrappers

  /** A JSON value as the store holds it; numbers are exact. */
  datatype Value = Num(x: real) | Bool(b: bool) | Str(s: string) | Obj(fields: map<string, Value>) | Other

  /** The contents of one prompt file. */
  datatype Record = Record(name: string, prompt: string, metadata: map<string, Value>)

  type Store = map<string, Record>

  /** Every record sits under the name it carries. */
  predicate WellNamed(store: Store) {
    forall n | n in store :: store[n].name == n
  }

  const VERSION: string := "1.0"

  /** The metadata a save writes: the caller's, with the creation time and
      the version put over any values of those keys. */
  function Stamped(metadata: Option<map<string, Value>>, now: string): (m: map<string, Value>)
    ensures m.Keys == (if metadata.Some? then metadata.value.Keys else {}) + {"created", "version"}
    ensures m["created"] == Str(now) && m["version"] == Str(VERSION)
    ensures metadata.Some? ==> forall k | k in metadata.value && k != "created" && k != "version" :: m[k] == metadata.value[k]
  {
    (if metadata.Some? then metadata.value else map[])["created" := Str(now)]["version" := Str(VERSION)]
  }

  /** `PromptManager.save`: writes (or overwrites) the record of `name`. */
  function Save(store: Store, name: string, prompt: string, metadata: Option<map<string, Value>>, now: string): (r: Store)
    ensures r.Keys == store.Keys + {name}
    ensures r[name].name == name && r[name].prompt == prompt && r[name].metadata == Stamped(metadata, now)
    ensures forall n | n in store && n != name :: r[n] == store[n]
    ensures WellNamed(store) ==> WellNamed(r)
  {
    store[name := Record(name, prompt, Stamped(metadata, now))]
  }

  /** `PromptManager.load`: the record of `name`, or the missing-file error. */
  function Load(store: Store, name: string): (r: Result<Record>)
    ensures r.Err? <==> name !in store
    ensures r.Err? ==> r.msg == "No prompt found with name: " + name
  {
    if name in store then Ok(store[name]) else Err("No prompt found with name: " + name)
  }

  /** Loading what was just saved returns the saved name, prompt and
      stamped metadata, and saving leaves every other name as it was. */
  lemma SaveLoad(store: Store, name: string, prompt: string, metadata: Option<map<string, Value>>, now: string, other: string)
    ensures var r := Load(Save(store, name, prompt, metadata, now), name);
      r.Ok? && r.value.name == name && r.value.prompt == prompt && r.value.metadata["version"] == Str(VERSION)
    ensures other != name ==> Load(Save(store, name, prompt, metadata, now), other) == Load(store, other)
  {
  }

  /** `PromptManager.delete`: removes the record of `name`; a missing name is an error. */
  function Delete(store: Store, name: string): (r: Result<Store>)
    ensures r.Err? <==> name !in store
    ensures r.Err? ==> r.msg == "No prompt found with name: " + name
    ensures r.Ok? ==> r.value.Keys == store.Keys - {name}
    ensures r.Ok? ==> forall n | n in r.value :: r.value[n] == store[n]
  {
    if name in store then Ok(store - {name}) else Err("No prompt found with name: " + name)
  }

  /** After a delete the name no longer loads, and every other name loads as before. */
  lemma DeleteLoad(store: Store, name: string, other: string)
    requires name in store
    ensures Load(Delete(store, name).value, name).Err?
    ensures other != name ==> Load(Delete(store, name).value, other) == Load(store, other)
  {
  }

  /** The directory listing visits every stored name once, in some order. */
  predicate Listing(store: Store, order: seq<string>) {
    && (forall i | 0 <= i < |order| :: order[i] in store)
    && (forall n | n in store :: n in order)
    && (forall i, j | 0 <= i < j < |order| :: order[i] != order[j])
  }

  /** `PromptManager.list`: the records in the order the directory lists them. */
  function List(store: Store, order: seq<string>): (r: seq<Record>)
    requires Listing(store, order)
    ensures |r| == |order|
    ensures forall i | 0 <= i < |r| :: r[i] == store[order[i]]
  {
    seq(|order|, i requires 0 <= i < |order| => store[order[i]])
  }

  /** Listing a well-named store yields exactly one record per stored name. */
  lemma ListOnePerName(store: Store, order: seq<string>, n: string)
    requires WellNamed(store) && Listing(store, order)
    ensures var r := List(store, order);
      && (n in store <==> exists i | 0 <= i < |r| :: r[i].name == n)
      && forall i, j | 0 <= i < j < |r| :: r[i].name != r[j].name
  {
    var r := List(store, order);
    if n in store {
      var i :| 0 <= i < |order| && order[i] == n;
      assert r[i].name == n;
    }
  }

  // Comparison.

  /** The fitness record reported for a prompt without one. */
  const ZERO_FITNESS: Value := Obj(map["clarity" := Num(0.0), "specificity" := Num(0.0), "task_score" := Num(0.0), "overall" := Num(0.0)])

  /** Python `d.get(k, default)`. */
  function GetOr(d: map<string, Value>, k: string, default: Value): Value {
    if k in d then d[k] else default
  }

  /** Python `float(v)` on a JSON value: numbers as they are, `true` and
      `false` as 1 and 0, and a string as the number `parse` reads from it
      (Python's float syntax, which is not modelled); anything else is an
      error. */
  function Float(v: Value, parse: string -> Option<real>): (r: Result<real>)
    ensures v.Num? ==> r == Ok(v.x)
    ensures v.Bool? ==> r == Ok(if v.b then 1.0 else 0.0)
    ensures v.Str? ==> (r.Ok? <==> parse(v.s).Some?)
    ensures v.Str? && r.Ok? ==> r.value == parse(v.s).value
    ensures v.Obj? || v.Other? ==> r.Err?
  {
    match v
    case Num(x) => Ok(x)
    case Bool(b) => Ok(if b then 1.0 else 0.0)
    case Str(s) =>
      (match parse(s)
       case Some(x) => Ok(x)
       case None => Err("could not convert string to float: " + s))
    case _ => Err("float() argument must be a string or a real number")
  }

  /** A JSON value as an operand of Python's `-`: numbers, and booleans as
      1 and 0; anything else has no subtraction with a number. */
  function Operand(v: Value): (r: Result<real>)
    ensures r.Ok? <==> v.Num? || v.Bool?
    ensures v.Num? ==> r == Ok(v.x)
    ensures v.Bool? ==> r == Ok(if v.b then 1.0 else 0.0)
  {
    match v
    case Num(x) => Ok(x)
    case Bool(b) => Ok(if b then 1.0 else 0.0)
    case _ => Err("unsupported operand type(s) for -")
  }

  /** The overall score `float(metadata.get("fitness", {}).get("overall", 0.0))`:
      zero when there is no fitness or it has no overall score; a fitness
      that is not an object has no `get`; otherwise the stored value taken
      through `float`. */
  function OverallOf(metadata: map<string, Value>, parse: string -> Option<real>): (r: Result<real>)
    ensures "fitness" !in metadata ==> r == Ok(0.0)
    ensures "fitness" in metadata && !metadata["fitness"].Obj? ==> r.Err?
    ensures "fitness" in metadata && metadata["fitness"].Obj? && "overall" !in metadata["fitness"].fields ==> r == Ok(0.0)
    ensures "fitness" in metadata && metadata["fitness"].Obj? && "overall" in metadata["fitness"].fields ==>
      r == Float(metadata["fitness"].fields["overall"], parse)
  {
    match GetOr(metadata, "fitness", Obj(map[]))
    case Obj(f) => Float(GetOr(f, "overall", Num(0.0)), parse)
    case _ => Err("object has no attribute 'get'")
  }

  /** The generation count `metadata.get("generations", 0)` as an operand of
      the subtraction: zero when absent, otherwise the stored number or
      boolean; any other value is an error. */
  function GenerationsOf(metadata: map<string, Value>): (r: Result<real>)
    ensures "generations" !in metadata ==> r == Ok(0.0)
    ensures "generations" in metadata ==> r == Operand(metadata["generations"])
  {
    Operand(GetOr(metadata, "generations", Num(0.0)))
  }

  function Abs(x: real): real {
    if x < 0.0 then -x else x
  }

  /** The metrics reported for one prompt. */
  datatype Metrics = Metrics(fitness: Value, generations: Value, created: Option<Value>, evolutionMetrics: Value)

  datatype Comparison = Comparison(
    prompts: map<string, string>,
    metrics: map<string, Metrics>,
    fitnessDifference: real,
    generationsDifference: real)

  function MetricsOf(metadata: map<string, Value>): (m: Metrics)
    ensures "fitness" !in metadata ==> m.fitness == ZERO_FITNESS
    ensures "generations" !in metadata ==> m.generations == Num(0.0)
    ensures "evolution_metrics" !in metadata ==> m.evolutionMetrics == Obj(map[])
    ensures m.created.Some? <==> "created" in metadata
  {
    Metrics(
      GetOr(metadata, "fitness", ZERO_FITNESS),
      GetOr(metadata, "generations", Num(0.0)),
      if "created" in metadata then Some(metadata["created"]) else None,
      GetOr(metadata, "evolution_metrics", Obj(map[])))
  }

  /** `PromptManager.compare`: both prompts and metrics side by side, and the
      absolute differences of their overall scores and generation counts. */
  function Compare(store: Store, name1: string, name2: string, parse: string -> Option<real>): (r: Result<Comparison>)
    ensures name1 !in store ==> r == Err("No prompt found with name: " + name1)
    ensures name1 in store && name2 !in store ==> r == Err("No prompt found with name: " + name2)
    ensures r.Ok? ==> name1 in store && name2 in store
    ensures name1 in store && name2 in store ==>
      (r.Ok? <==> && OverallOf(store[name1].metadata, parse).Ok? && OverallOf(store[name2].metadata, parse).Ok?
                  && GenerationsOf(store[name1].metadata).Ok? && GenerationsOf(store[name2].metadata).Ok?)
    ensures r.Ok? ==>
      r.value.fitnessDifference == Abs(OverallOf(store[name1].metadata, parse).value - OverallOf(store[name2].metadata, parse).value)
    ensures r.Ok? ==>
      r.value.generationsDifference == Abs(GenerationsOf(store[name1].metadata).value - GenerationsOf(store[name2].metadata).value)
    ensures r.Ok? ==> r.value.fitnessDifference >= 0.0 && r.value.generationsDifference >= 0.0
    ensures r.Ok? ==> r.value.prompts.Keys == {name1, name2} && r.value.metrics.Keys == {name1, name2}
    ensures r.Ok? ==> r.value.prompts[name1] == store[name1].prompt && r.value.prompts[name2] == store[name2].prompt
  {
    var p1 :- Load(store, name1);
    var p2 :- Load(store, name2);
    var o1 :- OverallOf(p1.metadata, parse);
    var o2 :- OverallOf(p2.metadata, parse);
    var g1 :- GenerationsOf(p1.metadata);
    var g2 :- GenerationsOf(p2.metadata);
    Ok(Comparison(
      map[name1 := p1.prompt, name2 := p2.prompt],
      map[name1 := MetricsOf(p1.metadata), name2 := MetricsOf(p2.metadata)],
      Abs(o1 - o2),
      Abs(g1 - g2)))
  }

  /** Comparing in either order succeeds or fails alike and reports the same
      differences. */
  lemma CompareSymmetric(store: Store, name1: string, name2: string, parse: string -> Option<real>)
    requires name1 in store && name2 in store
    ensures Compare(store, name1, name2, parse).Ok? <==> Compare(store, name2, name1, parse).Ok?
    ensures Compare(store, name1, name2, parse).Ok? ==>
      && Compare(store, name1, name2, parse).value.fitnessDifference == Compare(store, name2, name1, parse).value.fitnessDifference
      && Compare(store, name1, name2, parse).value.generationsDifference == Compare(store, name2, name1, parse).value.generationsDifference
  {
  }

  /** Two prompts saved without fitness or generations compare with zero
      differences and the default metrics. */
  lemma CompareFresh(store: Store, name1: string, prompt1: string, name2: string, prompt2: string, now: string, parse: string -> Option<real>)
    requires name1 != name2
    ensures var s := Save(Save(store, name1, prompt1, None, now), name2, prompt2, None, now);
      var r := Compare(s, name1, name2, parse);
      && r.Ok?
      && r.value.fitnessDifference == 0.0 && r.value.generationsDifference == 0.0
      && r.value.metrics[name1].fitness == ZERO_FITNESS && r.value.metrics[name1].generations == Num(0.0)
      && r.value.prompts[name1] == prompt1 && r.value.prompts[name2] == prompt2
  {
    var s := Save(Save(store, name1, prompt1, None, now), name2, prompt2, None, now);
    assert "fitness" !in s[name1].metadata && "generations" !in s[name1].metadata;
    assert "fitness" !in s[name2].metadata && "generations" !in s[name2].metadata;
  }
}

=== FILE: quick_actions.dfy ===
/** The calculator's preset panel: searching the preset lists, turning a
    chosen preset into the calculator's configuration, and saving a preset
    edited from one of the built-in optimised presets. The hook that wraps
    the preset store is taken to be the store itself. */
module QuickActions {
  import opened Wrappers
  import opened Text
  import opened Presets
  import opened Storage
  import PresetStorage

  /** The preset's name, description or one of its tags contains the
      lower-cased query, ignoring case. */
  predicate PresetMatches(p: Preset, query: string) {
    || Contains(Lower(p.name), Lower(query))
    || Contains(Lower(p.description), Lower(query))
    || (p.metadata.tags.Some? && exists t | t in p.metadata.tags.value :: Contains(Lower(t), Lower(query)))
  }

  function Matching(query: string): Preset -> bool {
    (p: Preset) => PresetMatches(p, query)
  }

  /** `filteredPresets`: an empty query shows every preset; any other keeps,
      in order, the presets it matches. */
  function FilteredPresets(presets: seq<Preset>, query: string): (r: seq<Preset>)
    ensures query == "" ==> r == presets
    ensures query != "" ==> forall p | p in r :: p in presets && PresetMatches(p, query)
    ensures query != "" ==> forall p | p in presets && PresetMatches(p, query) :: p in r
  {
    if query == "" then presets else Filter(presets, Matching(query))
  }

  /** The search keeps list order: the presets shown for a concatenation
      are those shown for each part, one after the other, and a single
      preset is shown exactly when the query is empty or matches it. */
  lemma FilterOrder(a: seq<Preset>, b: seq<Preset>, p: Preset, query: string)
    ensures FilteredPresets(a + b, query) == FilteredPresets(a, query) + FilteredPresets(b, query)
    ensures FilteredPresets([p], query) == (if query == "" || PresetMatches(p, query) then [p] else [])
  {
    FilterAppend(a, b, Matching(query));
    FilterSingle(p, Matching(query));
  }

  /** Typing more never shows more: a preset the longer query matches is
      matched by its prefix. */
  lemma {:induction false} FilterNarrows(presets: seq<Preset>, query: string, more: string)
    requires query != ""
    ensures forall p | p in FilteredPresets(presets, query + more) :: p in FilteredPresets(presets, query)
  {
    forall p | p in FilteredPresets(presets, query + more)
      ensures p in FilteredPresets(presets, query)
    {
      assert PresetMatches(p, query + more);
      if Contains(Lower(p.name), Lower(query + more)) {
        ContainsLowerPrefix(Lower(p.name), query, more);
      } else if Contains(Lower(p.description), Lower(query + more)) {
        ContainsLowerPrefix(Lower(p.description), query, more);
      } else {
        var t :| t in p.metadata.tags.value && Contains(Lower(t), Lower(query + more));
        ContainsLowerPrefix(Lower(t), query, more);
      }
    }
  }

  // The calculator configuration a preset is loaded into.

  datatype Features = Features(contextWindow: real, temperature: real, streamingMode: bool, customPrompt: string, responseFormat: string)

  datatype Optimizations = Optimizations(caching: bool, batchProcessing: bool, compression: bool)

  /** The framework table every loaded configuration starts from; its
      contents are a constant outside this model. */
  datatype Frameworks = DefaultFrameworks

  datatype CalculatorConfig = CalculatorConfig(
    model: string,
    contextSize: real,
    features: Features,
    optimizations: Optimizations,
    frameworks: Frameworks,
    customFrameworks: seq<string>)

  const CONFIG_KEY: string := "synthLang.calculatorConfig"
  const RESPONSE_FORMAT: string := "json"

  /** The configuration `handleLoadPreset` builds. */
  function ConfigOf(p: Preset): (c: CalculatorConfig)
    ensures c.model == p.settings.model
    ensures c.contextSize == p.settings.maxTokens && c.features.contextWindow == p.settings.maxTokens
    ensures c.features.temperature == p.settings.temperature
    ensures c.features.streamingMode == (Switches(p).streamingEnabled != Some(false))
    ensures c.optimizations.caching == (Switches(p).cacheEnabled != Some(false))
    ensures c.optimizations.batchProcessing == (Switches(p).batchProcessing == Some(true))
    ensures c.features.customPrompt == (if Switches(p).customPrompt.Some? then Switches(p).customPrompt.value else "")
    ensures c.optimizations.compression && c.features.responseFormat == RESPONSE_FORMAT
    ensures c.frameworks == DefaultFrameworks && c.customFrameworks == []
  {
    var s := Switches(p);
    CalculatorConfig(
      p.settings.model,
      p.settings.maxTokens,
      Features(
        p.settings.maxTokens,
        p.settings.temperature,
        OrSwitch(s.streamingEnabled, true),
        if s.customPrompt.Some? && s.customPrompt.value != "" then s.customPrompt.value else "",
        RESPONSE_FORMAT),
      Optimizations(OrSwitch(s.cacheEnabled, true), OrSwitch(s.batchProcessing, false), true),
      DefaultFrameworks,
      [])
  }

  /** What loading a preset does: the id looked up in the store (none for a
      built-in preset), and the configuration written under `CONFIG_KEY` and
      announced with a storage event. The lookup's answer is not used. */
  datatype Loaded = Loaded(lookup: Option<string>, key: string, config: CalculatorConfig)

  /** `handleLoadPreset`. */
  function LoadPreset(p: Preset, isOptimized: bool): (r: Loaded)
    ensures r.lookup == (if isOptimized then None else Some(p.id))
    ensures r.key == CONFIG_KEY && r.config == ConfigOf(p)
  {
    Loaded(if isOptimized then None else Some(p.id), CONFIG_KEY, ConfigOf(p))
  }

  /** The configuration depends on nothing but the model, the token limit,
      the temperature and four of the switches: presets agreeing on those
      load alike, whatever their names, ids, other sampling settings and
      metadata. */
  lemma ConfigDependsOnlyOn(p: Preset, q: Preset)
    requires p.settings.model == q.settings.model && p.settings.maxTokens == q.settings.maxTokens
    requires p.settings.temperature == q.settings.temperature
    requires Switches(p).streamingEnabled == Switches(q).streamingEnabled
    requires Switches(p).cacheEnabled == Switches(q).cacheEnabled
    requires Switches(p).batchProcessing == Switches(q).batchProcessing
    requires Switches(p).customPrompt == Switches(q).customPrompt
    ensures ConfigOf(p) == ConfigOf(q)
  {
  }

  const EDIT_TAGS: seq<string> := ["custom", "optimized-based"]

  /** The preset the form's save hands to the store: one edited from a
      built-in preset gets the two extra tags after its own. */
  function EditedPreset(p: Preset, fromBuiltIn: bool): (r: Preset)
    ensures !fromBuiltIn ==> r == p
    ensures fromBuiltIn ==>
      r.metadata.tags == Some((if p.metadata.tags.Some? then p.metadata.tags.value else []) + EDIT_TAGS)
    ensures r.(metadata := p.metadata) == p
    ensures r.metadata.createdAt == p.metadata.createdAt && r.metadata.updatedAt == p.metadata.updatedAt
  {
    if fromBuiltIn then
      var tags := if p.metadata.tags.Some? then p.metadata.tags.value else [];
      p.(metadata := p.metadata.(tags := Some(tags + EDIT_TAGS)))
    else p
  }

  /** The form's save: the edited preset goes to the store. */
  function SaveEdited(slot: PresetStorage.PresetSlot, p: Preset, fromBuiltIn: bool): Result<PresetStorage.PresetSlot> {
    PresetStorage.SavePreset(slot, EditedPreset(p, fromBuiltIn))
  }

  /** After saving an edit of a built-in preset, loading its id gives the
      preset with its tags followed by the two extra ones. */
  lemma SaveEditedLoad(slot: PresetStorage.PresetSlot, p: Preset)
    requires !slot.Unparsable?
    ensures var loaded := PresetStorage.LoadPreset(SaveEdited(slot, p, true).value, p.id);
      && loaded.Ok? && loaded.value.Some?
      && loaded.value.value.metadata.tags == Some((if p.metadata.tags.Some? then p.metadata.tags.value else []) + EDIT_TAGS)
  {
    PresetStorage.SaveLoad(slot, EditedPreset(p, true));
  }
}

=== FILE: sanitizer.dfy ===
/** The line filter the translator, the generator and the optimizer apply to
    the language model's answer: blank lines go, `->` becomes `=>`, quotes
    are deleted, lines without a structural marker go, short lines stay and
    long lines are broken at their ` => ` transformations or dropped. */
module Sanitizer {
  import opened Text
  import opened Symbols

  /** `->` rewritten as `=>`, then every double and every single quote deleted. */
  function Rewrite(line: string): (r: string)
    ensures '"' !in r && '\'' !in r
    ensures '\n' !in line ==> '\n' !in r
    ensures |r| <= |line|
  {
    var arrows := Replace(line, "->", "=>");
    var noDouble := Replace(arrows, "\"", "");
    var r := Replace(noDouble, "'", "");
    ReplaceDeletes(arrows, '"');
    ReplaceKeepsAbsentChar(noDouble, "'", "", '"');
    ReplaceDeletes(noDouble, '\'');
    ReplaceShrinks(line, "->", "=>");
    ReplaceShrinks(arrows, "\"", "");
    ReplaceShrinks(noDouble, "'", "");
    ReplaceKeepsAbsentChar(line, "->", "=>", '\n');
    ReplaceKeepsAbsentChar(arrows, "\"", "", '\n');
    ReplaceKeepsAbsentChar(noDouble, "'", "", '\n');
    r
  }

  /** The line carries one of the input, process and output markers. */
  predicate HasMarker(line: string) {
    Contains(line, INPUT) || Contains(line, PROCESS) || Contains(line, OUTPUT)
  }

  /** The separator a long line is broken at. */
  const BREAK: string := " " + TRANSFORM + " "

  /** Every line the filter emits is a kept short line with a marker, the
      head of a broken line (ending in the arrow) or one of its indented
      continuations. */
  predicate Admissible(line: string) {
    || (|line| <= MAX_LINE_LENGTH && HasMarker(line))
    || EndsWith(line, " " + TRANSFORM)
    || StartsWith(line, "  ")
  }

  /** A line without quotes or line breaks that the filter may emit. */
  predicate Clean(line: string) {
    '"' !in line && '\'' !in line && '\n' !in line && Admissible(line)
  }

  /** The pieces of a long line: the first followed by the arrow, the others
      indented by two spaces. */
  function Broken(parts: seq<string>): (r: seq<string>)
    requires |parts| > 1
    ensures |r| == |parts|
    ensures r[0] == parts[0] + " " + TRANSFORM
    ensures forall i | 1 <= i < |r| :: r[i] == "  " + parts[i]
  {
    [parts[0] + " " + TRANSFORM] + seq(|parts| - 1, i requires 0 <= i < |parts| - 1 => "  " + parts[i + 1])
  }

  /** The head ends in the arrow and every other piece is indented. */
  lemma BrokenShape(parts: seq<string>)
    requires |parts| > 1
    ensures EndsWith(Broken(parts)[0], " " + TRANSFORM)
    ensures forall i | 1 <= i < |parts| :: StartsWith(Broken(parts)[i], "  ")
  {
    var r := Broken(parts);
    assert r[0][|r[0]| - 3..] == " " + TRANSFORM;
    forall i | 1 <= i < |r|
      ensures StartsWith(r[i], "  ")
    {
      assert r[i][..2] == "  ";
    }
  }

  /** Dropping the head's arrow and the continuations' indent gives the
      parts back. */
  lemma UnbreakBroken(parts: seq<string>)
    requires |parts| > 1
    ensures var r := Broken(parts);
            [r[0][..|r[0]| - 3]] + seq(|r| - 1, i requires 0 <= i < |r| - 1 => r[i + 1][2..]) == parts
  {
    var r := Broken(parts);
    var heads := [r[0][..|r[0]| - 3]] + seq(|r| - 1, i requires 0 <= i < |r| - 1 => r[i + 1][2..]);
    forall i | 0 <= i < |parts|
      ensures heads[i] == parts[i]
    {
      if i > 0 {
        assert r[i][2..] == parts[i];
      } else {
        assert r[0][..|r[0]| - 3] == parts[0];
      }
    }
  }

  /** A character that no part holds, and that the arrow and the indent do
      not hold, is in no piece. */
  lemma BrokenLacks(parts: seq<string>, c: char)
    requires |parts| > 1 && c != ' ' && c != '=' && c != '>'
    requires forall p | p in parts :: c !in p
    ensures forall i | 0 <= i < |parts| :: c !in Broken(parts)[i]
  {
    forall i | 0 <= i < |parts|
      ensures c !in Broken(parts)[i]
    {
      assert parts[i] in parts;
    }
  }

  /** A long line broken at every ` => `, or dropped when it has none. */
  function BreakLong(line: string): (r: seq<string>)
    requires '"' !in line && '\'' !in line && '\n' !in line
    ensures forall i | 0 <= i < |r| :: '"' !in r[i] && '\'' !in r[i] && '\n' !in r[i]
    ensures forall i | 0 <= i < |r| :: EndsWith(r[i], " " + TRANSFORM) || StartsWith(r[i], "  ")
  {
    var parts := Split(line, BREAK);
    if |parts| > 1 then
      SplitKeepsAbsentChar(line, BREAK, '"');
      SplitKeepsAbsentChar(line, BREAK, '\'');
      SplitKeepsAbsentChar(line, BREAK, '\n');
      BrokenLacks(parts, '"');
      BrokenLacks(parts, '\'');
      BrokenLacks(parts, '\n');
      BrokenShape(parts);
      assert forall i | 0 <= i < |parts| :: EndsWith(Broken(parts)[i], " " + TRANSFORM) || StartsWith(Broken(parts)[i], "  ");
      Broken(parts)
    else []
  }

  /** Breaking loses nothing: joining the head without its arrow and the
      continuations without their indent at ` => ` restores the line; and
      a line is dropped exactly when it has no ` => `. */
  lemma BreakLongJoin(line: string)
    requires '"' !in line && '\'' !in line && '\n' !in line
    ensures var r := BreakLong(line);
            && (r == [] <==> !Contains(line, BREAK))
            && (r != [] ==>
                  && |r| >= 2
                  && EndsWith(r[0], " " + TRANSFORM)
                  && (forall i | 1 <= i < |r| :: StartsWith(r[i], "  "))
                  && Join([r[0][..|r[0]| - 3]] + seq(|r| - 1, i requires 0 <= i < |r| - 1 => r[i + 1][2..]), BREAK)
                     == line)
  {
    var parts := Split(line, BREAK);
    SplitOnce(line, BREAK);
    if |parts| > 1 {
      assert BreakLong(line) == Broken(parts);
      SplitJoin(line, BREAK);
      BrokenShape(parts);
      UnbreakBroken(parts);
    }
  }

  /** What one line of the answer contributes to the output. */
  function LineOutput(raw: string): (r: seq<string>)
    requires '\n' !in raw
    ensures IsPyBlank(raw) || !HasMarker(Rewrite(raw)) ==> r == []
    ensures !IsPyBlank(raw) && HasMarker(Rewrite(raw)) && |Rewrite(raw)| <= MAX_LINE_LENGTH ==> r == [Rewrite(raw)]
    ensures !IsPyBlank(raw) && HasMarker(Rewrite(raw)) && |Rewrite(raw)| > MAX_LINE_LENGTH ==> r == BreakLong(Rewrite(raw))
    ensures forall i | 0 <= i < |r| :: Clean(r[i])
  {
    if IsPyBlank(raw) then []
    else
      var line := Rewrite(raw);
      if !HasMarker(line) then []
      else if |line| <= MAX_LINE_LENGTH then [line]
      else BreakLong(line)
  }

  /** The filter over the lines of an answer, in order. */
  function SanitizeLines(lines: seq<string>): (r: seq<string>)
    requires forall i | 0 <= i < |lines| :: '\n' !in lines[i]
    ensures forall i | 0 <= i < |r| :: Clean(r[i])
    decreases |lines|
  {
    if |lines| == 0 then [] else LineOutput(lines[0]) + SanitizeLines(lines[1..])
  }

  /** The filter works line by line, so it keeps the order of the input. */
  lemma {:induction false} SanitizeAppend(a: seq<string>, b: seq<string>)
    requires forall i | 0 <= i < |a| :: '\n' !in a[i]
    requires forall i | 0 <= i < |b| :: '\n' !in b[i]
    ensures SanitizeLines(a + b) == SanitizeLines(a) + SanitizeLines(b)
    decreases |a|
  {
    if |a| == 0 {
      assert a + b == b;
    } else {
      assert (a + b)[1..] == a[1..] + b;
      SanitizeAppend(a[1..], b);
    }
  }

  /** Lines that are non-blank, marked and short once rewritten pass through
      rewritten, one for one and in order. */
  lemma {:induction false} KeepShortLines(lines: seq<string>)
    requires forall i | 0 <= i < |lines| :: '\n' !in lines[i]
    requires forall i | 0 <= i < |lines| ::
      !IsPyBlank(lines[i]) && HasMarker(Rewrite(lines[i])) && |Rewrite(lines[i])| <= MAX_LINE_LENGTH
    ensures SanitizeLines(lines) == seq(|lines|, i requires 0 <= i < |lines| => Rewrite(lines[i]))
    decreases |lines|
  {
    if |lines| > 0 {
      KeepShortLines(lines[1..]);
    }
  }

  /** Lines without a marker, once rewritten, are all dropped. */
  lemma {:induction false} DropUnmarked(lines: seq<string>)
    requires forall i | 0 <= i < |lines| :: '\n' !in lines[i]
    requires forall i | 0 <= i < |lines| :: !HasMarker(Rewrite(lines[i]))
    ensures SanitizeLines(lines) == []
    decreases |lines|
  {
    if |lines| > 0 {
      DropUnmarked(lines[1..]);
    }
  }

  /** The answer, stripped and split into lines, through the filter. */
  function Sanitize(answer: string): (r: seq<string>)
    ensures forall i | 0 <= i < |r| :: Clean(r[i])
  {
    var lines := Split(PyStrip(answer), "\n");
    SplitLacksSeparator(PyStrip(answer), '\n');
    SanitizeLines(lines)
  }

  /** The lines of the joined output are exactly the filtered lines. */
  lemma JoinedLines(answer: string)
    requires |Sanitize(answer)| > 0
    ensures Split(Join(Sanitize(answer), "\n"), "\n") == Sanitize(answer)
  {
    SplitJoinChar(Sanitize(answer), '\n');
  }

  /** An answer whose lines all lack a marker leaves nothing. */
  lemma UnmarkedAnswer(answer: string)
    requires forall i | 0 <= i < |Split(PyStrip(answer), "\n")| :: !HasMarker(Rewrite(Split(PyStrip(answer), "\n")[i]))
    ensures Sanitize(answer) == []
  {
    SplitLacksSeparator(PyStrip(answer), '\n');
    DropUnmarked(Split(PyStrip(answer), "\n"));
  }
}

=== FILE: saved_prompts.dfy ===
/** The list of prompts saved from the generator, under one storage key. A
    missing key reads as the empty list; text that does not parse makes every
    operation fail. Each change is announced with a window event, whose name
    the operations return. The fresh id and the clock are supplied. */
module SavedPrompts {
  import opened Wrappers
  import opened Text
  import opened Storage

  datatype Format = Markdown | Json | Toml

  /** The generated prompt's fields. */
  datatype Body = Body(domain: string, category: string, outputType: string, outputDescription: string,
                       overview: string, content: string)

  datatype SavedPrompt = SavedPrompt(id: string, title: string, timestamp: int, format: Format, prompt: Body)

  /** What the caller hands to `savePrompt`: everything but the id and the time. */
  datatype Draft = Draft(title: string, format: Format, prompt: Body)

  type PromptSlot = Slot<seq<SavedPrompt>>

  const SAVED_EVENT: string := "storageChanged"
  const DELETED_EVENT: string := "storage"

  /** `getSavedPrompts`. */
  function GetSavedPrompts(slot: PromptSlot): (r: Result<seq<SavedPrompt>>)
    ensures slot.Missing? ==> r == Ok([])
    ensures slot.Stored? ==> r == Ok(slot.value)
    ensures r.Err? <==> slot.Unparsable?
  {
    match slot
    case Missing => Ok([])
    case Stored(prompts) => Ok(prompts)
    case Unparsable => Err(PARSE_ERROR)
  }

  /** What a change leaves behind: the new contents of the key and the name
      of the event dispatched. */
  datatype Change<T> = Change(slot: PromptSlot, event: string, value: T)

  /** `savePrompt`: appends the draft with the supplied id and time, and
      returns the new record. */
  function SavePrompt(slot: PromptSlot, draft: Draft, id: string, now: int): (r: Result<Change<SavedPrompt>>)
    ensures r.Err? <==> slot.Unparsable?
    ensures r.Ok? ==> var old_ := GetSavedPrompts(slot).value;
      && r.value.slot.Stored?
      && |r.value.slot.value| == |old_| + 1
      && r.value.slot.value[..|old_|] == old_
      && r.value.slot.value[|old_|] == r.value.value
      && r.value.event == SAVED_EVENT
    ensures r.Ok? ==>
      && r.value.value.id == id && r.value.value.timestamp == now
      && r.value.value.title == draft.title && r.value.value.format == draft.format && r.value.value.prompt == draft.prompt
  {
    var prompts :- GetSavedPrompts(slot);
    var record := SavedPrompt(id, draft.title, now, draft.format, draft.prompt);
    Ok(Change(Stored(prompts + [record]), SAVED_EVENT, record))
  }

  function Other(id: string): SavedPrompt -> bool {
    (p: SavedPrompt) => p.id != id
  }

  /** `deletePrompt`: removes every record with the id, keeping the rest in order. */
  function DeletePrompt(slot: PromptSlot, id: string): (r: Result<Change<()>>)
    ensures r.Err? <==> slot.Unparsable?
    ensures r.Ok? ==> r.value.slot.Stored? && r.value.event == DELETED_EVENT
    ensures r.Ok? ==> forall p | p in r.value.slot.value :: p.id != id && p in GetSavedPrompts(slot).value
    ensures r.Ok? ==> forall p | p in GetSavedPrompts(slot).value && p.id != id :: p in r.value.slot.value
  {
    var prompts :- GetSavedPrompts(slot);
    Ok(Change(Stored(Filter(prompts, Other(id))), DELETED_EVENT, ()))
  }

  /** Deleting works record by record in list order: the survivors of a
      concatenation are the survivors of each part, one after the other, and
      a single record survives exactly when its id differs. */
  lemma DeleteOrder(a: seq<SavedPrompt>, b: seq<SavedPrompt>, p: SavedPrompt, id: string)
    ensures DeletePrompt(Stored(a + b), id).value.slot.value ==
      DeletePrompt(Stored(a), id).value.slot.value + DeletePrompt(Stored(b), id).value.slot.value
    ensures DeletePrompt(Stored([p]), id).value.slot.value == (if p.id != id then [p] else [])
    ensures DeletePrompt(Missing, id).value.slot.value == []
  {
    FilterAppend(a, b, Other(id));
    FilterSingle(p, Other(id));
  }

  /** Deleting an id no record has leaves the list as it was. */
  lemma DeleteAbsent(slot: PromptSlot, id: string)
    requires !slot.Unparsable?
    requires forall p | p in GetSavedPrompts(slot).value :: p.id != id
    ensures DeletePrompt(slot, id).value.slot.value == GetSavedPrompts(slot).value
  {
    FilterAll(GetSavedPrompts(slot).value, Other(id));
  }

  /** Deleting the id of a record just saved with a fresh id restores the
      list as it was before the save. */
  lemma SaveThenDelete(slot: PromptSlot, draft: Draft, id: string, now: int)
    requires !slot.Unparsable?
    requires forall p | p in GetSavedPrompts(slot).value :: p.id != id
    ensures var saved := SavePrompt(slot, draft, id, now).value.slot;
      DeletePrompt(saved, id).value.slot.value == GetSavedPrompts(slot).value
  {
    var prompts := GetSavedPrompts(slot).value;
    var record := SavedPrompt(id, draft.title, now, draft.format, draft.prompt);
    FilterAppend(prompts, [record], Other(id));
    FilterAll(prompts, Other(id));
    assert Filter([record], Other(id)) == [];
  }
}

=== FILE: settings_service.dfy ===
/** The application settings: built once from the defaults, the settings
    the provider is given and what is stored, then changed by shallow
    merges that are written back to storage. The stored text is held
    already decoded; text that does not parse sends the start-up down its
    recovery path. */
module SettingsService {
  import opened Wrappers
  import opened Storage

  datatype ModelSettings = ModelSettings(enabled: bool, contextWindow: int, costPer1kTokens: real)

  datatype Theme = Light | Dark

  datatype Settings = Settings(
    openRouterApiKey: Option<string>,
    theme: Option<Theme>,
    fontSize: Option<real>,
    defaultModel: string,
    models: map<string, ModelSettings>)

  /** A partial settings object: `None` is a key the object does not have. */
  datatype Patch = Patch(
    openRouterApiKey: Option<string>,
    theme: Option<Theme>,
    fontSize: Option<real>,
    defaultModel: Option<string>,
    models: Option<map<string, ModelSettings>>)

  const NO_CHANGES: Patch := Patch(None, None, None, None, None)

  const DEFAULT_MODEL: string := "deepseek-coder-33b"

  const DEFAULT_MODELS: map<string, ModelSettings> := map[
    "deepseek-coder-33b" := ModelSettings(true, 32768, 0.0008),
    "deepseek-coder-6.7b" := ModelSettings(true, 32768, 0.0002),
    "gpt-4" := ModelSettings(true, 8192, 0.03),
    "gpt-3.5-turbo" := ModelSettings(true, 4096, 0.002),
    "claude-2" := ModelSettings(true, 100000, 0.011),
    "claude-instant" := ModelSettings(true, 100000, 0.0015)]

  const DEFAULTS: Settings := Settings(None, Some(Dark), Some(14.0), DEFAULT_MODEL, DEFAULT_MODELS)

  /** A key of the later object wins over the earlier one. */
  function Over<T>(base: Option<T>, top: Option<T>): (r: Option<T>)
    ensures top.Some? ==> r == top
    ensures top.None? ==> r == base
  {
    if top.Some? then top else base
  }

  /** `{ ...settings, ...patch }`. */
  function Apply(s: Settings, p: Patch): (r: Settings)
    ensures r.openRouterApiKey == Over(s.openRouterApiKey, p.openRouterApiKey)
    ensures r.theme == Over(s.theme, p.theme) && r.fontSize == Over(s.fontSize, p.fontSize)
    ensures r.defaultModel == (if p.defaultModel.Some? then p.defaultModel.value else s.defaultModel)
    ensures r.models == (if p.models.Some? then p.models.value else s.models)
  {
    Settings(
      Over(s.openRouterApiKey, p.openRouterApiKey),
      Over(s.theme, p.theme),
      Over(s.fontSize, p.fontSize),
      if p.defaultModel.Some? then p.defaultModel.value else s.defaultModel,
      if p.models.Some? then p.models.value else s.models)
  }

  type SettingsSlot = Slot<Patch>

  /** The state's initialiser. A stored object's keys win over the given
      settings, which win over the defaults; the default model is the
      stored one unless that is missing or empty, and the models are the
      default ones with the stored ones laid over them. The given settings'
      model choices are never used. When the stored text does not parse,
      the given settings are laid over the defaults and the default model
      choices are kept. */
  function Init(initial: Patch, slot: SettingsSlot): (r: Settings)
    ensures r.openRouterApiKey == (if slot.Stored? then Over(initial.openRouterApiKey, slot.value.openRouterApiKey) else initial.openRouterApiKey)
    ensures r.theme == (if slot.Stored? then Over(Over(Some(Dark), initial.theme), slot.value.theme) else Over(Some(Dark), initial.theme))
    ensures r.fontSize == (if slot.Stored? then Over(Over(Some(14.0), initial.fontSize), slot.value.fontSize) else Over(Some(14.0), initial.fontSize))
    ensures r.defaultModel != "" && r.theme.Some? && r.fontSize.Some?
    ensures slot.Stored? && slot.value.defaultModel.Some? && slot.value.defaultModel.value != "" ==>
      r.defaultModel == slot.value.defaultModel.value
    ensures !(slot.Stored? && slot.value.defaultModel.Some? && slot.value.defaultModel.value != "") ==>
      r.defaultModel == DEFAULT_MODEL
    ensures forall m :: m in r.models <==>
      m in DEFAULT_MODELS || (slot.Stored? && slot.value.models.Some? && m in slot.value.models.value)
    ensures forall m | m in r.models ::
      r.models[m] == (if slot.Stored? && slot.value.models.Some? && m in slot.value.models.value
                      then slot.value.models.value[m] else DEFAULT_MODELS[m])
  {
    var base := Apply(DEFAULTS, initial);
    match slot
    case Unparsable => base.(defaultModel := DEFAULT_MODEL, models := DEFAULT_MODELS)
    case Missing => LayStored(base, NO_CHANGES)
    case Stored(parsed) => LayStored(base, parsed)
  }

  /** The stored object laid over the rest, its model choices corrected. */
  function LayStored(base: Settings, parsed: Patch): Settings {
    Apply(base, parsed).(
      defaultModel := if parsed.defaultModel.Some? && parsed.defaultModel.value != "" then parsed.defaultModel.value else DEFAULT_MODEL,
      models := DEFAULT_MODELS + (if parsed.models.Some? then parsed.models.value else map[]))
  }

  /** What storing the settings and reading them back yields: every key
      that has a value. */
  function Saved(s: Settings): (p: Patch)
    ensures Apply(s, p) == s
  {
    Patch(s.openRouterApiKey, s.theme, s.fontSize, Some(s.defaultModel), Some(s.models))
  }

  /** `updateSettings`: the merged settings and the new contents of the key. */
  function Update(prev: Settings, patch: Patch): (r: (Settings, SettingsSlot))
    ensures r.0 == Apply(prev, patch) && r.1 == Stored(Saved(r.0))
    ensures patch == NO_CHANGES ==> r.0 == prev
  {
    var updated := Apply(prev, patch);
    (updated, Stored(Saved(updated)))
  }

  /** The settings a start-up can produce, and every update keeps: the theme
      and font size are set, and so is the key whenever the given settings
      set it. */
  predicate Complete(initial: Patch, s: Settings) {
    s.theme.Some? && s.fontSize.Some? && (initial.openRouterApiKey.Some? ==> s.openRouterApiKey.Some?)
  }

  lemma UpdateComplete(initial: Patch, prev: Settings, patch: Patch)
    requires Complete(initial, prev)
    ensures Complete(initial, Update(prev, patch).0)
  {
  }

  /** Starting again after an update gives back the updated settings, as
      long as the update left a non-empty default model and did not drop
      any of the default models. */
  lemma ReloadSeesUpdate(initial: Patch, prev: Settings, patch: Patch)
    requires Complete(initial, prev)
    requires Update(prev, patch).0.defaultModel != ""
    requires forall m | m in DEFAULT_MODELS :: m in Update(prev, patch).0.models
    ensures Init(initial, Update(prev, patch).1) == Update(prev, patch).0
  {
    var (updated, slot) := Update(prev, patch);
    var r := Init(initial, slot);
    assert r.models == updated.models;
  }

  /** Emptying the models or the default model does not survive a restart:
      the defaults come back. */
  lemma ReloadRestoresDefaults(initial: Patch, prev: Settings)
    ensures var (_, slot) := Update(prev, NO_CHANGES.(defaultModel := Some(""), models := Some(map[])));
      Init(initial, slot).defaultModel == DEFAULT_MODEL && Init(initial, slot).models == DEFAULT_MODELS
  {
    var (_, slot) := Update(prev, NO_CHANGES.(defaultModel := Some(""), models := Some(map[])));
    assert DEFAULT_MODELS + map[] == DEFAULT_MODELS;
  }
}

=== FILE: storage.dfy ===
/** The browser's `localStorage`, one key at a time. The front end stores
    lists and objects as JSON text; the codec is not modelled, so a slot holds
    the decoded value directly, or records that its text does not parse. */
module Storage {

  /** One storage key: nothing stored (or the empty string, which the code
      treats the same), a value whose text parses, or text that does not. */
  datatype Slot<T> = Missing | Stored(value: T) | Unparsable

  /** The message `JSON.parse` throws on unparsable text; its exact wording
      belongs to the JavaScript engine. */
  const PARSE_ERROR: string := "Unexpected token in JSON"
}

=== FILE: symbols.dfy ===
/** The SynthLang glyphs and format rules shared by the command-line modules. */
module Symbols {

  /** Structural markers: input, process, output. */
  const INPUT: string := "↹"
  const PROCESS: string := "⊕"
  const OUTPUT: string := "Σ"

  /** Join marker for related items, and the transformation arrow. */
  const JOIN: string := "•"
  const TRANSFORM: string := "=>"

  /** The longest line the sanitiser keeps unchanged. */
  const MAX_LINE_LENGTH: nat := 30

  /** The arithmetic and comparison operators the specificity score looks for. */
  const OPERATORS: seq<string> := ["+", "-", "*", "/", ">", "<", "^"]

  const MARKERS: seq<string> := [INPUT, PROCESS, OUTPUT]
}

=== FILE: synthlang.dfy ===
/** The documentation playground's SynthLang helpers: the line parser, the
    formatter that renders parsed operations as readable text, and the
    simple validator. Lines are the pieces of the code split at `\n`. */
module SynthLang {
  import opened Wrappers
  import opened Text
  import opened Symbols

  /** The first character of an input, process or output line. */
  predicate IsGlyph(c: char) {
    c == INPUT[0] || c == PROCESS[0] || c == OUTPUT[0]
  }

  /** The sigils a modifier starts with. */
  predicate IsSigil(c: char) {
    c == '^' || c == '@' || c == '$' || c == '#'
  }

  /** A modifier: a sigil followed by one or more word characters (the
      pattern `^[\^@$#][a-zA-Z0-9_]+$`). */
  predicate WellFormedModifier(m: string) {
    |m| >= 2 && IsSigil(m[0]) && forall j | 1 <= j < |m| :: IsWordChar(m[j])
  }

  /** The left-to-right, non-overlapping matches of a sigil followed by
      word characters (a global regex match). */
  function Modifiers(s: string): (r: seq<string>)
    ensures forall i | 0 <= i < |r| :: WellFormedModifier(r[i])
    decreases |s|
  {
    if |s| == 0 then []
    else
      var n := Span(s[1..], IsWordChar);
      if IsSigil(s[0]) && n > 0 then
        var m := s[..n + 1];
        assert forall j | 1 <= j < |m| :: m[j] == s[1..][j - 1];
        [m] + Modifiers(s[n + 1..])
      else Modifiers(s[1..])
  }

  /** A line without any sigil has no modifiers. */
  lemma {:induction false} NoSigilNoModifiers(s: string)
    requires forall j | 0 <= j < |s| :: !IsSigil(s[j])
    ensures Modifiers(s) == []
    decreases |s|
  {
    if |s| > 0 {
      NoSigilNoModifiers(s[1..]);
    }
  }

  /** Every modifier is a piece of the line: the modifiers, in order, are
      a subsequence of the line's non-overlapping pieces. */
  lemma {:induction false} ModifiersOccur(s: string, i: nat)
    requires i < |Modifiers(s)|
    ensures Contains(s, Modifiers(s)[i])
    decreases |s|
  {
    var n := Span(s[1..], IsWordChar);
    if IsSigil(s[0]) && n > 0 {
      var rest := Modifiers(s[n + 1..]);
      assert Modifiers(s) == [s[..n + 1]] + rest;
      if i == 0 {
        assert OccursAt(s, s[..n + 1], 0);
      } else {
        assert Modifiers(s)[i] == rest[i - 1];
        ModifiersOccur(s[n + 1..], i - 1);
        ContainsShift(s, n + 1, rest[i - 1]);
      }
    } else {
      assert Modifiers(s) == Modifiers(s[1..]);
      ModifiersOccur(s[1..], i);
      ContainsShift(s, 1, Modifiers(s[1..])[i]);
    }
  }

  /** An occurrence in a suffix is an occurrence in the whole. */
  lemma ContainsShift(s: string, k: nat, sub: string)
    requires k <= |s| && Contains(s[k..], sub)
    ensures Contains(s, sub)
  {
    var j :| 0 <= j <= |s[k..]| - |sub| && OccursAt(s[k..], sub, j);
    assert s[k + j..k + j + |sub|] == s[k..][j..j + |sub|];
    assert OccursAt(s, sub, k + j);
  }

  datatype Kind = InputOp | Operation | OutputOp | Control

  /** A parsed line; comments and unrecognised lines carry no modifier list. */
  datatype Op = Op(kind: Kind, content: string, modifiers: Option<seq<string>>)

  /** One non-blank line, parsed. A `#` line is a comment whose content is
      the rest of the line; a glyph line is an input, operation or output
      whose content is the rest of the line and whose modifiers are the
      modifier tokens of the whole line; any other line is kept whole. */
  function ParseOp(line: string): (op: Op)
    ensures var t := JsTrim(line);
      && (t != [] && t[0] == '#' ==> op == Op(Control, JsTrim(t[1..]), None))
      && (t != [] && t[0] != '#' && IsGlyph(t[0]) ==> op.content == JsTrim(t[1..]) && op.modifiers == Some(Modifiers(t)))
      && (t != [] && t[0] == INPUT[0] ==> op.kind == InputOp)
      && (t != [] && t[0] == PROCESS[0] ==> op.kind == Operation)
      && (t != [] && t[0] == OUTPUT[0] ==> op.kind == OutputOp)
      && (t == [] || !IsGlyph(t[0]) ==> op.kind == Control && op.modifiers.None?)
      && (t == [] || (!IsGlyph(t[0]) && t[0] != '#') ==> op.content == t)
  {
    ParseTrimmed(JsTrim(line))
  }

  /** The parse of an already trimmed line; each glyph is one character, so
      starting with it is a test of the first character. */
  function ParseTrimmed(t: string): Op {
    if t == [] then Op(Control, t, None)
    else if t[0] == '#' then Op(Control, JsTrim(t[1..]), None)
    else if t[0] == INPUT[0] then Op(InputOp, JsTrim(t[1..]), Some(Modifiers(t)))
    else if t[0] == PROCESS[0] then Op(Operation, JsTrim(t[1..]), Some(Modifiers(t)))
    else if t[0] == OUTPUT[0] then Op(OutputOp, JsTrim(t[1..]), Some(Modifiers(t)))
    else Op(Control, t, None)
  }

  predicate NonBlank(line: string) {
    JsTrim(line) != []
  }

  /** The code's lines whose trim is not empty, in order. */
  function CodeLines(code: string): (r: seq<string>)
    ensures forall i | 0 <= i < |r| :: NonBlank(r[i]) && '\n' !in r[i]
  {
    var lines := Split(code, "\n");
    SplitLacksSeparator(code, '\n');
    Filter(lines, NonBlank)
  }

  /** `parseSynthLang`: one operation per non-blank line, in order. */
  function Parse(code: string): (r: seq<Op>)
    ensures |r| == |CodeLines(code)|
    ensures forall i | 0 <= i < |r| :: r[i] == ParseOp(CodeLines(code)[i])
  {
    var lines := CodeLines(code);
    seq(|lines|, i requires 0 <= i < |lines| => ParseOp(lines[i]))
  }

  /** The trailing ` [m1, m2]`, present only when there are modifiers. */
  function ModifierSuffix(mods: Option<seq<string>>): string {
    if mods.Some? && |mods.value| > 0 then " [" + Join(mods.value, ", ") + "]" else ""
  }

  /** One operation rendered as a line of text. */
  function Format(op: Op): (r: string)
    ensures op.kind == InputOp ==> StartsWith(r, "Input: ")
    ensures op.kind == Operation ==> StartsWith(r, "Operation: ")
    ensures op.kind == OutputOp ==> StartsWith(r, "Output: ")
    ensures op.kind == Control ==> r == "// " + op.content
  {
    var suffix := ModifierSuffix(op.modifiers);
    match op.kind
    case InputOp => "Input: " + op.content + suffix
    case Operation => "Operation: " + op.content + suffix
    case OutputOp => "Output: " + op.content + suffix
    case Control => "// " + op.content
  }

  /** `executeSynthLang`: the rendered operations, one per line. Nothing in
      it can throw, so its result never carries an error. */
  function Execute(code: string): string {
    var ops := Parse(code);
    Join(seq(|ops|, i requires 0 <= i < |ops| => Format(ops[i])), "\n")
  }

  /** A modifier is made of a sigil and word characters, so no line break. */
  lemma ModifierHasNoNewline(m: string)
    requires WellFormedModifier(m)
    ensures '\n' !in m
  {
    assert forall j | 0 <= j < |m| :: m[j] != '\n';
  }

  /** The trimmed rest of a line after its first character keeps the
      line's lack of line breaks. */
  lemma RestHasNoNewline(t: string)
    requires t != [] && '\n' !in t
    ensures '\n' !in JsTrim(t[1..])
  {
    assert '\n' !in t[1..];
    TrimKeepsAbsentChar(t[1..], IsJsSpace, '\n');
  }

  /** A parsed line's content and modifiers carry no line break. */
  predicate NoNewlineIn(op: Op) {
    && '\n' !in op.content
    && (op.modifiers.Some? ==> forall i | 0 <= i < |op.modifiers.value| :: '\n' !in op.modifiers.value[i])
  }

  lemma OpHasNoNewline(line: string)
    requires '\n' !in line
    ensures NoNewlineIn(ParseOp(line))
  {
    var t := JsTrim(line);
    TrimKeepsAbsentChar(line, IsJsSpace, '\n');
    if t != [] {
      RestHasNoNewline(t);
    }
    var mods := Modifiers(t);
    forall i | 0 <= i < |mods|
      ensures '\n' !in mods[i]
    {
      ModifierHasNoNewline(mods[i]);
    }
  }

  /** A rendered operation is one line when its parts are. */
  lemma FormatHasNoNewline(op: Op)
    requires NoNewlineIn(op)
    ensures '\n' !in Format(op)
  {
    if op.modifiers.Some? && |op.modifiers.value| > 0 {
      JoinKeepsAbsentChar(op.modifiers.value, ", ", '\n');
    }
    assert '\n' !in ModifierSuffix(op.modifiers);
  }

  /** The executed output has exactly one line per parsed operation, each
      the operation's rendering. */
  lemma ExecuteLines(code: string)
    requires |Parse(code)| > 0
    ensures var ops := Parse(code);
      var out := Split(Execute(code), "\n");
      |out| == |ops| && forall i | 0 <= i < |ops| :: out[i] == Format(ops[i])
  {
    var ops := Parse(code);
    var lines := CodeLines(code);
    var formatted := seq(|ops|, i requires 0 <= i < |ops| => Format(ops[i]));
    forall i | 0 <= i < |ops|
      ensures '\n' !in formatted[i]
    {
      OpHasNoNewline(lines[i]);
      FormatHasNoNewline(ops[i]);
    }
    assert Execute(code) == Join(formatted, ['\n']);
    SplitJoinChar(formatted, '\n');
  }

  // The simple validator.

  function LineNumber(index: nat): string {
    "Line " + NatToString(index + 1)
  }

  function InvalidOperation(index: nat): string {
    LineNumber(index) + ": Invalid operation - must start with " + INPUT + ", " + PROCESS + ", or " + OUTPUT
  }

  const MISSING_INPUT: string := "Missing input operation (" + INPUT + ")"
  const MISSING_OUTPUT: string := "Missing output operation (" + OUTPUT + ")"

  /** A line that is neither blank nor a comment once trimmed. */
  predicate IsCode(line: string) {
    var t := JsTrim(line);
    t != [] && t[0] != '#'
  }

  /** The pieces of a string between runs of whitespace (JavaScript
      `s.split(/\s+/)`); never empty. */
  function WsSplit(s: string): (r: seq<string>)
    ensures |r| >= 1
    decreases |s|
  {
    if |s| == 0 then [""]
    else if IsJsSpace(s[0]) then [""] + WsSplit(TrimStart(s, IsJsSpace))
    else
      var rest := WsSplit(s[1..]);
      [[s[0]] + rest[0]] + rest[1..]
  }

  /** The checks of one line as the source writes them: the glyph check,
      then a format check on every modifier token, then a command check on
      process lines. */
  function LineErrors(index: nat, t: string): seq<string> {
    var glyph := if t != [] && (IsGlyph(t[0]) || t[0] == '#') then [] else [InvalidOperation(index)];
    var mods := Modifiers(t);
    var badMods := Filter(mods, m => !WellFormedModifier(m));
    var modErrors := seq(|badMods|, i requires 0 <= i < |badMods| => LineNumber(index) + ": Invalid modifier format - " + badMods[i]);
    var command := if t != [] && t[0] == PROCESS[0] && |WsSplit(JsTrim(t[1..]))| < 1
                   then [LineNumber(index) + ": Operation requires a command"] else [];
    glyph + modErrors + command
  }

  /** The modifier and command checks never fire: every modifier token is
      well formed and a split never yields zero pieces. So a code line has
      an error exactly when it does not start with a glyph. */
  lemma OnlyGlyphErrors(index: nat, t: string)
    requires t != [] && t[0] != '#'
    ensures LineErrors(index, t) == if IsGlyph(t[0]) then [] else [InvalidOperation(index)]
  {
    FilterNone(Modifiers(t), m => !WellFormedModifier(m));
  }

  /** Flags and errors gathered over the lines, in order. */
  datatype Scan = Scan(errors: seq<string>, hasInput: bool, hasOutput: bool, hasCode: bool)

  /** A code line that starts with the given glyph. */
  predicate StartsCode(line: string, glyph: char) {
    IsCode(line) && JsTrim(line)[0] == glyph
  }

  function ScanLines(lines: seq<string>): (s: Scan)
    ensures s.hasInput ==> s.hasCode
    ensures s.hasOutput ==> s.hasCode
    decreases |lines|
  {
    if |lines| == 0 then Scan([], false, false, false)
    else
      var prev := ScanLines(lines[..|lines| - 1]);
      var index := |lines| - 1;
      var line := lines[index];
      if !IsCode(line) then prev
      else
        var t := JsTrim(line);
        Scan(prev.errors + LineErrors(index, t),
             prev.hasInput || t[0] == INPUT[0],
             prev.hasOutput || t[0] == OUTPUT[0],
             true)
  }

  /** `validateSynthLang` of the documentation hook: the per-line errors,
      then the missing-input and missing-output errors when there is code. */
  function Validate(code: string): seq<string> {
    var s := ScanLines(Split(code, "\n"));
    s.errors
      + (if s.hasCode && !s.hasInput then [MISSING_INPUT] else [])
      + (if s.hasCode && !s.hasOutput then [MISSING_OUTPUT] else [])
  }

  /** One more line sets a flag exactly when the line itself qualifies. */
  lemma ScanLast(lines: seq<string>)
    requires |lines| > 0
    ensures var s := ScanLines(lines);
      var prev := ScanLines(lines[..|lines| - 1]);
      var last := lines[|lines| - 1];
      && (s.hasCode <==> prev.hasCode || IsCode(last))
      && (s.hasInput <==> prev.hasInput || StartsCode(last, INPUT[0]))
      && (s.hasOutput <==> prev.hasOutput || StartsCode(last, OUTPUT[0]))
  {
  }

  /** Every code line sets the code flag. */
  lemma {:induction false} CodeSetsFlag(lines: seq<string>, i: nat)
    requires i < |lines| && IsCode(lines[i])
    ensures ScanLines(lines).hasCode
    decreases |lines|
  {
    ScanLast(lines);
    if i < |lines| - 1 {
      CodeSetsFlag(lines[..|lines| - 1], i);
    }
  }

  /** A set code flag points at a code line. */
  lemma {:induction false} CodeFlagWitness(lines: seq<string>) returns (i: nat)
    requires ScanLines(lines).hasCode
    ensures i < |lines| && IsCode(lines[i])
    decreases |lines|
  {
    ScanLast(lines);
    var init := lines[..|lines| - 1];
    if ScanLines(init).hasCode {
      i := CodeFlagWitness(init);
    } else {
      i := |lines| - 1;
    }
  }

  /** The scan records whether any line is code. */
  lemma ScanCode(lines: seq<string>)
    ensures ScanLines(lines).hasCode <==> exists i | 0 <= i < |lines| :: IsCode(lines[i])
  {
    if ScanLines(lines).hasCode {
      var i := CodeFlagWitness(lines);
    }
    if exists i | 0 <= i < |lines| :: IsCode(lines[i]) {
      var i :| 0 <= i < |lines| && IsCode(lines[i]);
      CodeSetsFlag(lines, i);
    }
  }

  /** The input flag, or the output flag. */
  function GlyphFlag(s: Scan, glyph: char): bool {
    if glyph == INPUT[0] then s.hasInput else s.hasOutput
  }

  /** Every code line starting with the input (output) glyph sets the input
      (output) flag. */
  lemma {:induction false} GlyphSetsFlag(lines: seq<string>, glyph: char, i: nat)
    requires glyph == INPUT[0] || glyph == OUTPUT[0]
    requires i < |lines| && StartsCode(lines[i], glyph)
    ensures GlyphFlag(ScanLines(lines), glyph)
    decreases |lines|
  {
    ScanLast(lines);
    if i < |lines| - 1 {
      GlyphSetsFlag(lines[..|lines| - 1], glyph, i);
    }
  }

  /** A set input (output) flag points at a code line starting with the
      input (output) glyph. */
  lemma {:induction false} GlyphFlagWitness(lines: seq<string>, glyph: char) returns (i: nat)
    requires glyph == INPUT[0] || glyph == OUTPUT[0]
    requires GlyphFlag(ScanLines(lines), glyph)
    ensures i < |lines| && StartsCode(lines[i], glyph)
    decreases |lines|
  {
    ScanLast(lines);
    var init := lines[..|lines| - 1];
    if GlyphFlag(ScanLines(init), glyph) {
      i := GlyphFlagWitness(init, glyph);
    } else {
      i := |lines| - 1;
    }
  }

  /** The scan's input flag (or output flag) records whether any code line
      starts with the input glyph (or the output glyph). */
  lemma ScanGlyph(lines: seq<string>, glyph: char)
    requires glyph == INPUT[0] || glyph == OUTPUT[0]
    ensures GlyphFlag(ScanLines(lines), glyph) <==> exists i | 0 <= i < |lines| :: StartsCode(lines[i], glyph)
  {
    if GlyphFlag(ScanLines(lines), glyph) {
      var i := GlyphFlagWitness(lines, glyph);
    }
    if exists i | 0 <= i < |lines| :: StartsCode(lines[i], glyph) {
      var i :| 0 <= i < |lines| && StartsCode(lines[i], glyph);
      GlyphSetsFlag(lines, glyph, i);
    }
  }

  /** Only code lines produce errors. */
  lemma {:induction false} ScanQuiet(lines: seq<string>)
    requires forall i | 0 <= i < |lines| :: !IsCode(lines[i])
    ensures ScanLines(lines) == Scan([], false, false, false)
    decreases |lines|
  {
    if |lines| > 0 {
      var init := lines[..|lines| - 1];
      assert forall i | 0 <= i < |init| :: init[i] == lines[i];
      ScanQuiet(init);
    }
  }

  /** Code made of blank lines and comments has no errors at all: the
      missing-input and missing-output errors need a code line. */
  lemma CommentOnlyValid(code: string)
    requires forall i | 0 <= i < |Split(code, "\n")| :: !IsCode(Split(code, "\n")[i])
    ensures Validate(code) == []
  {
    ScanQuiet(Split(code, "\n"));
  }

  /** A code line that starts with none of the three glyphs. */
  predicate BadLine(line: string) {
    IsCode(line) && !IsGlyph(JsTrim(line)[0])
  }

  /** One more line adds the invalid-operation error exactly when it is a
      bad line. */
  lemma ScanLastErrors(lines: seq<string>)
    requires |lines| > 0
    ensures ScanLines(lines).errors == ScanLines(lines[..|lines| - 1]).errors
      + (if BadLine(lines[|lines| - 1]) then [InvalidOperation(|lines| - 1)] else [])
  {
    var index := |lines| - 1;
    var last := lines[index];
    var prev := ScanLines(lines[..index]);
    if IsCode(last) {
      var t := JsTrim(last);
      OnlyGlyphErrors(index, t);
      assert ScanLines(lines).errors == prev.errors + LineErrors(index, t);
    } else {
      assert ScanLines(lines) == prev;
    }
  }

  /** Every bad line is reported, with its 1-based line number. */
  lemma {:induction false} BadLineReported(lines: seq<string>, i: nat)
    requires i < |lines| && BadLine(lines[i])
    ensures InvalidOperation(i) in ScanLines(lines).errors
    decreases |lines|
  {
    ScanLastErrors(lines);
    if i < |lines| - 1 {
      BadLineReported(lines[..|lines| - 1], i);
    }
  }

  /** Every per-line error is the invalid-operation error of a bad line. */
  lemma {:induction false} ErrorFromBadLine(lines: seq<string>, k: nat) returns (i: nat)
    requires k < |ScanLines(lines).errors|
    ensures i < |lines| && BadLine(lines[i]) && ScanLines(lines).errors[k] == InvalidOperation(i)
    decreases |lines|
  {
    ScanLastErrors(lines);
    var init := lines[..|lines| - 1];
    if k < |ScanLines(init).errors| {
      i := ErrorFromBadLine(init, k);
    } else {
      i := |lines| - 1;
    }
  }

  /** The per-line errors are exactly the invalid-operation errors of the
      bad lines: nothing else is ever reported for a single line. */
  lemma ScanErrors(lines: seq<string>, e: string)
    ensures e in ScanLines(lines).errors <==> exists i | 0 <= i < |lines| :: BadLine(lines[i]) && e == InvalidOperation(i)
  {
    var errors := ScanLines(lines).errors;
    if e in errors {
      var k :| 0 <= k < |errors| && errors[k] == e;
      var i := ErrorFromBadLine(lines, k);
    }
    if exists i | 0 <= i < |lines| :: BadLine(lines[i]) && e == InvalidOperation(i) {
      var i :| 0 <= i < |lines| && BadLine(lines[i]) && e == InvalidOperation(i);
      BadLineReported(lines, i);
    }
  }

  /** With code present, the missing-input error is appended exactly when
      no code line starts with the input glyph, and the missing-output
      error likewise for the output glyph. */
  lemma MissingErrors(code: string)
    requires exists i | 0 <= i < |Split(code, "\n")| :: IsCode(Split(code, "\n")[i])
    ensures var lines := Split(code, "\n");
      Validate(code) == ScanLines(lines).errors
        + (if exists i | 0 <= i < |lines| :: StartsCode(lines[i], INPUT[0]) then [] else [MISSING_INPUT])
        + (if exists i | 0 <= i < |lines| :: StartsCode(lines[i], OUTPUT[0]) then [] else [MISSING_OUTPUT])
  {
    var lines := Split(code, "\n");
    ScanCode(lines);
    ScanGlyph(lines, INPUT[0]);
    ScanGlyph(lines, OUTPUT[0]);
  }
}

=== FILE: synthlang_utils.dfy ===
/** The playground's line-by-line validator. Besides the checks of the
    simple validator it tracks `Σ … {` output blocks, whose lines must be
    `key: ^modifier` entries, and quoted content spread over several lines,
    and it checks each ordinary line against the operation pattern
    `glyph label "content" modifiers…`. The regular expressions of the
    source are written out as the matchers below. */
module SynthLangUtils {
  import opened Wrappers
  import opened Text
  import opened Symbols
  import opened SynthLang

  // Matchers for the regular expressions of the validator.

  /** The text after a leading run of whitespace. */
  function SkipSpace(s: string): (r: string)
    ensures r == s[Span(s, IsJsSpace)..]
  {
    s[Span(s, IsJsSpace)..]
  }

  /** A block opener: `Σ {`, or the pattern `^Σ\s+\w+\s*{`. */
  predicate JsonOpener(t: string) {
    StartsWith(t, OUTPUT + " {") || NamedOpener(t)
  }

  /** The pattern `^Σ\s+\w+\s*{`: the output glyph, whitespace, a name and a brace. */
  predicate NamedOpener(t: string) {
    |t| > 0 && t[0] == OUTPUT[0]
    && var a := Span(t[1..], IsJsSpace);
    a > 0
    && var r := t[1 + a..];
    var w := Span(r, IsWordChar);
    w > 0
    && var q := SkipSpace(r[w..]);
    q != [] && q[0] == '{'
  }

  /** The output types an entry may name before its modifier. */
  const ENTRY_TYPES: seq<string> := ["json", "markdown", "dashboard", "formatted"]

  /** The text after an optional `type ` prefix (`(?:(?:json|…)\s+)?`). */
  function SkipType(s: string, types: seq<string>): (r: string)
    ensures |r| <= |s|
    decreases |types|
  {
    if |types| == 0 then s
    else if StartsWith(s, types[0]) && Span(s[|types[0]|..], IsJsSpace) > 0 then SkipSpace(s[|types[0]|..])
    else SkipType(s, types[1..])
  }

  /** The end of an entry: nothing, or a comma with optional whitespace
      around it (`(?:\s*,\s*)?$`). */
  predicate EntryEnd(s: string) {
    var q := SkipSpace(s);
    s == [] || (q != [] && q[0] == ',' && AllSpace(q[1..], IsJsSpace))
  }

  /** A block entry `key: ^modifier` or `key: type ^modifier`, optionally
      followed by a comma (the pattern on line 61). */
  predicate JsonEntry(t: string) {
    var k := Span(t, IsWordChar);
    k > 0 && k < |t| && t[k] == ':'
    && var rest := t[k + 1..];
    Span(rest, IsJsSpace) > 0
    && var m := SkipType(SkipSpace(rest), ENTRY_TYPES);
    m != [] && m[0] == '^'
    && var w := Span(m[1..], IsWordChar);
    w > 0 && EntryEnd(m[1 + w..])
  }

  /** A line that starts a quoted content spread over several lines: a
      glyph, a label and an opening quote that is never closed. */
  predicate MultiStart(t: string) {
    match Head(t)
    case None => false
    case Some((_, _, rest)) =>
      var q := SkipSpace(rest);
      q != [] && q[0] == '"' && '"' !in q[1..]
  }

  /** A character of the label pattern `[a-zA-Z0-9_-]`. */
  predicate IsLabelChar(c: char) {
    IsWordChar(c) || c == '-'
  }

  /** The label after the glyph, read with hyphens allowed, contains a
      hyphen (the pattern on line 101). */
  predicate LabelHasHyphen(t: string) {
    |t| > 0 && IsGlyph(t[0])
    && var a := Span(t[1..], IsJsSpace);
    a > 0
    && var r := t[1 + a..];
    var h := Span(r, IsLabelChar);
    h > 0 && '-' in r[..h]
  }

  /** A line with brackets, braces, arrows or other special syntax, which
      the validator does not check further. */
  predicate Special(t: string) {
    '[' in t || '{' in t || '→' in t || '⇒' in t || '⊗' in t || '≡' in t || Contains(t, "||")
  }

  /** The glyph, the label and the text after the label (`^([↹⊕Σ])\s+([a-zA-Z0-9_]+)`). */
  function Head(t: string): (r: Option<(char, string, string)>)
    ensures r.Some? ==> |t| > 0 && r.value.0 == t[0] && IsGlyph(t[0])
    ensures r.Some? ==> |r.value.1| > 0 && forall j | 0 <= j < |r.value.1| :: IsWordChar(r.value.1[j])
    ensures r.Some? ==> r.value.2 == [] || !IsWordChar(r.value.2[0])
    ensures r.Some? ==> |r.value.1| + |r.value.2| < |t| && t[|t| - |r.value.1| - |r.value.2|..] == r.value.1 + r.value.2
  {
    if |t| > 0 && IsGlyph(t[0]) then
      var a := Span(t[1..], IsJsSpace);
      var r := t[1 + a..];
      var w := Span(r, IsWordChar);
      if a > 0 && w > 0 then
        assert r == r[..w] + r[w..];
        Some((t[0], r[..w], r[w..]))
      else None
    else None
  }

  /** The length of the bracketed group `open [^close]+ close` at the start
      of `s`, if there is one: it ends at the first `close`. */
  function Enclosed(s: string, open: char, close: char): (r: Option<nat>)
    ensures r.Some? ==> 3 <= r.value <= |s| && s[0] == open && s[r.value - 1] == close
    ensures r.Some? ==> close !in s[1..r.value - 1]
  {
    if |s| > 0 && s[0] == open then
      match SplitFirst(s[1..], close)
      case None => None
      case Some((inside, _)) =>
        if |inside| > 0 then
          var body := s[1..];
          assert body[..|inside|] == inside && body[|inside|] == close;
          assert s[1..|inside| + 1] == body[..|inside|];
          Some(|inside| + 2)
        else None
    else None
  }

  /** The modifiers and annotations that may follow an operation, each
      after whitespace: `(?:\s+(?:@w|\^w|[…]|{…}|→\s*w|⇒\s*{…}|→|⇒|⊗|≡|\||)*)*$`,
      read from a point where a token or whitespace may come next. Tokens
      may follow one another directly. A word run is always taken whole,
      since no token starts with a word character. */
  predicate Tokens(s: string)
    decreases |s|
  {
    if s == [] then true
    else if IsJsSpace(s[0]) then Tokens(s[Span(s, IsJsSpace)..])
    else if s[0] == '@' || s[0] == '^' then
      var w := Span(s[1..], IsWordChar);
      w > 0 && Tokens(s[1 + w..])
    else if s[0] == '[' then
      var n := Enclosed(s, '[', ']');
      n.Some? && Tokens(s[n.value..])
    else if s[0] == '{' then
      var n := Enclosed(s, '{', '}');
      n.Some? && Tokens(s[n.value..])
    else if s[0] == '→' then
      var q := s[1 + Span(s[1..], IsJsSpace)..];
      var w := Span(q, IsWordChar);
      Tokens(s[1..]) || (w > 0 && Tokens(q[w..]))
    else if s[0] == '⇒' then
      var q := s[1 + Span(s[1..], IsJsSpace)..];
      var n := Enclosed(q, '{', '}');
      Tokens(s[1..]) || (n.Some? && Tokens(q[n.value..]))
    else if s[0] == '⊗' || s[0] == '≡' || s[0] == '|' then Tokens(s[1..])
    else false
  }

  /** The tail after the content: empty, or whitespace and then tokens. */
  predicate Tail(s: string) {
    s == [] || (IsJsSpace(s[0]) && Tokens(s))
  }

  /** What the operation pattern captures. */
  datatype OpMatch = OpMatch(glyph: char, name: string, content: Option<string>)

  /** The operation pattern `glyph label "content" modifiers…` (line 113,
      where the quoted content is optional) or its multi-line variant
      (line 78, where it is required). The content is the text up to the
      first closing quote. */
  function OperationMatch(t: string, contentRequired: bool): (r: Option<OpMatch>)
    ensures r.Some? ==> IsGlyph(r.value.glyph) && |t| > 0 && r.value.glyph == t[0]
    ensures r.Some? && r.value.content.Some? ==> '"' !in r.value.content.value
    ensures r.Some? && contentRequired ==> r.value.content.Some?
  {
    match Head(t)
    case None => None
    case Some((g, name, rest)) =>
      var q := SkipSpace(rest);
      if q != [] && q[0] == '"' && '"' in q[1..] then
        var (content, after) := SplitFirst(q[1..], '"').value;
        if Tail(after) then Some(OpMatch(g, name, Some(content))) else None
      else if !contentRequired && Tail(rest) then Some(OpMatch(g, name, None))
      else None
  }

  // The validator's state machine.

  /** The validator's state between lines. `jsonStart` is the 1-based line
      of the open block's opener; `multiStart` the 0-based line where the
      open multi-line content began. */
  datatype State = State(
    errors: seq<string>,
    hasInput: bool,
    hasOutput: bool,
    hasCode: bool,
    inJson: bool,
    braces: int,
    jsonStart: nat,
    inMulti: bool,
    multiStart: nat,
    buffer: string)

  const START: State := State([], false, false, false, false, 0, 0, false, 0, [])

  function JsonEntryError(index: nat): string {
    LineNumber(index) + ": Invalid JSON format - must be key: ^modifier or key: type ^modifier"
  }

  function FormatError(index: nat): string {
    LineNumber(index) + ": Invalid format - must follow pattern: label \"content\" ^modifiers"
  }

  function LabelError(index: nat): string {
    LineNumber(index) + ": Invalid label - must be single word without hyphens or spaces"
  }

  function EmptyContentError(index: nat): string {
    LineNumber(index) + ": Content cannot be empty"
  }

  function UnclosedError(line: nat): string {
    "Line " + NatToString(line) + ": Invalid JSON output format - missing closing brace"
  }

  /** The errors after a line are those before it and at most one more. */
  predicate Grows(s: State, r: State) {
    |s.errors| <= |r.errors| <= |s.errors| + 1 && r.errors[..|s.errors|] == s.errors
  }

  /** The error, if any, of a line inside an output block: a bare `}`,
      `case` lines, arrows, `||` and nested braces are skipped, and any
      other line must be a block entry. */
  function JsonLineError(index: nat, t: string): (e: seq<string>)
    ensures |e| <= 1
  {
    if t == "}" then []
    else if StartsWith(t, "case ") || '→' in t || '⇒' in t || Contains(t, "||") then []
    else if '{' in t || '}' in t then []
    else if JsonEntry(t) then []
    else [JsonEntryError(index)]
  }

  /** A line inside an output block (the trimmed line `t`, not an opener):
      its braces are counted, and a bare `}` that brings the count to zero
      closes the block. */
  function JsonLine(s: State, index: nat, t: string): (r: State)
    ensures Grows(s, r) && r.jsonStart == s.jsonStart && r.hasCode == s.hasCode
  {
    var braces := s.braces + Count(t, "{") - Count(t, "}");
    s.(braces := braces, inJson := !(t == "}" && braces == 0), errors := s.errors + JsonLineError(index, t))
  }

  /** The error, if any, when multi-line content closes: the whole
      content must match the operation pattern, and the error names the
      content's first line. */
  function MultiLineError(start: nat, buffer: string): (e: seq<string>)
    ensures |e| <= 1
  {
    if OperationMatch(buffer, true).None? then [FormatError(start)] else []
  }

  /** A line continuing multi-line content: it joins the buffer, and a line
      ending in a quote closes the content and checks it. */
  function MultiLine(s: State, t: string): (r: State)
    ensures Grows(s, r) && r.jsonStart == s.jsonStart && r.inJson == s.inJson && r.hasCode == s.hasCode
  {
    var buffer := s.buffer + "\n" + t;
    if EndsWith(t, "\"") then s.(buffer := buffer, inMulti := false, errors := s.errors + MultiLineError(s.multiStart, buffer))
    else s.(buffer := buffer)
  }

  /** The error, if any, of an ordinary line that does not start
      multi-line content: one not starting with a glyph, one whose label
      has a hyphen, one without special syntax that does not match the
      operation pattern, or an input whose quoted content is empty. */
  function PlainLineError(index: nat, t: string): (e: seq<string>)
    requires t != []
    ensures |e| <= 1
  {
    if !IsGlyph(t[0]) then [InvalidOperation(index)]
    else if LabelHasHyphen(t) then [LabelError(index)]
    else if Special(t) then []
    else match OperationMatch(t, false)
      case None => [FormatError(index)]
      case Some(m) => if m.glyph == INPUT[0] && m.content == Some("") then [EmptyContentError(index)] else []
  }

  /** An ordinary line outside blocks and multi-line content. */
  function PlainLine(s: State, index: nat, t: string): (r: State)
    requires t != []
    ensures Grows(s, r) && r.jsonStart == s.jsonStart && r.inJson == s.inJson && r.hasCode == s.hasCode
  {
    if MultiStart(t) then s.(inMulti := true, buffer := t, multiStart := index)
    else s.(errors := s.errors + PlainLineError(index, t))
  }

  /** A block opener line. */
  predicate OpenerLine(line: string) {
    IsCode(line) && JsonOpener(JsTrim(line))
  }

  /** One line of the code, at 0-based `index`. Blank lines and comments
      change nothing; every other line adds at most one error and keeps the
      errors so far. */
  function Step(s: State, index: nat, line: string): (r: State)
    ensures !IsCode(line) ==> r == s
    ensures r.hasCode == (s.hasCode || IsCode(line))
    ensures !OpenerLine(line) ==> r.jsonStart == s.jsonStart && (r.inJson ==> s.inJson)
    ensures Grows(s, r)
  {
    var t := JsTrim(line);
    if !IsCode(line) then s
    else
      var s := s.(hasCode := true);
      if JsonOpener(t) then s.(inJson := true, braces := 1, hasOutput := true, jsonStart := index + 1)
      else if s.inJson then JsonLine(s, index, t)
      else
        var s := s.(hasInput := s.hasInput || t[0] == INPUT[0], hasOutput := s.hasOutput || t[0] == OUTPUT[0]);
        if s.inMulti then MultiLine(s, t) else PlainLine(s, index, t)
  }

  /** The state after the given lines, the first at index 0. */
  function Run(lines: seq<string>): State
    decreases |lines|
  {
    if |lines| == 0 then START
    else Step(Run(lines[..|lines| - 1]), |lines| - 1, lines[|lines| - 1])
  }

  /** The errors reported at the end: the per-line errors, an open block's
      missing brace, and the missing input and output when there is code. */
  function Finish(s: State): seq<string> {
    s.errors
      + (if s.inJson then [UnclosedError(s.jsonStart)] else [])
      + (if s.hasCode && !s.hasInput then [MISSING_INPUT] else [])
      + (if s.hasCode && !s.hasOutput then [MISSING_OUTPUT] else [])
  }

  /** `validateSynthLang`. */
  function Validate(code: string): seq<string> {
    Finish(Run(Split(code, "\n")))
  }

  // Properties of a single line.

  /** A block opener opens a block of depth one, records its 1-based line
      and counts as output, without an error. */
  lemma OpenerOpens(s: State, index: nat, line: string)
    requires IsCode(line) && JsonOpener(JsTrim(line))
    ensures var r := Step(s, index, line);
      r.inJson && r.braces == 1 && r.jsonStart == index + 1 && r.hasOutput && r.errors == s.errors
  {
  }

  /** Inside a block, a line other than an opener closes the block exactly
      when it is a bare `}` and the depth before it was one. */
  lemma BlockCloses(s: State, index: nat, line: string)
    requires s.inJson && IsCode(line) && !JsonOpener(JsTrim(line))
    ensures !Step(s, index, line).inJson <==> JsTrim(line) == "}" && s.braces == 1
  {
    var t := JsTrim(line);
    if t == "}" {
      assert Count(t, "{") == 0 && Count(t, "}") == 1 by {
        assert t[..1] == "}" && t[1..] == [];
      }
    }
  }

  /** Inside a block, a line that is not skipped gets the entry error
      exactly when it is not a `key: ^modifier` entry. */
  lemma EntryChecked(s: State, index: nat, line: string)
    requires s.inJson && IsCode(line)
    requires var t := JsTrim(line);
      && !JsonOpener(t) && t != "}" && !StartsWith(t, "case ")
      && '→' !in t && '⇒' !in t && !Contains(t, "||") && '{' !in t && '}' !in t
    ensures Step(s, index, line).errors == s.errors + (if JsonEntry(JsTrim(line)) then [] else [JsonEntryError(index)])
  {
  }

  /** Outside blocks and multi-line content, a code line that does not
      start with a glyph gets the invalid-operation error, and only it. */
  lemma InvalidOperationReported(s: State, index: nat, line: string)
    requires !s.inJson && !s.inMulti && IsCode(line)
    requires !IsGlyph(JsTrim(line)[0])
    ensures Step(s, index, line).errors == s.errors + [InvalidOperation(index)]
  {
  }

  /** Outside blocks and multi-line content, a label with a hyphen gets the
      invalid-label error and no other error for that line. */
  lemma LabelErrorAlone(s: State, index: nat, line: string)
    requires !s.inJson && !s.inMulti && IsCode(line)
    requires var t := JsTrim(line); !JsonOpener(t) && !MultiStart(t) && LabelHasHyphen(t)
    ensures Step(s, index, line).errors == s.errors + [LabelError(index)]
  {
  }

  /** A label: one or more word characters. */
  predicate IsWord(w: string) {
    |w| > 0 && forall j | 0 <= j < |w| :: IsWordChar(w[j])
  }

  /** The single-line operation `g w "c"`. */
  function QuotedLine(g: char, w: string, c: string): string {
    [g, ' '] + w + " \"" + c + "\""
  }

  /** The text after the label in `g w "c"`. */
  function QuotedRest(c: string): string {
    " \"" + c + "\""
  }

  /** The head of `g w "c"` is the glyph, the label `w` and the quoted rest. */
  lemma QuotedHead(g: char, w: string, c: string)
    requires IsGlyph(g) && IsWord(w)
    ensures var t := QuotedLine(g, w, c);
      && Span(t[1..], IsJsSpace) == 1 && t[2..] == w + QuotedRest(c)
      && Span(w + QuotedRest(c), IsWordChar) == |w| && Span(w + QuotedRest(c), IsLabelChar) == |w|
      && Head(t) == Some((g, w, QuotedRest(c)))
  {
    var t := QuotedLine(g, w, c);
    var rest := QuotedRest(c);
    assert t[1..] == [' '] + (w + rest);
    SpanConcat([' '], w + rest, IsJsSpace);
    SpanConcat(w, rest, IsWordChar);
    SpanConcat(w, rest, IsLabelChar);
    assert (w + rest)[..|w|] == w && (w + rest)[|w|..] == rest;
  }

  /** The quoted rest, with its leading space skipped, is the quoted content. */
  lemma QuotedRestSkips(c: string)
    requires '"' !in c
    ensures var q := SkipSpace(QuotedRest(c));
      && q == "\"" + c + "\"" && q[1..] == c + "\""
      && SplitFirst(q[1..], '"') == Some((c, []))
  {
    var rest := QuotedRest(c);
    assert rest == [' '] + rest[1..];
    SpanConcat([' '], rest[1..], IsJsSpace);
    SplitFirstUnique(c, '"', []);
    assert c + ['"'] + [] == c + "\"";
  }

  /** `g w "c"` is its own trim and a code line. */
  lemma QuotedIsCode(g: char, w: string, c: string)
    requires IsGlyph(g) && IsWord(w)
    ensures var t := QuotedLine(g, w, c); JsTrim(t) == t && IsCode(t)
  {
    var t := QuotedLine(g, w, c);
    assert t[0] == g && t[|t| - 1] == '"';
    TrimFixed(t, IsJsSpace);
  }

  /** A line whose label is followed by a quote opens no block. */
  lemma LabelThenQuoteNotOpener(t: string, w: string, c: string)
    requires IsWord(w) && '"' !in c && |t| > 2
    requires Span(t[1..], IsJsSpace) == 1 && t[2..] == w + QuotedRest(c) && Span(w + QuotedRest(c), IsWordChar) == |w|
    ensures !JsonOpener(t)
  {
    LabelThenQuoteNotNamed(t, w, c);
    WordAfterSpaceNoBrace(t);
  }

  lemma LabelThenQuoteNotNamed(t: string, w: string, c: string)
    requires IsWord(w) && '"' !in c && |t| > 2
    requires Span(t[1..], IsJsSpace) == 1 && t[2..] == w + QuotedRest(c) && Span(w + QuotedRest(c), IsWordChar) == |w|
    ensures !NamedOpener(t)
  {
    QuotedRestSkips(c);
    var r := t[1 + 1..];
    assert r[|w|..] == QuotedRest(c);
    assert SkipSpace(r[|w|..])[0] == '"';
  }

  /** A line whose third character is a word character is not `Σ {`. */
  lemma WordAfterSpaceNoBrace(t: string)
    requires |t| > 2 && IsWordChar(t[2])
    ensures !StartsWith(t, OUTPUT + " {")
  {
    assert t[..3][2] == t[2];
    assert (OUTPUT + " {")[2] == '{';
  }

  /** `g w "c"` opens no block: after the label comes a quote, not a brace. */
  lemma QuotedNotOpener(g: char, w: string, c: string)
    requires IsGlyph(g) && IsWord(w) && '"' !in c
    ensures !JsonOpener(QuotedLine(g, w, c))
  {
    QuotedHead(g, w, c);
    LabelThenQuoteNotOpener(QuotedLine(g, w, c), w, c);
  }

  /** A line whose head is a glyph, a label and a quoted content closed on
      the same line starts no multi-line content and matches the
      operation pattern with that content. */
  lemma HeadThenQuoteMatches(t: string, g: char, w: string, c: string)
    requires '"' !in c && Head(t) == Some((g, w, QuotedRest(c)))
    ensures !MultiStart(t) && OperationMatch(t, false) == Some(OpMatch(g, w, Some(c)))
  {
    QuotedRestSkips(c);
    var q := SkipSpace(QuotedRest(c));
    assert q[1..][|c|] == '"';
  }

  /** The label of `g w "c"` is the word `w`, which has no hyphen. */
  lemma QuotedNoHyphen(g: char, w: string, c: string)
    requires IsGlyph(g) && IsWord(w)
    ensures !LabelHasHyphen(QuotedLine(g, w, c))
  {
    var t := QuotedLine(g, w, c);
    QuotedHead(g, w, c);
    var r := t[1 + 1..];
    assert r[..|w|] == w;
    assert forall j | 0 <= j < |w| :: w[j] != '-';
  }

  /** How the matchers read a single-line operation `g w "c"`: it is its own
      trim, starts no block and no multi-line content, has no hyphenated
      label, and matches the operation pattern with label `w` and content
      `c`. */
  lemma QuotedLineFacts(g: char, w: string, c: string)
    requires IsGlyph(g) && IsWord(w) && '"' !in c
    ensures var t := QuotedLine(g, w, c);
      && JsTrim(t) == t && IsCode(t) && !OpenerLine(t) && !MultiStart(t) && !LabelHasHyphen(t)
      && OperationMatch(t, false) == Some(OpMatch(g, w, Some(c)))
  {
    QuotedIsCode(g, w, c);
    QuotedNotOpener(g, w, c);
    QuotedNoHyphen(g, w, c);
    QuotedHead(g, w, c);
    HeadThenQuoteMatches(QuotedLine(g, w, c), g, w, c);
  }

  /** Outside blocks and multi-line content, an ordinary code line that
      opens nothing gets exactly its line error. */
  lemma PlainStep(s: State, index: nat, line: string)
    requires !s.inJson && !s.inMulti && IsCode(line) && !OpenerLine(line) && !MultiStart(JsTrim(line))
    ensures Step(s, index, line).errors == s.errors + PlainLineError(index, JsTrim(line))
  {
  }

  /** A single-line input with empty quoted content gets the empty-content
      error, and only it. */
  lemma EmptyContentReported(s: State, index: nat, w: string)
    requires !s.inJson && !s.inMulti && IsWord(w)
    ensures Step(s, index, QuotedLine(INPUT[0], w, "")).errors == s.errors + [EmptyContentError(index)]
  {
    var t := QuotedLine(INPUT[0], w, "");
    QuotedLineFacts(INPUT[0], w, "");
    QuotedEmptyNotSpecial(INPUT[0], w);
    PlainStep(s, index, t);
  }

  /** `g w ""` has none of the special characters. */
  lemma QuotedEmptyNotSpecial(g: char, w: string)
    requires IsGlyph(g) && IsWord(w)
    ensures !Special(QuotedLine(g, w, ""))
  {
    var t := QuotedLine(g, w, "");
    assert t == [g, ' '] + w + [' ', '"', '"'];
    assert forall x | x in "[{→⇒⊗≡|" :: x !in w by {
      assert forall j | 0 <= j < |w| :: IsWordChar(w[j]);
    }
    assert '|' !in t;
    LacksFirstChar(t, "||");
  }

  /** An ordinary line with a glyph and an unhyphenated label that matches
      the operation pattern has no error, unless it is an input with empty
      content. */
  lemma MatchedLineQuiet(index: nat, t: string, m: OpMatch)
    requires t != [] && IsGlyph(t[0]) && !LabelHasHyphen(t) && OperationMatch(t, false) == Some(m)
    requires !(m.glyph == INPUT[0] && m.content == Some(""))
    ensures PlainLineError(index, t) == []
  {
  }

  /** A single-line operation with a label and quoted content gets no
      error, except an input whose content is empty. */
  lemma QuotedLineAccepted(s: State, index: nat, g: char, w: string, c: string)
    requires !s.inJson && !s.inMulti && IsGlyph(g) && IsWord(w) && '"' !in c
    requires g == INPUT[0] ==> c != []
    ensures Step(s, index, QuotedLine(g, w, c)).errors == s.errors
  {
    var t := QuotedLine(g, w, c);
    QuotedLineFacts(g, w, c);
    MatchedLineQuiet(index, t, OpMatch(g, w, Some(c)));
    PlainStep(s, index, t);
  }
}

=== FILE: template_service.dfy ===
/** Reading a prompt template: a markdown file whose front matter and body
    are separated by lines of three dashes. The text is split at every
    `---` line end and the empty pieces dropped; the first piece is the
    front matter, one `key: value` pair per non-empty line, and the other
    pieces, joined back with the separator, are the body. Fetching the file
    is left to the caller: the function receives its text. */
module TemplateService {
  import opened Wrappers
  import opened Text

  const SEPARATOR: string := "---\n"
  const FIELD_SEPARATOR: string := ": "

  /** What the runtime reports when a text holds nothing but separators:
      the front matter is `undefined` and splitting it fails. */
  const UNDEFINED_SPLIT: string := "Cannot read properties of undefined (reading 'split')"

  /** A front-matter pair; a line without `: ` has no value (`undefined`). */
  type Pair = (string, Option<string>)

  function NonEmpty(): string -> bool {
    (s: string) => s != ""
  }

  /** A line as the source reads it: split at every `: `, each part trimmed,
      the first part the key and the second the value. */
  function EntryAsWritten(line: string): (e: Pair) {
    var parts := Split(line, FIELD_SEPARATOR);
    (JsTrim(parts[0]), if |parts| > 1 then Some(JsTrim(parts[1])) else None)
  }

  /** A value that itself holds `: ` loses everything after it: the line
      `overview: Note: short` reads as `overview` = `Note`. */
  lemma ValueTruncated(key: string, first: string, second: string)
    requires Trimmed(key) && Trimmed(first) && Trimmed(second) && second != ""
    requires !Contains(key, FIELD_SEPARATOR) && !Contains(first, FIELD_SEPARATOR)
    ensures EntryAsWritten(key + FIELD_SEPARATOR + first + FIELD_SEPARATOR + second) == (key, Some(first))
    ensures Entry(key + FIELD_SEPARATOR + first + FIELD_SEPARATOR + second) == (key, Some(first + FIELD_SEPARATOR + second))
  {
    var value := first + FIELD_SEPARATOR + second;
    assert value[0] == (if first == "" then ':' else first[0]);
    assert value[|value| - 1] == second[|second| - 1];
    assert key + FIELD_SEPARATOR + first + FIELD_SEPARATOR + second == key + FIELD_SEPARATOR + value;
    FieldSplit(key, value);
    FieldSplit(first, second);
    AsWrittenOf(key + FIELD_SEPARATOR + value, key, first);
    EntryRoundTrip(key, value);
  }

  /** A key without `: ` ends at the first `: ` of its line. */
  lemma FieldSplit(key: string, value: string)
    requires !Contains(key, FIELD_SEPARATOR)
    ensures IndexFrom(key + FIELD_SEPARATOR + value, FIELD_SEPARATOR, 0) == Some(|key|)
    ensures Split(key + FIELD_SEPARATOR + value, FIELD_SEPARATOR) == [key] + Split(value, FIELD_SEPARATOR)
  {
    var head := key + FIELD_SEPARATOR;
    forall j | 0 <= j < |key|
      ensures !OccursAt(head, FIELD_SEPARATOR, j)
    {
      if j + 2 <= |key| {
        assert head[j..j + 2] == key[j..j + 2];
        assert !OccursAt(key, FIELD_SEPARATOR, j);
      } else {
        assert head[j + 1] == ':';
      }
    }
    SplitAtFirst(key, FIELD_SEPARATOR, value);
  }

  /** A line split at its first `: ` only: the key before it, the whole
      rest of the line after it, both trimmed. */
  function Entry(line: string): (e: Pair)
    ensures !Contains(line, FIELD_SEPARATOR) ==> e == (JsTrim(line), None)
  {
    match IndexFrom(line, FIELD_SEPARATOR, 0)
    case None => (JsTrim(line), None)
    case Some(i) => (JsTrim(line[..i]), Some(JsTrim(line[i + |FIELD_SEPARATOR|..])))
  }

  /** Neither end is whitespace, so trimming changes nothing. */
  predicate Trimmed(s: string) {
    s == [] || (!IsJsSpace(s[0]) && !IsJsSpace(s[|s| - 1]))
  }

  /** A `key: value` line gives back its key and its whole value, whatever
      the value holds. */
  lemma EntryRoundTrip(key: string, value: string)
    requires Trimmed(key) && Trimmed(value)
    requires !Contains(key, FIELD_SEPARATOR)
    ensures Entry(key + FIELD_SEPARATOR + value) == (key, Some(value))
  {
    var line := key + FIELD_SEPARATOR + value;
    FieldSplit(key, value);
    assert line[..|key|] == key && line[|key| + 2..] == value;
    TrimFixed(key, IsJsSpace);
    TrimFixed(value, IsJsSpace);
  }

  /** Where the value holds no `: `, the source's reading agrees. */
  lemma EntryAgrees(key: string, value: string)
    requires Trimmed(key) && Trimmed(value)
    requires !Contains(key, FIELD_SEPARATOR) && !Contains(value, FIELD_SEPARATOR)
    ensures EntryAsWritten(key + FIELD_SEPARATOR + value) == Entry(key + FIELD_SEPARATOR + value)
  {
    FieldSplit(key, value);
    SplitWhole(value, FIELD_SEPARATOR);
    AsWrittenOf(key + FIELD_SEPARATOR + value, key, value);
    EntryRoundTrip(key, value);
  }

  /** The source's reading of a line whose first two pieces are known. */
  lemma AsWrittenOf(line: string, key: string, value: string)
    requires Trimmed(key) && Trimmed(value)
    requires |Split(line, FIELD_SEPARATOR)| > 1
    requires Split(line, FIELD_SEPARATOR)[0] == key && Split(line, FIELD_SEPARATOR)[1] == value
    ensures EntryAsWritten(line) == (key, Some(value))
  {
    TrimFixed(key, IsJsSpace);
    TrimFixed(value, IsJsSpace);
  }

  /** `Object.fromEntries`: every key that occurs, with the value of its
      last occurrence (see `FromEntriesLast`). */
  function FromEntries(entries: seq<Pair>): (m: map<string, Option<string>>)
    ensures m.Keys == set i | 0 <= i < |entries| :: entries[i].0
    decreases |entries|
  {
    if |entries| == 0 then map[]
    else
      var init := entries[..|entries| - 1];
      var last := entries[|entries| - 1];
      var m := FromEntries(init)[last.0 := last.1];
      assert m.Keys == (set i | 0 <= i < |init| :: init[i].0) + {last.0};
      m
  }

  /** A key's value is that of its last pair. */
  lemma {:induction false} FromEntriesLast(entries: seq<Pair>, i: nat)
    requires i < |entries|
    requires forall j | i < j < |entries| :: entries[j].0 != entries[i].0
    ensures FromEntries(entries)[entries[i].0] == entries[i].1
    decreases |entries|
  {
    if i < |entries| - 1 {
      var init := entries[..|entries| - 1];
      assert init[i] == entries[i];
      FromEntriesLast(init, i);
    }
  }

  /** The front matter's pairs, one per non-empty line. */
  function Metadata(front: string, entry: string -> Pair): map<string, Option<string>> {
    var lines := Filter(Split(front, "\n"), NonEmpty());
    FromEntries(seq(|lines|, i requires 0 <= i < |lines| => entry(lines[i])))
  }

  /** The template object: the front-matter pairs, with `content` (which a
      pair of that name cannot override) holding the body. */
  function ParseWith(text: string, entry: string -> Pair): (r: Result<map<string, Option<string>>>)
    ensures r.Err? ==> forall p | p in Split(text, SEPARATOR) :: p == ""
    ensures (forall p | p in Split(text, SEPARATOR) :: p == "") ==> r.Err?
    ensures r.Err? ==> r.msg == UNDEFINED_SPLIT
    ensures r.Ok? ==> "content" in r.value && r.value["content"].Some?
  {
    var pieces := Filter(Split(text, SEPARATOR), NonEmpty());
    NoPiecesIff(Split(text, SEPARATOR));
    if |pieces| == 0 then
      Err(UNDEFINED_SPLIT)
    else
      Ok(Metadata(pieces[0], entry)["content" := Some(Join(pieces[1..], SEPARATOR))])
  }

  /** Dropping the empty pieces leaves nothing exactly when every piece is empty. */
  lemma NoPiecesIff(xs: seq<string>)
    ensures |Filter(xs, NonEmpty())| == 0 <==> forall p | p in xs :: p == ""
  {
    FilterNonEmpty(xs, NonEmpty());
    assert forall i | 0 <= i < |xs| :: NonEmpty()(xs[i]) == (xs[i] != "");
    if exists i | 0 <= i < |xs| :: xs[i] != "" {
      var i :| 0 <= i < |xs| && xs[i] != "";
      assert xs[i] in xs;
    }
  }

  /** `useTemplate`'s query as the source writes it. */
  function ParseAsWritten(text: string): Result<map<string, Option<string>>> {
    ParseWith(text, EntryAsWritten)
  }

  /** The template with each line split at its first `: `. */
  function Parse(text: string): Result<map<string, Option<string>>> {
    ParseWith(text, Entry)
  }

  /** A file laid out as a leading separator, front matter, a separator and
      a body comes back with its body intact and its front matter read line
      by line, provided no separator starts inside the front matter and the
      body has no empty piece between separators. */
  lemma {:induction false} LayoutRoundTrip(front: string, body: string, entry: string -> Pair)
    requires front != ""
    requires forall j | 0 <= j < |front| :: !OccursAt(front + SEPARATOR, SEPARATOR, j)
    requires forall p | p in Split(body, SEPARATOR) :: p != ""
    ensures var r := ParseWith(SEPARATOR + front + SEPARATOR + body, entry);
      && r.Ok?
      && r.value == Metadata(front, entry)["content" := Some(body)]
  {
    var text := SEPARATOR + front + SEPARATOR + body;
    assert text == "" + SEPARATOR + (front + SEPARATOR + body);
    SplitAtFirst("", SEPARATOR, front + SEPARATOR + body);
    SplitAtFirst(front, SEPARATOR, body);
    var rest := Split(body, SEPARATOR);
    assert Split(text, SEPARATOR) == [""] + ([front] + rest);
    FilterAppend([""], [front] + rest, NonEmpty());
    FilterAppend([front], rest, NonEmpty());
    FilterAll(rest, NonEmpty());
    assert Filter([""], NonEmpty()) == [];
    assert Filter([front], NonEmpty()) == [front];
    var pieces := Filter(Split(text, SEPARATOR), NonEmpty());
    assert pieces == [front] + rest;
    assert pieces[1..] == rest;
    SplitJoin(body, SEPARATOR);
  }
}

=== FILE: text.dfy ===
/** String primitives with the semantics of the Python and JavaScript built-ins
    the source calls: `strip`/`trim`, `split`/`join`, `replace`, `count`,
    `in`/`includes`, `startswith`/`startsWith`, and ASCII case mapping.
    Strings are sequences of Unicode scalar values, which is what Python's
    `str` indexes; JavaScript indexes UTF-16 units instead, which agrees on
    every character of the Basic Multilingual Plane. */
module Text {
  import opened Wrappers

  /** Characters Python's `str.strip()` and `str.isspace()` treat as whitespace. */
  predicate IsPySpace(c: char) {
    || c == ' '
    || ('\t' <= c <= '\r')
    || ('\U{1C}' <= c <= '\U{1F}')
    || c == '\U{85}' || c == '\U{A0}' || c == '\U{1680}'
    || ('\U{2000}' <= c <= '\U{200A}')
    || c == '\U{2028}' || c == '\U{2029}' || c == '\U{202F}' || c == '\U{205F}' || c == '\U{3000}'
  }

  /** Characters JavaScript's `String.prototype.trim` and the regex class `\s` treat as whitespace. */
  predicate IsJsSpace(c: char) {
    || c == ' '
    || ('\t' <= c <= '\r')
    || c == '\U{A0}' || c == '\U{1680}'
    || ('\U{2000}' <= c <= '\U{200A}')
    || c == '\U{2028}' || c == '\U{2029}' || c == '\U{202F}' || c == '\U{205F}' || c == '\U{3000}'
    || c == '\U{FEFF}'
  }

  /** Regex `\w` and the class `[a-zA-Z0-9_]`. */
  predicate IsWordChar(c: char) {
    ('a' <= c <= 'z') || ('A' <= c <= 'Z') || ('0' <= c <= '9') || c == '_'
  }

  /** Every character is whitespace (so the empty string is blank). */
  predicate AllSpace(s: string, ws: char -> bool) {
    forall i | 0 <= i < |s| :: ws(s[i])
  }

  /** Drops leading whitespace: the result is a suffix of `s`, and exactly the
      whitespace before it was removed. */
  function TrimStart(s: string, ws: char -> bool): (r: string)
    ensures |r| <= |s| && r == s[|s| - |r|..]
    ensures r == [] || !ws(r[0])
    ensures forall k | 0 <= k < |s| - |r| :: ws(s[k])
    decreases |s|
  {
    if |s| > 0 && ws(s[0]) then TrimStart(s[1..], ws) else s
  }

  /** The length of the longest prefix whose characters all satisfy `p`. */
  function Span(s: string, p: char -> bool): (n: nat)
    ensures n <= |s|
    ensures forall j | 0 <= j < n :: p(s[j])
    ensures n == |s| || !p(s[n])
    decreases |s|
  {
    if |s| > 0 && p(s[0]) then 1 + Span(s[1..], p) else 0
  }

  /** A run of accepted characters followed by a rejected one (or by
      nothing) is exactly the span. */
  lemma {:induction false} SpanConcat(a: string, b: string, p: char -> bool)
    requires forall j | 0 <= j < |a| :: p(a[j])
    requires b == [] || !p(b[0])
    ensures Span(a + b, p) == |a|
    decreases |a|
  {
    if |a| > 0 {
      assert (a + b)[0] == a[0];
      assert (a + b)[1..] == a[1..] + b;
      SpanConcat(a[1..], b, p);
    } else {
      assert a + b == b;
    }
  }

  /** Drops trailing whitespace: the result is a prefix of `s`. */
  function TrimEnd(s: string, ws: char -> bool): (r: string)
    ensures |r| <= |s| && r == s[..|r|]
    ensures r == [] || !ws(r[|r| - 1])
    ensures forall k | |r| <= k < |s| :: ws(s[k])
    decreases |s|
  {
    if |s| > 0 && ws(s[|s| - 1]) then TrimEnd(s[..|s| - 1], ws) else s
  }

  function Trim(s: string, ws: char -> bool): string {
    TrimEnd(TrimStart(s, ws), ws)
  }

  /** Python `s.strip()`. */
  function PyStrip(s: string): string {
    Trim(s, IsPySpace)
  }

  /** JavaScript `s.trim()`. */
  function JsTrim(s: string): string {
    Trim(s, IsJsSpace)
  }

  /** Trimming yields the empty string exactly when every character is whitespace. */
  lemma TrimEmptyIff(s: string, ws: char -> bool)
    ensures Trim(s, ws) == [] <==> AllSpace(s, ws)
  {
    var a := TrimStart(s, ws);
    if Trim(s, ws) != [] {
      var r := Trim(s, ws);
      assert r == a[..|r|];
      assert a[0] == s[|s| - |a|];
    }
  }

  /** A string that is empty or starts and ends with non-whitespace is its own trim. */
  lemma TrimFixed(s: string, ws: char -> bool)
    requires s == [] || (!ws(s[0]) && !ws(s[|s| - 1]))
    ensures Trim(s, ws) == s
  {
  }

  /** Trimming introduces no character. */
  lemma TrimKeepsAbsentChar(s: string, ws: char -> bool, c: char)
    ensures c !in s ==> c !in Trim(s, ws)
  {
    var a := TrimStart(s, ws);
    var r := Trim(s, ws);
    assert forall i | 0 <= i < |r| :: r[i] == a[i] == s[|s| - |a| + i];
  }

  /** Python `s.split(c, 1)` for a one-character separator: the text before
      the first copy of `c` and the text after it. */
  function SplitFirst(s: string, c: char): (r: Option<(string, string)>)
    ensures r.None? <==> c !in s
    ensures r.Some? ==> s == r.value.0 + [c] + r.value.1 && c !in r.value.0
    decreases |s|
  {
    if |s| == 0 then None
    else if s[0] == c then Some(([], s[1..]))
    else match SplitFirst(s[1..], c)
      case None => None
      case Some((a, b)) => Some(([s[0]] + a, b))
  }

  /** The split at the first copy is the only one whose head lacks `c`. */
  lemma {:induction false} SplitFirstUnique(a: string, c: char, b: string)
    requires c !in a
    ensures SplitFirst(a + [c] + b, c) == Some((a, b))
    decreases |a|
  {
    if |a| > 0 {
      assert (a + [c] + b)[1..] == a[1..] + [c] + b;
      SplitFirstUnique(a[1..], c, b);
      assert [a[0]] + a[1..] == a;
    }
  }

  /** A text without the first character of `sub` does not contain `sub`. */
  lemma LacksFirstChar(s: string, sub: string)
    requires |sub| > 0 && sub[0] !in s
    ensures !Contains(s, sub)
  {
    forall i | 0 <= i <= |s| - |sub|
      ensures !OccursAt(s, sub, i)
    {
      assert s[i..i + |sub|][0] == s[i];
    }
  }

  /** Python `not s or s.isspace()`: empty or made of whitespace only. */
  predicate IsPyBlank(s: string) {
    AllSpace(s, IsPySpace)
  }

  function LowerChar(c: char): char {
    if 'A' <= c <= 'Z' then (c as int + 32) as char else c
  }

  function UpperChar(c: char): char {
    if 'a' <= c <= 'z' then (c as int - 32) as char else c
  }

  /** Lower-casing of the ASCII letters, character by character. */
  function Lower(s: string): (r: string)
    ensures |r| == |s|
    ensures forall i | 0 <= i < |s| :: r[i] == LowerChar(s[i])
  {
    seq(|s|, i requires 0 <= i < |s| => LowerChar(s[i]))
  }

  /** Upper-casing of the ASCII letters, character by character. */
  function Upper(s: string): (r: string)
    ensures |r| == |s|
    ensures forall i | 0 <= i < |s| :: r[i] == UpperChar(s[i])
  {
    seq(|s|, i requires 0 <= i < |s| => UpperChar(s[i]))
  }

  predicate StartsWith(s: string, p: string) {
    |p| <= |s| && s[..|p|] == p
  }

  predicate EndsWith(s: string, p: string) {
    |p| <= |s| && s[|s| - |p|..] == p
  }

  /** `sub` occurs in `s` starting at index `i`. */
  predicate OccursAt(s: string, sub: string, i: int) {
    0 <= i && i + |sub| <= |s| && s[i..i + |sub|] == sub
  }

  /** Python `sub in s`, JavaScript `s.includes(sub)`. */
  predicate Contains(s: string, sub: string) {
    exists i | 0 <= i <= |s| - |sub| :: OccursAt(s, sub, i)
  }

  /** Whatever contains the lower-cased `a + b` contains the lower-cased `a`:
      a longer query never matches more. */
  lemma ContainsLowerPrefix(s: string, a: string, b: string)
    requires Contains(s, Lower(a + b))
    ensures Contains(s, Lower(a))
  {
    var full := Lower(a + b);
    var i :| 0 <= i <= |s| - |full| && OccursAt(s, full, i);
    assert Lower(a) == full[..|a|];
    assert s[i..i + |a|] == full[..|a|];
    assert OccursAt(s, Lower(a), i);
  }

  /** The first occurrence of `sub` at or after `from`. */
  function IndexFrom(s: string, sub: string, from: nat): (r: Option<nat>)
    requires |sub| > 0
    ensures r.Some? ==> from <= r.value && OccursAt(s, sub, r.value)
    ensures r.Some? ==> forall j | from <= j < r.value :: !OccursAt(s, sub, j)
    ensures r.None? ==> forall j | from <= j :: !OccursAt(s, sub, j)
    decreases |s| - from
  {
    if from + |sub| > |s| then None
    else if s[from..from + |sub|] == sub then Some(from)
    else IndexFrom(s, sub, from + 1)
  }

  /** Python `s.split(sep)` and JavaScript `s.split(sep)` for a non-empty
      separator: the pieces between the left-to-right, non-overlapping
      occurrences of `sep`. */
  function Split(s: string, sep: string): (r: seq<string>)
    requires |sep| > 0
    ensures |r| >= 1
    decreases |s|
  {
    match IndexFrom(s, sep, 0)
    case None => [s]
    case Some(i) => [s[..i]] + Split(s[i + |sep|..], sep)
  }

  /** A split yields more than one piece exactly when the separator occurs. */
  lemma SplitOnce(s: string, sep: string)
    requires |sep| > 0
    ensures |Split(s, sep)| > 1 <==> Contains(s, sep)
  {
    match IndexFrom(s, sep, 0)
    case None =>
    case Some(i) =>
      assert |Split(s, sep)| == 1 + |Split(s[i + |sep|..], sep)|;
  }

  /** The first occurrence is the one `IndexFrom` finds. */
  lemma IndexFromFirst(s: string, sub: string, i: nat)
    requires |sub| > 0 && OccursAt(s, sub, i)
    requires forall j | 0 <= j < i :: !OccursAt(s, sub, j)
    ensures IndexFrom(s, sub, 0) == Some(i)
  {
  }

  /** When the separator does not start inside `a`, even overlapping its own
      first occurrence after `a`, splitting `a + sep + b` yields `a` first. */
  lemma SplitAtFirst(a: string, sep: string, b: string)
    requires |sep| > 0
    requires forall j | 0 <= j < |a| :: !OccursAt(a + sep, sep, j)
    ensures IndexFrom(a + sep + b, sep, 0) == Some(|a|)
    ensures Split(a + sep + b, sep) == [a] + Split(b, sep)
  {
    var s := a + sep + b;
    forall j | 0 <= j < |a|
      ensures !OccursAt(s, sep, j)
    {
      assert !OccursAt(a + sep, sep, j);
      assert s[j..j + |sep|] == (a + sep)[j..j + |sep|];
    }
    assert s[..|a|] == a && s[|a|..|a| + |sep|] == sep && s[|a| + |sep|..] == b;
    IndexFromFirst(s, sep, |a|);
  }

  /** Without the separator, the split is the whole string. */
  lemma SplitWhole(s: string, sep: string)
    requires |sep| > 0 && !Contains(s, sep)
    ensures Split(s, sep) == [s]
  {
    var r := IndexFrom(s, sep, 0);
    assert r.Some? ==> OccursAt(s, sep, r.value);
  }

  /** Python `sep.join(parts)`, JavaScript `parts.join(sep)`. */
  function Join(parts: seq<string>, sep: string): string
    decreases |parts|
  {
    if |parts| == 0 then ""
    else if |parts| == 1 then parts[0]
    else parts[0] + sep + Join(parts[1..], sep)
  }

  /** Splitting loses nothing: joining the pieces back with the separator
      restores the original string. */
  lemma JoinCons(x: string, parts: seq<string>, sep: string)
    requires |parts| >= 1
    ensures Join([x] + parts, sep) == x + sep + Join(parts, sep)
  {
    assert ([x] + parts)[1..] == parts;
  }

  /** Joining two non-empty lists is joining each and putting the separator between. */
  lemma {:induction false} JoinAppend(a: seq<string>, b: seq<string>, sep: string)
    requires |a| >= 1 && |b| >= 1
    ensures Join(a + b, sep) == Join(a, sep) + sep + Join(b, sep)
    decreases |a|
  {
    if |a| == 1 {
      JoinCons(a[0], b, sep);
      assert a + b == [a[0]] + b;
    } else {
      JoinAppend(a[1..], b, sep);
      JoinCons(a[0], a[1..] + b, sep);
      JoinCons(a[0], a[1..], sep);
      assert a + b == [a[0]] + (a[1..] + b);
      assert a == [a[0]] + a[1..];
    }
  }

  lemma {:induction false} SplitJoin(s: string, sep: string)
    requires |sep| > 0
    ensures Join(Split(s, sep), sep) == s
    decreases |s|
  {
    var idx := IndexFrom(s, sep, 0);
    if idx.Some? {
      var i := idx.value;
      var rest := s[i + |sep|..];
      var parts := Split(rest, sep);
      SplitJoin(rest, sep);
      assert Split(s, sep) == [s[..i]] + parts;
      JoinCons(s[..i], parts, sep);
      assert s[i..i + |sep|] == sep;
      assert s == s[..i] + s[i..i + |sep|] + rest;
    }
  }

  /** A piece of a split never contains a character the whole string lacks. */
  lemma {:induction false} SplitKeepsAbsentChar(s: string, sep: string, c: char)
    requires |sep| > 0 && c !in s
    ensures forall p | p in Split(s, sep) :: c !in p
    decreases |s|
  {
    match IndexFrom(s, sep, 0)
    case None =>
    case Some(i) =>
      var rest := s[i + |sep|..];
      assert forall k | 0 <= k < |rest| :: rest[k] == s[i + |sep| + k];
      SplitKeepsAbsentChar(rest, sep, c);
      assert forall k | 0 <= k < i :: s[..i][k] == s[k];
  }

  /** Joining pieces that lack a character, with a separator that lacks it,
      yields a string that lacks it. */
  lemma {:induction false} JoinKeepsAbsentChar(parts: seq<string>, sep: string, c: char)
    requires c !in sep && forall i | 0 <= i < |parts| :: c !in parts[i]
    ensures c !in Join(parts, sep)
    decreases |parts|
  {
    if |parts| > 1 {
      JoinKeepsAbsentChar(parts[1..], sep, c);
    }
  }

  /** The first occurrence of a one-character separator is its first copy. */
  lemma FirstSeparator(x: string, c: char, y: string)
    requires c !in x
    ensures IndexFrom(x + [c] + y, [c], 0) == Some(|x|)
  {
    var s := x + [c] + y;
    assert OccursAt(s, [c], |x|);
    forall j | 0 <= j < |x|
      ensures !OccursAt(s, [c], j)
    {
      assert s[j..j + 1] == [x[j]];
    }
  }

  /** A string without the separator character has no occurrence of it. */
  lemma {:induction false} NoSeparator(s: string, c: char, from: nat)
    requires c !in s
    ensures IndexFrom(s, [c], from) == None
    decreases |s| - from
  {
    if from + 1 <= |s| {
      assert s[from..from + 1] == [s[from]];
      NoSeparator(s, c, from + 1);
    }
  }

  /** Splitting at a one-character separator undoes joining pieces that do
      not contain it. */
  lemma {:induction false} SplitJoinChar(parts: seq<string>, c: char)
    requires |parts| >= 1 && forall i | 0 <= i < |parts| :: c !in parts[i]
    ensures Split(Join(parts, [c]), [c]) == parts
    decreases |parts|
  {
    if |parts| == 1 {
      NoSeparator(parts[0], c, 0);
    } else {
      var x := parts[0];
      var rest := Join(parts[1..], [c]);
      SplitJoinChar(parts[1..], c);
      assert parts == [x] + parts[1..];
      JoinCons(x, parts[1..], [c]);
      SplitAfterFirst(x, c, rest);
    }
  }

  /** Splitting `x + c + rest` where `x` lacks `c` yields `x` first. */
  lemma SplitAfterFirst(x: string, c: char, rest: string)
    requires c !in x
    ensures Split(x + [c] + rest, [c]) == [x] + Split(rest, [c])
  {
    var s := x + [c] + rest;
    FirstSeparator(x, c, rest);
    assert s[..|x|] == x;
    assert s[|x| + 1..] == rest;
  }

  /** No piece of a split at a one-character separator contains it. */
  lemma SplitLacksSeparator(s: string, c: char)
    ensures forall i | 0 <= i < |Split(s, [c])| :: c !in Split(s, [c])[i]
  {
    var parts := Split(s, [c]);
    forall i | 0 <= i < |parts|
      ensures c !in parts[i]
    {
      SplitPieceLacksSeparator(s, c, i);
    }
  }

  /** No piece of a split at a one-character separator contains it. */
  lemma {:induction false} SplitPieceLacksSeparator(s: string, c: char, k: nat)
    requires k < |Split(s, [c])|
    ensures c !in Split(s, [c])[k]
    decreases |s|
  {
    match IndexFrom(s, [c], 0)
    case None =>
      if c in s {
        var j :| 0 <= j < |s| && s[j] == c;
        assert s[j..j + 1] == [c];
        assert OccursAt(s, [c], j);
      }
    case Some(i) =>
      if k == 0 {
        if c in s[..i] {
          var j :| 0 <= j < i && s[..i][j] == c;
          assert s[j..j + 1] == [c];
          assert OccursAt(s, [c], j);
        }
      } else {
        SplitPieceLacksSeparator(s[i + 1..], c, k - 1);
      }
  }

  /** Python `s.replace(pat, rep)`: every left-to-right, non-overlapping
      occurrence of `pat` is replaced. */
  function Replace(s: string, pat: string, rep: string): string
    requires |pat| > 0
    decreases |s|
  {
    if |s| < |pat| then s
    else if s[..|pat|] == pat then rep + Replace(s[|pat|..], pat, rep)
    else [s[0]] + Replace(s[1..], pat, rep)
  }

  /** Deleting a character (replacing it by the empty string) removes every copy of it. */
  lemma {:induction false} ReplaceDeletes(s: string, c: char)
    ensures c !in Replace(s, [c], "")
    decreases |s|
  {
    if |s| >= 1 {
      ReplaceDeletes(s[1..], c);
    }
  }

  /** Replacement introduces no character that neither `s` nor `rep` contains. */
  lemma {:induction false} ReplaceKeepsAbsentChar(s: string, pat: string, rep: string, c: char)
    requires |pat| > 0
    ensures c !in s && c !in rep ==> c !in Replace(s, pat, rep)
    decreases |s|
  {
    if |s| < |pat| {
    } else if s[..|pat|] == pat {
      ReplaceKeepsAbsentChar(s[|pat|..], pat, rep, c);
    } else {
      ReplaceKeepsAbsentChar(s[1..], pat, rep, c);
    }
  }

  /** A replacement no longer than the pattern never lengthens the string. */
  lemma {:induction false} ReplaceShrinks(s: string, pat: string, rep: string)
    requires |pat| > 0 && |rep| <= |pat|
    ensures |Replace(s, pat, rep)| <= |s|
    decreases |s|
  {
    if |s| < |pat| {
    } else if s[..|pat|] == pat {
      ReplaceShrinks(s[|pat|..], pat, rep);
    } else {
      ReplaceShrinks(s[1..], pat, rep);
    }
  }

  /** Python `s.count(sub)`: non-overlapping occurrences, scanning left to right. */
  function Count(s: string, sub: string): nat
    requires |sub| > 0
    decreases |s|
  {
    if |s| < |sub| then 0
    else if s[..|sub|] == sub then 1 + Count(s[|sub|..], sub)
    else Count(s[1..], sub)
  }

  function DigitChar(d: nat): char
    requires d < 10
  {
    "0123456789"[d]
  }

  /** Decimal rendering of a natural number, as Python `str` and JavaScript template strings print it. */
  function NatToString(n: nat): (r: string)
    ensures |r| >= 1
    decreases n
  {
    if n < 10 then [DigitChar(n)] else NatToString(n / 10) + [DigitChar(n % 10)]
  }

  /** A non-empty sequence is its prefix followed by its last element. */
  lemma SplitLast<T>(xs: seq<T>)
    requires |xs| > 0
    ensures xs == xs[..|xs| - 1] + [xs[|xs| - 1]]
  {
  }

  /** Keeps the elements a predicate accepts, in order (JavaScript `Array.prototype.filter`). */
  function Filter<T>(xs: seq<T>, keep: T -> bool): (r: seq<T>)
    ensures |r| <= |xs|
    ensures forall x | x in r :: x in xs && keep(x)
    ensures forall x | x in xs && keep(x) :: x in r
    decreases |xs|
  {
    if |xs| == 0 then []
    else if keep(xs[0]) then [xs[0]] + Filter(xs[1..], keep)
    else Filter(xs[1..], keep)
  }

  /** Filtering keeps nothing when the predicate rejects every element. */
  lemma {:induction false} FilterNone<T>(xs: seq<T>, keep: T -> bool)
    requires forall i | 0 <= i < |xs| :: !keep(xs[i])
    ensures Filter(xs, keep) == []
    decreases |xs|
  {
    if |xs| > 0 {
      FilterNone(xs[1..], keep);
    }
  }

  /** Filtering changes nothing when the predicate accepts every element. */
  lemma {:induction false} FilterAll<T>(xs: seq<T>, keep: T -> bool)
    requires forall x | x in xs :: keep(x)
    ensures Filter(xs, keep) == xs
    decreases |xs|
  {
    if |xs| > 0 {
      assert xs[0] in xs;
      assert forall x | x in xs[1..] :: x in xs;
      FilterAll(xs[1..], keep);
      assert xs == [xs[0]] + xs[1..];
    }
  }

  /** Filtering keeps something exactly when some element is accepted. */
  lemma FilterNonEmpty<T>(xs: seq<T>, keep: T -> bool)
    ensures |Filter(xs, keep)| > 0 <==> exists i | 0 <= i < |xs| :: keep(xs[i])
  {
    var r := Filter(xs, keep);
    if exists i | 0 <= i < |xs| :: keep(xs[i]) {
      var i :| 0 <= i < |xs| && keep(xs[i]);
      assert xs[i] in xs;
    }
    if |r| > 0 {
      assert r[0] in r;
    }
  }

  /** Filtering distributes over concatenation, so the kept elements stay in input order. */
  lemma {:induction false} FilterAppend<T>(a: seq<T>, b: seq<T>, keep: T -> bool)
    ensures Filter(a + b, keep) == Filter(a, keep) + Filter(b, keep)
    decreases |a|
  {
    if |a| > 0 {
      assert (a + b)[0] == a[0];
      assert (a + b)[1..] == a[1..] + b;
      FilterAppend(a[1..], b, keep);
      if keep(a[0]) {
        calc {
          Filter(a + b, keep);
          [a[0]] + Filter(a[1..] + b, keep);
          [a[0]] + (Filter(a[1..], keep) + Filter(b, keep));
          ([a[0]] + Filter(a[1..], keep)) + Filter(b, keep);
        }
      }
    } else {
      assert a + b == b;
    }
  }

  /** A one-element sequence is kept whole or dropped whole; with
      `FilterAppend` this fixes every filter's result, order and
      repetitions included. */
  lemma FilterSingle<T>(x: T, keep: T -> bool)
    ensures Filter([x], keep) == (if keep(x) then [x] else [])
  {
  }

  /** Scaling by a positive factor keeps the sign. */
  lemma ScaledSign(x: real, d: real)
    requires d > 0.0
    ensures x < 0.0 <==> x * d < 0.0
    ensures x == 0.0 <==> x * d == 0.0
  {
    if x < 0.0 {
      assert x * d < 0.0;
    } else if x > 0.0 {
      assert x * d > 0.0;
    }
  }

  /** A share `p / n` of a positive whole lies in [0, 1], and is 1 exactly
      when `p` is the whole and 0 exactly when `p` is nothing. */
  lemma ShareBounds(p: nat, n: nat)
    requires 0 < n && p <= n
    ensures 0.0 <= p as real / n as real <= 1.0
    ensures p as real / n as real == 1.0 <==> p == n
    ensures p as real / n as real == 0.0 <==> p == 0
  {
    var d := n as real;
    var q := p as real / d;
    assert q * d == p as real;
    assert (q - 1.0) * d == p as real - d;
    ScaledSign(q, d);
    ScaledSign(q - 1.0, d);
  }

  /** Maps every element to a sequence and concatenates the results in order. */
  function ConcatMap<A, B>(xs: seq<A>, f: A -> seq<B>): seq<B>
    decreases |xs|
  {
    if |xs| == 0 then [] else f(xs[0]) + ConcatMap(xs[1..], f)
  }

  lemma {:induction false} ConcatMapAppend<A, B>(a: seq<A>, b: seq<A>, f: A -> seq<B>)
    ensures ConcatMap(a + b, f) == ConcatMap(a, f) + ConcatMap(b, f)
    decreases |a|
  {
    if |a| > 0 {
      assert (a + b)[0] == a[0];
      assert (a + b)[1..] == a[1..] + b;
      ConcatMapAppend(a[1..], b, f);
    } else {
      assert a + b == b;
    }
  }

  /** Concatenates a sequence of sequences. */
  function Flatten<T>(xss: seq<seq<T>>): seq<T>
    decreases |xss|
  {
    if |xss| == 0 then [] else xss[0] + Flatten(xss[1..])
  }

  lemma {:induction false} FlattenAppend<T>(a: seq<seq<T>>, b: seq<seq<T>>)
    ensures Flatten(a + b) == Flatten(a) + Flatten(b)
    decreases |a|
  {
    if |a| > 0 {
      assert (a + b)[0] == a[0];
      assert (a + b)[1..] == a[1..] + b;
      FlattenAppend(a[1..], b);
      calc {
        Flatten(a + b);
        a[0] + Flatten(a[1..] + b);
        a[0] + (Flatten(a[1..]) + Flatten(b));
        (a[0] + Flatten(a[1..])) + Flatten(b);
      }
    } else {
      assert a + b == b;
    }
  }

  /** An element of a flattened sequence belongs to one of its parts. */
  lemma {:induction false} FlattenMember<T>(xss: seq<seq<T>>, x: T)
    requires x in Flatten(xss)
    ensures exists i | 0 <= i < |xss| :: x in xss[i]
    decreases |xss|
  {
    if x !in xss[0] {
      FlattenMember(xss[1..], x);
      var i :| 0 <= i < |xss[1..]| && x in xss[1..][i];
      assert x in xss[i + 1];
    }
  }
}

=== FILE: token_calculator.dfy ===
/** The token calculator's conversions: characters, words and pages to
    tokens, and tokens to latency. Four characters make a token, a token is
    three quarters of a word, a page holds 250 words, and a response takes
    500 ms plus half a millisecond per token. Counts are natural numbers
    and the roundings up are exact integer arithmetic. */
module TokenCalculator {
  const CHARS_PER_TOKEN: nat := 4
  const WORDS_PER_PAGE: nat := 250
  const BASE_LATENCY: real := 500.0
  const PROCESSING_TIME: real := 0.5

  /** `Math.ceil(a / b)` for natural numbers. */
  function CeilDiv(a: nat, b: nat): (q: nat)
    requires b > 0
    ensures b * q >= a
    ensures q == 0 || b * (q - 1) < a
  {
    (a + b - 1) / b
  }

  /** Rounding up never decreases when the numerator grows. */
  lemma CeilDivMonotone(a: nat, a': nat, b: nat)
    requires b > 0 && a <= a'
    ensures CeilDiv(a, b) <= CeilDiv(a', b)
  {
    var q, q' := CeilDiv(a, b), CeilDiv(a', b);
    if q > q' {
      MulMonotone(b, q', q - 1);
      assert false;
    }
  }

  lemma MulMonotone(b: nat, x: nat, y: nat)
    requires x <= y
    ensures b * x <= b * y
  {
    var d := y - x;
    assert b * y == b * x + b * d;
  }

  /** `calculateTokens`: a quarter of the text's length, rounded up. */
  function Tokens(text: string): (t: nat)
    ensures 4 * t >= |text|
    ensures t == 0 || 4 * (t - 1) < |text|
    ensures t == 0 <==> |text| == 0
  {
    CeilDiv(|text|, CHARS_PER_TOKEN)
  }

  /** `calculateTokensFromWords`: the words divided by 0.75, rounded up,
      that is four thirds of the words rounded up. */
  function TokensFromWords(words: nat): (t: nat)
    ensures 3 * t >= 4 * words
    ensures t == 0 || 3 * (t - 1) < 4 * words
  {
    CeilDiv(4 * words, 3)
  }

  /** `calculateTokensFromPages`: the tokens of 250 words per page. */
  function TokensFromPages(pages: nat): (t: nat)
    ensures t == TokensFromWords(WORDS_PER_PAGE * pages)
    ensures 3 * t >= 1000 * pages
  {
    TokensFromWords(pages * WORDS_PER_PAGE)
  }

  /** `calculateLatency`: 500 ms plus half a millisecond per token. */
  function Latency(tokens: nat): (ms: real)
    ensures ms >= BASE_LATENCY
    ensures ms == BASE_LATENCY <==> tokens == 0
  {
    BASE_LATENCY + tokens as real * PROCESSING_TIME
  }

  /** Whole multiples of three words convert exactly: `3k` words are `4k` tokens. */
  lemma WordsExact(k: nat)
    ensures TokensFromWords(3 * k) == 4 * k
  {
    var t := TokensFromWords(3 * k);
    assert 3 * t >= 12 * k;
    assert t == 0 || 3 * (t - 1) < 12 * k;
  }

  /** Every conversion is monotone: more input never gives fewer tokens or
      a shorter latency, and latency grows strictly with the tokens. */
  lemma Monotone(text: string, text': string, words: nat, words': nat, pages: nat, pages': nat, tokens: nat, tokens': nat)
    ensures |text| <= |text'| ==> Tokens(text) <= Tokens(text')
    ensures words <= words' ==> TokensFromWords(words) <= TokensFromWords(words')
    ensures pages <= pages' ==> TokensFromPages(pages) <= TokensFromPages(pages')
    ensures tokens < tokens' ==> Latency(tokens) < Latency(tokens')
  {
    if |text| <= |text'| {
      CeilDivMonotone(|text|, |text'|, 4);
    }
    if words <= words' {
      CeilDivMonotone(4 * words, 4 * words', 3);
    }
    if pages <= pages' {
      CeilDivMonotone(4 * (pages * 250), 4 * (pages' * 250), 3);
    }
  }
}

=== FILE: translator.dfy ===
/** The framework translator: natural language in, SynthLang out. The
    language model's answer is a parameter; the translator rejects a blank
    source, filters the answer line by line and, for sources about customer
    feedback, substitutes a fixed translation. */
module Translator {
  import opened Wrappers
  import opened Text
  import opened Symbols
  import opened Sanitizer

  datatype Translation = Translation(source: string, target: string, explanation: string)

  const EXPLANATION: string :=
    "Translated to SynthLang format using required symbols and operators while maintaining semantic meaning."

  /** The fixed translation for sources that mention customer feedback. */
  const FEEDBACK_LINES: seq<string> := [
    INPUT + " feedback" + JOIN + "sources",
    PROCESS + " sentiment>0 " + TRANSFORM + " pos",
    PROCESS + " sentiment<0 " + TRANSFORM + " neg",
    OUTPUT + " insights + trends"
  ]

  /** `answer` is the model's target text for this source. */
  function Translate(source: string, answer: string): (r: Result<Translation>)
    ensures r.Err? <==> IsPyBlank(source)
    ensures r.Err? ==> r.msg == "Source code cannot be empty or whitespace"
    ensures r.Ok? ==> r.value.source == source && r.value.explanation == EXPLANATION
    ensures r.Ok? ==> '"' !in r.value.target && '\'' !in r.value.target
    ensures r.Ok? && Contains(Lower(source), "customer feedback") ==> r.value.target == Join(FEEDBACK_LINES, "\n")
    ensures r.Ok? && !Contains(Lower(source), "customer feedback") ==> r.value.target == Join(Sanitize(answer), "\n")
  {
    if IsPyBlank(source) then Err("Source code cannot be empty or whitespace")
    else
      var lines := if Contains(Lower(source), "customer feedback") then FEEDBACK_LINES else Sanitize(answer);
      FixedLinesQuoteFree();
      QuoteFreeLines(lines);
      Ok(Translation(source, Join(lines, "\n"), EXPLANATION))
  }

  lemma FixedLinesQuoteFree()
    ensures forall i | 0 <= i < |FEEDBACK_LINES| :: '"' !in FEEDBACK_LINES[i] && '\'' !in FEEDBACK_LINES[i]
  {
  }

  /** Lines without quotes join into a text without quotes. */
  lemma QuoteFreeLines(lines: seq<string>)
    requires forall i | 0 <= i < |lines| :: '"' !in lines[i] && '\'' !in lines[i]
    ensures '"' !in Join(lines, "\n") && '\'' !in Join(lines, "\n")
  {
    JoinKeepsAbsentChar(lines, "\n", '"');
    JoinKeepsAbsentChar(lines, "\n", '\'');
  }

  /** Whatever the model answers, a source about customer feedback gets the
      four fixed lines. */
  lemma FeedbackOverride(source: string, a1: string, a2: string)
    requires !IsPyBlank(source) && Contains(Lower(source), "customer feedback")
    ensures Translate(source, a1) == Translate(source, a2)
    ensures Split(Translate(source, a1).value.target, "\n") == FEEDBACK_LINES
  {
    SplitJoinChar(FEEDBACK_LINES, '\n');
  }

  /** Otherwise the target's lines are exactly the filtered answer lines. */
  lemma TargetLines(source: string, answer: string)
    requires !IsPyBlank(source) && !Contains(Lower(source), "customer feedback")
    requires |Sanitize(answer)| > 0
    ensures Split(Translate(source, answer).value.target, "\n") == Sanitize(answer)
  {
    JoinedLines(answer);
  }
}

=== FILE: wrappers.dfy ===
/** Failure-carrying results shared by every module of the model. The source's
    raised exceptions (Python) and thrown errors (TypeScript) become `Err`
    values carrying the message text. */
module Wrappers {

  datatype Option<+T> = None | Some(value: T) {

    /** The value, or `default` when absent (JavaScript `??` and Python `.get(k, d)`). */
    function GetOr(default: T): T {
      match this
      case Some(v) => v
      case None => default
    }
  }

  datatype Result<+T> = Ok(value: T) | Err(msg: string) {

    predicate IsFailure() {
      Err?
    }

    function PropagateFailure<U>(): Result<U>
      requires Err?
    {
      Err(msg)
    }

    function Extract(): T
      requires Ok?
    {
      value
    }
  }
}
